=== FILE: README.md ===
# PINS compiler core, modelled in Dafny

PINS is a small integer-only language: definitions of types (`typ t : type`),
variables (`var x : type`) and functions (`fun f(p : type) : type = expr`),
and expressions with `{if}`, `{while}`, `{for}`, `{e1 = e2}`, `where`
blocks and arrays. Its compiler runs seven phases, one after the other, and
this project models each one:

| phase | Java class | functional model | class model | properties |
|---|---|---|---|---|
| lexer | `Lexer` | `Lexing` (lexing.dfy) | `LexerClass.Lexer` | `LexingProperties`, and `LexingStrings` for quotes inside string constants |
| parser | `Parser` | `Parsing` (parsing.dfy) | none: the productions are functions | `ParsingProperties` |
| name checker | `NameChecker` | `NameResolution` | `NameCheckerClass.NameChecker` | `NameResolutionProperties` |
| type checker | `TypeChecker` | `TypeChecking` | `TypeCheckerClass.TypeChecker` | `TypeCheckingProperties` |
| frame evaluator | `FrameEvaluator` | `FrameEvaluation` | `FrameEvaluatorClass.FrameEvaluator` | in `FrameEvaluation` |
| IR generator | `IRCodeGenerator` | `IRGeneration` | `IRCodeGeneratorClass.IRCodeGenerator` | `IRGenerationProperties` |
| interpreter | `Interpreter` | `Interpretation` | `InterpreterClass.Interpreter` | `InterpretationProperties` |

Every phase except the parser is a Dafny `class` with the fields it updates
in place. The parser's cursor is passed as a position through pure
functions instead. Each method of these classes is proved to do exactly
what a function of the matching functional module computes: the method succeeds exactly when the
function returns `Ok`, and it then leaves the state that function returns.
The properties are proved once, about the functions, as lemmas, so they hold
of the classes too. Loops over lists (`for` over definitions, parameters,
arguments and block elements) are `for` loops whose invariant is that the
state equals the function applied to the prefix visited so far.

The shared data is modelled as datatypes:
- tokens and symbols: tokens.dfy;
- the AST: ast.dfy, where every node carries a `NodeId` that stands for Java object identity, and every `NodeDescription` side table is a `map<NodeId, T>`;
- semantic types: semtypes.dfy;
- labels, frames, frame builders and accesses: frames.dfy;
- the tree IR and its chunks: ir.dfy;
- Java `int` arithmetic, `Integer.parseInt` and `toLowerCase`: common.dfy.

`Report.error` aborts compilation, and so does every Java exception the code
can raise (`Optional.get` on an empty value, a failed cast, division by
zero). Each of these is an `Err` result. The interpreter is the exception:
its print intrinsics write at once, so a run that throws has already printed
part of its output. There a failure is an `Outcome.Fail` that carries the
output printed before it.

Three of the Java files (`Parser.java`, `NameChecker.java`,
`TypeChecker.java`) contain unresolved merge conflicts. At every conflict
the model follows the `HEAD` side, and the line numbers below refer to the
files as they stand, conflict markers included.

Several pieces of behaviour look like mistakes but are kept as written, and
the rows that state them say so:
- the static-link walk of `IRCodeGenerator` emits c − d + 1 `MemExpr` layers, and the interpreter evaluates `Mem(Name x)` without a load;
- the frame builder pushed for a function is never popped;
- the generator's `currentFrame` is never restored after a function;
- the step of a `for` loop assigns `counter := step`;
- the interpreter has no case for `MOD`;
- the type checker's standard-library branch falls through to the general call check;
- the lexer handles `''` strings, a quote right after the opening quote of a string constant, a newline after an integer, and `#` in the middle of a name in the ways the rows describe.

## Model

| member | source | states |
|---|---|---|
| Int32.Wrap | src/compiler/interpret/Interpreter.java:179-184 | Java `int` arithmetic: the result is a 32-bit value congruent to the exact one modulo 2^32, and equal to it when it fits |
| Int32.Div | src/compiler/interpret/Interpreter.java:185-186 | Java `int` division always gives a 32-bit value |
| Int32.FromBits | src/compiler/interpret/Interpreter.java:187-190 | reading a 32-bit pattern back as a Java `int` gives a value in range |
| Int32.ParseInt | src/compiler/parser/Parser.java:403 | `Integer.parseInt` only ever returns a value in the `int` range |
| Int32.ParseIntOfNatToString | src/compiler/ir/IRCodeGenerator.java:434 | `Integer.parseInt` reads back every decimal numeral of a natural number up to `Integer.MAX_VALUE` |
| Text.Lower | src/compiler/lexer/Lexer.java:206-209 | `toLowerCase` keeps the length and lowers each character |
| Lexing.CollapseQuotes | src/compiler/lexer/Lexer.java:168 | collapsing quote pairs never lengthens the text |
| Lexing.Advance | src/compiler/lexer/Lexer.java:120-124 | the position update keeps the state, the pending text and the symbols, and moves to the next line exactly on a newline |
| Lexing.Feed | src/compiler/lexer/Lexer.java:119-201 | one character keeps the invariant that the operator state holds exactly one operator character |
| Lexing.NameChar | src/compiler/lexer/Lexer.java:136-152 | the same for a character after a name |
| Lexing.IntegerChar | src/compiler/lexer/Lexer.java:153-161 | the same for a character after digits |
| Lexing.StringChar | src/compiler/lexer/Lexer.java:162-180 | the same for a character inside a string constant |
| Lexing.OperatorChar | src/compiler/lexer/Lexer.java:181-191 | the same for a character after an operator character |
| Lexing.InitialChar | src/compiler/lexer/Lexer.java:192-198 | the same for the first character of a lexeme |
| Lexing.Step | src/compiler/lexer/Lexer.java:222-224 | the same for one iteration of the loop of `scan` |
| Lexing.FeedAll | src/compiler/lexer/Lexer.java:221-226 | the same for the whole loop of `scan` |
| Lexing.Finish | src/compiler/lexer/Lexer.java:221-230 | the same after the extra blank that ends the last lexeme |
| Lexing.Final | src/compiler/lexer/Lexer.java:219-230 | the same for a fresh lexer |
| Lexing.ScanFrom | src/compiler/lexer/Lexer.java:219-238 | `scan` succeeds exactly when no string constant is left open, and then returns the symbols of the input followed by one end-of-file symbol `$` one column past the last character |
| LexingProperties.NoKeyOutsideKWAndAT | src/compiler/lexer/Lexer.java:36-44 | a token whose name starts with neither `K` nor `A` gets no keyword entry |
| LexingProperties.EnteredKeywordsAreNamed | src/compiler/lexer/Lexer.java:34-45 | every entry of the keyword table is the lowercased rest of its token's `KW_` or `AT_` name |
| LexingProperties.KeywordTokensAreEntered | src/compiler/lexer/Lexer.java:34-45 | every `KW_` and `AT_` token is in the table under that key |
| LexingProperties.OtherTokensHaveNoKey | src/compiler/lexer/Lexer.java:34-45 | no other token is in the table |
| LexingProperties.LogicalConstantsAreNotKeywords | src/compiler/lexer/Lexer.java:59 | `true` and `false` are not keywords, and no keyword maps to a constant, identifier or end-of-file token |
| LexingProperties.NameClassification | src/compiler/lexer/Lexer.java:203-212 | a name appends exactly one symbol spanning it: a keyword in any case with its original spelling, `true`/`false` in any case as a lowercased logical constant, anything else as an identifier |
| LexingProperties.NameTokenIgnoresCase | src/compiler/lexer/Lexer.java:206-208 | two spellings equal up to case get the same token |
| LexingProperties.OperatorTableHasNoEOF | src/compiler/lexer/Lexer.java:60-86 | no operator maps to the end-of-file token |
| LexingProperties.EmitAppends | src/compiler/lexer/Lexer.java:203-212 | a name only appends symbols, none of them end of file |
| LexingProperties.EmitAddsOneSymbol | src/compiler/lexer/Lexer.java:207-211 | adding a symbol appends exactly one symbol, positioned from the lexeme's start to the given column, and changes nothing else in the state |
| LexingProperties.ExtendsTransitive | src/compiler/lexer/Lexer.java:221-226 | appending without end of file composes |
| LexingProperties.FeedAppends | src/compiler/lexer/Lexer.java:119-201 | one character only appends symbols, none of them end of file |
| LexingProperties.IntegerCharAppends | src/compiler/lexer/Lexer.java:153-161 | the same after digits |
| LexingProperties.StringCharAppends | src/compiler/lexer/Lexer.java:162-180 | the same inside a string constant |
| LexingProperties.OperatorCharAppends | src/compiler/lexer/Lexer.java:181-191 | the same after an operator character |
| LexingProperties.PendingOperatorIsMapped | src/compiler/lexer/Lexer.java:187 | a pending operator character is an operator of its own, so `operatorMapping.get` never yields null |
| LexingProperties.OperatorThenFeedAppends | src/compiler/lexer/Lexer.java:186-190 | emitting a lone operator and re-reading the character only appends symbols |
| LexingProperties.FeedAllSplits | src/compiler/lexer/Lexer.java:221-226 | reading `a + b` is reading `a`, then `b` |
| LexingProperties.FeedAllAppends | src/compiler/lexer/Lexer.java:221-226 | the loop of `scan` only appends symbols, none of them end of file |
| LexingProperties.ScanEndsWithEOF | src/compiler/lexer/Lexer.java:219-238 | a successful scan ends with the single end-of-file symbol `$` and has no other |
| LexingProperties.FeedKeepsClosed | src/compiler/lexer/Lexer.java:119-201 | one character keeps `zakljucenNiz` false exactly while a string constant is open |
| LexingProperties.FeedAllKeepsClosed | src/compiler/lexer/Lexer.java:221-226 | the same for the loop of `scan` |
| LexingProperties.ScanFailsInsideString | src/compiler/lexer/Lexer.java:227-233 | scanning fails exactly when the source ends inside a string constant |
| LexingProperties.FirstCharacterSelectsState | src/compiler/lexer/Lexer.java:102-117 | from the initial state a letter or `_` starts a name, a digit an integer, a quote a string, `#` a comment, an operator character an operator, whitespace nothing, and nothing is emitted |
| LexingProperties.DigitsAccumulate | src/compiler/lexer/Lexer.java:153-155 | a run of digits is pending as one integer constant starting at its first digit |
| LexingProperties.IntegerEnds | src/compiler/lexer/Lexer.java:156-159 | a non-digit emits the pending integer constant with its span |
| LexingProperties.IntegerConstant | src/compiler/lexer/Lexer.java:153-161 | digits followed by a non-digit become one `C_INTEGER` symbol holding exactly those digits |
| LexingProperties.HashDropsPendingLexeme | src/compiler/lexer/Lexer.java:125-127 | `#` after a name, integer or operator starts a comment without emitting the pending lexeme |
| LexingProperties.PairsAreTheTwoCharacterOperators | src/compiler/lexer/Lexer.java:69-74 | the two-character operators are exactly `==`, `!=`, `<=`, `>=` |
| LexingProperties.OperatorLookahead | src/compiler/lexer/Lexer.java:181-191 | the next character completes a two-character operator when it can; otherwise the pending character is emitted alone |
| LexingProperties.OperatorPair | src/compiler/lexer/Lexer.java:183-185 | a completed pair is emitted as one symbol ending at the current column |
| LexingProperties.OperatorSingle | src/compiler/lexer/Lexer.java:186-189 | an incomplete pair emits the pending operator alone |
| LexingProperties.CollapseWithoutPairs | src/compiler/lexer/Lexer.java:168 | without two quotes in a row there is nothing to collapse |
| LexingProperties.StringBodyPending | src/compiler/lexer/Lexer.java:176-179 | a quote-free body is pending behind the opening quote with no run of quotes |
| LexingProperties.StringEnds | src/compiler/lexer/Lexer.java:163-175 | after an odd run of quotes a non-quote emits the constant with pairs collapsed and the outer quotes stripped, and marks strings closed |
| LexingProperties.FeedAllTwo | src/compiler/lexer/Lexer.java:221-226 | reading two characters is two steps |
| LexingProperties.StringOpens | src/compiler/lexer/Lexer.java:107-109 | a quote opens a string constant and clears `zakljucenNiz` |
| LexingProperties.StringGrows | src/compiler/lexer/Lexer.java:176-179 | inside a string every character is appended and a quote extends the run of quotes |
| LexingProperties.QuotedBody | src/compiler/lexer/Lexer.java:168-170 | quoting a quote-free body and then collapsing and stripping gives the body back |
| LexingProperties.StringConstant | src/compiler/lexer/Lexer.java:162-180 | a quoted, quote-free, non-empty body becomes one `C_STRING` symbol holding exactly the body |
| LexingProperties.CommentRunsToNewline | src/compiler/lexer/Lexer.java:131-135 | a comment emits nothing and ends exactly at a newline |
| LexingProperties.NewlineStartsLine | src/compiler/lexer/Lexer.java:120-122 | outside a lexeme a newline moves to column 0 of the next line |
| LexingProperties.NewlineAfterIntegerCountsTwice | src/compiler/lexer/Lexer.java:119-161 | a newline that ends an integer constant advances the line count by two, because the character is handled again |
| LexingProperties.FeedAllSnoc | src/compiler/lexer/Lexer.java:221-226 | reading `s + [c]` is reading `s`, then one step on `c` |
| LexingStrings.DoubledQuote | src/compiler/lexer/Lexer.java:162-179 | a string constant whose body is not empty and does not start with a quote, written with every quote of the body doubled, scans to exactly that body |
| LexingStrings.EscapedStringConstant | src/compiler/lexer/Lexer.java:162-179 | from any lexer state between symbols, such a constant followed by any character other than a quote emits one string constant holding the body after the symbols already emitted, and leaves the lexer closed |
| LexingStrings.EscapedBodyPending | src/compiler/lexer/Lexer.java:162-166 | while such a body is read the constant stays open, the text read so far is pending, the run of quotes is even and nothing is emitted |
| LexingStrings.EscapeKeepsOpen | src/compiler/lexer/Lexer.java:162-166 | after an even run of quotes, one more body character as written (a doubled quote or any other character) keeps the constant open and the run even |
| LexingStrings.ClosingQuote | src/compiler/lexer/Lexer.java:162-171 | after an even run of quotes, the closing quote and a following non-quote emit the pending text, collapsed and stripped, and close the constant |
| LexingStrings.CollapseEscaped | src/compiler/lexer/Lexer.java:168 | collapsing quote pairs left to right undoes the doubling of every quote of a body, whatever follows it |
| LexingStrings.EscapedBody | src/compiler/lexer/Lexer.java:168-169 | a body that does not start with a quote, doubled and between quotes, collapses and strips back to itself |
| LexingStrings.FourQuotesPending | src/compiler/lexer/Lexer.java:162-166 | opening a constant neither counts the opening quote nor resets the counter, so after `''''` the constant is still open, the four quotes are pending and the counter has grown by three |
| LexingStrings.QuoteAfterOpeningIsNoEscape | src/compiler/lexer/Lexer.java:163-169 | `''''`, meant as a constant holding one quote, scans to the empty string |
| LexingProperties.EmptyStringIsOneQuote | src/compiler/lexer/Lexer.java:163-171 | `''` scans to a string holding one quote, since a collapsed lexeme of one character is not stripped |
| LexerClass.Lexer.constructor | src/compiler/lexer/Lexer.java:20-26 | a new lexer holds the source and starts in the initial state at line 1 |
| LexerClass.Lexer.SelectState | src/compiler/lexer/Lexer.java:102-117 | returns the state the character selects and clears `zakljucenNiz` exactly for a quote |
| LexerClass.Lexer.CheckName | src/compiler/lexer/Lexer.java:203-212 | leaves the state `Lexing.CheckName` computes |
| LexerClass.Lexer.HandleState | src/compiler/lexer/Lexer.java:119-201 | one character leaves the state `Feed` computes and keeps the operator invariant |
| LexerClass.Lexer.HandleName | src/compiler/lexer/Lexer.java:136-152 | the name branch leaves the state `NameChar` computes |
| LexerClass.Lexer.HandleInteger | src/compiler/lexer/Lexer.java:153-161 | the integer branch leaves the state `IntegerChar` computes |
| LexerClass.Lexer.HandleString | src/compiler/lexer/Lexer.java:162-180 | the string branch leaves the state `StringChar` computes |
| LexerClass.Lexer.HandleOperator | src/compiler/lexer/Lexer.java:181-191 | the operator branch leaves the state `OperatorChar` computes |
| LexerClass.Lexer.HandleInitial | src/compiler/lexer/Lexer.java:192-198 | the initial branch leaves the state `InitialChar` computes |
| LexerClass.Lexer.Scan | src/compiler/lexer/Lexer.java:219-238 | `scan` returns what `ScanFrom` computes from the lexer's state, so the properties above apply to it |
| LexerClass.Lexer.Close | src/compiler/lexer/Lexer.java:227-235 | after the loop, the closing blank, the open-string error and the end-of-file symbol give what `ScanFrom` gives for the whole source |
| Parsing.Skip | src/compiler/parser/Parser.java:99-102 | `skip` moves the cursor on by one and stays on the last symbol exactly when it is already there |
| Parsing.Expect | src/compiler/parser/Parser.java:1322-1329 | the check-then-skip idiom succeeds exactly when the expected symbol is under the cursor, and then moves one symbol on |
| Parsing.Parse | src/compiler/parser/Parser.java:114-123 | `parse` keeps the cursor on a symbol, and a program it accepts has at least one definition |
| Parsing.ParseDefs | src/compiler/parser/Parser.java:125-138 | `defs` keeps the cursor on a symbol and never moves it back |
| Parsing.ParseDef | src/compiler/parser/Parser.java:140-155 | the same for `def`; a symbol other than `typ`, `fun` or `var` is an error |
| Parsing.ParseDefs2 | src/compiler/parser/Parser.java:157-266 | the same for `defs2` |
| Parsing.ParseTypeDef | src/compiler/parser/Parser.java:268-325 | the same for `type_def` |
| Parsing.ParseVarDef | src/compiler/parser/Parser.java:2015-2074 | the same for `var_def` |
| Parsing.ParseFunDef | src/compiler/parser/Parser.java:443-537 | the same for `fun_def` |
| Parsing.ParseParams | src/compiler/parser/Parser.java:539-550 | the same for `params` |
| Parsing.ParseParam | src/compiler/parser/Parser.java:552-603 | the same for `param` |
| Parsing.ParseParams2 | src/compiler/parser/Parser.java:605-660 | the same for `params2` |
| Parsing.ParseType | src/compiler/parser/Parser.java:327-441 | the same for `type` |
| Parsing.ParseArrayType | src/compiler/parser/Parser.java:351-436 | the same for an array type, whose size `Integer.parseInt` must accept |
| Parsing.ParseExpr | src/compiler/parser/Parser.java:662-671 | the same for `expr` |
| Parsing.ParseWhere | src/compiler/parser/Parser.java:673-753 | the same for `expr2` |
| Parsing.ParseIor | src/compiler/parser/Parser.java:755-759 | the same for `logical_ior_expr` |
| Parsing.ParseIor2 | src/compiler/parser/Parser.java:761-838 | the same for `logical_ior_expr2` |
| Parsing.ParseAnd | src/compiler/parser/Parser.java:840-844 | the same for `logical_and_expr` |
| Parsing.ParseAnd2 | src/compiler/parser/Parser.java:846-920 | the same for `logical_and_expr2` |
| Parsing.ParseCompare | src/compiler/parser/Parser.java:922-926 | the same for `compare_expr` |
| Parsing.ParseCompare2 | src/compiler/parser/Parser.java:928-1016 | the same for `compare_expr2` |
| Parsing.ParseAdd | src/compiler/parser/Parser.java:1018-1022 | the same for `add_expr` |
| Parsing.ParseAdd2 | src/compiler/parser/Parser.java:1024-1110 | the same for `add_expr2` |
| Parsing.ParseMul | src/compiler/parser/Parser.java:1112-1116 | the same for `mul_expr` |
| Parsing.ParseMul2 | src/compiler/parser/Parser.java:1118-1208 | the same for `mul_expr2` |
| Parsing.ParsePre | src/compiler/parser/Parser.java:1210-1279 | the same for `pre_expr` |
| Parsing.ParsePost | src/compiler/parser/Parser.java:1281-1285 | the same for `post_expr` |
| Parsing.ParsePost2 | src/compiler/parser/Parser.java:1287-1388 | the same for `post_expr2` |
| Parsing.ParseAtom | src/compiler/parser/Parser.java:1390-1446 | the same for `atom_expr` |
| Parsing.ParseNameOrCall | src/compiler/parser/Parser.java:1448-1576 | the same for `atom_expr2` |
| Parsing.ParseBraced | src/compiler/parser/Parser.java:1578-1870 | the same for `atom_expr3` |
| Parsing.ParseIf | src/compiler/parser/Parser.java:1585-1598 | the same for a conditional |
| Parsing.ParseIfEnd | src/compiler/parser/Parser.java:1872-1920 | the same for `atom_expr4` |
| Parsing.ParseWhile | src/compiler/parser/Parser.java:1600-1662 | the same for a `while` loop |
| Parsing.ParseFor | src/compiler/parser/Parser.java:1664-1790 | the same for a `for` loop |
| Parsing.ParseAssign | src/compiler/parser/Parser.java:1805-1858 | the same for an assignment |
| Parsing.ParseExprs | src/compiler/parser/Parser.java:1930-1942 | the same for `exprs` |
| Parsing.ParseExprs2 | src/compiler/parser/Parser.java:1944-2013 | the same for `exprs2` |
| ParsingProperties.NameOrCallShape | src/compiler/parser/Parser.java:1448-1576 | after an identifier, `(` makes a call of that name with at least one argument that ends at `)`; otherwise the identifier is a name, and only a symbol that may follow a name is accepted |
| ParsingProperties.BracedForm | src/compiler/parser/Parser.java:1578-1870 | after `{` the result is a conditional, a `while`, a `for` or an assignment |
| ParsingProperties.WhileShape | src/compiler/parser/Parser.java:1600-1662 | `{ while c : e }` is a `While` anchored at `{` that ends with `}` |
| ParsingProperties.ForShape | src/compiler/parser/Parser.java:1664-1790 | `{ for i = lo, hi, st : e }` is a `For` anchored at `{` and ending with `}`, whose counter is the name `i` |
| ParsingProperties.AssignShape | src/compiler/parser/Parser.java:1805-1858 | `{ e1 = e2 }` is an `ASSIGN` anchored at `{` that ends with `}` |
| ParsingProperties.IfShape | src/compiler/parser/Parser.java:1585-1598 | `{ if c then e ... }` is an `IfThenElse` anchored at `{` that ends with `}` |
| ParsingProperties.IfEndShape | src/compiler/parser/Parser.java:1872-1920 | the end of a conditional keeps its condition and `then` branch, ends with `}`, and has an `else` branch exactly when `else` follows |
| ParsingProperties.ElseShape | src/compiler/parser/Parser.java:1881-1891 | `else e }` ends the conditional with an `else` branch |
| ParsingProperties.AtomPrecedence | src/compiler/parser/Parser.java:1390-1446 | an atom starts with a name, a constant, `(` or `{`, and binds tightest |
| ParsingProperties.LiteralAtoms | src/compiler/parser/Parser.java:1396-1417 | a constant always becomes a literal of its kind with its lexeme |
| ParsingProperties.NameAtom | src/compiler/parser/Parser.java:1418-1425 | an identifier is a name or a call of that name |
| ParsingProperties.BlockAtom | src/compiler/parser/Parser.java:1426-1437 | `( e1, ..., en )` is a `Block` of at least one expression |
| ParsingProperties.PostLevel | src/compiler/parser/Parser.java:1281-1285 | indexing binds tighter than every prefix and binary operator, and the level stops only on a symbol that may follow it |
| ParsingProperties.Post2Level | src/compiler/parser/Parser.java:1287-1388 | indexing chains over an atom |
| ParsingProperties.PreLevel | src/compiler/parser/Parser.java:1210-1279 | prefix operators nest and bind tighter than every binary operator except indexing |
| ParsingProperties.MulLevel | src/compiler/parser/Parser.java:1112-1116 | `* / %` chain to the left over prefix expressions |
| ParsingProperties.Mul2Level | src/compiler/parser/Parser.java:1118-1208 | the tail of a product extends a left-associative chain |
| ParsingProperties.AddLevel | src/compiler/parser/Parser.java:1018-1022 | `+ -` chain to the left over products |
| ParsingProperties.Add2Level | src/compiler/parser/Parser.java:1024-1110 | the tail of a sum extends a left-associative chain |
| ParsingProperties.CompareLevel | src/compiler/parser/Parser.java:922-926 | a comparison is at most one comparison operator between two sums |
| ParsingProperties.Compare2Level | src/compiler/parser/Parser.java:928-1016 | the tail of a comparison takes at most one operator |
| ParsingProperties.ComparisonIsNonAssociative | src/compiler/parser/Parser.java:846-920 | a second comparison operator after a comparison is rejected by the `&` level |
| ParsingProperties.AndLevel | src/compiler/parser/Parser.java:840-844 | `&` chains to the left over comparisons |
| ParsingProperties.And2Level | src/compiler/parser/Parser.java:846-920 | the tail of a conjunction extends a left-associative chain |
| ParsingProperties.IorLevel | src/compiler/parser/Parser.java:755-759 | `\|` chains to the left over conjunctions |
| ParsingProperties.Ior2Level | src/compiler/parser/Parser.java:761-838 | the tail of a disjunction extends a left-associative chain |
| ParsingProperties.ExprLevel | src/compiler/parser/Parser.java:662-671 | an expression is a disjunction, optionally wrapped in one `where` |
| ParsingProperties.Defs2End | src/compiler/parser/Parser.java:157-266 | `defs2` stops only at the end of the input or before `}` |
| ParsingProperties.DefsEnd | src/compiler/parser/Parser.java:125-138 | `defs` holds at least one definition and stops only at the end of the input or before `}` |
| ParsingProperties.ClosingBraceEndsDefinitions | src/compiler/parser/Parser.java:114-123 | a `}` after a definition ends the list and the rest of the input is not read |
| ParsingProperties.DefinitionName | src/compiler/parser/Parser.java:140-155 | a definition is named by the identifier right after its keyword, and any other symbol there is an error |
| ParsingProperties.TypeDefName | src/compiler/parser/Parser.java:268-281 | the same for a type definition |
| ParsingProperties.FunDefName | src/compiler/parser/Parser.java:443-458 | the same for a function definition |
| ParsingProperties.VarDefName | src/compiler/parser/Parser.java:2015-2028 | the same for a variable definition |
| ParsingProperties.NameIsAtom | src/compiler/parser/Parser.java:1418-1425 | a lone name before a symbol that ends postfix expressions is a complete atom |
| ParsingProperties.NameIsPostfixOperand | src/compiler/parser/Parser.java:1281-1285 | the same name is a complete postfix expression |
| ParsingProperties.NameIsPrefixOperand | src/compiler/parser/Parser.java:1210-1279 | the same name is a complete prefix operand |
| ParsingProperties.NameIsOperand | src/compiler/parser/Parser.java:1112-1116 | before a symbol that ends products, the name is a complete product |
| ParsingProperties.EndOfExpression | src/compiler/parser/Parser.java:761-838 | at the end of the input every level above products stops without reading |
| ParsingProperties.ExprOfSum | src/compiler/parser/Parser.java:662-671 | a sum that reaches the end of the input is the whole expression |
| ParsingProperties.CompareOfSum | src/compiler/parser/Parser.java:922-926 | such a sum is the whole comparison |
| ParsingProperties.AndOfComparison | src/compiler/parser/Parser.java:840-844 | such a comparison is the whole conjunction |
| ParsingProperties.IorOfConjunction | src/compiler/parser/Parser.java:755-759 | such a conjunction is the whole disjunction |
| ParsingProperties.ExprOfDisjunction | src/compiler/parser/Parser.java:662-671 | such a disjunction is the whole expression |
| ParsingProperties.SubtractionIsLeftAssociative | src/compiler/parser/Parser.java:1024-1110 | (example) `a - b - c` parses as `(a - b) - c` |
| ParsingProperties.DifferenceOfThree | src/compiler/parser/Parser.java:1018-1022 | (example) the additive level of `a - b - c` is `(a - b) - c` |
| ParsingProperties.LastDifference | src/compiler/parser/Parser.java:1024-1110 | (example) the last `- c` takes the tree so far as its left operand |
| ParsingProperties.NameIsComparisonOperand | src/compiler/parser/Parser.java:922-926 | a lone name before a symbol that ends comparisons is a complete comparison |
| ParsingProperties.ConjunctionBindsTighter | src/compiler/parser/Parser.java:755-920 | (example) `a \| b & c` parses as `a \| (b & c)` |
| ParsingProperties.ConjunctionAfterOr | src/compiler/parser/Parser.java:840-920 | (example) in `a \| b & c` the right operand of `\|` is `b & c` |
| ParsingProperties.ChainedComparisonIsAnError | src/compiler/parser/Parser.java:922-1016 | (example) `a == b == c` is rejected |
| ParsingProperties.ChainOfEqualities | src/compiler/parser/Parser.java:922-1016 | (example) in `a == b == c` the `&` level fails at the second `==` |
| ParsingProperties.EndOfInputIsSticky | src/compiler/parser/Parser.java:91-102 | on the last symbol `check` sees the end of input and `skip` leaves the cursor where it is |
| FrameEvaluation.PreservesWithTop | src/compiler/frm/FrameEvaluator.java:74-79 | popping the top builder, recording a call or local on it and pushing it back preserves the walk invariant (builders below the top untouched, frames kept, labels fresh) |
| FrameEvaluation.EvalExpr | src/compiler/frm/FrameEvaluator.java:83-144 | visiting any expression restores the static level and never shrinks the builder stack |
| FrameEvaluation.EvalCall | src/compiler/frm/FrameEvaluator.java:64-80 | a call restores the static level and keeps the builder stack; an empty stack is an error |
| FrameEvaluation.EvalArgs | src/compiler/frm/FrameEvaluator.java:66-73 | the argument loop sums `sizeInBytesAsParam` over exactly the arguments that have a type |
| FrameEvaluation.EvalExprs | src/compiler/frm/FrameEvaluator.java:90-95 | a block's elements are visited in order; level and stack are kept |
| FrameEvaluation.EvalDefs | src/compiler/frm/FrameEvaluator.java:147-152 | definitions are visited in order; level and stack are kept |
| FrameEvaluation.EvalDef | src/compiler/frm/FrameEvaluator.java:186-209 | a type definition changes nothing; a typed variable becomes a local inside a function and a global named after itself outside |
| FrameEvaluation.EvalFunDef | src/compiler/frm/FrameEvaluator.java:155-184 | a function definition restores the static level it was entered at |
| FrameEvaluation.Enter | src/compiler/frm/FrameEvaluator.java:155-171 | entering a function goes one level deeper and pushes one builder above the others, holding only the static link; it is named after the function at the outermost level and gets the next anonymous label otherwise |
| FrameEvaluation.EvalParams | src/compiler/frm/FrameEvaluator.java:173-176 | the parameter loop keeps the static level and the height of the builder stack |
| FrameEvaluation.EvalParam | src/compiler/frm/FrameEvaluator.java:212-223 | one parameter keeps the static level and the height of the builder stack |
| FrameEvaluation.ParamsPreserved | src/compiler/frm/FrameEvaluator.java:173-176 | visiting parameters changes only the top builder's parameter list, which grows by the parameter sizes of the typed parameters, and the accesses |
| FrameEvaluation.ExprPreserved | src/compiler/frm/FrameEvaluator.java:83-144 | every expression visit keeps the level, leaves every builder below the top unchanged, only grows the top one, keeps recorded frames and accesses, and gives new frames fresh, distinct anonymous labels |
| FrameEvaluation.CallPreserved | src/compiler/frm/FrameEvaluator.java:64-80 | the same invariant for a call |
| FrameEvaluation.ArgsPreserved | src/compiler/frm/FrameEvaluator.java:66-73 | the same invariant for the argument loop |
| FrameEvaluation.ExprsPreserved | src/compiler/frm/FrameEvaluator.java:90-95 | the same invariant for a block |
| FrameEvaluation.DefsPreserved | src/compiler/frm/FrameEvaluator.java:147-152 | the same invariant for a list of definitions |
| FrameEvaluation.DefPreserved | src/compiler/frm/FrameEvaluator.java:186-209 | the same invariant for one definition |
| FrameEvaluation.FunDefPreserved | src/compiler/frm/FrameEvaluator.java:155-184 | the same invariant for a function definition, whose builder stays pushed above the enclosing ones |
| FrameEvaluation.FunDefFrame | src/compiler/frm/FrameEvaluator.java:155-184 | a function records a frame for itself: named at the outermost level, anonymous when nested, one level deeper than its context, static link first and then the typed parameters' sizes in order |
| FrameEvaluation.ParamsKeepOtherAccesses | src/compiler/frm/FrameEvaluator.java:212-223 | a parameter visit writes only that parameter's access |
| FrameEvaluation.ParamStep | src/compiler/frm/FrameEvaluator.java:212-223 | a typed parameter gets a `Parameter` access with its size, the offset `addParameter` returns and the current level; an untyped one changes no access |
| FrameEvaluation.ParamAccesses | src/compiler/frm/FrameEvaluator.java:173-176 | parameters are laid out in declaration order, each after the ones before it and the static link |
| FrameEvaluation.VarDefStep | src/compiler/frm/FrameEvaluator.java:193-209 | a typed variable gets a `Local` access at the offset `addLocalVariable` returns inside a function and a `Global` access labelled by its name outside |
| FrameEvaluation.VarDefAccesses | src/compiler/frm/FrameEvaluator.java:147-152 | a run of typed variables is laid out in order, each local after the locals before it |
| FrameEvaluation.VarDefLocals | src/compiler/frm/FrameEvaluator.java:193-209 | inside a function a run of typed variables appends their sizes to the top builder's locals, in order |
| FrameEvaluation.DefsKeepOtherAccesses | src/compiler/frm/FrameEvaluator.java:193-209 | variable definitions write only their own accesses |
| FrameEvaluation.CallFootprint | src/compiler/frm/FrameEvaluator.java:64-80 | a call records on the top builder the parameter sizes of its typed arguments plus one word |
| FrameEvaluation.LocalAfterNestedFunction | src/compiler/frm/FrameEvaluator.java:171 | the builder of a nested function is never popped, so a variable defined after it in the same `where` is laid out on the nested builder although its access carries the enclosing level |
| FrameEvaluation.ProgramAnonymousLabelsDistinct | src/compiler/frm/FrameEvaluator.java:155-184 | walking a whole program from the initial state gives no two frames the same anonymous label |
| FrameEvaluatorClass.FrameEvaluator.constructor | src/compiler/frm/FrameEvaluator.java:51-62 | the evaluator starts at level 0 with no builders and empty tables |
| FrameEvaluatorClass.FrameEvaluator.VisitExpr | src/compiler/frm/FrameEvaluator.java:83-144 | the in-place visit succeeds exactly when `EvalExpr` does and leaves its state |
| FrameEvaluatorClass.FrameEvaluator.VisitCall | src/compiler/frm/FrameEvaluator.java:64-80 | the in-place visit of a call leaves the state `EvalCall` computes |
| FrameEvaluatorClass.FrameEvaluator.VisitArgs | src/compiler/frm/FrameEvaluator.java:66-73 | the argument loop leaves the state and the size `EvalArgs` computes |
| FrameEvaluatorClass.FrameEvaluator.VisitExprs | src/compiler/frm/FrameEvaluator.java:90-95 | the block loop leaves the state `EvalExprs` computes |
| FrameEvaluatorClass.FrameEvaluator.VisitDefs | src/compiler/frm/FrameEvaluator.java:147-152 | the definitions loop leaves the state `EvalDefs` computes |
| FrameEvaluatorClass.FrameEvaluator.VisitDef | src/compiler/frm/FrameEvaluator.java:186-190 | one definition leaves the state `EvalDef` computes |
| FrameEvaluatorClass.FrameEvaluator.VisitFunDef | src/compiler/frm/FrameEvaluator.java:155-184 | a function definition leaves the state `EvalFunDef` computes |
| FrameEvaluatorClass.FrameEvaluator.VisitVarDef | src/compiler/frm/FrameEvaluator.java:193-209 | a variable definition leaves the state `EvalDef` computes |
| FrameEvaluatorClass.FrameEvaluator.VisitParameter | src/compiler/frm/FrameEvaluator.java:212-223 | a parameter leaves the state `EvalParam` computes |
| NameResolution.Lookup | src/compiler/seman/name/NameChecker.java:147-150 | `definitionFor` finds a definition exactly when some scope defines the name |
| NameResolution.Insert | src/compiler/seman/name/NameChecker.java:259-264 | `insert` succeeds exactly when the innermost scope does not define the name yet, and leaves `definitions` alone |
| NameResolution.Push | src/compiler/seman/name/NameChecker.java:250 | `pushScope` leaves a scope to insert into and leaves `definitions` alone |
| NameResolution.Pop | src/compiler/seman/name/NameChecker.java:253 | `popScope` drops one scope and keeps every binding recorded in `definitions` |
| NameResolution.Builtin | src/compiler/seman/name/NameChecker.java:73-105 | each standard-library name has a built-in function definition of that name |
| NameResolution.CheckExpr | src/compiler/seman/name/NameChecker.java:109-254 | visiting an expression leaves the symbol table as it found it |
| NameResolution.CheckCall | src/compiler/seman/name/NameChecker.java:109-160 | the same for a call |
| NameResolution.CheckExprs | src/compiler/seman/name/NameChecker.java:178-180 | the same for the elements of a block or the arguments of a call |
| NameResolution.CheckWhere | src/compiler/seman/name/NameChecker.java:249-254 | the same for a `where`, whose scope is pushed and popped |
| NameResolution.CheckDefs | src/compiler/seman/name/NameChecker.java:257-271 | visiting a list of definitions changes only the innermost scope |
| NameResolution.DefDecls | src/compiler/seman/name/NameChecker.java:259 | the entries of a list of definitions are its definitions in order |
| NameResolution.ParamDecls | src/compiler/seman/name/NameChecker.java:286-288 | the entries of a parameter list are its parameters in order |
| NameResolution.InsertAll | src/compiler/seman/name/NameChecker.java:259-265 | the insertion loop changes only the innermost scope and leaves `definitions` alone |
| NameResolution.VisitDefs | src/compiler/seman/name/NameChecker.java:268-270 | the visiting loop leaves the symbol table as it found it |
| NameResolution.CheckDef | src/compiler/seman/name/NameChecker.java:274-302 | visiting a definition leaves the symbol table as it found it |
| NameResolution.CheckFunDef | src/compiler/seman/name/NameChecker.java:274-292 | the same for a function, whose parameter scope is pushed and popped |
| NameResolution.CheckParamTypes | src/compiler/seman/name/NameChecker.java:279-281 | the same for the parameter types |
| NameResolution.CheckType | src/compiler/seman/name/NameChecker.java:313-334 | the same for a type |
| NameResolution.Check | src/Main.java:132-135 | name checking a whole program that succeeds leaves only the global scope |
| NameResolutionProperties.ExprsPrefixFails | src/compiler/seman/name/NameChecker.java:178-180 | once visiting a prefix of a list fails, visiting the list fails |
| NameResolutionProperties.InsertAllPrefixFails | src/compiler/seman/name/NameChecker.java:259-265 | once inserting a prefix fails, inserting the list fails |
| NameResolutionProperties.VisitDefsPrefixFails | src/compiler/seman/name/NameChecker.java:268-270 | once visiting a prefix of the definitions fails, visiting them all fails |
| NameResolutionProperties.ParamTypesPrefixFails | src/compiler/seman/name/NameChecker.java:279-281 | once checking a prefix of the parameter types fails, checking them all fails |
| NameResolutionProperties.LookupInnermost | src/compiler/seman/name/NameChecker.java:147-150 | a name resolves to its definition in the innermost scope that defines it, so inner definitions shadow outer ones |
| NameResolutionProperties.InsertAllSucceeds | src/compiler/seman/name/NameChecker.java:259-265 | inserting a list succeeds exactly when its names are distinct and none is already in the innermost scope |
| NameResolutionProperties.InsertAllContents | src/compiler/seman/name/NameChecker.java:259-265 | after inserting a list the innermost scope holds its old entries plus every declaration of the list under its own name, and nothing else |
| NameResolutionProperties.DefinitionsSeeEachOther | src/compiler/seman/name/NameChecker.java:257-271 | every definition of a list is in scope before any of them is visited, which allows forward and mutual references |
| NameResolutionProperties.ProgramDefinitionsAreGlobal | src/compiler/seman/name/NameChecker.java:257-271 | after name checking a program, each of its definitions is what its name denotes in the global scope |
| NameResolutionProperties.PopUndoesPush | src/compiler/seman/name/NameChecker.java:250-253 | `popScope` right after `pushScope` gives back the state before |
| NameResolutionProperties.DuplicateDefinitionRejected | src/compiler/seman/name/NameChecker.java:260-263 | two definitions of one name in one list are an error |
| NameResolutionProperties.RedefinitionRejected | src/compiler/seman/name/NameChecker.java:260-263 | a definition that reuses a name of the same scope is an error |
| NameResolutionProperties.DuplicateParameterRejected | src/compiler/seman/name/NameChecker.java:304-311 | two parameters of one function with the same name are an error |
| NameResolutionProperties.ParametersMayShadow | src/compiler/seman/name/NameChecker.java:284-288 | parameters with distinct names are always inserted, even when they shadow enclosing definitions |
| NameResolutionProperties.VariableResolution | src/compiler/seman/name/NameChecker.java:192-223 | a name resolves exactly when it is defined as a variable or a parameter, and is then bound to that definition |
| NameResolutionProperties.TypeNameResolution | src/compiler/seman/name/NameChecker.java:323-334 | a type name resolves exactly when it is defined as a type, and is then bound to it |
| NameResolutionProperties.CallResolution | src/compiler/seman/name/NameChecker.java:144-159 | a call of a user function resolves exactly when the name is defined as a function and its arguments resolve after the binding is recorded; when no argument node has the call's id, the call is then bound to that definition |
| NameResolutionProperties.StandardLibraryWins | src/compiler/seman/name/NameChecker.java:109-131 | a standard-library call resolves exactly when its arguments resolve after the built-in binding is recorded, whatever the program defines; when no argument node has the call's id, the call is then bound to its built-in definition |
| NameResolutionProperties.ExprKeepsBinding | src/compiler/seman/name/NameChecker.java:109-255 | visiting an expression leaves the binding of every node outside the expression as it was |
| NameResolutionProperties.CallKeepsBinding | src/compiler/seman/name/NameChecker.java:109-159 | visiting a call records a binding only for the call and the nodes of its arguments |
| NameResolutionProperties.ExprsKeepBinding | src/compiler/seman/name/NameChecker.java:177-181 | visiting a list of expressions leaves the binding of every node outside the list as it was |
| NameResolutionProperties.WhereKeepsBinding | src/compiler/seman/name/NameChecker.java:249-255 | visiting a `where` leaves the binding of every node outside it as it was |
| NameResolutionProperties.DefsKeepBinding | src/compiler/seman/name/NameChecker.java:257-271 | visiting a list of definitions leaves the binding of every node outside them as it was |
| NameResolutionProperties.VisitDefsKeepBinding | src/compiler/seman/name/NameChecker.java:268-270 | the loop that visits the definitions of a list leaves the binding of every node outside them as it was |
| NameResolutionProperties.DefKeepsBinding | src/compiler/seman/name/NameChecker.java:274-303 | visiting one definition leaves the binding of every node outside it as it was |
| NameResolutionProperties.FunDefKeepsBinding | src/compiler/seman/name/NameChecker.java:274-293 | visiting a function definition leaves the binding of every node outside it as it was |
| NameResolutionProperties.ParamTypesKeepBinding | src/compiler/seman/name/NameChecker.java:279-281 | checking the parameter types leaves the binding of every node outside them as it was |
| NameResolutionProperties.TypeKeepsBinding | src/compiler/seman/name/NameChecker.java:314-334 | visiting a type records a binding only for its own type names |
| NameResolutionProperties.BuiltinSignatures | src/compiler/seman/name/NameChecker.java:73-105 | the built-in functions take and return integers, except the print functions for strings and logical values; `rand_int` takes two integers |
| NameResolutionProperties.FunctionUsedAsArray | src/compiler/seman/name/NameChecker.java:162-174 | indexing a function is an error |
| NameResolutionProperties.TypeDependsOnScopes | src/compiler/seman/name/NameChecker.java:313-334 | whether a type resolves depends only on the symbol table |
| NameResolutionProperties.ParamTypesResolve | src/compiler/seman/name/NameChecker.java:279-281 | after the parameter-type loop every parameter type resolves |
| NameResolutionProperties.FunctionTypesInEnclosingScope | src/compiler/seman/name/NameChecker.java:274-282 | a function's result and parameter types resolve in the enclosing scope, where the parameters are not visible |
| NameCheckerClass.NameChecker.constructor | src/compiler/seman/name/NameChecker.java:61-68 | a new checker starts with one empty scope and no bindings |
| NameCheckerClass.NameChecker.PushScope | src/compiler/seman/name/NameChecker.java:250 | `pushScope` leaves the state `Push` computes |
| NameCheckerClass.NameChecker.PopScope | src/compiler/seman/name/NameChecker.java:253 | `popScope` leaves the state `Pop` computes |
| NameCheckerClass.NameChecker.InsertDecl | src/compiler/seman/name/NameChecker.java:259-264 | `insert` succeeds exactly when `Insert` does and leaves its state |
| NameCheckerClass.NameChecker.StoreDefinition | src/compiler/seman/name/NameChecker.java:154 | `definitions.store` leaves the state `Store` computes |
| NameCheckerClass.NameChecker.VisitExpr | src/compiler/seman/name/NameChecker.java:109-254 | visiting an expression succeeds exactly when `CheckExpr` does and leaves its state |
| NameCheckerClass.NameChecker.VisitCall | src/compiler/seman/name/NameChecker.java:109-160 | a call leaves the state `CheckCall` computes |
| NameCheckerClass.NameChecker.VisitName | src/compiler/seman/name/NameChecker.java:192-223 | a name leaves the state `CheckName` computes |
| NameCheckerClass.NameChecker.VisitExprs | src/compiler/seman/name/NameChecker.java:178-180 | the loop over a list leaves the state `CheckExprs` computes |
| NameCheckerClass.NameChecker.VisitWhere | src/compiler/seman/name/NameChecker.java:249-254 | a `where` leaves the state `CheckWhere` computes |
| NameCheckerClass.NameChecker.VisitDefs | src/compiler/seman/name/NameChecker.java:257-271 | a list of definitions leaves the state `CheckDefs` computes |
| NameCheckerClass.NameChecker.InsertDecls | src/compiler/seman/name/NameChecker.java:259-265 | the insertion loop leaves the state `InsertAll` computes |
| NameCheckerClass.NameChecker.VisitEachDef | src/compiler/seman/name/NameChecker.java:268-270 | the visiting loop leaves the state `VisitDefs` computes |
| NameCheckerClass.NameChecker.VisitDef | src/compiler/seman/name/NameChecker.java:274-302 | a definition leaves the state `CheckDef` computes |
| NameCheckerClass.NameChecker.VisitFunDef | src/compiler/seman/name/NameChecker.java:274-292 | a function leaves the state `CheckFunDef` computes |
| NameCheckerClass.NameChecker.VisitParamTypes | src/compiler/seman/name/NameChecker.java:279-281 | the parameter-type loop leaves the state `CheckParamTypes` computes |
| NameCheckerClass.NameChecker.VisitType | src/compiler/seman/name/NameChecker.java:313-334 | a type leaves the state `CheckType` computes |
| TypeChecking.CheckExpr | src/compiler/seman/type/TypeChecker.java:79-437 | visiting an expression only adds types and visited definitions |
| TypeChecking.VisitChildren | src/compiler/seman/type/TypeChecker.java:207-437 | the same for the children of a node other than a call |
| TypeChecking.CheckCall | src/compiler/seman/type/TypeChecker.java:79-204 | the same for a call |
| TypeChecking.UserCall | src/compiler/seman/type/TypeChecker.java:150-204 | the same for the part of `visit(Call)` every call goes through |
| TypeChecking.CheckExprs | src/compiler/seman/type/TypeChecker.java:281-283 | the same for a block's elements or a call's arguments |
| TypeChecking.CheckDefs | src/compiler/seman/type/TypeChecker.java:441-451 | the same for the two passes over a list of definitions |
| TypeChecking.VisitDefs | src/compiler/seman/type/TypeChecker.java:443-445 | the same for one pass |
| TypeChecking.CheckDef | src/compiler/seman/type/TypeChecker.java:454-555 | visiting a definition only adds types and visited definitions, and a checked type or variable definition has a type |
| TypeChecking.CheckFunDef | src/compiler/seman/type/TypeChecker.java:454-490 | the same for a function |
| TypeChecking.CheckParamTypes | src/compiler/seman/type/TypeChecker.java:458-460 | the same for the parameter types |
| TypeChecking.VisitParams | src/compiler/seman/type/TypeChecker.java:462-464 | the same for the parameters |
| TypeChecking.VisitParam | src/compiler/seman/type/TypeChecker.java:537-555 | a visited parameter has a type |
| TypeChecking.UnvisitedShrinks | src/compiler/seman/type/TypeChecker.java:596-599 | entering a type definition through a type name shrinks the set of type definitions not yet entered, which bounds the recursion |
| TypeChecking.CheckType | src/compiler/seman/type/TypeChecker.java:558-605 | a checked type node has a type, and types are only added |
| TypeChecking.TakeType | src/compiler/seman/type/TypeChecker.java:601 | a type name gets a type |
| TypeChecking.CheckTypeDef | src/compiler/seman/type/TypeChecker.java:493-512 | a checked type definition and its type node both have a type |
| TypeChecking.Check | src/compiler/seman/type/TypeChecker.java:441-451 | after a successful check every type and variable definition of the program has a type |
| TypeChecking.DefsTyped | src/compiler/seman/type/TypeChecker.java:441-451 | after both passes over a list every type and variable definition in it has a type |
| TypeChecking.PassTypesDefs | src/compiler/seman/type/TypeChecker.java:443-445 | after one pass over a list every type and variable definition in it has a type |
| TypeChecking.BinaryRule | src/compiler/seman/type/TypeChecker.java:213-275 | which operand types each operator group accepts (equal types for `=`, logical for `&` and `\|`, integers for `+ - * / %`, two integers or two logical values for comparisons, an array and an integer for indexing), and the type of an accepted node: the left type, logical, integer or the element type |
| TypeChecking.UnaryRule | src/compiler/seman/type/TypeChecker.java:387-411 | `!` is accepted exactly on a logical value and unary `+`/`-` exactly on an integer, and the node keeps the operand's type |
| TypeChecking.ConditionRule | src/compiler/seman/type/TypeChecker.java:359-374 | `if` and `while` are `void` exactly when the condition is logical, fail exactly when it has another type, and get no type when it has none |
| TypeChecking.ForRule | src/compiler/seman/type/TypeChecker.java:305-323 | a `for` that gets a type is `void`, and then its counter, bounds and step all have types |
| TypeChecking.ExprType | src/compiler/seman/type/TypeChecker.java:207-437 | an operator node gets no type exactly when an operand has none and otherwise its rule's type; a block fails exactly when empty and has its last expression's type when that has one; a name fails exactly when undefined and has the type of its variable or parameter; `where` has its expression's type |
| TypeChecking.StdlibRule | src/compiler/seman/type/TypeChecker.java:85-140 | a standard-library call is accepted exactly when its arguments match the signature in number and type, and has the type of its first argument |
| TypeChecking.ArgsRule | src/compiler/seman/type/TypeChecker.java:187-198 | a completed argument loop means every remaining argument and its parameter have equal types |
| TypeChecking.CallRule | src/compiler/seman/type/TypeChecker.java:184-203 | a wrong number of arguments is an error; a typed call has the function's return type; an untyped first parameter leaves the call without a type |
| TypeChecking.FunDefType | src/compiler/seman/type/TypeChecker.java:473-488 | a function gets no type exactly when its body has none; a body whose type differs from the return type is an error; a typed function is a `Function` type with the return type and one parameter type per parameter |
| TypeChecking.ParamTypeList | src/compiler/seman/type/TypeChecker.java:481-486 | one collected type per parameter, the first being the first parameter's type |
| TypeCheckingProperties.ExprsPrefixFails | src/compiler/seman/type/TypeChecker.java:281-283 | once visiting a prefix of a list fails, visiting the list fails |
| TypeCheckingProperties.PassPrefixFails | src/compiler/seman/type/TypeChecker.java:443-445 | once a prefix of a pass fails, the pass fails |
| TypeCheckingProperties.ParamTypesPrefixFails | src/compiler/seman/type/TypeChecker.java:458-460 | once checking a prefix of the parameter types fails, checking them all fails |
| TypeCheckingProperties.ParamsPrefixFails | src/compiler/seman/type/TypeChecker.java:462-464 | once visiting a prefix of the parameters fails, visiting them all fails |
| TypeCheckingProperties.LiteralsMatchAtomTypes | src/compiler/seman/type/TypeChecker.java:377-384 | a literal has the atomic type of its kind, the type of the type keyword of that kind, and never `void` |
| TypeCheckingProperties.ArrayTypeShape | src/compiler/seman/type/TypeChecker.java:558-576 | `arr[n] t` has type `Array(n, t')` with `t'` the type of `t`, and fails exactly when `t` does |
| TypeCheckingProperties.ForTyping | src/compiler/seman/type/TypeChecker.java:292-324 | `for` is `void` exactly when its counter, bounds and step are integers, and a failure names one of them with another type |
| TypeCheckingProperties.ParamTypeListSpec | src/compiler/seman/type/TypeChecker.java:481-486 | the parameter types are collected exactly when every parameter type has a type, in the order of the parameters |
| TypeCheckingProperties.FunctionTyping | src/compiler/seman/type/TypeChecker.java:466-488 | a body whose type differs from the declared return type is an error, and otherwise the function has type `Function(parameter types, return type)` |
| TypeCheckingProperties.ArgsRuleSpec | src/compiler/seman/type/TypeChecker.java:187-198 | the argument loop completes exactly when every argument and its parameter have types and the types are equal |
| TypeCheckingProperties.CallTyping | src/compiler/seman/type/TypeChecker.java:184-203 | a call with the wrong number of arguments is an error; a typed call passes arguments of the parameters' types and has the return type; and such arguments give the call that type |
| TypeChecking.StdlibSignature | src/compiler/seman/type/TypeChecker.java:105-138 | every standard-library function takes at least one argument |
| TypeCheckingProperties.StdlibSignatureMatchesBuiltins | src/compiler/seman/type/TypeChecker.java:105-138 | the checked signatures agree with the built-in definitions the name checker binds these calls to |
| TypeCheckingProperties.TypeNameTakesDefinitionType | src/compiler/seman/type/TypeChecker.java:589-605 | a type name that checks refers to a type definition and has the type of that definition's type |
| TypeCheckingProperties.SelfReferenceRejected | src/compiler/seman/type/TypeChecker.java:595-597 | `typ t : t` is rejected as a cycle |
| TypeCheckingProperties.MutualReferenceRejected | src/compiler/seman/type/TypeChecker.java:595-597 | `typ a : b; typ b : a` is rejected as a cycle |
| TypeCheckingProperties.AliasTakesAtomType | src/compiler/seman/type/TypeChecker.java:589-605 | with `typ a : k; typ b : a`, the name `a` in `b` and `b` itself both get the atomic type `k` |
| TypeCheckingProperties.CycleWalk | src/compiler/seman/type/TypeChecker.java:589-605 | walking a cycle of type names after entering part of it ends at a definition already entered, which is an error |
| TypeCheckingProperties.TypeCycleRejected | src/compiler/seman/type/TypeChecker.java:594-601 | a type definition on a cycle of type names of any length is rejected |
| TypeCheckingProperties.TypeKeeps | src/compiler/seman/type/TypeChecker.java:558-605 | visiting a type changes the type of no id outside its own nodes and the type definitions |
| TypeCheckingProperties.TypeDefKeeps | src/compiler/seman/type/TypeChecker.java:493-512 | the same for a type definition |
| TypeCheckingProperties.ParamTypesKeeps | src/compiler/seman/type/TypeChecker.java:458-460 | the same for the parameter types of a function |
| TypeCheckingProperties.ParamsKeeps | src/compiler/seman/type/TypeChecker.java:462-464 | the same for the parameters of a function |
| TypeCheckingProperties.ExprKeeps | src/compiler/seman/type/TypeChecker.java:79-437 | visiting an expression changes the type of no id outside its own nodes and the type definitions |
| TypeCheckingProperties.ChildrenKeeps | src/compiler/seman/type/TypeChecker.java:207-437 | the same for the children of a node other than a call |
| TypeCheckingProperties.ForChildrenKeeps | src/compiler/seman/type/TypeChecker.java:292-297 | the same for the children of a `for` |
| TypeCheckingProperties.IfChildrenKeeps | src/compiler/seman/type/TypeChecker.java:359-362 | the same for the children of an `if` |
| TypeCheckingProperties.CallKeeps | src/compiler/seman/type/TypeChecker.java:79-204 | the same for a call |
| TypeCheckingProperties.UserCallKeeps | src/compiler/seman/type/TypeChecker.java:150-204 | the same for the part of `visit(Call)` every call goes through |
| TypeCheckingProperties.ExprsKeeps | src/compiler/seman/type/TypeChecker.java:281-283 | the same for a list of expressions |
| TypeCheckingProperties.DefsKeeps | src/compiler/seman/type/TypeChecker.java:441-451 | the same for both passes over a list of definitions |
| TypeCheckingProperties.PassKeeps | src/compiler/seman/type/TypeChecker.java:443-445 | the same for one pass |
| TypeCheckingProperties.DefKeeps | src/compiler/seman/type/TypeChecker.java:454-555 | the same for a definition |
| TypeCheckingProperties.FunDefKeeps | src/compiler/seman/type/TypeChecker.java:454-490 | the same for a function definition |
| TypeCheckingProperties.ProgramTypesNoNegativeId | src/compiler/seman/type/TypeChecker.java:441-451 | checking a program whose nodes have non-negative ids never types a negative id, so the built-in definitions stay untyped |
| TypeCheckingProperties.StdlibCallTyping | src/compiler/seman/type/TypeChecker.java:79-204 | a standard-library call that passes the checks keeps the type of its first argument after the general call visit, because the built-in's parameters never get a type |
| TypeCheckerClass.TypeChecker.constructor | src/compiler/seman/type/TypeChecker.java:72-76 | a new checker holds the name checker's bindings and starts with no types |
| TypeCheckerClass.TypeChecker.Store | src/compiler/seman/type/TypeChecker.java:139 | `types.store` leaves the state `Record` computes |
| TypeCheckerClass.TypeChecker.VisitExpr | src/compiler/seman/type/TypeChecker.java:79-437 | visiting an expression succeeds exactly when `CheckExpr` does and leaves its state |
| TypeCheckerClass.TypeChecker.VisitOperands | src/compiler/seman/type/TypeChecker.java:207-437 | the children of a node other than a call leave the state `VisitChildren` computes |
| TypeCheckerClass.TypeChecker.VisitCall | src/compiler/seman/type/TypeChecker.java:79-204 | a call leaves the state `CheckCall` computes |
| TypeCheckerClass.TypeChecker.VisitUserCall | src/compiler/seman/type/TypeChecker.java:150-204 | the common part of a call leaves the state `UserCall` computes |
| TypeCheckerClass.TypeChecker.VisitExprs | src/compiler/seman/type/TypeChecker.java:281-283 | the loop over a list leaves the state `CheckExprs` computes |
| TypeCheckerClass.TypeChecker.VisitDefs | src/compiler/seman/type/TypeChecker.java:441-451 | a list of definitions leaves the state `CheckDefs` computes |
| TypeCheckerClass.TypeChecker.Pass | src/compiler/seman/type/TypeChecker.java:443-445 | one pass leaves the state `VisitDefs` computes |
| TypeCheckerClass.TypeChecker.VisitDef | src/compiler/seman/type/TypeChecker.java:454-555 | a definition leaves the state `CheckDef` computes |
| TypeCheckerClass.TypeChecker.VisitFunDef | src/compiler/seman/type/TypeChecker.java:454-490 | a function leaves the state `CheckFunDef` computes |
| TypeCheckerClass.TypeChecker.VisitParamTypes | src/compiler/seman/type/TypeChecker.java:458-460 | the parameter-type loop leaves the state `CheckParamTypes` computes |
| TypeCheckerClass.TypeChecker.VisitParameters | src/compiler/seman/type/TypeChecker.java:462-464 | the parameter loop leaves the state `VisitParams` computes |
| TypeCheckerClass.TypeChecker.ParameterTypes | src/compiler/seman/type/TypeChecker.java:481-486 | the collecting loop returns the parameter types exactly when `ParamTypeList` succeeds |
| TypeCheckerClass.TypeChecker.VisitParameter | src/compiler/seman/type/TypeChecker.java:537-555 | a parameter leaves the state `VisitParam` computes |
| TypeCheckerClass.TypeChecker.VisitType | src/compiler/seman/type/TypeChecker.java:558-605 | a type leaves the state `CheckType` computes |
| TypeCheckerClass.TypeChecker.VisitTypeDef | src/compiler/seman/type/TypeChecker.java:493-512 | a type definition leaves the state `CheckTypeDef` computes |
| IR.FindLabel | src/compiler/interpret/Interpreter.java:89-94 | the search finds the first `LabelStmt` of the label at or after the start, or reports that there is none |
| IR.LayersDepth | src/compiler/ir/IRCodeGenerator.java:335-337 | `k` memory layers around FP have depth `k` |
| IRGeneration.FetchExprs | src/compiler/ir/IRCodeGenerator.java:97-102 | the arguments' IR is fetched in order, and fetching fails exactly when some argument has no expression IR |
| IRGeneration.FetchAll | src/compiler/ir/IRCodeGenerator.java:222-238 | the elements' IR is fetched in order, and fetching fails exactly when some element has no IR |
| IRGeneration.BinaryOperator | src/compiler/ir/IRCodeGenerator.java:192-207 | every operator except assignment and indexing has an IR operator |
| IRGeneration.LiteralConstant | src/compiler/ir/IRCodeGenerator.java:429-445 | a logical literal is 1 exactly when its text is `true` in any case and 0 otherwise; an integer literal succeeds exactly when `parseInt` does, with that value |
| IRGeneration.FrameAddress | src/compiler/ir/IRCodeGenerator.java:329-338 | the frame address is FP at the same level and FP under `current - declared + 1` memory layers otherwise |
| IRGeneration.StdCallCode | src/compiler/ir/IRCodeGenerator.java:95-107 | a standard-library call goes to the label named after the function, with the frame pointer and then the arguments in order |
| IRGeneration.UserCallCode | src/compiler/ir/IRCodeGenerator.java:109-137 | a user call first stores FP, then calls the callee's label with the static link and the arguments in order; the static link is `Mem(FP)` exactly when the callee has the current function's name and FP exactly otherwise |
| IRGeneration.FunctionCode | src/compiler/ir/IRCodeGenerator.java:561-567 | an expression body is moved to the return slot at FP, a statement body is the code as it is |
| IRGeneration.LowerExpr | src/compiler/ir/IRCodeGenerator.java:84-520 | lowering any expression only appends chunks and never moves the label counter back |
| IRGeneration.LowerBinaryExpr | src/compiler/ir/IRCodeGenerator.java:139-212 | the same for a binary expression |
| IRGeneration.LowerBlock | src/compiler/ir/IRCodeGenerator.java:214-249 | the same for a block; an empty block is an error |
| IRGeneration.LowerFor | src/compiler/ir/IRCodeGenerator.java:251-310 | the same for a `for` loop |
| IRGeneration.ForNode | src/compiler/ir/IRCodeGenerator.java:270-309 | building the loop draws labels and keeps the chunks |
| IRGeneration.LowerIf | src/compiler/ir/IRCodeGenerator.java:373-426 | the same for a conditional |
| IRGeneration.IfNode | src/compiler/ir/IRCodeGenerator.java:386-425 | building the conditional draws labels and keeps the chunks |
| IRGeneration.LowerLiteral | src/compiler/ir/IRCodeGenerator.java:428-445 | the same for a literal |
| IRGeneration.LowerUnary | src/compiler/ir/IRCodeGenerator.java:447-468 | the same for a unary expression |
| IRGeneration.LowerWhile | src/compiler/ir/IRCodeGenerator.java:470-507 | the same for a `while` loop |
| IRGeneration.WhileNode | src/compiler/ir/IRCodeGenerator.java:480-506 | building the loop draws labels and keeps the chunks |
| IRGeneration.LowerWhere | src/compiler/ir/IRCodeGenerator.java:509-520 | the same for a `where` expression |
| IRGeneration.LowerCall | src/compiler/ir/IRCodeGenerator.java:84-137 | the same for a call |
| IRGeneration.LowerExprs | src/compiler/ir/IRCodeGenerator.java:86-87 | the same for a list of expressions |
| IRGeneration.LowerDefs | src/compiler/ir/IRCodeGenerator.java:522-527 | the same for a list of definitions |
| IRGeneration.LowerDef | src/compiler/ir/IRCodeGenerator.java:529-590 | the same for one definition |
| IRGeneration.LowerBinary | src/compiler/ir/IRCodeGenerator.java:146-210 | a binary node changes only the side table; it gets IR unless it is an assignment whose right operand, a literal, has none, in which case nothing changes |
| IRGeneration.LowerName | src/compiler/ir/IRCodeGenerator.java:313-371 | a name succeeds exactly when it has a definition with an access, and a frame when the access is not global; its IR is always a memory access and only the side table changes |
| IRGeneration.LowerProgram | src/compiler/ir/IRCodeGenerator.java:522-590 | lowering a program leaves a code chunk for each of its functions' frames and a global chunk for each of its global variables |
| IRGeneration.DefsEmitChunks | src/compiler/ir/IRCodeGenerator.java:522-527 | after a list of definitions, the chunk each one adds is still there |
| IRGeneration.DefEmits | src/compiler/ir/IRCodeGenerator.java:529-590 | a function adds a code chunk for its frame and a global variable its global chunk |
| IRGenerationProperties.InitialNoBareLabels | src/compiler/ir/IRCodeGenerator.java:38 | the empty side table holds no lone `LabelStmt` |
| IRGenerationProperties.StoreKeeps | src/compiler/ir/IRCodeGenerator.java:38 | storing a node that is not a lone label keeps the table free of lone labels |
| IRGenerationProperties.ExprKeeps | src/compiler/ir/IRCodeGenerator.java:84-520 | lowering an expression never records a lone `LabelStmt` for a node |
| IRGenerationProperties.BinaryKeeps | src/compiler/ir/IRCodeGenerator.java:139-212 | the same for a binary expression |
| IRGenerationProperties.BlockKeeps | src/compiler/ir/IRCodeGenerator.java:214-249 | the same for a block |
| IRGenerationProperties.ForKeeps | src/compiler/ir/IRCodeGenerator.java:251-310 | the same for a `for` loop |
| IRGenerationProperties.IfKeeps | src/compiler/ir/IRCodeGenerator.java:373-426 | the same for a conditional |
| IRGenerationProperties.UnaryKeeps | src/compiler/ir/IRCodeGenerator.java:447-468 | the same for a unary expression |
| IRGenerationProperties.WhileKeeps | src/compiler/ir/IRCodeGenerator.java:470-507 | the same for a `while` loop |
| IRGenerationProperties.WhereKeeps | src/compiler/ir/IRCodeGenerator.java:509-520 | the same for a `where` expression |
| IRGenerationProperties.CallKeeps | src/compiler/ir/IRCodeGenerator.java:84-137 | the same for a call |
| IRGenerationProperties.ExprsKeeps | src/compiler/ir/IRCodeGenerator.java:86-87 | the same for a list of expressions |
| IRGenerationProperties.DefsKeeps | src/compiler/ir/IRCodeGenerator.java:522-527 | the same for a list of definitions |
| IRGenerationProperties.DefKeeps | src/compiler/ir/IRCodeGenerator.java:529-590 | the same for one definition |
| IRGenerationProperties.WhileCodeJumps | src/compiler/ir/IRCodeGenerator.java:499-503 | in the `while` shape the test continues at the body or past the loop, and the jump after the body returns to the test |
| IRGenerationProperties.IfElseCodeJumps | src/compiler/ir/IRCodeGenerator.java:418-419 | in the `if`-`else` shape the test continues at either branch, and the jump after the `then` branch goes past the statement |
| IRGenerationProperties.IfCodeJumps | src/compiler/ir/IRCodeGenerator.java:421-422 | in the `if` shape the test continues at the branch or past the statement |
| IRGenerationProperties.ForCodeJumps | src/compiler/ir/IRCodeGenerator.java:302-306 | in the `for` shape the test continues at the body or past the loop, and the jump after the step returns to the test |
| IRGenerationProperties.WhileLowering | src/compiler/ir/IRCodeGenerator.java:470-507 | a lowered `while` tests, runs the body when the test holds, jumps back to the test after it and leaves when it fails, with three distinct fresh labels |
| IRGenerationProperties.IfElseLowering | src/compiler/ir/IRCodeGenerator.java:373-426 | a lowered `if`-`else` continues at the `then` branch when the test holds and at the `else` branch otherwise, the `then` branch skips the `else` branch, and the three labels are distinct and fresh |
| IRGenerationProperties.IfLowering | src/compiler/ir/IRCodeGenerator.java:373-426 | a lowered `if` without `else` continues at the branch when the test holds and past the statement otherwise, with distinct fresh labels |
| IRGenerationProperties.ForLowering | src/compiler/ir/IRCodeGenerator.java:251-310 | a lowered `for` sets the counter to the low bound, tests `counter < high`, runs the body when it holds, assigns the step to the counter, returns to the test and leaves when it fails, with three distinct fresh labels |
| IRGenerationProperties.StringLiteralLowering | src/compiler/ir/IRCodeGenerator.java:435-440 | a string literal adds exactly one one-word data chunk under a fresh label and stands for that label |
| IRGenerationProperties.IntLiteralRoundTrip | src/compiler/ir/IRCodeGenerator.java:433-434 | the decimal text of a number in range lowers to that number |
| IRGenerationProperties.BinaryOperatorInjective | src/compiler/ir/IRCodeGenerator.java:192-207 | distinct operators get distinct IR operators |
| IRGenerationProperties.AssignLowering | src/compiler/ir/IRCodeGenerator.java:146-160 | an assignment becomes a move into its left operand exactly when that operand's IR is a memory access |
| IRGenerationProperties.ArrayLowering | src/compiler/ir/IRCodeGenerator.java:162-185 | `a[i]` becomes the memory access at `base + i * size`, succeeding exactly when the left operand is a memory access and the node has a type |
| IRGenerationProperties.OperatorLowering | src/compiler/ir/IRCodeGenerator.java:186-210 | every other operator becomes the IR operator of the same name over both operands, changing no chunk or label |
| IRGenerationProperties.NameLowering | src/compiler/ir/IRCodeGenerator.java:313-371 | a name reads a global through its label and a local or parameter at its offset from the frame address |
| IRGenerationProperties.StdCallLowering | src/compiler/ir/IRCodeGenerator.java:95-107 | a standard-library call passes FP and then the arguments' IR to the label named after the function |
| IRGenerationProperties.UserCallLowering | src/compiler/ir/IRCodeGenerator.java:109-137 | a user call saves FP at `SP - oldFPOffset` and calls the callee's label with the static link first, which is `Mem(FP)` exactly when the callee has the current function's name |
| IRGenerationProperties.BlockLowering | src/compiler/ir/IRCodeGenerator.java:214-249 | a block's elements but the last become statements in order, and the block is an expression exactly when its last element is |
| IRGenerationProperties.WhereLowering | src/compiler/ir/IRCodeGenerator.java:509-520 | a `where` stands for its expression's IR |
| IRGenerationProperties.FunDefLowering | src/compiler/ir/IRCodeGenerator.java:529-569 | a function appends one code chunk for its frame, moving an expression body to the return slot at FP, and the current frame is not restored |
| IRGenerationProperties.VarDefLowering | src/compiler/ir/IRCodeGenerator.java:576-590 | a variable succeeds exactly when it has an access and a type; only a global adds a chunk |
| IRCodeGeneratorClass.IRCodeGenerator.constructor | src/compiler/ir/IRCodeGenerator.java:65-79 | the generator starts with empty tables and no current frame |
| IRCodeGeneratorClass.IRCodeGenerator.NextAnonymous | src/compiler/ir/IRCodeGenerator.java:279 | `nextAnonymous` returns the next label, advances the counter and changes nothing else |
| IRCodeGeneratorClass.IRCodeGenerator.VisitExpr | src/compiler/ir/IRCodeGenerator.java:84-520 | the in-place visit succeeds exactly when `LowerExpr` does and leaves its state |
| IRCodeGeneratorClass.IRCodeGenerator.VisitExprs | src/compiler/ir/IRCodeGenerator.java:86-87 | the loop over a list leaves the state `LowerExprs` computes |
| IRCodeGeneratorClass.IRCodeGenerator.ArgumentCode | src/compiler/ir/IRCodeGenerator.java:121-126 | the argument loop yields the first argument followed by the arguments' IR, and fails exactly when `FetchExprs` does |
| IRCodeGeneratorClass.IRCodeGenerator.VisitCall | src/compiler/ir/IRCodeGenerator.java:84-137 | a call leaves the state `LowerCall` computes |
| IRCodeGeneratorClass.IRCodeGenerator.VisitBinary | src/compiler/ir/IRCodeGenerator.java:139-212 | a binary expression leaves the state `LowerBinaryExpr` computes |
| IRCodeGeneratorClass.IRCodeGenerator.VisitBlock | src/compiler/ir/IRCodeGenerator.java:214-249 | a block leaves the state `LowerBlock` computes |
| IRCodeGeneratorClass.IRCodeGenerator.VisitFor | src/compiler/ir/IRCodeGenerator.java:251-310 | a `for` loop leaves the state `LowerFor` computes |
| IRCodeGeneratorClass.IRCodeGenerator.BuildFor | src/compiler/ir/IRCodeGenerator.java:270-309 | building the loop leaves the state `ForNode` computes |
| IRCodeGeneratorClass.IRCodeGenerator.VisitIfThenElse | src/compiler/ir/IRCodeGenerator.java:373-426 | a conditional leaves the state `LowerIf` computes |
| IRCodeGeneratorClass.IRCodeGenerator.BuildIf | src/compiler/ir/IRCodeGenerator.java:386-425 | building the conditional leaves the state `IfNode` computes |
| IRCodeGeneratorClass.IRCodeGenerator.VisitLiteral | src/compiler/ir/IRCodeGenerator.java:428-445 | a literal leaves the state `LowerLiteral` computes |
| IRCodeGeneratorClass.IRCodeGenerator.VisitName | src/compiler/ir/IRCodeGenerator.java:313-371 | a name leaves the state `LowerName` computes |
| IRCodeGeneratorClass.IRCodeGenerator.FrameBase | src/compiler/ir/IRCodeGenerator.java:330-338 | the static-link loop builds the frame address `FrameAddress` describes |
| IRCodeGeneratorClass.IRCodeGenerator.VisitUnary | src/compiler/ir/IRCodeGenerator.java:447-468 | a unary expression leaves the state `LowerUnary` computes |
| IRCodeGeneratorClass.IRCodeGenerator.VisitWhile | src/compiler/ir/IRCodeGenerator.java:470-507 | a `while` loop leaves the state `LowerWhile` computes |
| IRCodeGeneratorClass.IRCodeGenerator.BuildWhile | src/compiler/ir/IRCodeGenerator.java:480-506 | building the loop leaves the state `WhileNode` computes |
| IRCodeGeneratorClass.IRCodeGenerator.VisitWhere | src/compiler/ir/IRCodeGenerator.java:509-520 | a `where` leaves the state `LowerWhere` computes |
| IRCodeGeneratorClass.IRCodeGenerator.VisitDefs | src/compiler/ir/IRCodeGenerator.java:522-527 | a list of definitions leaves the state `LowerDefs` computes |
| IRCodeGeneratorClass.IRCodeGenerator.VisitDef | src/compiler/ir/IRCodeGenerator.java:529-590 | one definition leaves the state `LowerDef` computes |
| Interpretation.Start | src/compiler/interpret/Interpreter.java:55-62 | a new interpreter has SP and FP one word below the top of memory and has printed nothing |
| Interpretation.ToInt | src/compiler/interpret/Interpreter.java:293-298 | `toInt` succeeds exactly on integers |
| Interpretation.Lift | src/compiler/interpret/Interpreter.java:293-298 | a step that cannot print fails exactly when the underlying result is an error, and its failure keeps the output printed so far |
| Interpretation.StoreAt | src/compiler/interpret/Interpreter.java:149 | `stM` makes the address hold the value and changes nothing but memory cells |
| Interpretation.LoadAt | src/compiler/interpret/Interpreter.java:269 | `ldM` succeeds exactly on an address that was stored to, and yields what is stored there |
| InterpretationProperties.LoadAfterStore | src/compiler/interpret/Interpreter.java:149 | a load sees the last store to its address and is unaffected by stores to other addresses |
| Interpretation.LoadLabel | src/compiler/interpret/Interpreter.java:236 | loading a label succeeds exactly when the label has an address that holds a value, and is the load at that address |
| Interpretation.BinopValue | src/compiler/interpret/Interpreter.java:174-207 | a binary operator yields a value exactly when both operands are integers, the operator is not `MOD` and it is not a division by zero; the value is a Java `int` |
| Interpretation.Deref | src/compiler/interpret/Interpreter.java:263-275 | a memory read yields the stored word when the address is an integer that was stored to, and the address itself otherwise |
| Interpretation.NameValue | src/compiler/interpret/Interpreter.java:277-285 | a name yields FP, SP or the label's address, and fails exactly on a label without an address |
| Interpretation.Eval | src/compiler/interpret/Interpreter.java:154-172 | evaluating an expression only appends to the output and never changes labels or the memory size; a failure keeps all output printed before it |
| Interpretation.CallValue | src/compiler/interpret/Interpreter.java:209-257 | a call only appends to the output, and a failing call keeps what was printed before it |
| Interpretation.IntrinsicValue | src/compiler/interpret/Interpreter.java:210-235 | an intrinsic only appends to the output, keeps it when it fails, and yields a value exactly when it is `rand_int` |
| InterpretationProperties.PrintAppendsOneLine | src/compiler/interpret/Interpreter.java:210-225 | `print_int`, `print_str` and `print_log` each append exactly one line, of their own kind, after the output of evaluating their argument, and change nothing else |
| Interpretation.Draw | src/compiler/interpret/Interpreter.java:230 | `nextInt(lo, hi)` yields a number in `[lo, hi)` |
| Interpretation.UserCallValue | src/compiler/interpret/Interpreter.java:236-256 | a call of a label that holds no code chunk fails without printing; any call only appends to the output |
| Interpretation.CallChunk | src/compiler/interpret/Interpreter.java:243-253 | staging the arguments, running the chunk and reading the result only appends to the output, and a failure keeps it |
| Interpretation.StoreArgs | src/compiler/interpret/Interpreter.java:243-247 | the argument loop only appends to the output, and a failing argument keeps it |
| Interpretation.Enter | src/compiler/interpret/Interpreter.java:74-83 | entering a chunk changes only SP and FP: FP becomes SP (FP is kept for `main`) and SP drops by the frame size |
| Interpretation.Leave | src/compiler/interpret/Interpreter.java:103-106 | leaving a chunk succeeds exactly when the old-FP slot holds an integer, and then changes only the registers, SP becoming FP |
| Interpretation.RunChunk | src/compiler/interpret/Interpreter.java:74-107 | running a chunk only appends to the output, and a failure keeps it |
| Interpretation.Run | src/compiler/interpret/Interpreter.java:85-96 | the program-counter loop only appends to the output; a statement that throws, or running out of fuel, keeps everything printed before |
| Interpretation.Exec | src/compiler/interpret/Interpreter.java:109-152 | a statement only appends to the output, and only a move into a temporary changes the temporaries |
| Interpretation.Setup | src/compiler/interpret/Interpreter.java:66-70 | the set-up of `main` changes only memory cells, and the word at FP then holds FP |
| Interpretation.Interpret | src/compiler/interpret/Interpreter.java:66-72 | a whole run only appends to the output, and a run that throws still has everything it printed before |
| InterpretationProperties.PrintedBeforeFailureIsKept | src/compiler/interpret/Interpreter.java:210-214 | code that prints a number and then throws has printed that number |
| InterpretationProperties.BinopDefined | src/compiler/interpret/Interpreter.java:174-207 | a binary operator yields a value exactly when both operands are integers, the operator is not `MOD` and it is not a division by zero; the value is then a Java `int` |
| InterpretationProperties.ArithmeticWraps | src/compiler/interpret/Interpreter.java:179-184 | `+`, `-` and `*` give the Java `int` congruent to the exact result modulo 2^32, equal to it when it fits |
| InterpretationProperties.DivisionTruncates | src/compiler/interpret/Interpreter.java:185-186 | division truncates toward zero: the remainder is smaller than the divisor and has the sign of the dividend |
| InterpretationProperties.DivisionOverflow | src/compiler/interpret/Interpreter.java:185-186 | `MIN_VALUE / -1` yields `MIN_VALUE` |
| InterpretationProperties.ComparisonIsTest | src/compiler/interpret/Interpreter.java:191-202 | each comparison yields 1 when it holds and 0 when it does not |
| InterpretationProperties.LogicalConnectives | src/compiler/interpret/Interpreter.java:187-190 | on truth values 0 and 1 the bitwise `&` and `|` are conjunction and disjunction |
| InterpretationProperties.NotCodeValue | src/compiler/ir/IRCodeGenerator.java:447-468 | the code generated for `!x` flips a truth value |
| InterpretationProperties.MinusCodeValue | src/compiler/ir/IRCodeGenerator.java:447-468 | the code generated for `-x` is Java negation |
| InterpretationProperties.PlusCodeValue | src/compiler/ir/IRCodeGenerator.java:447-468 | the code generated for `+x` yields `x` |
| InterpretationProperties.LayersFollow | src/compiler/interpret/Interpreter.java:263-275 | `k + 1` memory layers around FP load `k` times, the innermost layer yielding FP itself, and a failed load keeps the address |
| InterpretationProperties.FrameAddressFollowsLinks | src/compiler/ir/IRCodeGenerator.java:329-338 | the frame address of a variable declared `d` levels out follows the static link `d` times from FP |
| InterpretationProperties.FrameVariableRead | src/compiler/ir/IRCodeGenerator.java:329-365 | reading a local or parameter loads the word `offset` bytes above that frame |
| InterpretationProperties.GlobalReadIsAddress | src/compiler/interpret/Interpreter.java:263-266 | reading a global yields its address, because the interpreter does not load through a name |
| InterpretationProperties.GlobalWrite | src/compiler/interpret/Interpreter.java:146-150 | assigning to a global stores the value at the global's address |
| InterpretationProperties.ConditionalJump | src/compiler/interpret/Interpreter.java:125-128 | a conditional jump goes to its `then` label exactly when the condition is 1, to its `else` label on any other integer, and fails on a non-integer |
| InterpretationProperties.TemporariesChangeOnlyByMove | src/compiler/interpret/Interpreter.java:138-152 | only a move into a temporary changes the temporaries, and only that one |
| InterpretationProperties.OnlyJumpsTransfer | src/compiler/interpret/Interpreter.java:109-123 | a statement yields a label exactly when it is a jump or a conditional jump |
| InterpretationProperties.JumpResumes | src/compiler/interpret/Interpreter.java:88-95 | a jump resumes after the first `LabelStmt` of its label, or falls through when there is none |
| InterpretationProperties.LinearisedCodeOnly | src/compiler/interpret/Interpreter.java:84-99 | code that is not a sequence, a nested sequence and an `EseqExpr` are all rejected |
| InterpretationProperties.IntrinsicArity | src/compiler/interpret/Interpreter.java:210-235 | every intrinsic rejects a wrong argument count |
| InterpretationProperties.IntrinsicSkipsFrameArgument | src/compiler/interpret/Interpreter.java:210-235 | no intrinsic evaluates argument 0 |
| InterpretationProperties.RandIntInRange | src/compiler/interpret/Interpreter.java:226-230 | `rand_int(lo, hi)` fails exactly when `lo >= hi`, and otherwise yields a number in `[lo, hi)` and draws one number |
| InterpretationProperties.OnlyCodeIsCalled | src/compiler/interpret/Interpreter.java:236-256 | calling a label that does not hold a code chunk fails |
| InterpretationProperties.LeaveUndoesEnter | src/compiler/interpret/Interpreter.java:78-106 | leaving a chunk restores the caller's SP and FP when the body kept FP and the old-FP slot holds the caller's FP |
| InterpretationProperties.SetupWrites | src/compiler/interpret/Interpreter.java:66-72 | before `main` runs, the word at FP holds FP, the old-FP slot holds FP and the argument above FP is 999 |
| InterpretationProperties.WhileTest | src/compiler/ir/IRCodeGenerator.java:470-507 | at the test of a generated `while`, a condition of 1 runs the body next and anything else leaves the loop |
| InterpretationProperties.WhileLoopsBack | src/compiler/ir/IRCodeGenerator.java:470-507 | after the body of a generated `while` control returns to the test |
| InterpretationProperties.IfElseBranches | src/compiler/ir/IRCodeGenerator.java:373-426 | a generated `if` with an `else` runs the `then` part when the condition is 1 and the `else` part otherwise |
| InterpretationProperties.ThenSkipsElse | src/compiler/ir/IRCodeGenerator.java:373-426 | the end of the `then` part skips the `else` part |
| InterpretationProperties.IfThenBranch | src/compiler/ir/IRCodeGenerator.java:373-426 | a generated `if` without an `else` runs the `then` part when the condition is 1 and nothing otherwise |
| InterpreterClass.Interpreter.constructor | src/compiler/interpret/Interpreter.java:55-62 | the interpreter starts in the state `Start` describes |
| InterpreterClass.Interpreter.Store | src/compiler/interpret/Interpreter.java:149 | `stM` writes one cell |
| InterpreterClass.Interpreter.Interpret | src/compiler/interpret/Interpreter.java:66-72 | `interpret` succeeds exactly when `Interpretation.Interpret` does and leaves its state; when it throws, its output is the output of the failed run |
| InterpreterClass.Interpreter.InternalInterpret | src/compiler/interpret/Interpreter.java:74-107 | entering, running and leaving a chunk leaves the state `RunChunk` computes, or the output of its failure |
| InterpreterClass.Interpreter.RunStatements | src/compiler/interpret/Interpreter.java:85-96 | the program-counter loop leaves the state `Run` computes, or the output of its failure |
| InterpreterClass.Interpreter.JumpTarget | src/compiler/interpret/Interpreter.java:88-95 | the label search returns the statement after the first matching `LabelStmt`, or the next one |
| InterpreterClass.Interpreter.LeaveFrame | src/compiler/interpret/Interpreter.java:103-106 | leaving a frame leaves the state `Leave` computes and never changes the output |
| InterpreterClass.Interpreter.ExecStmt | src/compiler/interpret/Interpreter.java:109-152 | one statement leaves the state, temporaries and jump `Exec` computes, or the output of its failure |
| InterpreterClass.Interpreter.EvalExpr | src/compiler/interpret/Interpreter.java:154-289 | one expression leaves the state and value `Eval` computes, or the output of its failure |
| InterpreterClass.Interpreter.EvalCall | src/compiler/interpret/Interpreter.java:209-257 | a call leaves the state and value `CallValue` computes, or the output of its failure |
| InterpreterClass.Interpreter.EvalIntrinsic | src/compiler/interpret/Interpreter.java:210-235 | an intrinsic leaves the state and value `IntrinsicValue` computes, or the output of its failure |
| InterpreterClass.Interpreter.EvalPrintIntrinsic | src/compiler/interpret/Interpreter.java:210-225 | the same for `print_int`, `print_str` and `print_log` |
| InterpreterClass.Interpreter.EvalRngIntrinsic | src/compiler/interpret/Interpreter.java:226-235 | the same for `rand_int` and `seed` |
| InterpreterClass.Interpreter.StageArguments | src/compiler/interpret/Interpreter.java:243-247 | the argument loop leaves the state `StoreArgs` computes, or the output of its failure |
| InterpreterClass.Interpreter.StageArgument | src/compiler/interpret/Interpreter.java:244-246 | one turn of the argument loop moves `StoreArgs` on by one argument, or is the failure of the whole loop |
| InterpreterClass.Interpreter.EvalUserCall | src/compiler/interpret/Interpreter.java:236-256 | a user call leaves the state and value `UserCallValue` computes, or the output of its failure |
| InterpreterClass.Interpreter.CallCode | src/compiler/interpret/Interpreter.java:243-253 | calling a chunk leaves the state and value `CallChunk` computes, or the output of its failure |

## Left out

- `Main.java`: command-line handling, file reading and the phase dumps are I/O and are not part of this model.
- `Parser.dump` and the interpreter's `prettyPrint`/`prettyDescription` are output only. The print intrinsics append to an output sequence `out` instead of writing to a stream.
- Parser source positions (`Position`) exist only for diagnostics and are not modelled. Error messages are kept as strings, and no lemma depends on their text.
- `java.util.Random` behind `rand_int` and `seed` is an oracle: a function of the seed and of the number of values drawn so far. `nextInt(lo, hi)` with `lo >= hi` is the `IllegalArgumentException` Java documents.
- The linearizer (`LinCodeGenerator`) is not part of this model. The interpreter rejects `EseqExpr` and any chunk code that is not one `SeqStmt`, as the Java code does.
- `Frame.java`, `Frame.Builder`, `Access`, `Type.sizeInBytes`/`sizeInBytesAsParam` and `Constants` are not part of this model. Type sizes, the offsets returned by `addParameter`/`addLocalVariable`, the frame size and the offset of the saved frame pointer form a `Layout` of arbitrary total functions, and every lemma holds for all of them. `WordSize` is 4. An anonymous label is named `L` followed by its counter, and the labels of the two registers are `{FP}` and `{SP}`.
- `Memory`, `SymbolTable` and `NodeDescription` are not part of this model. Memory is a map from addresses to values plus a map from labels to addresses, and loading an address or a label that was never stored throws. The symbol table is a stack of scopes. A side table is a map.
- `Type.equals` is structural equality (`==`).
- The type checker's `visited` set holds definition values, not object references. A definition value includes its node id, so two distinct definitions from the parser are never confused.
- Interpreter termination: `Interpretation` and `InterpreterClass.Interpreter` take a step budget `fuel`, and running out is a failure ("out of fuel"). The Java interpreter has no such bound, so the model says nothing about programs that run longer than the budget.
- FP and SP updates and the address arithmetic of calls wrap at 32 bits, as Java `int` arithmetic does. The memory map itself accepts any integer address.
- `Character.isLetter`/`isDigit`/`isWhitespace` are restricted to ASCII.
- Concurrency, floating point and reflection do not occur in the core.
- The built-in standard-library definitions of the name checker have negative node ids, so that they never collide with an id the parser hands out.
- The `Binary` check of the name checker (a left operand that is a name bound to a function is an error) is kept. It can never fire on its own, because visiting that name has already failed.
- `parse` returns after the definitions without checking that the input ends there. A `}` at the outermost level therefore ends the program, and the rest of the input is ignored, as in the Java code.
- ParsingProperties.ForShape: ties the counter of a `for` to the symbol it comes from, but not the bounds, the step and the body.
- DoubledQuote: stated only for bodies that do not start with a quote. The quote counter is not reset when a constant opens, so a quote right after the opening quote pairs with it and is not read as an escape (src/compiler/lexer/Lexer.java:163). `''''` scans to the empty string (QuoteAfterOpeningIsNoEscape). The counter is not reset when a constant closes either, so what such a body gives can depend on the constants before it. No lemma covers bodies that start with a quote, except `''''` on a fresh lexer.
- The parser's field `pozicijaSimbola`, which `skip` advances in place, and the lists its productions fill as they go, are values here. Each production takes the cursor position and returns the new one with its result, so no parser object and no aliasing of its lists are modelled.

=== FILE: ast.dfy ===
/** The abstract syntax tree built by the parser (`compiler.parser.ast`).
    Java compares AST nodes by identity; every node here carries an `id`
    (`NodeId`) that plays that role, and the side tables of the semantic
    phases (`NodeDescription`) are maps keyed by it. */
module Ast {
  import opened Wrappers

  type NodeId = int

  /** The atomic types `logical`, `integer`, `string` (`Atom.Type`). */
  datatype AtomKind = LOG | INT | STR

  /** `Binary.Operator`: `ARR` is indexing `a[i]`, `ASSIGN` is `{x = e}`. */
  datatype BinOp = ADD | SUB | MUL | DIV | MOD | AND | OR | EQ | NEQ | LT | GT | LEQ | GEQ | ASSIGN | ARR

  /** `Unary.Operator`. */
  datatype UnOp = Plus | Minus | Not

  /** Type expressions (`compiler.parser.ast.type`). */
  datatype TypeAst =
    | AtomType(id: NodeId, kind: AtomKind)
    | ArrayType(id: NodeId, size: int, elem: TypeAst)
    | TypeName(id: NodeId, identifier: string)

  /** Expressions (`compiler.parser.ast.expr`). `For.counter` is always a
      `Name` built by the parser. */
  datatype Expr =
    | Binary(id: NodeId, left: Expr, op: BinOp, right: Expr)
    | Block(id: NodeId, exprs: seq<Expr>)
    | Call(id: NodeId, args: seq<Expr>, name: string)
    | For(id: NodeId, counter: Expr, low: Expr, high: Expr, step: Expr, body: Expr)
    | IfThenElse(id: NodeId, cond: Expr, thenE: Expr, elseE: Option<Expr>)
    | Literal(id: NodeId, value: string, kind: AtomKind)
    | Name(id: NodeId, name: string)
    | Unary(id: NodeId, operand: Expr, uop: UnOp)
    | While(id: NodeId, cond: Expr, body: Expr)
    | Where(id: NodeId, expr: Expr, defs: seq<Def>)

  /** `FunDef.Parameter`. */
  datatype Param = Param(id: NodeId, name: string, ty: TypeAst)

  /** Definitions that may appear in a `Defs` list. */
  datatype Def =
    | TypeDef(id: NodeId, name: string, ty: TypeAst)
    | FunDef(id: NodeId, name: string, params: seq<Param>, ty: TypeAst, body: Expr)
    | VarDef(id: NodeId, name: string, ty: TypeAst)

  /** What a name can be bound to: a definition or a parameter (Java's `Def`
      hierarchy, in which `Parameter` is a `Def` too). */
  datatype Decl = DefDecl(def: Def) | ParamDecl(param: Param)
  {
    function Id(): NodeId {
      match this
      case DefDecl(d) => d.id
      case ParamDecl(p) => p.id
    }

    function Name(): string {
      match this
      case DefDecl(d) => d.name
      case ParamDecl(p) => p.name
    }
  }

  /** The ids of a node and of every node below it. */
  function TypeIds(t: TypeAst): set<NodeId> {
    match t
    case AtomType(id, _) => {id}
    case ArrayType(id, _, elem) => {id} + TypeIds(elem)
    case TypeName(id, _) => {id}
  }

  function ParamIds(p: Param): set<NodeId> {
    {p.id} + TypeIds(p.ty)
  }

  function ParamsIds(params: seq<Param>): set<NodeId> {
    if params == [] then {} else ParamsIds(params[..|params| - 1]) + ParamIds(params[|params| - 1])
  }

  function ExprIds(e: Expr): set<NodeId>
    decreases e, 1
  {
    match e
    case Binary(id, left, _, right) => {id} + ExprIds(left) + ExprIds(right)
    case Block(id, es) => {id} + ExprsIds(es)
    case Call(id, args, _) => {id} + ExprsIds(args)
    case For(id, counter, low, high, step, body) =>
      {id} + ExprIds(counter) + ExprIds(low) + ExprIds(high) + ExprIds(step) + ExprIds(body)
    case IfThenElse(id, cond, thenE, elseE) =>
      {id} + ExprIds(cond) + ExprIds(thenE) + (if elseE.Some? then ExprIds(elseE.value) else {})
    case Literal(id, _, _) => {id}
    case Name(id, _) => {id}
    case Unary(id, operand, _) => {id} + ExprIds(operand)
    case While(id, cond, body) => {id} + ExprIds(cond) + ExprIds(body)
    case Where(id, expr, defs) => {id} + ExprIds(expr) + DefsIds(defs)
  }

  function ExprsIds(es: seq<Expr>): set<NodeId>
    decreases es, 0
  {
    if es == [] then {} else ExprsIds(es[..|es| - 1]) + ExprIds(es[|es| - 1])
  }

  function DefIds(d: Def): set<NodeId>
    decreases d, 1
  {
    match d
    case TypeDef(id, _, ty) => {id} + TypeIds(ty)
    case VarDef(id, _, ty) => {id} + TypeIds(ty)
    case FunDef(id, _, params, ty, body) => {id} + ParamsIds(params) + TypeIds(ty) + ExprIds(body)
  }

  function DefsIds(defs: seq<Def>): set<NodeId>
    decreases defs, 0
  {
    if defs == [] then {} else DefsIds(defs[..|defs| - 1]) + DefIds(defs[|defs| - 1])
  }
}

=== FILE: common.dfy ===
/** Failure-compatible result types shared by every phase of the compiler.
    A phase that calls `Report.error` (which aborts compilation) or that would
    throw a Java exception is modelled as returning `Err`. */
module Wrappers {

  datatype Option<+T> = None | Some(value: T)

  datatype Result<+T> = Ok(value: T) | Err(msg: string) {
    predicate IsFailure() {
      Err?
    }

    function PropagateFailure<U>(): Result<U>
      requires Err?
    {
      Err(msg)
    }

    function Extract(): T
      requires Ok?
    {
      value
    }
  }
}

/** Java `int` arithmetic: 32-bit two's complement with wrap-around,
    division truncating toward zero, and `Integer.parseInt`. */
module Int32 {
  import opened Wrappers

  const Modulus: int := 0x1_0000_0000
  const Min: int := -0x8000_0000
  const Max: int := 0x7fff_ffff

  predicate InRange(x: int) {
    Min <= x <= Max
  }

  /** The Java `int` that the mathematical integer `x` wraps to. */
  function Wrap(x: int): (r: int)
    ensures InRange(r)
    ensures InRange(x) ==> r == x
    ensures (x - r) % Modulus == 0
  {
    var k := (x - Min) % Modulus;
    assert x - (k + Min) == (x - Min) / Modulus * Modulus;
    k + Min
  }

  /** Java `a / b` for `b != 0`: the quotient truncated toward zero, wrapped
      (so that `Min / -1 == Min`). */
  function Div(a: int, b: int): (r: int)
    requires b != 0
    ensures InRange(r)
  {
    Wrap(Truncated(a, b))
  }

  /** Mathematical quotient rounded toward zero. */
  function Truncated(a: int, b: int): int
    requires b != 0
  {
    var m := Abs(a) / Abs(b);
    if (a < 0) != (b < 0) then -m else m
  }

  function Abs(x: int): nat {
    if x < 0 then -x else x
  }

  /** The unsigned 32-bit pattern of a Java int. */
  function Bits(x: int): bv32 {
    var w := Wrap(x);
    (if w < 0 then w + Modulus else w) as bv32
  }

  /** The Java int whose bit pattern is `b`. */
  function FromBits(b: bv32): (r: int)
    ensures InRange(r)
  {
    var u := b as int;
    if u > Max then u - Modulus else u
  }

  /** Java `a & b` on ints. */
  function And(a: int, b: int): int {
    FromBits(Bits(a) & Bits(b))
  }

  /** Java `a | b` on ints. */
  function Or(a: int, b: int): int {
    FromBits(Bits(a) | Bits(b))
  }

  predicate IsDigit(c: char) {
    '0' <= c <= '9'
  }

  predicate AllDigits(s: string) {
    forall i :: 0 <= i < |s| ==> IsDigit(s[i])
  }

  /** The value of a decimal digit string, most significant digit first. */
  function DigitsValue(s: string): nat
    requires AllDigits(s)
  {
    if s == [] then 0
    else DigitsValue(s[..|s| - 1]) * 10 + (s[|s| - 1] as int - '0' as int)
  }

  /** `Integer.parseInt`: an optional sign followed by at least one digit,
      within range; anything else throws `NumberFormatException`. */
  function ParseInt(s: string): (r: Option<int>)
    ensures r.Some? ==> InRange(r.value)
  {
    if |s| > 0 && (s[0] == '-' || s[0] == '+') then
      var digits := s[1..];
      if |digits| > 0 && AllDigits(digits) then
        var m: int := DigitsValue(digits);
        var v := if s[0] == '-' then 0 - m else m;
        if InRange(v) then Some(v) else None
      else None
    else if |s| > 0 && AllDigits(s) && DigitsValue(s) <= Max then Some(DigitsValue(s))
    else None
  }

  /** Decimal rendering of a natural number, without leading zeros. */
  function NatToString(n: nat): (s: string)
    ensures |s| > 0 && AllDigits(s)
    decreases n
  {
    if n < 10 then [('0' as int + n) as char]
    else NatToString(n / 10) + [('0' as int + n % 10) as char]
  }

  /** `Integer.parseInt` reads back what `NatToString` writes. */
  lemma {:induction false} ParseIntOfNatToString(n: nat)
    requires n <= Max
    ensures ParseInt(NatToString(n)) == Some(n)
  {
    DigitsValueOfNatToString(n);
  }

  lemma {:induction false} DigitsValueOfNatToString(n: nat)
    ensures DigitsValue(NatToString(n)) == n
    decreases n
  {
    var s := NatToString(n);
    if n >= 10 {
      DigitsValueOfNatToString(n / 10);
      assert s[..|s| - 1] == NatToString(n / 10);
    }
  }
}

/** ASCII case mapping (the model restricts `Character` tests to ASCII). */
module Text {

  function ToLower(c: char): char {
    if 'A' <= c <= 'Z' then (c as int - 'A' as int + 'a' as int) as char else c
  }

  function Lower(s: string): (r: string)
    ensures |r| == |s|
    ensures forall i :: 0 <= i < |s| ==> r[i] == ToLower(s[i])
  {
    if s == [] then [] else Lower(s[..|s| - 1]) + [ToLower(s[|s| - 1])]
  }

  /** `String.equalsIgnoreCase` restricted to ASCII. */
  predicate EqualsIgnoreCase(a: string, b: string) {
    Lower(a) == Lower(b)
  }

  predicate IsLetter(c: char) {
    'a' <= c <= 'z' || 'A' <= c <= 'Z'
  }

  predicate IsDigit(c: char) {
    '0' <= c <= '9'
  }
}

/** The constants of `common.Constants` that the core reads. */
module Constants {
  /** Size of a machine word in bytes. */
  const WordSize: int := 4

  const PrintIntLabel: string := "print_int"
  const PrintStrLabel: string := "print_str"
  const PrintLogLabel: string := "print_log"
  const RandIntLabel: string := "rand_int"
  const SeedLabel: string := "seed"

  /** Reserved label names of the frame and stack pointer registers; they
      start with a character no identifier can start with. */
  const FramePointerName: string := "{FP}"
  const StackPointerName: string := "{SP}"

  /** The names of the standard library (`STD_KNJIZNICA`). */
  const StdLib: set<string> := {PrintStrLabel, PrintIntLabel, PrintLogLabel, RandIntLabel, SeedLabel}
}

=== FILE: frame_evaluation.dfy ===
/** What `FrameEvaluator` computes, as functions over an explicit state.

    The evaluator walks the AST once. On entering a function definition it
    raises the static level, pushes a fresh frame builder whose first
    parameter is the static link, lays out the parameters and the body, and
    records the built frame; variables receive a global, local or parameter
    access. The state threaded through the walk is `FState`; the type table
    and the byte layout are the read-only `Env`. The class
    `FrameEvaluator.FrameEvaluator` performs the same walk in place and is
    proved equal to these functions.

    Sequences (call arguments, block elements, definitions, parameters) are
    visited first to last. */
module FrameEvaluation {
  import opened Wrappers
  import opened Ast
  import opened SemTypes
  import opened Frames
  import opened Constants

  datatype Env = Env(types: map<NodeId, Type>, layout: Layout)

  /** `staticLevel`, `builderStack` (last element on top), the `frames` and
      `accesses` side tables, and the global anonymous-label counter. */
  datatype FState = FState(
    staticLevel: int,
    builders: seq<Builder>,
    frames: map<NodeId, Frame>,
    accesses: map<NodeId, Access>,
    nextLabel: nat)

  function Top(s: FState): Builder
    requires |s.builders| > 0
  {
    s.builders[|s.builders| - 1]
  }

  /** Replace the builder on top of the stack (`pop`, modify, `push`). */
  function WithTop(s: FState, b: Builder): FState
    requires |s.builders| > 0
  {
    s.(builders := s.builders[|s.builders| - 1 := b])
  }

  // ---------------------------------------------------------------------
  // Invariants of the walk

  /** Builder `b` is `a` after more locals and calls were recorded. */
  predicate Grows(a: Builder, b: Builder) {
    b.lbl == a.lbl && b.staticLevel == a.staticLevel && b.params == a.params
    && a.locals <= b.locals && a.calls <= b.calls
  }

  /** Stack `b2` is stack `b1` after visiting an expression or a definition:
      nothing below the top changed, the top only grew, and builders may
      have been pushed above it (they are never popped). */
  predicate Extends(b1: seq<Builder>, b2: seq<Builder>) {
    |b1| <= |b2|
    && (forall i :: 0 <= i < |b1| - 1 ==> b2[i] == b1[i])
    && (|b1| > 0 ==> Grows(b1[|b1| - 1], b2[|b1| - 1]))
  }

  /** Every frame recorded between `s` and `t` that has an anonymous label
      got one allocated between the two states. */
  predicate LabelsFresh(s: FState, t: FState) {
    forall id :: id in t.frames ==>
      (id in s.frames && t.frames[id] == s.frames[id])
      || (t.frames[id].lbl.Anonymous? ==> s.nextLabel <= t.frames[id].lbl.index < t.nextLabel)
  }

  /** No two recorded frames share an anonymous label, and the counter is
      past every anonymous label in use. */
  predicate AnonymousLabelsDistinct(s: FState) {
    (forall id :: id in s.frames && s.frames[id].lbl.Anonymous? ==> s.frames[id].lbl.index < s.nextLabel)
    && (forall id1, id2 ::
          id1 in s.frames && id2 in s.frames && id1 != id2
          && s.frames[id1].lbl.Anonymous? && s.frames[id2].lbl.Anonymous?
          ==> s.frames[id1].lbl.index != s.frames[id2].lbl.index)
  }

  /** What every visit of an expression or definition preserves. */
  predicate Preserves(s: FState, t: FState) {
    t.staticLevel == s.staticLevel
    && Extends(s.builders, t.builders)
    && s.nextLabel <= t.nextLabel
    && s.frames.Keys <= t.frames.Keys
    && s.accesses.Keys <= t.accesses.Keys
    && LabelsFresh(s, t)
    && (AnonymousLabelsDistinct(s) ==> AnonymousLabelsDistinct(t))
  }

  lemma PreservesReflexive(s: FState)
    ensures Preserves(s, s)
  {
  }

  lemma PreservesTransitive(a: FState, b: FState, c: FState)
    requires Preserves(a, b) && Preserves(b, c)
    ensures Preserves(a, c)
  {
    var k := |a.builders| - 1;
    if k >= 0 && k < |b.builders| - 1 {
      assert c.builders[k] == b.builders[k];
    }
    forall id | id in c.frames
      ensures (id in a.frames && c.frames[id] == a.frames[id])
              || (c.frames[id].lbl.Anonymous? ==> a.nextLabel <= c.frames[id].lbl.index < c.nextLabel)
    {
      if !(id in b.frames && c.frames[id] == b.frames[id]) {
      } else if !(id in a.frames && b.frames[id] == a.frames[id]) {
      }
    }
  }

  /** Changing only the top builder by recording a call or a local. */
  lemma PreservesWithTop(s: FState, b: Builder)
    requires |s.builders| > 0 && Grows(Top(s), b)
    ensures Preserves(s, WithTop(s, b))
  {
  }

  // ---------------------------------------------------------------------
  // Reference sizes

  /** `sizeInBytesAsParam` of the given type, or 0 when the type checker
      recorded no type for the node. */
  function ParamSizeOf(env: Env, id: NodeId): int {
    if id in env.types then env.layout.sizeInBytesAsParam(env.types[id]) else 0
  }

  /** Total parameter size of a call's arguments (`argumentsSize` before the
      extra word). */
  function ArgsSize(env: Env, args: seq<Expr>): int {
    if args == [] then 0 else ParamSizeOf(env, args[0].id) + ArgsSize(env, args[1..])
  }

  /** Sizes passed to `addParameter` for the parameters whose type is known,
      in declaration order. */
  function ParamSizes(env: Env, ps: seq<Param>): seq<int> {
    if ps == [] then [] else ParamSize(env, ps[0]) + ParamSizes(env, ps[1..])
  }

  /** `[sizeInBytesAsParam]` of a parameter's type, or `[]` when unknown. */
  function ParamSize(env: Env, p: Param): seq<int> {
    if p.ty.id in env.types then [env.layout.sizeInBytesAsParam(env.types[p.ty.id])] else []
  }

  // ---------------------------------------------------------------------
  // The walk

  /** The shape every visit keeps: the static level is restored and the
      builder stack never shrinks. */
  predicate Nested(s: FState, t: FState) {
    t.staticLevel == s.staticLevel && |s.builders| <= |t.builders|
  }

  function EvalExpr(env: Env, s: FState, e: Expr): (r: Result<FState>)
    ensures r.Ok? ==> Nested(s, r.value)
    decreases e, 1
  {
    match e
    case Call(_, args, _) =>
      EvalCall(env, s, args)
    case Binary(_, left, _, right) =>
      var s1 :- EvalExpr(env, s, left);
      EvalExpr(env, s1, right)
    case Block(_, es) =>
      EvalExprs(env, s, es)
    case For(_, counter, low, high, step, body) =>
      var s1 :- EvalExpr(env, s, counter);
      var s2 :- EvalExpr(env, s1, low);
      var s3 :- EvalExpr(env, s2, high);
      var s4 :- EvalExpr(env, s3, step);
      EvalExpr(env, s4, body)
    case IfThenElse(_, cond, thenE, elseE) =>
      var s1 :- EvalExpr(env, s, cond);
      var s2 :- EvalExpr(env, s1, thenE);
      if elseE.Some? then EvalExpr(env, s2, elseE.value) else Ok(s2)
    case Literal(_, _, _) =>
      Ok(s)
    case Name(_, _) =>
      Ok(s)
    case Unary(_, operand, _) =>
      EvalExpr(env, s, operand)
    case While(_, cond, body) =>
      var s1 :- EvalExpr(env, s, cond);
      EvalExpr(env, s1, body)
    case Where(_, expr, defs) =>
      var s1 :- EvalExpr(env, s, expr);
      EvalDefs(env, s1, defs)
  }

  /** A call: visit the arguments, then record on the builder on top the
      sum of their parameter sizes plus one word. */
  function EvalCall(env: Env, s: FState, args: seq<Expr>): (r: Result<FState>)
    ensures r.Ok? ==> Nested(s, r.value)
    decreases args, 1
  {
    var (s1, size) :- EvalArgs(env, s, args);
    if |s1.builders| == 0 then Err("empty builder stack")
    else Ok(WithTop(s1, Top(s1).AddFunctionCall(size + WordSize)))
  }

  /** Visits the arguments of a call and sums their parameter sizes. */
  function EvalArgs(env: Env, s: FState, args: seq<Expr>): (r: Result<(FState, int)>)
    ensures r.Ok? ==> Nested(s, r.value.0) && r.value.1 == ArgsSize(env, args)
    decreases args, 0
  {
    if args == [] then Ok((s, 0))
    else
      var s1 :- EvalExpr(env, s, args[0]);
      var (s2, size) :- EvalArgs(env, s1, args[1..]);
      Ok((s2, ParamSizeOf(env, args[0].id) + size))
  }

  /** Adds `k` to the size computed alongside a successful walk. */
  function Shifted(r: Result<(FState, int)>, k: int): Result<(FState, int)> {
    if r.Ok? then Ok((r.value.0, k + r.value.1)) else r
  }

  lemma CallUnfold(env: Env, s: FState, args: seq<Expr>, s1: FState, size: int)
    requires EvalArgs(env, s, args) == Ok((s1, size)) && |s1.builders| > 0
    ensures EvalCall(env, s, args) == Ok(WithTop(s1, Top(s1).AddFunctionCall(size + WordSize)))
  {
  }

  lemma ShiftedZero(r: Result<(FState, int)>)
    ensures Shifted(r, 0) == r
  {
  }

  lemma ShiftedShifted(r: Result<(FState, int)>, a: int, b: int)
    ensures Shifted(Shifted(r, a), b) == Shifted(r, b + a)
  {
  }

  lemma ArgsUnfold(env: Env, s: FState, args: seq<Expr>)
    requires args != []
    ensures EvalArgs(env, s, args) ==
      match EvalExpr(env, s, args[0])
      case Err(m) => Err(m)
      case Ok(s1) => Shifted(EvalArgs(env, s1, args[1..]), ParamSizeOf(env, args[0].id))
  {
  }

  /** Visits the elements of a block in order. */
  function EvalExprs(env: Env, s: FState, es: seq<Expr>): (r: Result<FState>)
    ensures r.Ok? ==> Nested(s, r.value)
    decreases es, 0
  {
    if es == [] then Ok(s)
    else
      var s1 :- EvalExpr(env, s, es[0]);
      EvalExprs(env, s1, es[1..])
  }

  /** Visits a list of definitions in order. */
  function EvalDefs(env: Env, s: FState, ds: seq<Def>): (r: Result<FState>)
    ensures r.Ok? ==> Nested(s, r.value)
    decreases ds, 0
  {
    if ds == [] then Ok(s)
    else
      var s1 :- EvalDef(env, s, ds[0]);
      EvalDefs(env, s1, ds[1..])
  }

  /** The label `visit(FunDef)` gives a function entered from level `level`. */
  function FunLabel(level: int, name: string, next: nat): Label {
    if level + 1 > 1 then Anonymous(next) else Named(name)
  }

  /** The builder pushed for a function: its static link is its first
      parameter. */
  function FreshBuilder(l: Label, level: int): Builder {
    Builder(l, level, [], [], []).AddParameter(WordSize)
  }

  /** The state right after `visit(FunDef)` pushed its builder. */
  function Enter(s: FState, name: string): (r: FState)
    ensures r.staticLevel == s.staticLevel + 1 && r.frames == s.frames && r.accesses == s.accesses
    ensures |r.builders| == |s.builders| + 1 && r.builders[..|s.builders|] == s.builders
    // the new builder is one level deeper and holds only the static link
    ensures var b := r.builders[|s.builders|];
      b.staticLevel == r.staticLevel && b.params == [WordSize] && b.locals == [] && b.calls == []
    // a function entered at the outermost level is named after itself, a nested one gets a fresh label
    ensures var b := r.builders[|s.builders|];
      (s.staticLevel < 1 ==> b.lbl == Named(name) && r.nextLabel == s.nextLabel) &&
      (s.staticLevel >= 1 ==> b.lbl == Anonymous(s.nextLabel) && r.nextLabel == s.nextLabel + 1)
  {
    var l := FunLabel(s.staticLevel, name, s.nextLabel);
    s.(staticLevel := s.staticLevel + 1,
       builders := s.builders + [FreshBuilder(l, s.staticLevel + 1)],
       nextLabel := if l.Anonymous? then s.nextLabel + 1 else s.nextLabel)
  }

  function EvalDef(env: Env, s: FState, d: Def): (r: Result<FState>)
    ensures r.Ok? ==> Nested(s, r.value)
    decreases d, 1
  {
    match d
    case TypeDef(_, _, _) =>
      Ok(s)
    case VarDef(id, name, ty) =>
      if ty.id in env.types then
        var size := env.layout.sizeInBytes(env.types[ty.id]);
        if s.staticLevel > 0 then
          if |s.builders| == 0 then Err("empty builder stack")
          else
            var top := Top(s);
            var acc := Local(size, env.layout.localOffset(top.locals, size), s.staticLevel);
            var s1 := WithTop(s, top.AddLocalVariable(size));
            Ok(s1.(accesses := s1.accesses[id := acc]))
        else
          Ok(s.(accesses := s.accesses[id := Global(size, Named(name))]))
      else
        Ok(s)
    case FunDef(_, _, _, _, _) =>
      EvalFunDef(env, s, d)
  }

  /** A function definition: enter a level, push a builder holding the
      static link, visit the parameters and the body, record the frame
      built from that builder and leave the level. */
  function EvalFunDef(env: Env, s: FState, d: Def): (r: Result<FState>)
    requires d.FunDef?
    ensures r.Ok? ==> Nested(s, r.value)
    decreases d, 0
  {
    var s1 := Enter(s, d.name);
    var s2 :- EvalParams(env, s1, d.params);
    var s3 :- EvalExpr(env, s2, d.body);
    var frame := s3.builders[|s.builders|].Build();
    Ok(s3.(frames := s3.frames[d.id := frame], staticLevel := s3.staticLevel - 1))
  }

  /** Visits the parameters of a function in order. */
  function EvalParams(env: Env, s: FState, ps: seq<Param>): (r: Result<FState>)
    ensures r.Ok? ==> r.value.staticLevel == s.staticLevel && |r.value.builders| == |s.builders|
    decreases ps
  {
    if ps == [] then Ok(s)
    else
      var s1 :- EvalParam(env, s, ps[0]);
      EvalParams(env, s1, ps[1..])
  }

  function EvalParam(env: Env, s: FState, p: Param): (r: Result<FState>)
    ensures r.Ok? ==> r.value.staticLevel == s.staticLevel && |r.value.builders| == |s.builders|
  {
    if p.ty.id in env.types then
      var size := env.layout.sizeInBytesAsParam(env.types[p.ty.id]);
      if |s.builders| == 0 then Err("empty builder stack")
      else
        var top := Top(s);
        var acc := Parameter(size, env.layout.paramOffset(top.params, size), s.staticLevel);
        var s1 := WithTop(s, top.AddParameter(size));
        Ok(s1.(accesses := s1.accesses[p.id := acc]))
    else Ok(s)
  }

  // ---------------------------------------------------------------------
  // Every visit preserves `Preserves`

  /** What visiting parameters preserves: only the top builder's parameter
      list, which grows by the typed parameters' sizes, and the accesses
      change. */
  predicate ParamsPreserve(s: FState, t: FState) {
    t.staticLevel == s.staticLevel && t.nextLabel == s.nextLabel && t.frames == s.frames
    && |t.builders| == |s.builders|
    && (forall i :: 0 <= i < |s.builders| - 1 ==> t.builders[i] == s.builders[i])
    && (|s.builders| > 0 ==>
          var b, b' := Top(s), Top(t);
          b'.lbl == b.lbl && b'.staticLevel == b.staticLevel && b'.locals == b.locals && b'.calls == b.calls)
    && s.accesses.Keys <= t.accesses.Keys
  }

  lemma {:induction false} ParamsPreserved(env: Env, s: FState, ps: seq<Param>)
    requires EvalParams(env, s, ps).Ok?
    ensures ParamsPreserve(s, EvalParams(env, s, ps).value)
    ensures |s.builders| > 0 ==> Top(EvalParams(env, s, ps).value).params == Top(s).params + ParamSizes(env, ps)
    decreases ps
  {
    if ps != [] {
      var s1 := EvalParam(env, s, ps[0]).value;
      ParamsPreserved(env, s1, ps[1..]);
      var t := EvalParams(env, s, ps).value;
      forall i | 0 <= i < |s.builders| - 1
        ensures t.builders[i] == s.builders[i]
      {
        assert s1.builders[i] == s.builders[i];
      }
    }
  }

  lemma {:induction false} ExprPreserved(env: Env, s: FState, e: Expr)
    requires EvalExpr(env, s, e).Ok?
    ensures Preserves(s, EvalExpr(env, s, e).value)
    decreases e, 1
  {
    var t := EvalExpr(env, s, e).value;
    match e
    case Call(_, args, _) =>
      CallPreserved(env, s, args);
    case Binary(_, left, _, right) =>
      var s1 := EvalExpr(env, s, left).value;
      ExprPreserved(env, s, left);
      ExprPreserved(env, s1, right);
      PreservesTransitive(s, s1, t);
    case Block(_, es) =>
      ExprsPreserved(env, s, es);
    case For(_, counter, low, high, step, body) =>
      var s1 := EvalExpr(env, s, counter).value;
      var s2 := EvalExpr(env, s1, low).value;
      var s3 := EvalExpr(env, s2, high).value;
      var s4 := EvalExpr(env, s3, step).value;
      ExprPreserved(env, s, counter);
      ExprPreserved(env, s1, low);
      ExprPreserved(env, s2, high);
      ExprPreserved(env, s3, step);
      ExprPreserved(env, s4, body);
      PreservesTransitive(s, s1, s2);
      PreservesTransitive(s, s2, s3);
      PreservesTransitive(s, s3, s4);
      PreservesTransitive(s, s4, t);
    case IfThenElse(_, cond, thenE, elseE) =>
      var s1 := EvalExpr(env, s, cond).value;
      var s2 := EvalExpr(env, s1, thenE).value;
      ExprPreserved(env, s, cond);
      ExprPreserved(env, s1, thenE);
      PreservesTransitive(s, s1, s2);
      if elseE.Some? {
        ExprPreserved(env, s2, elseE.value);
        PreservesTransitive(s, s2, t);
      }
    case Literal(_, _, _) =>
      PreservesReflexive(s);
    case Name(_, _) =>
      PreservesReflexive(s);
    case Unary(_, operand, _) =>
      ExprPreserved(env, s, operand);
    case While(_, cond, body) =>
      var s1 := EvalExpr(env, s, cond).value;
      ExprPreserved(env, s, cond);
      ExprPreserved(env, s1, body);
      PreservesTransitive(s, s1, t);
    case Where(_, expr, defs) =>
      var s1 := EvalExpr(env, s, expr).value;
      ExprPreserved(env, s, expr);
      DefsPreserved(env, s1, defs);
      PreservesTransitive(s, s1, t);
  }

  lemma {:induction false} CallPreserved(env: Env, s: FState, args: seq<Expr>)
    requires EvalCall(env, s, args).Ok?
    ensures Preserves(s, EvalCall(env, s, args).value)
    decreases args, 1
  {
    var s1 := EvalArgs(env, s, args).value.0;
    ArgsPreserved(env, s, args);
    var b := Top(s1).AddFunctionCall(EvalArgs(env, s, args).value.1 + WordSize);
    PreservesWithTop(s1, b);
    PreservesTransitive(s, s1, WithTop(s1, b));
  }

  lemma {:induction false} ArgsPreserved(env: Env, s: FState, args: seq<Expr>)
    requires EvalArgs(env, s, args).Ok?
    ensures Preserves(s, EvalArgs(env, s, args).value.0)
    decreases args, 0
  {
    if args == [] {
      PreservesReflexive(s);
    } else {
      var s1 := EvalExpr(env, s, args[0]).value;
      ExprPreserved(env, s, args[0]);
      ArgsPreserved(env, s1, args[1..]);
      PreservesTransitive(s, s1, EvalArgs(env, s, args).value.0);
    }
  }

  lemma {:induction false} ExprsPreserved(env: Env, s: FState, es: seq<Expr>)
    requires EvalExprs(env, s, es).Ok?
    ensures Preserves(s, EvalExprs(env, s, es).value)
    decreases es, 0
  {
    if es == [] {
      PreservesReflexive(s);
    } else {
      var s1 := EvalExpr(env, s, es[0]).value;
      ExprPreserved(env, s, es[0]);
      ExprsPreserved(env, s1, es[1..]);
      PreservesTransitive(s, s1, EvalExprs(env, s, es).value);
    }
  }

  lemma {:induction false} DefsPreserved(env: Env, s: FState, ds: seq<Def>)
    requires EvalDefs(env, s, ds).Ok?
    ensures Preserves(s, EvalDefs(env, s, ds).value)
    decreases ds, 0
  {
    if ds == [] {
      PreservesReflexive(s);
    } else {
      var s1 := EvalDef(env, s, ds[0]).value;
      DefPreserved(env, s, ds[0]);
      DefsPreserved(env, s1, ds[1..]);
      PreservesTransitive(s, s1, EvalDefs(env, s, ds).value);
    }
  }

  lemma {:induction false} DefPreserved(env: Env, s: FState, d: Def)
    requires EvalDef(env, s, d).Ok?
    ensures Preserves(s, EvalDef(env, s, d).value)
    decreases d, 1
  {
    match d
    case TypeDef(_, _, _) =>
      PreservesReflexive(s);
    case VarDef(id, name, ty) =>
      if ty.id in env.types && s.staticLevel > 0 {
        var size := env.layout.sizeInBytes(env.types[ty.id]);
        PreservesWithTop(s, Top(s).AddLocalVariable(size));
      }
    case FunDef(_, _, _, _, _) =>
      FunDefPreserved(env, s, d);
  }

  /** The frame recorded for a function gets the label allocated on entry,
      so the anonymous labels stay distinct. */
  lemma {:induction false} FunDefPreserved(env: Env, s: FState, d: Def)
    requires d.FunDef? && EvalFunDef(env, s, d).Ok?
    ensures Preserves(s, EvalFunDef(env, s, d).value)
    decreases d, 0
  {
    var s1 := Enter(s, d.name);
    var s2 := EvalParams(env, s1, d.params).value;
    var s3 := EvalExpr(env, s2, d.body).value;
    var t := EvalFunDef(env, s, d).value;
    ParamsPreserved(env, s1, d.params);
    ExprPreserved(env, s2, d.body);
    var k := |s.builders|;
    var id := d.id;
    assert s2.builders[k].lbl == s1.builders[k].lbl;
    assert s3.builders[k].lbl == s2.builders[k].lbl;
    if k > 0 {
      assert s1.builders[k - 1] == s.builders[k - 1];
      assert s3.builders[k - 1] == s2.builders[k - 1];
    }
    forall i | 0 <= i < k - 1
      ensures t.builders[i] == s.builders[i]
    {
      assert s1.builders[i] == s.builders[i];
    }
    forall fid | fid in t.frames
      ensures (fid in s.frames && t.frames[fid] == s.frames[fid])
              || (t.frames[fid].lbl.Anonymous? ==> s.nextLabel <= t.frames[fid].lbl.index < t.nextLabel)
    {
    }
    if AnonymousLabelsDistinct(s) {
      assert AnonymousLabelsDistinct(s1);
      assert AnonymousLabelsDistinct(s2);
      assert AnonymousLabelsDistinct(s3);
      forall id1, id2 |
          id1 in t.frames && id2 in t.frames && id1 != id2
          && t.frames[id1].lbl.Anonymous? && t.frames[id2].lbl.Anonymous?
        ensures t.frames[id1].lbl.index != t.frames[id2].lbl.index
      {
        if id1 == id {
          assert id2 in s3.frames;
        } else if id2 == id {
          assert id1 in s3.frames;
        }
      }
    }
  }

  // ---------------------------------------------------------------------
  // Properties of the walk

  /** A function definition records a frame for itself: named after the
      function at the outermost level and anonymous when nested, one static
      level deeper than its context, with the static link as its first
      parameter followed by the typed parameters in declaration order. Its
      builder is left on the stack, just above the enclosing builders. */
  lemma {:induction false} FunDefFrame(env: Env, s: FState, d: Def, t: FState)
    requires d.FunDef? && EvalDef(env, s, d) == Ok(t)
    ensures d.id in t.frames
    ensures t.frames[d.id].lbl == FunLabel(s.staticLevel, d.name, s.nextLabel)
    ensures t.frames[d.id].staticLevel == s.staticLevel + 1
    ensures t.frames[d.id].params == [WordSize] + ParamSizes(env, d.params)
    ensures |t.builders| > |s.builders| && t.builders[|s.builders|].Build() == t.frames[d.id]
    ensures t.builders[..|s.builders|] == s.builders
  {
    var k := |s.builders|;
    var s1 := Enter(s, d.name);
    var s2 := EvalParams(env, s1, d.params).value;
    var s3 := EvalExpr(env, s2, d.body).value;
    ParamsPreserved(env, s1, d.params);
    ExprPreserved(env, s2, d.body);
    assert Top(s1).params == [WordSize];
    assert Grows(s2.builders[k], s3.builders[k]);
    assert t.builders == s3.builders;
    forall i | 0 <= i < k
      ensures t.builders[i] == s.builders[i]
    {
      assert s1.builders[i] == s.builders[i];
      assert s2.builders[i] == s1.builders[i];
      assert s3.builders[i] == s2.builders[i];
    }
  }

  /** `EvalParam` writes only the access of its own parameter. */
  lemma {:induction false} ParamsKeepOtherAccesses(env: Env, s: FState, ps: seq<Param>, t: FState, id: NodeId)
    requires EvalParams(env, s, ps) == Ok(t)
    requires id in s.accesses && forall i :: 0 <= i < |ps| ==> ps[i].id != id
    ensures id in t.accesses && t.accesses[id] == s.accesses[id]
    decreases ps
  {
    if ps != [] {
      var s1 := EvalParam(env, s, ps[0]).value;
      assert ps[0].id != id;
      ParamsKeepOtherAccesses(env, s1, ps[1..], t, id);
    }
  }

  /** The access `visit(Parameter)` creates for a typed parameter after
      parameters of sizes `params` on the top builder. */
  function ParamAccess(env: Env, level: int, params: seq<int>, p: Param): Access
    requires p.ty.id in env.types
  {
    var size := env.layout.sizeInBytesAsParam(env.types[p.ty.id]);
    Parameter(size, env.layout.paramOffset(params, size), level)
  }

  lemma ParamStep(env: Env, s: FState, p: Param, s1: FState)
    requires |s.builders| > 0 && EvalParam(env, s, p) == Ok(s1)
    ensures s1.staticLevel == s.staticLevel && |s1.builders| == |s.builders|
    ensures Top(s1).params == Top(s).params + ParamSize(env, p)
    ensures p.ty.id in env.types ==> s1.accesses == s.accesses[p.id := ParamAccess(env, s.staticLevel, Top(s).params, p)]
    ensures p.ty.id !in env.types ==> s1.accesses == s.accesses
  {
  }

  /** Parameters are laid out in declaration order: each typed parameter
      gets the offset `addParameter` returns after the parameters before it
      (the static link first), at the level of the function. */
  lemma {:induction false} ParamAccesses(env: Env, s: FState, ps: seq<Param>, t: FState)
    requires |s.builders| > 0 && EvalParams(env, s, ps) == Ok(t)
    requires forall i, j :: 0 <= i < j < |ps| ==> ps[i].id != ps[j].id
    ensures forall j :: 0 <= j < |ps| && ps[j].ty.id in env.types ==>
      ps[j].id in t.accesses
      && t.accesses[ps[j].id] == ParamAccess(env, s.staticLevel, Top(s).params + ParamSizes(env, ps[..j]), ps[j])
    decreases ps
  {
    if ps != [] {
      var s1 := EvalParam(env, s, ps[0]).value;
      ParamStep(env, s, ps[0], s1);
      var rest := ps[1..];
      ParamAccesses(env, s1, rest, t);
      forall j | 0 <= j < |ps| && ps[j].ty.id in env.types
        ensures ps[j].id in t.accesses
          && t.accesses[ps[j].id] == ParamAccess(env, s.staticLevel, Top(s).params + ParamSizes(env, ps[..j]), ps[j])
      {
        if j == 0 {
          assert ps[..0] == [];
          assert Top(s).params + ParamSizes(env, ps[..0]) == Top(s).params;
          ParamsKeepOtherAccesses(env, s1, rest, t, ps[0].id);
        } else {
          PrefixTail(ps, j);
          assert rest[j - 1] == ps[j];
          assert ps[..j][0] == ps[0];
          assert ParamSizes(env, ps[..j]) == ParamSize(env, ps[0]) + ParamSizes(env, rest[..j - 1]);
          assert t.accesses[rest[j - 1].id] == ParamAccess(env, s1.staticLevel, Top(s1).params + ParamSizes(env, rest[..j - 1]), rest[j - 1]);
          assert Top(s1).params + ParamSizes(env, rest[..j - 1]) == Top(s).params + ParamSizes(env, ps[..j]);
        }
      }
    }
  }

  lemma PrefixTail<T>(xs: seq<T>, j: int)
    requires 0 < j <= |xs|
    ensures xs[..j][1..] == xs[1..][..j - 1]
  {
  }

  /** The sizes before the `j`-th definition are the first one's size and
      then the sizes before it in the rest of the run. */
  lemma LocalSizesTail(env: Env, ds: seq<Def>, j: int)
    requires forall i :: 0 <= i < |ds| ==> ds[i].VarDef? && ds[i].ty.id in env.types
    requires 0 < j < |ds|
    ensures LocalSizes(env, ds[..j]) == [env.layout.sizeInBytes(env.types[ds[0].ty.id])] + LocalSizes(env, ds[1..][..j - 1])
  {
    PrefixTail(ds, j);
    assert ds[..j][0] == ds[0];
  }

  /** Sizes of a run of typed variable definitions. */
  function LocalSizes(env: Env, ds: seq<Def>): seq<int>
    requires forall i :: 0 <= i < |ds| ==> ds[i].VarDef? && ds[i].ty.id in env.types
  {
    if ds == [] then [] else [env.layout.sizeInBytes(env.types[ds[0].ty.id])] + LocalSizes(env, ds[1..])
  }

  /** The access `visit(VarDef)` creates for a typed variable at `level`,
      after locals of sizes `locals` on the top builder. */
  function VarAccess(env: Env, level: int, locals: seq<int>, d: Def): Access
    requires d.VarDef? && d.ty.id in env.types
  {
    var size := env.layout.sizeInBytes(env.types[d.ty.id]);
    if level > 0 then Local(size, env.layout.localOffset(locals, size), level) else Global(size, Named(d.name))
  }

  function TopLocals(s: FState): seq<int> {
    if |s.builders| > 0 then Top(s).locals else []
  }

  lemma VarDefStep(env: Env, s: FState, d: Def, s1: FState)
    requires d.VarDef? && d.ty.id in env.types && EvalDef(env, s, d) == Ok(s1)
    ensures s1.staticLevel == s.staticLevel && |s1.builders| == |s.builders|
    ensures s1.accesses == s.accesses[d.id := VarAccess(env, s.staticLevel, TopLocals(s), d)]
    ensures s.staticLevel > 0 ==> TopLocals(s1) == TopLocals(s) + [env.layout.sizeInBytes(env.types[d.ty.id])]
  {
  }

  /** A run of typed variable definitions is laid out in order: inside a
      function the top builder records their sizes as locals and each
      variable gets the offset `addLocalVariable` returns after the locals
      before it; outside every function each one is a global labelled by
      its name. */
  lemma {:induction false} VarDefAccesses(env: Env, s: FState, ds: seq<Def>, t: FState)
    requires forall i :: 0 <= i < |ds| ==> ds[i].VarDef? && ds[i].ty.id in env.types
    requires forall i, j :: 0 <= i < j < |ds| ==> ds[i].id != ds[j].id
    requires EvalDefs(env, s, ds) == Ok(t)
    ensures forall j :: 0 <= j < |ds| ==>
      ds[j].id in t.accesses
      && t.accesses[ds[j].id] == VarAccess(env, s.staticLevel, TopLocals(s) + LocalSizes(env, ds[..j]), ds[j])
    decreases ds
  {
    if ds != [] {
      var s1 := DefsStep(env, s, ds, t);
      VarDefStep(env, s, ds[0], s1);
      VarDefAccesses(env, s1, ds[1..], t);
      VarDefLocals(env, s1, ds[1..], t);
      forall j | 0 <= j < |ds|
        ensures ds[j].id in t.accesses
          && t.accesses[ds[j].id] == VarAccess(env, s.staticLevel, TopLocals(s) + LocalSizes(env, ds[..j]), ds[j])
      {
        if j == 0 {
          assert ds[..0] == [];
          assert TopLocals(s) + LocalSizes(env, ds[..0]) == TopLocals(s);
          DefsKeepOtherAccesses(env, s1, ds[1..], t, ds[0].id);
        } else {
          assert ds[1..][j - 1] == ds[j];
          LaterVarAccess(env, s, ds, s1, t, j);
        }
      }
    }
  }

  /** The step of `VarDefAccesses` for a variable after the first: its
      access, laid out after the rest's earlier locals from the state after
      the first, is the one laid out after all earlier locals. */
  lemma LaterVarAccess(env: Env, s: FState, ds: seq<Def>, s1: FState, t: FState, j: int)
    requires forall i :: 0 <= i < |ds| ==> ds[i].VarDef? && ds[i].ty.id in env.types
    requires 0 < j < |ds| && s1.staticLevel == s.staticLevel
    requires s.staticLevel > 0 ==> TopLocals(s1) == TopLocals(s) + [env.layout.sizeInBytes(env.types[ds[0].ty.id])]
    requires ds[j].id in t.accesses
    requires t.accesses[ds[j].id] == VarAccess(env, s1.staticLevel, TopLocals(s1) + LocalSizes(env, ds[1..][..j - 1]), ds[j])
    ensures t.accesses[ds[j].id] == VarAccess(env, s.staticLevel, TopLocals(s) + LocalSizes(env, ds[..j]), ds[j])
  {
    LocalSizesTail(env, ds, j);
    if s.staticLevel > 0 {
      assert TopLocals(s1) + LocalSizes(env, ds[1..][..j - 1]) == TopLocals(s) + LocalSizes(env, ds[..j]);
    }
  }

  /** Inside a function, a run of typed variable definitions records their
      sizes as locals of the top builder, in order. */
  lemma {:induction false} VarDefLocals(env: Env, s: FState, ds: seq<Def>, t: FState)
    requires forall i :: 0 <= i < |ds| ==> ds[i].VarDef? && ds[i].ty.id in env.types
    requires EvalDefs(env, s, ds) == Ok(t)
    ensures t.staticLevel == s.staticLevel
    ensures s.staticLevel > 0 ==> TopLocals(t) == TopLocals(s) + LocalSizes(env, ds)
    decreases ds
  {
    if ds != [] {
      var s1 := DefsStep(env, s, ds, t);
      VarDefStep(env, s, ds[0], s1);
      VarDefLocals(env, s1, ds[1..], t);
    }
  }

  /** The state between the first definition of a list and the rest. */
  lemma DefsStep(env: Env, s: FState, ds: seq<Def>, t: FState) returns (s1: FState)
    requires ds != [] && EvalDefs(env, s, ds) == Ok(t)
    ensures EvalDef(env, s, ds[0]) == Ok(s1) && EvalDefs(env, s1, ds[1..]) == Ok(t)
  {
    s1 := EvalDef(env, s, ds[0]).value;
  }

  lemma {:induction false} DefsKeepOtherAccesses(env: Env, s: FState, ds: seq<Def>, t: FState, id: NodeId)
    requires forall i :: 0 <= i < |ds| ==> ds[i].VarDef? && ds[i].id != id
    requires EvalDefs(env, s, ds) == Ok(t)
    requires id in s.accesses
    ensures id in t.accesses && t.accesses[id] == s.accesses[id]
    decreases ds
  {
    if ds != [] {
      var s1 := DefsStep(env, s, ds, t);
      DefsKeepOtherAccesses(env, s1, ds[1..], t, id);
    }
  }

  /** A call records its outgoing footprint on the builder on top of the
      stack: the parameter sizes of its typed arguments plus one word. */
  lemma CallFootprint(env: Env, s: FState, e: Expr, t: FState)
    requires e.Call? && EvalExpr(env, s, e) == Ok(t)
    ensures |t.builders| > 0 && |Top(t).calls| > 0
    ensures Top(t).calls[|Top(t).calls| - 1] == ArgsSize(env, e.args) + WordSize
  {
  }

  /** The builder of a function is never popped, so a variable defined in
      the same `where` after a nested function is laid out on the nested
      function's builder: the enclosing function's builder gains no local,
      although the variable's access carries the enclosing level. */
  lemma {:induction false} LocalAfterNestedFunction(env: Env, s: FState, g: Def, s1: FState, z: Def, t: FState)
    requires g.FunDef? && z.VarDef? && z.ty.id in env.types
    requires s.staticLevel > 0 && |s.builders| > 0
    requires EvalDef(env, s, g) == Ok(s1) && EvalDef(env, s1, z) == Ok(t)
    ensures t.builders[|s.builders| - 1] == Top(s)
    ensures z.id in t.accesses && t.accesses[z.id].Local? && t.accesses[z.id].staticLevel == s.staticLevel
  {
    FunDefFrame(env, s, g, s1);
    var k := |s.builders|;
    assert s1.builders[k - 1] == s.builders[k - 1];
  }

  /** Walking a whole program from the initial state (level 0, no builders,
      empty tables) gives every nested function its own anonymous label:
      no two frames share one, so no two code chunks do. */
  lemma ProgramAnonymousLabelsDistinct(env: Env, ds: seq<Def>, next: nat, t: FState)
    requires EvalDefs(env, FState(0, [], map[], map[], next), ds) == Ok(t)
    ensures AnonymousLabelsDistinct(t)
    ensures t.staticLevel == 0 && t.nextLabel >= next
  {
    DefsPreserved(env, FState(0, [], map[], map[], next), ds);
  }
}

=== FILE: frame_evaluator.dfy ===
/** `FrameEvaluator` itself: the visitor that lays out activation records,
    updating its fields in place. Every visit method is proved to leave the
    fields exactly as the corresponding function of `FrameEvaluation`
    computes, so the properties proved there hold of the class. A method
    returns `false` where the Java code would abort (an empty builder
    stack). */
module FrameEvaluatorClass {
  import opened Wrappers
  import opened Ast
  import opened SemTypes
  import opened Frames
  import opened Constants
  import opened FrameEvaluation

  class FrameEvaluator {
    /** Output side tables: frames of function definitions and accesses of
        variables and parameters. */
    var frames: map<NodeId, Frame>
    var accesses: map<NodeId, Access>
    /** Input side table from the type checker. */
    const types: map<NodeId, Type>
    const layout: Layout
    var staticLevel: int
    /** `builderStack`, top at the end. */
    var builderStack: seq<Builder>
    /** The counter behind `Frame.Label.nextAnonymous()`. */
    var nextLabel: nat

    function State(): FState
      reads this
    {
      FState(staticLevel, builderStack, frames, accesses, nextLabel)
    }

    function Environment(): Env {
      Env(types, layout)
    }

    constructor(types: map<NodeId, Type>, layout: Layout, nextLabel: nat)
      ensures this.types == types
      ensures State() == FState(0, [], map[], map[], nextLabel)
    {
      this.types := types;
      this.layout := layout;
      this.frames := map[];
      this.accesses := map[];
      this.staticLevel := 0;
      this.builderStack := [];
      this.nextLabel := nextLabel;
    }

    method VisitExpr(e: Expr) returns (ok: bool)
      modifies this
      ensures var r := EvalExpr(Environment(), old(State()), e); ok == r.Ok? && (ok ==> State() == r.value)
      decreases e, 1
    {
      match e
      case Call(_, args, _) =>
        ok := VisitCall(args);
      case Binary(_, left, _, right) =>
        ok := VisitExpr(left);
        if ok {
          ok := VisitExpr(right);
        }
      case Block(_, es) =>
        ok := VisitExprs(es);
      case For(_, counter, low, high, step, body) =>
        ok := VisitExpr(counter);
        if !ok { return; }
        ok := VisitExpr(low);
        if !ok { return; }
        ok := VisitExpr(high);
        if !ok { return; }
        ok := VisitExpr(step);
        if !ok { return; }
        ok := VisitExpr(body);
      case IfThenElse(_, cond, thenE, elseE) =>
        ok := VisitExpr(cond);
        if !ok { return; }
        ok := VisitExpr(thenE);
        if ok && elseE.Some? {
          ok := VisitExpr(elseE.value);
        }
      case Literal(_, _, _) =>
        ok := true;
      case Name(_, _) =>
        ok := true;
      case Unary(_, operand, _) =>
        ok := VisitExpr(operand);
      case While(_, cond, body) =>
        ok := VisitExpr(cond);
        if ok {
          ok := VisitExpr(body);
        }
      case Where(_, expr, defs) =>
        ok := VisitExpr(expr);
        if ok {
          ok := VisitDefs(defs);
        }
    }

    /** `visit(Call)`: visit the arguments summing their parameter sizes,
        then record the call, plus one word, on the builder on top. */
    method VisitCall(args: seq<Expr>) returns (ok: bool)
      modifies this
      ensures var r := EvalCall(Environment(), old(State()), args); ok == r.Ok? && (ok ==> State() == r.value)
      decreases args, 1
    {
      ghost var s0 := State();
      var argumentsSize;
      ok, argumentsSize := VisitArgs(args);
      if !ok {
        return;
      }
      if |builderStack| == 0 {
        return false;
      }
      ghost var s1 := State();
      CallUnfold(Environment(), s0, args, s1, argumentsSize);
      var builder := builderStack[|builderStack| - 1];
      builderStack := builderStack[..|builderStack| - 1];
      argumentsSize := argumentsSize + WordSize;
      builder := builder.AddFunctionCall(argumentsSize);
      builderStack := builderStack + [builder];
      assert builderStack == s1.builders[|s1.builders| - 1 := builder];
    }

    /** The argument loop of `visit(Call)`. */
    method VisitArgs(args: seq<Expr>) returns (ok: bool, argumentsSize: int)
      modifies this
      ensures var r := EvalArgs(Environment(), old(State()), args); ok == r.Ok? && (ok ==> (State(), argumentsSize) == r.value)
      decreases args, 0
    {
      ghost var s0 := State();
      argumentsSize := 0;
      ok := true;
      assert args[0..] == args;
      ShiftedZero(EvalArgs(Environment(), s0, args));
      for i := 0 to |args|
        invariant EvalArgs(Environment(), s0, args) == Shifted(EvalArgs(Environment(), State(), args[i..]), argumentsSize)
      {
        ghost var si := State();
        ghost var acc := argumentsSize;
        assert args[i..][0] == args[i] && args[i..][1..] == args[i + 1..];
        ArgsUnfold(Environment(), si, args[i..]);
        ok := VisitExpr(args[i]);
        if !ok {
          return;
        }
        if args[i].id in types {
          argumentsSize := argumentsSize + layout.sizeInBytesAsParam(types[args[i].id]);
        }
        ShiftedShifted(EvalArgs(Environment(), State(), args[i + 1..]), ParamSizeOf(Environment(), args[i].id), acc);
      }
      assert args[|args|..] == [];
    }

    /** `visit(Block)`: the elements in order. */
    method VisitExprs(es: seq<Expr>) returns (ok: bool)
      modifies this
      ensures var r := EvalExprs(Environment(), old(State()), es); ok == r.Ok? && (ok ==> State() == r.value)
      decreases es, 0
    {
      ghost var s0 := State();
      ok := true;
      for i := 0 to |es|
        invariant EvalExprs(Environment(), s0, es) == EvalExprs(Environment(), State(), es[i..])
      {
        assert es[i..][0] == es[i] && es[i..][1..] == es[i + 1..];
        ok := VisitExpr(es[i]);
        if !ok {
          return;
        }
      }
    }

    /** `visit(Defs)`: the definitions in order. */
    method VisitDefs(ds: seq<Def>) returns (ok: bool)
      modifies this
      ensures var r := EvalDefs(Environment(), old(State()), ds); ok == r.Ok? && (ok ==> State() == r.value)
      decreases ds, 0
    {
      ghost var s0 := State();
      ok := true;
      for i := 0 to |ds|
        invariant EvalDefs(Environment(), s0, ds) == EvalDefs(Environment(), State(), ds[i..])
      {
        assert ds[i..][0] == ds[i] && ds[i..][1..] == ds[i + 1..];
        ok := VisitDef(ds[i]);
        if !ok {
          return;
        }
      }
    }

    method VisitDef(d: Def) returns (ok: bool)
      modifies this
      ensures var r := EvalDef(Environment(), old(State()), d); ok == r.Ok? && (ok ==> State() == r.value)
      decreases d, 1
    {
      match d
      case TypeDef(_, _, _) =>
        ok := true;
      case VarDef(_, _, _) =>
        ok := VisitVarDef(d);
      case FunDef(_, _, _, _, _) =>
        ok := VisitFunDef(d);
    }

    /** `visit(FunDef)`: enter a level, push a builder with the static link,
        lay out the parameters and the body, record the built frame and
        leave the level. The builder stays on the stack. */
    method VisitFunDef(d: Def) returns (ok: bool)
      requires d.FunDef?
      modifies this
      ensures var r := EvalFunDef(Environment(), old(State()), d); ok == r.Ok? && (ok ==> State() == r.value)
      decreases d, 0
    {
      ghost var s0 := State();
      staticLevel := staticLevel + 1;
      var funLabel: Label;
      if staticLevel > 1 {
        funLabel := Anonymous(nextLabel);
        nextLabel := nextLabel + 1;
      } else {
        funLabel := Named(d.name);
      }
      var klicniZapis := Builder(funLabel, staticLevel, [], [], []);
      klicniZapis := klicniZapis.AddParameter(WordSize);
      builderStack := builderStack + [klicniZapis];
      // The pushed builder keeps this index: nothing is ever popped for good.
      var k := |builderStack| - 1;
      assert State() == Enter(s0, d.name);
      ghost var s1 := State();
      for i := 0 to |d.params|
        invariant EvalParams(Environment(), s1, d.params) == EvalParams(Environment(), State(), d.params[i..])
      {
        assert d.params[i..][0] == d.params[i] && d.params[i..][1..] == d.params[i + 1..];
        ok := VisitParameter(d.params[i]);
        if !ok {
          return;
        }
      }
      assert d.params[|d.params|..] == [];
      ok := VisitExpr(d.body);
      if !ok {
        return;
      }
      var f := builderStack[k].Build();
      frames := frames[d.id := f];
      staticLevel := staticLevel - 1;
    }

    /** `visit(VarDef)`: a typed variable becomes a local of the builder on
        top inside a function, and a global labelled by its name outside. */
    method VisitVarDef(d: Def) returns (ok: bool)
      requires d.VarDef?
      modifies this
      ensures var r := EvalDef(Environment(), old(State()), d); ok == r.Ok? && (ok ==> State() == r.value)
    {
      ok := true;
      if d.ty.id in types {
        var size := layout.sizeInBytes(types[d.ty.id]);
        var acc: Access;
        if staticLevel > 0 {
          if |builderStack| == 0 {
            return false;
          }
          var builder := builderStack[|builderStack| - 1];
          builderStack := builderStack[..|builderStack| - 1];
          acc := Local(size, layout.localOffset(builder.locals, size), staticLevel);
          builder := builder.AddLocalVariable(size);
          builderStack := builderStack + [builder];
        } else {
          acc := Global(size, Named(d.name));
        }
        accesses := accesses[d.id := acc];
      }
    }

    /** `visit(Parameter)`: a typed parameter is added to the builder on top
        and gets the offset it was added at. */
    method VisitParameter(p: Param) returns (ok: bool)
      modifies this
      ensures var r := EvalParam(Environment(), old(State()), p); ok == r.Ok? && (ok ==> State() == r.value)
    {
      ok := true;
      if p.ty.id in types {
        var size := layout.sizeInBytesAsParam(types[p.ty.id]);
        if |builderStack| == 0 {
          return false;
        }
        var builder := builderStack[|builderStack| - 1];
        builderStack := builderStack[..|builderStack| - 1];
        var acc := Parameter(size, layout.paramOffset(builder.params, size), staticLevel);
        builder := builder.AddParameter(size);
        accesses := accesses[p.id := acc];
        builderStack := builderStack + [builder];
      }
    }
  }
}

=== FILE: frames.dfy ===
/** Activation records (`compiler.frm`): labels, frame builders, frames and
    variable accesses.

    `Frame.java`, `Access.java` and `Type.sizeInBytes` are not part of this
    model: the byte arithmetic they perform (type sizes, the offset returned
    by `addParameter` / `addLocalVariable`, the total frame size and the
    offset of the saved frame pointer) is a `Layout` of total functions that
    every lemma quantifies over. */
module Frames {
  import opened SemTypes
  import opened Constants
  import Int32

  /** `Frame.Label`: `named(name)` or the `n`-th `nextAnonymous()` label. */
  datatype Label = Named(name: string) | Anonymous(index: nat)
  {
    /** The textual name of the label; anonymous labels are `L0`, `L1`, … */
    function Text(): string {
      match this
      case Named(n) => n
      case Anonymous(i) => "L" + Int32.NatToString(i)
    }
  }

  /** The reserved labels of the frame-pointer and stack-pointer registers. */
  const FPLabel: Label := Named(FramePointerName)
  const SPLabel: Label := Named(StackPointerName)

  /** `Frame.Builder`: a record being assembled. `params`, `locals` and
      `calls` are the sizes passed to `addParameter`, `addLocalVariable`
      and `addFunctionCall`, in call order. */
  datatype Builder = Builder(lbl: Label, staticLevel: int, params: seq<int>, locals: seq<int>, calls: seq<int>)
  {
    function AddParameter(size: int): Builder {
      this.(params := params + [size])
    }

    function AddLocalVariable(size: int): Builder {
      this.(locals := locals + [size])
    }

    function AddFunctionCall(size: int): Builder {
      this.(calls := calls + [size])
    }

    /** `build()`: the frame records what was added to the builder. */
    function Build(): Frame {
      Frame(lbl, staticLevel, params, locals, calls)
    }
  }

  /** A finished activation record. */
  datatype Frame = Frame(lbl: Label, staticLevel: int, params: seq<int>, locals: seq<int>, calls: seq<int>)

  /** `Access`: where a variable or parameter lives. */
  datatype Access =
    | Global(size: int, lbl: Label)
    | Local(size: int, offset: int, staticLevel: int)
    | Parameter(size: int, offset: int, staticLevel: int)

  /** The byte arithmetic of types and frames. `paramOffset(sizes, s)` is the
      offset `addParameter(s)` returns after parameters of sizes `sizes`;
      `localOffset` likewise for `addLocalVariable`. */
  datatype Layout = Layout(
    sizeInBytes: Type -> int,
    sizeInBytesAsParam: Type -> int,
    paramOffset: (seq<int>, int) -> int,
    localOffset: (seq<int>, int) -> int,
    frameSize: Frame -> int,
    oldFPOffset: Frame -> int)
}

=== FILE: interpretation.dfy ===
/** What `Interpreter` computes, as functions over an explicit machine state.

    The interpreter runs linearised code: a chunk's code must be one
    `SeqStmt` whose statements are executed by a program counter; a
    statement that yields a label makes execution resume just after the
    first `LabelStmt` with that label. Memory is word-addressed, FP and SP
    are registers, and every user call gets a fresh map of temporaries.

    `Memory` is not part of this model: its cells are a map from addresses
    to values plus a map from labels to addresses, and loading an address
    or a label that was never stored is taken to throw. `java.util.Random`
    is an oracle, a function of the seed and of how many numbers were drawn
    since seeding. The Java interpreter may run forever; here every
    executed statement and every call costs one unit of `fuel`, and running
    out is an error of its own.

    The print intrinsics write to the output stream at once, so a run that
    throws has still printed what it printed before: a failed run is an
    `Outcome` that carries the output produced up to the failure. */
module Interpretation {
  import opened Wrappers
  import opened Frames
  import opened Constants
  import opened IR
  import Int32

  /** `Object` values the interpreter handles: Java `Integer`s, code
      chunks, strings and `null`. */
  datatype Value = Int(i: int) | Code(frame: Frame, code: IRStmt) | Str(s: string) | Null

  /** `Memory`: its size, its cells, and the addresses of labels. */
  datatype Memory = Memory(size: int, cells: map<int, Value>, labels: map<Label, int>)

  /** `random`: the seed it was created with (none for `new Random()`) and
      how many numbers it has produced since. */
  datatype Rng = Rng(seed: Option<int>, draws: nat)

  /** What the print intrinsics write to the output stream. */
  datatype Output = PrintedInt(v: Value) | PrintedStr(v: Value) | PrintedLog(b: bool)

  /** The fields of the interpreter. */
  datatype MState = MState(mem: Memory, sp: int, fp: int, rng: Rng, out: seq<Output>)

  /** Read-only configuration: the byte layout of frames and the source of
      random numbers. */
  datatype Config = Config(layout: Layout, oracle: (Option<int>, nat) -> int)

  type Temps = map<nat, Value>

  /** The result of running code: a value, or an exception together with
      everything printed before it was thrown. */
  datatype Outcome<+T> = Done(value: T) | Fail(msg: string, out: seq<Output>) {
    predicate IsFailure() {
      Fail?
    }

    function PropagateFailure<U>(): Outcome<U>
      requires Fail?
    {
      Fail(msg, out)
    }

    function Extract(): T
      requires Done?
    {
      value
    }
  }

  /** A step that cannot print, run in a state whose output is `out`. */
  function Lift<T>(r: Result<T>, out: seq<Output>): (o: Outcome<T>)
    ensures o.Done? <==> r.Ok?
    ensures o.Done? ==> o.value == r.value
    ensures o.Fail? ==> o.out == out
  {
    if r.Ok? then Done(r.value) else Fail(r.msg, out)
  }

  /** How a state may change while code runs: output is only appended to,
      and the labels and the size of memory stay as they are. */
  predicate Evolves(m: MState, m1: MState) {
    m.out <= m1.out && m1.mem.labels == m.mem.labels && m1.mem.size == m.mem.size
  }

  /** A run from `m` that ended in `r`: a finished run evolved the state, a
      failed one kept all the output printed before it. */
  predicate Follows(m: MState, r: Outcome<MState>) {
    if r.Done? then Evolves(m, r.value) else m.out <= r.out
  }

  /** `Follows` for an evaluation, which also yields a value. */
  predicate EvalFollows(m: MState, r: Outcome<(MState, Value)>) {
    if r.Done? then Evolves(m, r.value.0) else m.out <= r.out
  }

  /** `Follows` for a statement, which also yields temporaries and a label. */
  predicate StepFollows(m: MState, r: Outcome<(MState, Temps, Option<Label>)>) {
    if r.Done? then Evolves(m, r.value.0) else m.out <= r.out
  }

  /** The state after the constructor: both registers one word below the
      top of memory, an unseeded generator, no output. */
  function Start(mem: Memory): (m: MState)
    ensures m.fp == m.sp == Int32.Wrap(mem.size - WordSize) && m.mem == mem && m.out == []
  {
    var top := Int32.Wrap(mem.size - WordSize);
    MState(mem, top, top, Rng(None, 0), [])
  }

  /** `toInt`. */
  function ToInt(v: Value): (r: Result<int>)
    ensures r.Ok? <==> v.Int?
  {
    if v.Int? then Ok(v.i) else Err("Could not convert obj to integer!")
  }

  /** `memory.stM(address, value)`. */
  function StoreAt(m: MState, address: int, v: Value): (r: MState)
    ensures address in r.mem.cells && r.mem.cells[address] == v
    ensures r.(mem := m.mem) == m && r.mem.labels == m.mem.labels && r.mem.size == m.mem.size
  {
    m.(mem := m.mem.(cells := m.mem.cells[address := v]))
  }

  /** `memory.ldM(address)`. */
  function LoadAt(m: MState, address: int): (r: Result<Value>)
    ensures r.Ok? <==> address in m.mem.cells
    ensures r.Ok? ==> r.value == m.mem.cells[address]
  {
    if address in m.mem.cells then Ok(m.mem.cells[address]) else Err("no value at address")
  }

  /** `memory.ldM(label)`. */
  function LoadLabel(m: MState, l: Label): (r: Result<Value>)
    ensures r.Ok? <==> l in m.mem.labels && m.mem.labels[l] in m.mem.cells
    ensures r.Ok? ==> r == LoadAt(m, m.mem.labels[l])
  {
    if l in m.mem.labels then LoadAt(m, m.mem.labels[l]) else Err("unknown label")
  }

  /** The value of `execute(BinopExpr)` once both operands are evaluated:
      Java `int` arithmetic, bitwise `&` and `|`, comparisons as 1 or 0;
      an operator without a case (`MOD`) is reported as an error. */
  function BinopValue(op: Operator, a: Value, b: Value): (r: Result<Value>)
    ensures r.Ok? <==> op != Operator.MOD && a.Int? && b.Int? && !(op == Operator.DIV && b.i == 0)
    ensures r.Ok? ==> r.value.Int? && Int32.InRange(r.value.i)
  {
    if op == Operator.MOD then Err("Neznan operator!")
    else
      var x :- ToInt(a);
      var y :- ToInt(b);
      match op
      case ADD => Ok(Int(Int32.Wrap(x + y)))
      case SUB => Ok(Int(Int32.Wrap(x - y)))
      case MUL => Ok(Int(Int32.Wrap(x * y)))
      case DIV => if y == 0 then Err("ArithmeticException") else Ok(Int(Int32.Div(x, y)))
      case AND => Ok(Int(Int32.And(x, y)))
      case OR => Ok(Int(Int32.Or(x, y)))
      case EQ => Ok(Int(if x == y then 1 else 0))
      case NEQ => Ok(Int(if x != y then 1 else 0))
      case LT => Ok(Int(if x < y then 1 else 0))
      case GT => Ok(Int(if x > y then 1 else 0))
      case LEQ => Ok(Int(if x <= y then 1 else 0))
      case GEQ => Ok(Int(if x >= y then 1 else 0))
      case MOD => Err("Neznan operator!")
  }

  /** `execute(MemExpr)` once the address is evaluated: the value stored
      there, or the address itself when the load fails. */
  function Deref(m: MState, address: Value): (r: Value)
    ensures address.Int? && LoadAt(m, address.i).Ok? ==> r == LoadAt(m, address.i).value
    ensures !address.Int? || LoadAt(m, address.i).Err? ==> r == address
  {
    if address.Int? && address.i in m.mem.cells then m.mem.cells[address.i] else address
  }

  /** `execute(NameExpr)`: the registers, or the address of the label. */
  function NameValue(m: MState, l: Label): (r: Result<Value>)
    ensures r.Ok? <==> l == FPLabel || l == SPLabel || l in m.mem.labels
    ensures r.Ok? ==> r.value.Int?
    ensures r.Ok? ==> r.value.i == if l == FPLabel then m.fp else if l == SPLabel then m.sp else m.mem.labels[l]
  {
    if l == FPLabel then Ok(Int(m.fp))
    else if l == SPLabel then Ok(Int(m.sp))
    else if l in m.mem.labels then Ok(Int(m.mem.labels[l]))
    else Err("unknown label")
  }

  /** `execute(IRExpr)`. */
  function Eval(cfg: Config, fuel: nat, m: MState, temps: Temps, x: IRExpr): (r: Outcome<(MState, Value)>)
    decreases fuel, 0, x
    ensures EvalFollows(m, r)
  {
    match x
    case Binop(lhs, rhs, op) =>
      var (m1, a) :- Eval(cfg, fuel, m, temps, lhs);
      var (m2, b) :- Eval(cfg, fuel, m1, temps, rhs);
      var v :- Lift(BinopValue(op, a, b), m2.out);
      Done((m2, v))
    case CallE(l, args) => CallValue(cfg, fuel, m, temps, l, args)
    case Const(c) => Done((m, Int(c)))
    case Eseq(_, _) => Fail("Cannot execute ESEQ; linearize IRCode!", m.out)
    case Mem(address) =>
      if address.NameE? then Eval(cfg, fuel, m, temps, address)
      else
        var (m1, a) :- Eval(cfg, fuel, m, temps, address);
        Done((m1, Deref(m1, a)))
    case NameE(l) =>
      var v :- Lift(NameValue(m, l), m.out);
      Done((m, v))
    case Temp(t) => Done((m, if t in temps then temps[t] else Null))
  }

  /** Whether a label names one of the five intrinsics. */
  predicate IsIntrinsic(l: Label) {
    l.Text() in StdLib
  }

  /** `execute(CallExpr)`: an intrinsic, or a call of the code chunk stored
      at the label. */
  function CallValue(cfg: Config, fuel: nat, m: MState, temps: Temps, l: Label, args: seq<IRExpr>): (r: Outcome<(MState, Value)>)
    decreases fuel, 0, args, 3
    ensures EvalFollows(m, r)
  {
    if IsIntrinsic(l) then IntrinsicValue(cfg, fuel, m, temps, l.Text(), args)
    else UserCallValue(cfg, fuel, m, temps, l, args)
  }

  /** The five intrinsics: each checks its argument count first and skips
      argument 0 (the frame pointer); only `rand_int` yields a value. */
  function IntrinsicValue(cfg: Config, fuel: nat, m: MState, temps: Temps, name: string, args: seq<IRExpr>): (r: Outcome<(MState, Value)>)
    requires name in StdLib
    decreases fuel, 0, args, 1
    ensures EvalFollows(m, r)
    ensures r.Done? ==> (r.value.1 == Null <==> name != RandIntLabel)
  {
    if name == PrintIntLabel then
      if |args| != 2 then Fail("Invalid argument count!", m.out)
      else
        var (m1, v) :- Eval(cfg, fuel, m, temps, args[1]);
        Done((m1.(out := m1.out + [PrintedInt(v)]), Null))
    else if name == PrintStrLabel then
      if |args| != 2 then Fail("Invalid argument count!", m.out)
      else
        var (m1, a) :- Eval(cfg, fuel, m, temps, args[1]);
        var address :- Lift(ToInt(a), m1.out);
        var v :- Lift(LoadAt(m1, address), m1.out);
        Done((m1.(out := m1.out + [PrintedStr(v)]), Null))
    else if name == PrintLogLabel then
      if |args| != 2 then Fail("Invalid argument count!", m.out)
      else
        var (m1, v) :- Eval(cfg, fuel, m, temps, args[1]);
        var b :- Lift(ToInt(v), m1.out);
        Done((m1.(out := m1.out + [PrintedLog(b != 0)]), Null))
    else if name == RandIntLabel then
      if |args| != 3 then Fail("Invalid argument count!", m.out)
      else
        var (m1, a) :- Eval(cfg, fuel, m, temps, args[1]);
        var lo :- Lift(ToInt(a), m1.out);
        var (m2, b) :- Eval(cfg, fuel, m1, temps, args[2]);
        var hi :- Lift(ToInt(b), m2.out);
        if lo >= hi then Fail("IllegalArgumentException", m2.out)
        else Done((m2.(rng := m2.rng.(draws := m2.rng.draws + 1)), Int(Draw(cfg, m2.rng, lo, hi))))
    else
      if |args| != 2 then Fail("Invalid argument count!", m.out)
      else
        var (m1, a) :- Eval(cfg, fuel, m, temps, args[1]);
        var seed :- Lift(ToInt(a), m1.out);
        Done((m1.(rng := Rng(Some(seed), 0)), Null))
  }

  /** `random.nextInt(lo, hi)`: the oracle's next number brought into
      `[lo, hi)`. */
  function Draw(cfg: Config, rng: Rng, lo: int, hi: int): (r: int)
    requires lo < hi
    ensures lo <= r < hi
  {
    lo + cfg.oracle(rng.seed, rng.draws) % (hi - lo)
  }

  /** A call of user code: the label must hold a code chunk, which is then
      called. */
  function UserCallValue(cfg: Config, fuel: nat, m: MState, temps: Temps, l: Label, args: seq<IRExpr>): (r: Outcome<(MState, Value)>)
    decreases fuel, 0, args, 2
    ensures EvalFollows(m, r)
    ensures LoadLabel(m, l).Err? || !LoadLabel(m, l).value.Code? ==> r.Fail? && r.out == m.out
  {
    var callee :- Lift(LoadLabel(m, l), m.out);
    if !callee.Code? then Fail("Only functions can be called!", m.out)
    else CallChunk(cfg, fuel, m, temps, callee.frame, callee.code, args)
  }

  /** Calling a code chunk: the arguments are staged above SP, the caller's
      FP goes to the callee's old-FP slot, the chunk runs, and the result
      is the word at SP afterwards. */
  function CallChunk(cfg: Config, fuel: nat, m: MState, temps: Temps, frame: Frame, code: IRStmt, args: seq<IRExpr>): (r: Outcome<(MState, Value)>)
    decreases fuel, 0, args, 1
    ensures EvalFollows(m, r)
  {
    var m1 :- StoreArgs(cfg, fuel, m, temps, args, 0);
    var m2 := StoreAt(m1, Int32.Wrap(m1.sp - cfg.layout.oldFPOffset(frame)), Int(m1.fp));
    if fuel == 0 then Fail("out of fuel", m2.out)
    else
      var m3 :- RunChunk(cfg, fuel - 1, m2, frame, code);
      var v :- Lift(LoadAt(m3, m3.sp), m3.out);
      Done((m3, v))
  }

  /** The argument loop of a user call: argument `i` is stored at
      `SP + i * WordSize`, first to last. */
  function StoreArgs(cfg: Config, fuel: nat, m: MState, temps: Temps, args: seq<IRExpr>, i: nat): (r: Outcome<MState>)
    requires i <= |args|
    decreases fuel, 0, args, 0, |args| - i
    ensures Follows(m, r)
  {
    if i == |args| then Done(m)
    else
      var (m1, v) :- Eval(cfg, fuel, m, temps, args[i]);
      StoreArgs(cfg, fuel, StoreAt(m1, Int32.Wrap(m1.sp + i * WordSize), v), temps, args, i + 1)
  }

  /** Entering a chunk: FP takes the value of SP (except for `main`), then
      SP drops by the frame size. Nothing but the registers changes. */
  function Enter(cfg: Config, m: MState, frame: Frame): (r: MState)
    ensures r.(sp := m.sp, fp := m.fp) == m
    ensures r.sp == Int32.Wrap(m.sp - cfg.layout.frameSize(frame))
    ensures r.fp == if frame.lbl.Text() == "main" then m.fp else m.sp
  {
    var fp := if frame.lbl.Text() == "main" then m.fp else m.sp;
    m.(fp := fp, sp := Int32.Wrap(m.sp - cfg.layout.frameSize(frame)))
  }

  /** Leaving a chunk: SP takes the value of FP, then FP is reloaded from
      the old-FP slot below it; it fails when that slot holds no integer. */
  function Leave(cfg: Config, m: MState, frame: Frame): (r: Result<MState>)
    ensures var slot := LoadAt(m, Int32.Wrap(m.fp - cfg.layout.oldFPOffset(frame)));
      r.Ok? <==> slot.Ok? && slot.value.Int?
    ensures r.Ok? ==> r.value.(sp := m.sp, fp := m.fp) == m && r.value.sp == m.fp
  {
    var sp := m.fp;
    var saved :- LoadAt(m, Int32.Wrap(sp - cfg.layout.oldFPOffset(frame)));
    var fp :- ToInt(saved);
    Ok(m.(sp := sp, fp := fp))
  }

  /** `internalInterpret`: enter, run the statements from the first one
      with fresh temporaries, leave. Code that is not a `SeqStmt` is
      rejected. */
  function RunChunk(cfg: Config, fuel: nat, m: MState, frame: Frame, code: IRStmt): (r: Outcome<MState>)
    decreases fuel, 3
    ensures Follows(m, r)
  {
    var m1 := Enter(cfg, m, frame);
    if !code.Seq? then Fail("Linearize IR!", m1.out)
    else
      var m2 :- Run(cfg, fuel, m1, map[], code.statements, 0);
      Lift(Leave(cfg, m2, frame), m2.out)
  }

  /** The program-counter loop from statement `pc`. */
  function Run(cfg: Config, fuel: nat, m: MState, temps: Temps, stmts: seq<IRStmt>, pc: nat): (r: Outcome<MState>)
    decreases fuel, 2
    ensures Follows(m, r)
  {
    if pc >= |stmts| then Done(m)
    else if fuel == 0 then Fail("out of fuel", m.out)
    else
      var (m1, temps1, jump) :- Exec(cfg, fuel - 1, m, temps, stmts[pc]);
      var next := match jump case Some(l) => ResumeAt(stmts, l, pc) case None => pc + 1;
      Run(cfg, fuel - 1, m1, temps1, stmts, next)
  }

  /** `execute(IRStmt)`: the new state, the new temporaries and the label
      to continue at, if any. Only a move to a temporary changes the
      temporaries. */
  function Exec(cfg: Config, fuel: nat, m: MState, temps: Temps, st: IRStmt): (r: Outcome<(MState, Temps, Option<Label>)>)
    decreases fuel, 1
    ensures StepFollows(m, r)
    ensures r.Done? && !(st.Move? && st.dst.Temp?) ==> r.value.1 == temps
  {
    match st
    case CJump(cond, t, f) =>
      var (m1, v) :- Eval(cfg, fuel, m, temps, cond);
      var c :- Lift(ToInt(v), m1.out);
      Done((m1, temps, Some(if c == 1 then t else f)))
    case ExpS(x) =>
      var (m1, _) :- Eval(cfg, fuel, m, temps, x);
      Done((m1, temps, None))
    case Jump(l) => Done((m, temps, Some(l)))
    case LabelS(_) => Done((m, temps, None))
    case Move(dst, src) =>
      if dst.Temp? then
        var (m1, v) :- Eval(cfg, fuel, m, temps, src);
        Done((m1, temps[dst.temp := v], None))
      else if dst.Mem? then
        var (m1, a) :- Eval(cfg, fuel, m, temps, dst.expr);
        var (m2, v) :- Eval(cfg, fuel, m1, temps, src);
        var address :- Lift(ToInt(a), m2.out);
        Done((StoreAt(m2, address, v), temps, None))
      else Done((m, temps, None))
    case Seq(_) => Fail("Cannot execute this statement!", m.out)
  }

  /** `interpret(main)`: the argument 999 one word above FP, FP in the
      old-FP slot and in the word at FP, then run the chunk. Only memory
      cells change. */
  function Setup(cfg: Config, m: MState, frame: Frame): (r: MState)
    ensures r.(mem := m.mem) == m && r.mem.labels == m.mem.labels && r.mem.size == m.mem.size
    ensures LoadAt(r, m.fp) == Ok(Int(m.fp))
  {
    var m1 := StoreAt(m, Int32.Wrap(m.fp + WordSize), Int(999));
    var m2 := StoreAt(m1, Int32.Wrap(m.fp - cfg.layout.oldFPOffset(frame)), Int(m.fp));
    StoreAt(m2, m.fp, Int(m.fp))
  }

  /** The whole run of `main`; when it throws, the output printed before is
      kept. */
  function Interpret(cfg: Config, fuel: nat, m: MState, frame: Frame, code: IRStmt): (r: Outcome<MState>)
    ensures Follows(m, r)
  {
    RunChunk(cfg, fuel, Setup(cfg, m, frame), frame, code)
  }
}

=== FILE: interpretation_properties.dfy ===
/** Properties of the interpreter, and of the interpreter running the code
    the IR generator emits. */
module InterpretationProperties {
  import opened Wrappers
  import opened Frames
  import opened Constants
  import opened IR
  import Int32
  import opened Interpretation
  import IRGeneration
  import IRGenerationProperties
  import Ast

  // ---------------------------------------------------------------------
  // Binary operators: Java `int` semantics
  // ---------------------------------------------------------------------

  /** A binary operator yields a value exactly when both operands are
      integers, the operator is not `MOD` and it is not a division by zero;
      the value is then a Java `int`. */
  lemma BinopDefined(op: Operator, a: Value, b: Value)
    ensures BinopValue(op, a, b).Ok? <==>
      op != Operator.MOD && a.Int? && b.Int? && !(op == Operator.DIV && b.i == 0)
    ensures BinopValue(op, a, b).Ok? ==>
      BinopValue(op, a, b).value.Int? && Int32.InRange(BinopValue(op, a, b).value.i)
  {
  }

  /** The mathematical result of `+`, `-` and `*`. */
  function Exact(op: Operator, x: int, y: int): int
    requires op in {Operator.ADD, Operator.SUB, Operator.MUL}
  {
    if op == Operator.ADD then x + y else if op == Operator.SUB then x - y else x * y
  }

  /** `+`, `-` and `*` wrap around: the result is the Java `int` congruent
      to the mathematical one modulo 2^32, and equal to it when that fits. */
  lemma ArithmeticWraps(op: Operator, x: int, y: int)
    requires op in {Operator.ADD, Operator.SUB, Operator.MUL}
    ensures var v := BinopValue(op, Int(x), Int(y));
      v.Ok? && v.value.Int? && Int32.InRange(v.value.i)
      && (Exact(op, x, y) - v.value.i) % Int32.Modulus == 0
      && (Int32.InRange(Exact(op, x, y)) ==> v.value.i == Exact(op, x, y))
  {
  }

  /** Division truncates toward zero: the remainder left by the quotient is
      smaller than the divisor and has the sign of the dividend. */
  lemma DivisionTruncates(x: int, y: int)
    requires Int32.InRange(x) && Int32.InRange(y) && y != 0
    requires !(x == Int32.Min && y == -1)
    ensures var v := BinopValue(Operator.DIV, Int(x), Int(y));
      v.Ok? && v.value.Int?
      && Int32.Abs(x - v.value.i * y) < Int32.Abs(y)
      && (x - v.value.i * y == 0 || (x - v.value.i * y < 0 <==> x < 0))
  {
    TruncatedInRange(x, y);
    TruncatedRemainder(x, y);
  }

  lemma TruncatedInRange(x: int, y: int)
    requires Int32.InRange(x) && Int32.InRange(y) && y != 0
    requires !(x == Int32.Min && y == -1)
    ensures Int32.InRange(Int32.Truncated(x, y))
  {
    var a: int, b: int := Int32.Abs(x), Int32.Abs(y);
    var m, r := a / b, a % b;
    assert a == m * b + r && 0 <= r < b && m >= 0;
    assert a <= 0x8000_0000;
    if b == 1 {
      assert m == a;
    } else {
      MulMono(m, b);
      assert m <= 0x4000_0000;
    }
  }

  lemma MulMono(m: int, b: int)
    requires m >= 0 && b >= 2
    ensures m * 2 <= m * b
  {
    assert m * b == m * 2 + m * (b - 2);
  }

  lemma TruncatedRemainder(x: int, y: int)
    requires y != 0
    ensures var r := x - Int32.Truncated(x, y) * y;
      Int32.Abs(r) < Int32.Abs(y) && (r == 0 || (r < 0 <==> x < 0))
  {
    var a: int, b: int := Int32.Abs(x), Int32.Abs(y);
    var m, r := a / b, a % b;
    assert a == m * b + r && 0 <= r < b;
    var q := Int32.Truncated(x, y);
    if x >= 0 && y > 0 {
      assert q == m && y == b && x == a;
    } else if x >= 0 {
      assert q == -m && y == -b && x == a;
      NegTimesNeg(m, b);
    } else if y > 0 {
      assert q == -m && y == b && x == -a;
      NegTimes(m, b);
    } else {
      assert q == m && y == -b && x == -a;
      NegTimes(b, m);
    }
  }

  lemma NegTimesNeg(m: int, b: int)
    ensures (-m) * (-b) == m * b
  {
  }

  lemma NegTimes(m: int, b: int)
    ensures (-m) * b == -(m * b) && b * (-m) == -(m * b)
  {
  }

  /** The one overflowing division, `MIN_VALUE / -1`, yields `MIN_VALUE`. */
  lemma DivisionOverflow()
    ensures BinopValue(Operator.DIV, Int(Int32.Min), Int(-1)) == Ok(Int(Int32.Min))
  {
    assert Int32.Truncated(Int32.Min, -1) == -Int32.Min;
  }

  /** Whether a comparison operator holds between two integers. */
  predicate Holds(op: Operator, x: int, y: int)
    requires op in {Operator.EQ, Operator.NEQ, Operator.LT, Operator.GT, Operator.LEQ, Operator.GEQ}
  {
    match op
    case EQ => x == y
    case NEQ => x != y
    case LT => x < y
    case GT => x > y
    case LEQ => x <= y
    case GEQ => !(x < y)
  }

  /** Comparisons yield 1 when they hold and 0 when they do not. */
  lemma ComparisonIsTest(op: Operator, x: int, y: int)
    requires op in {Operator.EQ, Operator.NEQ, Operator.LT, Operator.GT, Operator.LEQ, Operator.GEQ}
    ensures BinopValue(op, Int(x), Int(y)) == Ok(Int(if Holds(op, x, y) then 1 else 0))
  {
  }

  /** On the truth values 0 and 1, `AND` and `OR` are conjunction and
      disjunction. */
  lemma LogicalConnectives(x: int, y: int)
    requires x in {0, 1} && y in {0, 1}
    ensures BinopValue(Operator.AND, Int(x), Int(y)) == Ok(Int(if x == 1 && y == 1 then 1 else 0))
    ensures BinopValue(Operator.OR, Int(x), Int(y)) == Ok(Int(if x == 1 || y == 1 then 1 else 0))
  {
    assert Int32.Bits(0) == 0 && Int32.Bits(1) == 1;
    assert Int32.FromBits(0) == 0 && Int32.FromBits(1) == 1;
  }

  // ---------------------------------------------------------------------
  // Unary operators as the generator emits them
  // ---------------------------------------------------------------------

  /** `!x` on a truth value flips it. */
  lemma NotCodeValue(cfg: Config, fuel: nat, m: MState, temps: Temps, x: IRExpr, m1: MState, v: int)
    requires Eval(cfg, fuel, m, temps, x) == Done((m1, Int(v))) && v in {0, 1}
    ensures Eval(cfg, fuel, m, temps, IRGeneration.UnaryCode(Ast.Not, x)) == Done((m1, Int(1 - v)))
  {
  }

  /** `-x` is Java negation, which wraps for the least integer. */
  lemma MinusCodeValue(cfg: Config, fuel: nat, m: MState, temps: Temps, x: IRExpr, m1: MState, v: int)
    requires Eval(cfg, fuel, m, temps, x) == Done((m1, Int(v))) && Int32.InRange(v)
    ensures Eval(cfg, fuel, m, temps, IRGeneration.UnaryCode(Ast.Minus, x)) == Done((m1, Int(Int32.Wrap(-v))))
  {
  }

  /** `+x` is `x`. */
  lemma PlusCodeValue(cfg: Config, fuel: nat, m: MState, temps: Temps, x: IRExpr, m1: MState, v: int)
    requires Eval(cfg, fuel, m, temps, x) == Done((m1, Int(v))) && Int32.InRange(v)
    ensures Eval(cfg, fuel, m, temps, IRGeneration.UnaryCode(Ast.Plus, x)) == Done((m1, Int(v)))
  {
  }

  // ---------------------------------------------------------------------
  // Addressing: static links and globals
  // ---------------------------------------------------------------------

  /** `k` loads starting from `v`; a failed load leaves the address as it
      is, as `execute(MemExpr)` does. */
  function Follow(m: MState, v: Value, k: nat): Value {
    if k == 0 then v else Deref(m, Follow(m, v, k - 1))
  }

  /** `k + 1` memory layers around FP perform `k` loads: the innermost
      layer, around a name, yields FP itself. */
  lemma {:induction false} LayersFollow(cfg: Config, fuel: nat, m: MState, temps: Temps, k: nat)
    ensures Eval(cfg, fuel, m, temps, Layers(k + 1)) == Done((m, Follow(m, Int(m.fp), k)))
  {
    if k > 0 {
      LayersFollow(cfg, fuel, m, temps, k - 1);
      assert Layers(k + 1) == Mem(Layers(k)) && Layers(k).Mem?;
    }
  }

  /** The frame address the generator computes for a variable declared at
      static level `declared`, used at level `current`, follows the static
      link `current - declared` times from FP. */
  lemma FrameAddressFollowsLinks(cfg: Config, fuel: nat, m: MState, temps: Temps, current: int, declared: int)
    ensures Eval(cfg, fuel, m, temps, IRGeneration.FrameAddress(current, declared))
      == Done((m, if declared < current then Follow(m, Int(m.fp), current - declared) else Int(m.fp)))
  {
    if declared < current {
      LayersFollow(cfg, fuel, m, temps, current - declared);
    }
  }

  /** Reading a local variable or parameter loads the word `offset` bytes
      above the frame reached by following the static links. */
  lemma FrameVariableRead(cfg: Config, fuel: nat, m: MState, temps: Temps, a: Access, current: int)
    requires a.Local? || a.Parameter?
    requires (if a.staticLevel < current then Follow(m, Int(m.fp), current - a.staticLevel) else Int(m.fp)).Int?
    ensures var base := if a.staticLevel < current then Follow(m, Int(m.fp), current - a.staticLevel) else Int(m.fp);
      Eval(cfg, fuel, m, temps, IRGeneration.AccessCode(a, current))
      == Done((m, Deref(m, Int(Int32.Wrap(base.i + a.offset)))))
  {
    var fa := IRGeneration.FrameAddress(current, a.staticLevel);
    var base := if a.staticLevel < current then Follow(m, Int(m.fp), current - a.staticLevel) else Int(m.fp);
    FrameAddressFollowsLinks(cfg, fuel, m, temps, current, a.staticLevel);
    var sum := Binop(fa, Const(a.offset), Operator.ADD);
    OffsetAdded(cfg, fuel, m, temps, fa, base, a.offset);
    LoadThrough(cfg, fuel, m, temps, sum, m, Int(Int32.Wrap(base.i + a.offset)));
    assert IRGeneration.AccessCode(a, current) == Mem(sum);
  }

  /** Adding a constant offset to an address that evaluates to an integer. */
  lemma OffsetAdded(cfg: Config, fuel: nat, m: MState, temps: Temps, x: IRExpr, base: Value, offset: int)
    requires Eval(cfg, fuel, m, temps, x) == Done((m, base)) && base.Int?
    ensures Eval(cfg, fuel, m, temps, Binop(x, Const(offset), Operator.ADD)) == Done((m, Int(Int32.Wrap(base.i + offset))))
  {
  }

  /** A memory layer around anything but a name loads through the address. */
  lemma LoadThrough(cfg: Config, fuel: nat, m: MState, temps: Temps, x: IRExpr, m1: MState, address: Value)
    requires !x.NameE? && Eval(cfg, fuel, m, temps, x) == Done((m1, address))
    ensures Eval(cfg, fuel, m, temps, Mem(x)) == Done((m1, Deref(m1, address)))
  {
  }

  /** Reading a global variable yields the global's address, whatever is
      stored there: the generator wraps the label in one memory layer and
      the interpreter does not load through a name. */
  lemma GlobalReadIsAddress(cfg: Config, fuel: nat, m: MState, temps: Temps, size: int, l: Label, current: int)
    requires l != FPLabel && l != SPLabel && l in m.mem.labels
    ensures Eval(cfg, fuel, m, temps, IRGeneration.AccessCode(Global(size, l), current))
      == Done((m, Int(m.mem.labels[l])))
  {
  }

  /** Assigning to a global variable stores the value at its address. */
  lemma GlobalWrite(cfg: Config, fuel: nat, m: MState, temps: Temps, size: int, l: Label, current: int,
                    src: IRExpr, m1: MState, v: Value)
    requires l != FPLabel && l != SPLabel && l in m.mem.labels
    requires Eval(cfg, fuel, m, temps, src) == Done((m1, v))
    ensures Exec(cfg, fuel, m, temps, Move(IRGeneration.AccessCode(Global(size, l), current), src))
      == Done((StoreAt(m1, m.mem.labels[l], v), temps, None))
  {
  }

  // ---------------------------------------------------------------------
  // Statements
  // ---------------------------------------------------------------------

  /** A conditional jump goes to its `then` label exactly when the condition
      is the integer 1, to its `else` label on any other integer, and fails
      on a value that is not an integer. */
  lemma ConditionalJump(cfg: Config, fuel: nat, m: MState, temps: Temps, c: IRExpr, t: Label, f: Label,
                        m1: MState, v: Value)
    requires Eval(cfg, fuel, m, temps, c) == Done((m1, v))
    ensures Exec(cfg, fuel, m, temps, CJump(c, t, f)).Done? <==> v.Int?
    ensures v.Int? ==> Exec(cfg, fuel, m, temps, CJump(c, t, f)) == Done((m1, temps, Some(if v.i == 1 then t else f)))
  {
  }

  /** Only a move into a temporary changes the temporaries, and it changes
      that one alone. */
  lemma TemporariesChangeOnlyByMove(cfg: Config, fuel: nat, m: MState, temps: Temps, st: IRStmt)
    requires Exec(cfg, fuel, m, temps, st).Done?
    ensures var temps1 := Exec(cfg, fuel, m, temps, st).value.1;
      if st.Move? && st.dst.Temp? then
        temps1.Keys == temps.Keys + {st.dst.temp}
        && forall k :: k in temps && k != st.dst.temp ==> temps1[k] == temps[k]
      else temps1 == temps
  {
  }

  /** Only jumps and conditional jumps transfer control. */
  lemma OnlyJumpsTransfer(cfg: Config, fuel: nat, m: MState, temps: Temps, st: IRStmt)
    requires Exec(cfg, fuel, m, temps, st).Done?
    ensures Exec(cfg, fuel, m, temps, st).value.2.Some? <==> st.Jump? || st.CJump?
  {
  }

  /** A statement that yields label `l` resumes after the first `LabelStmt`
      of `l`, or falls through to the next statement when there is none. */
  lemma JumpResumes(stmts: seq<IRStmt>, l: Label, pc: nat, q: nat)
    ensures q < |stmts| && stmts[q] == LabelS(l) && (forall p :: 0 <= p < q ==> stmts[p] != LabelS(l))
      ==> ResumeAt(stmts, l, pc) == q + 1
    ensures (forall p :: 0 <= p < |stmts| ==> stmts[p] != LabelS(l)) ==> ResumeAt(stmts, l, pc) == pc + 1
  {
    var r := FindLabel(stmts, l, 0);
    if r.Some? && q < |stmts| && stmts[q] == LabelS(l) && (forall p :: 0 <= p < q ==> stmts[p] != LabelS(l)) {
      assert !(r.value < q);
      assert !(q < r.value);
    }
  }

  /** The interpreter only runs linearised code: a chunk whose code is not a
      sequence, a nested sequence, and an `EseqExpr` are all rejected. */
  lemma LinearisedCodeOnly(cfg: Config, fuel: nat, m: MState, temps: Temps, frame: Frame, code: IRStmt,
                           ss: seq<IRStmt>, st: IRStmt, x: IRExpr)
    ensures !code.Seq? ==> RunChunk(cfg, fuel, m, frame, code).Fail?
    ensures Exec(cfg, fuel, m, temps, Seq(ss)).Fail?
    ensures Eval(cfg, fuel, m, temps, Eseq(st, x)).Fail?
  {
  }

  // ---------------------------------------------------------------------
  // Calls
  // ---------------------------------------------------------------------

  /** The intrinsics reject a wrong argument count before evaluating
      anything. */
  lemma IntrinsicArity(cfg: Config, fuel: nat, m: MState, temps: Temps, name: string, args: seq<IRExpr>)
    requires name in StdLib
    requires |args| != (if name == RandIntLabel then 3 else 2)
    ensures IntrinsicValue(cfg, fuel, m, temps, name, args).Fail?
  {
  }

  /** The intrinsics never evaluate argument 0, the frame pointer the
      generator passes first. */
  lemma IntrinsicSkipsFrameArgument(cfg: Config, fuel: nat, m: MState, temps: Temps, name: string,
                                    a: IRExpr, b: IRExpr, rest: seq<IRExpr>)
    requires name in StdLib
    ensures IntrinsicValue(cfg, fuel, m, temps, name, [a] + rest)
      == IntrinsicValue(cfg, fuel, m, temps, name, [b] + rest)
  {
    assert ([a] + rest)[1..] == ([b] + rest)[1..];
  }

  /** `rand_int(lo, hi)` fails when `lo >= hi` and otherwise yields a number
      in `[lo, hi)`, drawing one number from the generator. */
  lemma RandIntInRange(cfg: Config, fuel: nat, m: MState, temps: Temps, args: seq<IRExpr>,
                       m1: MState, lo: int, m2: MState, hi: int)
    requires |args| == 3
    requires Eval(cfg, fuel, m, temps, args[1]) == Done((m1, Int(lo)))
    requires Eval(cfg, fuel, m1, temps, args[2]) == Done((m2, Int(hi)))
    ensures var r := IntrinsicValue(cfg, fuel, m, temps, RandIntLabel, args);
      (r.Done? <==> lo < hi)
      && (r.Done? ==> r.value.1.Int? && lo <= r.value.1.i < hi && r.value.0.rng.draws == m2.rng.draws + 1)
  {
  }

  /** A label that holds anything but a code chunk cannot be called. */
  lemma OnlyCodeIsCalled(cfg: Config, fuel: nat, m: MState, temps: Temps, l: Label, args: seq<IRExpr>)
    requires !IsIntrinsic(l)
    requires LoadLabel(m, l).Ok? ==> !LoadLabel(m, l).value.Code?
    ensures CallValue(cfg, fuel, m, temps, l, args).Fail?
  {
  }

  /** A load sees the last store to its address, and a store elsewhere
      does not disturb it. */
  lemma LoadAfterStore(m: MState, address: int, v: Value, b: int)
    ensures LoadAt(StoreAt(m, address, v), b) == if b == address then Ok(v) else LoadAt(m, b)
  {
  }

  /** A print that succeeds appends exactly one line to the output of
      evaluating its argument, and changes nothing else. */
  lemma PrintAppendsOneLine(cfg: Config, fuel: nat, m: MState, temps: Temps, name: string, args: seq<IRExpr>)
    requires name in {PrintIntLabel, PrintStrLabel, PrintLogLabel}
    requires IntrinsicValue(cfg, fuel, m, temps, name, args).Done?
    ensures |args| == 2 && Eval(cfg, fuel, m, temps, args[1]).Done?
    ensures var m1 := Eval(cfg, fuel, m, temps, args[1]).value.0;
      var r := IntrinsicValue(cfg, fuel, m, temps, name, args).value;
      r.1 == Null && r.0.(out := m1.out) == m1 && |r.0.out| == |m1.out| + 1 && r.0.out[..|m1.out|] == m1.out
    ensures var (m1, v) := Eval(cfg, fuel, m, temps, args[1]).value;
      var out := IntrinsicValue(cfg, fuel, m, temps, name, args).value.0.out;
      && (name == PrintIntLabel ==> out[|m1.out|] == PrintedInt(v))
      && (name == PrintStrLabel ==> v.Int? && LoadAt(m1, v.i).Ok? && out[|m1.out|] == PrintedStr(LoadAt(m1, v.i).value))
      && (name == PrintLogLabel ==> v.Int? && out[|m1.out|] == PrintedLog(v.i != 0))
  {
  }

  /** Output is written as soon as it is printed: code that prints a number
      and then throws has still printed that number. */
  lemma PrintedBeforeFailureIsKept(cfg: Config, fuel: nat, m: MState, temps: Temps, c: int, bad: seq<IRStmt>)
    requires fuel >= 2
    ensures var stmts := [ExpS(CallE(Named(PrintIntLabel), [NameE(FPLabel), Const(c)])), Seq(bad)];
      var r := Run(cfg, fuel, m, temps, stmts, 0);
      r.Fail? && r.out == m.out + [PrintedInt(Int(c))]
  {
    var call := CallE(Named(PrintIntLabel), [NameE(FPLabel), Const(c)]);
    var stmts := [ExpS(call), Seq(bad)];
    var m1 := m.(out := m.out + [PrintedInt(Int(c))]);
    assert IntrinsicValue(cfg, fuel - 1, m, temps, PrintIntLabel, call.args) == Done((m1, Null));
    assert IsIntrinsic(call.lbl) && call.lbl.Text() == PrintIntLabel;
    assert Eval(cfg, fuel - 1, m, temps, call) == Done((m1, Null));
    assert Exec(cfg, fuel - 1, m, temps, stmts[0]) == Done((m1, temps, None));
    assert Exec(cfg, fuel - 2, m1, temps, stmts[1]) == Fail("Cannot execute this statement!", m1.out);
  }

  /** Leaving a chunk undoes entering it when the body has kept FP and the
      old-FP slot holds the caller's FP, as the call sequence stored it: SP
      and FP are the caller's again. */
  lemma LeaveUndoesEnter(cfg: Config, m: MState, frame: Frame, body: MState)
    requires frame.lbl.Text() != "main"
    requires body.fp == Enter(cfg, m, frame).fp
    requires LoadAt(body, Int32.Wrap(m.sp - cfg.layout.oldFPOffset(frame))) == Ok(Int(m.fp))
    ensures Leave(cfg, body, frame) == Ok(body.(sp := m.sp, fp := m.fp))
  {
  }

  /** Before `main` runs, the word at FP points to itself, the old-FP slot
      holds FP and the argument above FP is 999. */
  lemma SetupWrites(cfg: Config, m: MState, frame: Frame)
    requires Int32.InRange(m.fp)
    requires var o := Int32.Wrap(m.fp - cfg.layout.oldFPOffset(frame));
      o != m.fp && o != Int32.Wrap(m.fp + WordSize) && Int32.Wrap(m.fp + WordSize) != m.fp
    ensures var s := Setup(cfg, m, frame);
      s.mem.cells[m.fp] == Int(m.fp)
      && s.mem.cells[Int32.Wrap(m.fp - cfg.layout.oldFPOffset(frame))] == Int(m.fp)
      && s.mem.cells[Int32.Wrap(m.fp + WordSize)] == Int(999)
      && s.sp == m.sp && s.fp == m.fp
  {
  }

  // ---------------------------------------------------------------------
  // Control flow of the generated loops and conditionals
  // ---------------------------------------------------------------------

  /** At the test of a `while` loop: when the condition is 1 the body runs
      next, otherwise the loop is left. */
  lemma WhileTest(cfg: Config, fuel: nat, m: MState, temps: Temps, c: IRExpr, body: IRStmt, n: nat,
                  m1: MState, v: int)
    requires !body.LabelS? && fuel > 0
    requires Eval(cfg, fuel - 1, m, temps, c) == Done((m1, Int(v)))
    ensures var code := IRGeneration.WhileCode(c, body, n).statements;
      Run(cfg, fuel, m, temps, code, 1)
      == if v == 1 then Run(cfg, fuel - 1, m1, temps, code, 3) else Done(m1)
  {
    var code := IRGeneration.WhileCode(c, body, n).statements;
    assert code[1] == CJump(c, Anonymous(n + 1), Anonymous(n + 2));
    if v == 1 {
      assert FindLabel(code, Anonymous(n + 1), 2) == Some(2);
      assert FindLabel(code, Anonymous(n + 1), 0) == Some(2);
    } else {
      assert FindLabel(code, Anonymous(n + 2), 5) == Some(5);
      assert FindLabel(code, Anonymous(n + 2), 0) == Some(5);
    }
  }

  /** After the body of a `while` loop the jump goes back to the test. */
  lemma WhileLoopsBack(cfg: Config, fuel: nat, m: MState, temps: Temps, c: IRExpr, body: IRStmt, n: nat)
    requires fuel > 0
    ensures var code := IRGeneration.WhileCode(c, body, n).statements;
      Run(cfg, fuel, m, temps, code, 4) == Run(cfg, fuel - 1, m, temps, code, 1)
  {
    var code := IRGeneration.WhileCode(c, body, n).statements;
    assert FindLabel(code, Anonymous(n), 0) == Some(0);
  }

  /** `if c then a else b`: the `then` part runs when the condition is 1,
      the `else` part otherwise. */
  lemma IfElseBranches(cfg: Config, fuel: nat, m: MState, temps: Temps, c: IRExpr, a: IRStmt, b: IRStmt,
                       n: nat, m1: MState, v: int)
    requires !a.LabelS? && !b.LabelS? && fuel > 0
    requires Eval(cfg, fuel - 1, m, temps, c) == Done((m1, Int(v)))
    ensures var code := IRGeneration.IfCode(c, a, Some(b), n).statements;
      Run(cfg, fuel, m, temps, code, 0) == Run(cfg, fuel - 1, m1, temps, code, if v == 1 then 2 else 5)
  {
    IRGenerationProperties.IfElseCodeJumps(c, a, b, n);
  }

  /** The end of the `then` part of `if c then a else b` skips the `else`
      part. */
  lemma ThenSkipsElse(cfg: Config, fuel: nat, m: MState, temps: Temps, c: IRExpr, a: IRStmt, b: IRStmt, n: nat)
    requires !a.LabelS? && !b.LabelS? && fuel > 0
    ensures var code := IRGeneration.IfCode(c, a, Some(b), n).statements;
      Run(cfg, fuel, m, temps, code, 3) == Done(m)
  {
    IRGenerationProperties.IfElseCodeJumps(c, a, b, n);
  }

  /** `if c then a`: the `then` part runs when the condition is 1, and
      nothing runs otherwise. */
  lemma IfThenBranch(cfg: Config, fuel: nat, m: MState, temps: Temps, c: IRExpr, a: IRStmt,
                     n: nat, m1: MState, v: int)
    requires !a.LabelS? && fuel > 0
    requires Eval(cfg, fuel - 1, m, temps, c) == Done((m1, Int(v)))
    ensures var code := IRGeneration.IfCode(c, a, None, n).statements;
      Run(cfg, fuel, m, temps, code, 0) == if v == 1 then Run(cfg, fuel - 1, m1, temps, code, 2) else Done(m1)
  {
    IRGenerationProperties.IfCodeJumps(c, a, n);
  }
}

=== FILE: interpreter.dfy ===
/** `Interpreter`: the virtual machine as an object whose memory, registers,
    random generator and output change as it runs. Every method is proved
    to do what the corresponding function of `Interpretation` describes;
    a method that reports `ok == false` stands for the Java code throwing;
    the output it leaves is then what was printed before the exception, and
    the rest of the state is unspecified. */
module InterpreterClass {
  import opened Wrappers
  import opened Frames
  import opened Constants
  import opened IR
  import Int32
  import opened Interpretation

  /** One turn of the argument loop: argument `i` is evaluated and stored,
      and the loop goes on with the next one. */
  lemma StoreArgsStep(cfg: Config, fuel: nat, m: MState, temps: Temps, args: seq<IRExpr>, i: nat,
                      m1: MState, v: Value, m2: MState)
    requires i < |args| && Eval(cfg, fuel, m, temps, args[i]) == Done((m1, v))
    requires m2 == StoreAt(m1, Int32.Wrap(m1.sp + i * WordSize), v)
    ensures StoreArgs(cfg, fuel, m2, temps, args, i + 1) == StoreArgs(cfg, fuel, m, temps, args, i)
  {
  }

  /** A failing argument is the failure of the whole loop. */
  lemma StoreArgsFails(cfg: Config, fuel: nat, m: MState, temps: Temps, args: seq<IRExpr>, i: nat)
    requires i < |args| && Eval(cfg, fuel, m, temps, args[i]).Fail?
    ensures StoreArgs(cfg, fuel, m, temps, args, i).Fail?
    ensures StoreArgs(cfg, fuel, m, temps, args, i).out == Eval(cfg, fuel, m, temps, args[i]).out
  {
  }

  class Interpreter {
    var memory: Memory
    var sp: int
    var fp: int
    var rng: Rng
    var out: seq<Output>
    const layout: Layout
    const oracle: (Option<int>, nat) -> int

    function State(): MState
      reads this
    {
      MState(memory, sp, fp, rng, out)
    }

    function Cfg(): Config {
      Config(layout, oracle)
    }

    /** Both registers start one word below the top of memory. */
    constructor (mem: Memory, layout: Layout, oracle: (Option<int>, nat) -> int)
      ensures State() == Start(mem) && Cfg() == Config(layout, oracle)
    {
      this.memory := mem;
      this.layout := layout;
      this.oracle := oracle;
      this.sp := Int32.Wrap(mem.size - WordSize);
      this.fp := Int32.Wrap(mem.size - WordSize);
      this.rng := Rng(None, 0);
      this.out := [];
    }

    method Store(address: int, v: Value)
      modifies this
      ensures State() == StoreAt(old(State()), address, v)
    {
      memory := memory.(cells := memory.cells[address := v]);
    }

    /** `interpret(main)`. */
    method Interpret(fuel: nat, frame: Frame, code: IRStmt) returns (ok: bool)
      modifies this
      ensures var r := Interpretation.Interpret(Cfg(), fuel, old(State()), frame, code);
        ok == r.Done? && (ok ==> State() == r.value)
        && (!ok ==> out == r.out)
    {
      var f := fp;
      Store(Int32.Wrap(f + WordSize), Int(999));
      Store(Int32.Wrap(f - layout.oldFPOffset(frame)), Int(f));
      Store(f, Int(f));
      assert State() == Setup(Cfg(), old(State()), frame);
      ok := InternalInterpret(fuel, frame, code);
    }

    /** `internalInterpret`: enter the frame, run the statements with a
        program counter, leave the frame. */
    method InternalInterpret(fuel: nat, frame: Frame, code: IRStmt) returns (ok: bool)
      modifies this
      decreases fuel, 3
      ensures var r := RunChunk(Cfg(), fuel, old(State()), frame, code);
        ok == r.Done? && (ok ==> State() == r.value)
        && (!ok ==> out == r.out)
    {
      if frame.lbl.Text() != "main" {
        fp := sp;
      }
      sp := Int32.Wrap(sp - layout.frameSize(frame));
      if !code.Seq? {
        return false;
      }
      ok := RunStatements(fuel, code.statements);
      if !ok { return; }
      ok := LeaveFrame(frame);
    }

    /** The program-counter loop, with fresh temporaries. */
    method RunStatements(fuel: nat, stmts: seq<IRStmt>) returns (ok: bool)
      modifies this
      decreases fuel, 2
      ensures var r := Run(Cfg(), fuel, old(State()), map[], stmts, 0);
        ok == r.Done? && (ok ==> State() == r.value)
        && (!ok ==> out == r.out)
    {
      var temps: Temps := map[];
      ghost var target := Run(Cfg(), fuel, State(), temps, stmts, 0);
      var pc: nat := 0;
      var f: nat := fuel;
      while pc < |stmts|
        invariant f <= fuel
        invariant Run(Cfg(), f, State(), temps, stmts, pc) == target
        decreases f
      {
        if f == 0 {
          return false;
        }
        var done, temps1, jump := ExecStmt(f - 1, temps, stmts[pc]);
        if !done {
          return false;
        }
        f, temps := f - 1, temps1;
        if jump.Some? {
          pc := JumpTarget(stmts, jump.value, pc);
        } else {
          pc := pc + 1;
        }
      }
      ok := true;
    }

    /** The search for the statement after a label: the first `LabelStmt`
        with that label, or the next statement when there is none. */
    method JumpTarget(stmts: seq<IRStmt>, l: Label, pc: nat) returns (next: nat)
      ensures next == ResumeAt(stmts, l, pc)
    {
      var q := 0;
      while q < |stmts| && stmts[q] != LabelS(l)
        invariant q <= |stmts|
        invariant FindLabel(stmts, l, 0) == FindLabel(stmts, l, q)
      {
        q := q + 1;
      }
      next := if q < |stmts| then q + 1 else pc + 1;
    }

    /** Leaving the frame: SP takes FP, FP is reloaded from its slot. */
    method LeaveFrame(frame: Frame) returns (ok: bool)
      modifies this
      ensures var r := Leave(Cfg(), old(State()), frame);
        ok == r.Ok? && (ok ==> State() == r.value)
      ensures out == old(out)
    {
      sp := fp;
      var address := Int32.Wrap(sp - layout.oldFPOffset(frame));
      if address !in memory.cells || !memory.cells[address].Int? {
        return false;
      }
      fp := memory.cells[address].i;
      ok := true;
    }

    /** `execute(IRStmt)`: the new temporaries and the label to continue
        at, if any. */
    method ExecStmt(fuel: nat, temps: Temps, st: IRStmt) returns (ok: bool, temps1: Temps, jump: Option<Label>)
      modifies this
      decreases fuel, 1
      ensures var r := Exec(Cfg(), fuel, old(State()), temps, st);
        ok == r.Done? && (ok ==> State() == r.value.0 && temps1 == r.value.1 && jump == r.value.2)
        && (!ok ==> out == r.out)
    {
      ok, temps1, jump := true, temps, None;
      match st
      case CJump(cond, t, e) =>
        var v;
        ok, v := EvalExpr(fuel, temps, cond);
        if ok && v.Int? {
          jump := Some(if v.i == 1 then t else e);
        } else {
          ok := false;
        }
      case ExpS(x) =>
        var value;
        ok, value := EvalExpr(fuel, temps, x);
      case Jump(l) =>
        jump := Some(l);
      case LabelS(_) =>
      case Move(dst, src) =>
        if dst.Temp? {
          var v;
          ok, v := EvalExpr(fuel, temps, src);
          temps1 := temps[dst.temp := v];
        } else if dst.Mem? {
          var a, v;
          ok, a := EvalExpr(fuel, temps, dst.expr);
          if !ok {
            return;
          }
          ok, v := EvalExpr(fuel, temps, src);
          if !ok {
            return;
          }
          if !a.Int? {
            ok := false;
            return;
          }
          Store(a.i, v);
        }
      case Seq(_) =>
        ok := false;
    }

    /** `execute(IRExpr)`. */
    method EvalExpr(fuel: nat, temps: Temps, x: IRExpr) returns (ok: bool, v: Value)
      modifies this
      decreases fuel, 0, x
      ensures var r := Eval(Cfg(), fuel, old(State()), temps, x);
        ok == r.Done? && (ok ==> State() == r.value.0 && v == r.value.1)
        && (!ok ==> out == r.out)
    {
      ok, v := true, Null;
      match x
      case Binop(lhs, rhs, op) =>
        var a, b;
        ok, a := EvalExpr(fuel, temps, lhs);
        if !ok {
          return;
        }
        ok, b := EvalExpr(fuel, temps, rhs);
        if !ok {
          return;
        }
        var r := BinopValue(op, a, b);
        ok := r.Ok?;
        if ok {
          v := r.value;
        }
      case CallE(l, args) =>
        ok, v := EvalCall(fuel, temps, l, args);
      case Const(c) =>
        v := Int(c);
      case Eseq(_, _) =>
        ok := false;
      case Mem(address) =>
        if address.NameE? {
          ok, v := EvalExpr(fuel, temps, address);
        } else {
          var a;
          ok, a := EvalExpr(fuel, temps, address);
          if ok {
            v := if a.Int? && a.i in memory.cells then memory.cells[a.i] else a;
          }
        }
      case NameE(l) =>
        if l == FPLabel {
          v := Int(fp);
        } else if l == SPLabel {
          v := Int(sp);
        } else if l in memory.labels {
          v := Int(memory.labels[l]);
        } else {
          ok := false;
        }
      case Temp(t) =>
        v := if t in temps then temps[t] else Null;
    }

    /** `execute(CallExpr)`. */
    method EvalCall(fuel: nat, temps: Temps, l: Label, args: seq<IRExpr>) returns (ok: bool, v: Value)
      modifies this
      decreases fuel, 0, args, 4
      ensures var r := CallValue(Cfg(), fuel, old(State()), temps, l, args);
        ok == r.Done? && (ok ==> State() == r.value.0 && v == r.value.1)
        && (!ok ==> out == r.out)
    {
      if l.Text() in StdLib {
        ok, v := EvalIntrinsic(fuel, temps, l.Text(), args);
      } else {
        ok, v := EvalUserCall(fuel, temps, l, args);
      }
    }

    /** The intrinsics `print_int`, `print_str`, `print_log`, `rand_int`
        and `seed`. */
    method EvalIntrinsic(fuel: nat, temps: Temps, name: string, args: seq<IRExpr>) returns (ok: bool, v: Value)
      requires name in StdLib
      modifies this
      decreases fuel, 0, args, 1
      ensures var r := IntrinsicValue(Cfg(), fuel, old(State()), temps, name, args);
        ok == r.Done? && (ok ==> State() == r.value.0 && v == r.value.1)
        && (!ok ==> out == r.out)
    {
      if name == RandIntLabel || name == SeedLabel {
        ok, v := EvalRngIntrinsic(fuel, temps, name, args);
      } else {
        ok, v := EvalPrintIntrinsic(fuel, temps, name, args);
      }
    }

    /** `print_int`, `print_str` and `print_log`: one line of output. */
    method EvalPrintIntrinsic(fuel: nat, temps: Temps, name: string, args: seq<IRExpr>) returns (ok: bool, v: Value)
      requires name == PrintIntLabel || name == PrintStrLabel || name == PrintLogLabel
      modifies this
      decreases fuel, 0, args, 0
      ensures var r := IntrinsicValue(Cfg(), fuel, old(State()), temps, name, args);
        ok == r.Done? && (ok ==> State() == r.value.0 && v == r.value.1)
        && (!ok ==> out == r.out)
    {
      v := Null;
      if |args| != 2 {
        return false, Null;
      }
      var a;
      ok, a := EvalExpr(fuel, temps, args[1]);
      if !ok {
        return;
      }
      if name == PrintIntLabel {
        out := out + [PrintedInt(a)];
      } else if name == PrintStrLabel {
        if !a.Int? || a.i !in memory.cells {
          return false, Null;
        }
        out := out + [PrintedStr(memory.cells[a.i])];
      } else {
        if !a.Int? {
          return false, Null;
        }
        out := out + [PrintedLog(a.i != 0)];
      }
    }

    /** `rand_int` and `seed`: the generator's state changes. */
    method EvalRngIntrinsic(fuel: nat, temps: Temps, name: string, args: seq<IRExpr>) returns (ok: bool, v: Value)
      requires name == RandIntLabel || name == SeedLabel
      modifies this
      decreases fuel, 0, args, 0
      ensures var r := IntrinsicValue(Cfg(), fuel, old(State()), temps, name, args);
        ok == r.Done? && (ok ==> State() == r.value.0 && v == r.value.1)
        && (!ok ==> out == r.out)
    {
      v := Null;
      if |args| != (if name == RandIntLabel then 3 else 2) {
        return false, Null;
      }
      var a;
      ok, a := EvalExpr(fuel, temps, args[1]);
      if !ok {
        return;
      }
      if !a.Int? {
        return false, Null;
      }
      if name == RandIntLabel {
        var b;
        ok, b := EvalExpr(fuel, temps, args[2]);
        if !ok || !b.Int? || a.i >= b.i {
          return false, Null;
        }
        v := Int(Draw(Cfg(), rng, a.i, b.i));
        rng := rng.(draws := rng.draws + 1);
      } else {
        rng := Rng(Some(a.i), 0);
      }
    }

    /** The argument loop of a user call: argument `i` goes to
        `SP + i * WordSize`. */
    method StageArguments(fuel: nat, temps: Temps, args: seq<IRExpr>) returns (ok: bool)
      modifies this
      decreases fuel, 0, args, 1
      ensures var r := StoreArgs(Cfg(), fuel, old(State()), temps, args, 0);
        ok == r.Done? && (ok ==> State() == r.value)
        && (!ok ==> out == r.out)
    {
      ghost var staged := StoreArgs(Cfg(), fuel, State(), temps, args, 0);
      for i := 0 to |args|
        invariant StoreArgs(Cfg(), fuel, State(), temps, args, i) == staged
      {
        ok := StageArgument(fuel, temps, args, i);
        if !ok {
          return;
        }
      }
      ok := true;
    }

    /** One turn of the argument loop: evaluate argument `i` and store it
        at `SP + i * WordSize`. */
    method StageArgument(fuel: nat, temps: Temps, args: seq<IRExpr>, i: nat) returns (ok: bool)
      requires i < |args|
      modifies this
      decreases fuel, 0, args, 0
      ensures var r := StoreArgs(Cfg(), fuel, old(State()), temps, args, i);
        if ok then StoreArgs(Cfg(), fuel, State(), temps, args, i + 1) == r
        else r.Fail? && out == r.out
    {
      ghost var m := State();
      var a;
      ok, a := EvalExpr(fuel, temps, args[i]);
      if !ok {
        StoreArgsFails(Cfg(), fuel, m, temps, args, i);
        return;
      }
      ghost var m1 := State();
      Store(Int32.Wrap(sp + i * WordSize), a);
      StoreArgsStep(Cfg(), fuel, m, temps, args, i, m1, a, State());
    }

    /** A call of the code chunk stored at label `l`. */
    method EvalUserCall(fuel: nat, temps: Temps, l: Label, args: seq<IRExpr>) returns (ok: bool, v: Value)
      modifies this
      decreases fuel, 0, args, 3
      ensures var r := UserCallValue(Cfg(), fuel, old(State()), temps, l, args);
        ok == r.Done? && (ok ==> State() == r.value.0 && v == r.value.1)
        && (!ok ==> out == r.out)
    {
      if l !in memory.labels || memory.labels[l] !in memory.cells || !memory.cells[memory.labels[l]].Code? {
        return false, Null;
      }
      var callee := memory.cells[memory.labels[l]];
      ok, v := CallCode(fuel, temps, callee.frame, callee.code, args);
    }

    /** Calling a chunk: stage the arguments above SP, save FP in the
        callee's old-FP slot, run the chunk, and read the result at SP. */
    method CallCode(fuel: nat, temps: Temps, frame: Frame, code: IRStmt, args: seq<IRExpr>) returns (ok: bool, v: Value)
      modifies this
      decreases fuel, 0, args, 2
      ensures var r := CallChunk(Cfg(), fuel, old(State()), temps, frame, code, args);
        ok == r.Done? && (ok ==> State() == r.value.0 && v == r.value.1)
        && (!ok ==> out == r.out)
    {
      v := Null;
      ok := StageArguments(fuel, temps, args);
      if !ok {
        return;
      }
      Store(Int32.Wrap(sp - layout.oldFPOffset(frame)), Int(fp));
      if fuel == 0 {
        return false, Null;
      }
      ok := InternalInterpret(fuel - 1, frame, code);
      if !ok {
        return;
      }
      if sp !in memory.cells {
        return false, Null;
      }
      v := memory.cells[sp];
    }
  }
}

=== FILE: ir.dfy ===
/** The tree intermediate representation (`compiler.ir.code`) and the chunks
    (`compiler.ir.chunk`) produced by the code generator and run by the
    interpreter. */
module IR {
  import opened Wrappers
  import opened Frames

  /** `BinopExpr.Operator`. */
  datatype Operator = ADD | SUB | MUL | DIV | MOD | AND | OR | EQ | NEQ | LT | GT | LEQ | GEQ

  /** `IRExpr`: `BinopExpr`, `CallExpr`, `ConstantExpr`, `EseqExpr`,
      `MemExpr`, `NameExpr`, `TempExpr`. */
  datatype IRExpr =
    | Binop(lhs: IRExpr, rhs: IRExpr, op: Operator)
    | CallE(lbl: Label, args: seq<IRExpr>)
    | Const(constant: int)
    | Eseq(stmt: IRStmt, expr: IRExpr)
    | Mem(expr: IRExpr)
    | NameE(lbl: Label)
    | Temp(temp: nat)

  /** `IRStmt`: `CJumpStmt`, `ExpStmt`, `JumpStmt`, `LabelStmt`, `MoveStmt`,
      `SeqStmt`. */
  datatype IRStmt =
    | CJump(condition: IRExpr, thenLabel: Label, elseLabel: Label)
    | ExpS(expr: IRExpr)
    | Jump(target: Label)
    | LabelS(lbl: Label)
    | Move(dst: IRExpr, src: IRExpr)
    | Seq(statements: seq<IRStmt>)

  /** `IRNode`: what the side table `imcCode` stores for an AST node. */
  datatype IRNode = E(expr: IRExpr) | S(stmt: IRStmt)

  /** `Chunk`: a function's code, a string constant, or a global variable. */
  datatype Chunk =
    | CodeChunk(frame: Frame, code: IRStmt)
    | DataChunk(access: Access, value: string)
    | GlobalChunk(access: Access)

  /** `NameExpr.FP()` and `NameExpr.SP()`. */
  const FP: IRExpr := NameE(FPLabel)
  const SP: IRExpr := NameE(SPLabel)

  /** The first index at or after `from` holding `LabelStmt(l)`: the inner
      search loop of the interpreter, which scans from the start. */
  function FindLabel(stmts: seq<IRStmt>, l: Label, from: nat): (r: Option<nat>)
    requires from <= |stmts|
    ensures r.Some? ==> from <= r.value < |stmts| && stmts[r.value] == LabelS(l)
    ensures r.Some? ==> forall q :: from <= q < r.value ==> stmts[q] != LabelS(l)
    ensures r.None? ==> forall q :: from <= q < |stmts| ==> stmts[q] != LabelS(l)
    decreases |stmts| - from
  {
    if from == |stmts| then None
    else if stmts[from] == LabelS(l) then Some(from)
    else FindLabel(stmts, l, from + 1)
  }

  /** Where execution resumes after statement `pc` yields label `l`: just
      after the first `LabelStmt(l)`, or just after `pc` when there is none. */
  function ResumeAt(stmts: seq<IRStmt>, l: Label, pc: nat): nat {
    match FindLabel(stmts, l, 0)
    case Some(q) => q + 1
    case None => pc + 1
  }

  /** `k` nested `MemExpr` layers around the frame pointer. */
  function Layers(k: nat): IRExpr {
    if k == 0 then FP else Mem(Layers(k - 1))
  }

  /** How many `MemExpr` layers lie around the frame pointer in `x`, if `x`
      is the frame pointer under such layers. */
  function FPDepth(x: IRExpr): Option<nat> {
    if x == FP then Some(0)
    else if x.Mem? then
      match FPDepth(x.expr)
      case Some(k) => Some(k + 1)
      case None => None
    else None
  }

  lemma {:induction false} LayersDepth(k: nat)
    ensures FPDepth(Layers(k)) == Some(k)
  {
    if k > 0 {
      LayersDepth(k - 1);
    }
  }
}

=== FILE: ir_code_generator.dfy ===
/** `IRCodeGenerator` itself: the visitor that fills the `imcCode` side
    table and the `chunks` list in place, drawing labels from the global
    counter. Every visit method is proved to leave the fields exactly as
    the corresponding function of `IRGeneration` computes, so the properties
    proved in `IRGenerationProperties` hold of the class. A method returns
    `false` where the Java code would abort. */
module IRCodeGeneratorClass {
  import opened Wrappers
  import opened Ast
  import opened SemTypes
  import opened Frames
  import opened Constants
  import opened IR
  import opened IRGeneration

  class IRCodeGenerator {
    /** Output: the IR of every lowered node, and the chunks in order. */
    var imcCode: map<NodeId, IRNode>
    var chunks: seq<Chunk>
    /** The counter behind `Frame.Label.nextAnonymous()`. */
    var nextLabel: nat
    var currentFrame: Option<Frame>
    /** Inputs from the earlier phases. */
    const frames: map<NodeId, Frame>
    const accesses: map<NodeId, Access>
    const definitions: map<NodeId, Decl>
    const types: map<NodeId, Type>
    const layout: Layout

    function State(): GState
      reads this
    {
      GState(imcCode, chunks, nextLabel, currentFrame)
    }

    function Inputs(): Tables {
      Tables(frames, accesses, definitions, types, layout)
    }

    constructor(frames: map<NodeId, Frame>, accesses: map<NodeId, Access>, definitions: map<NodeId, Decl>,
                types: map<NodeId, Type>, layout: Layout, nextLabel: nat)
      ensures Inputs() == Tables(frames, accesses, definitions, types, layout)
      ensures State() == Initial(nextLabel)
    {
      this.frames := frames;
      this.accesses := accesses;
      this.definitions := definitions;
      this.types := types;
      this.layout := layout;
      this.imcCode := map[];
      this.chunks := [];
      this.nextLabel := nextLabel;
      this.currentFrame := None;
    }

    /** `Label.nextAnonymous()`. */
    method NextAnonymous() returns (l: Label)
      modifies this
      ensures l == Anonymous(old(nextLabel)) && nextLabel == old(nextLabel) + 1
      ensures imcCode == old(imcCode) && chunks == old(chunks) && currentFrame == old(currentFrame)
    {
      l := Anonymous(nextLabel);
      nextLabel := nextLabel + 1;
    }

    method VisitExpr(e: Expr) returns (ok: bool)
      modifies this
      ensures var r := LowerExpr(Inputs(), old(State()), e); ok == r.Ok? && (ok ==> State() == r.value)
      decreases e, 1
    {
      match e
      case Call(id, args, name) => ok := VisitCall(id, args, name);
      case Binary(_, _, _, _) => ok := VisitBinary(e);
      case Block(_, _) => ok := VisitBlock(e);
      case For(_, _, _, _, _, _) => ok := VisitFor(e);
      case IfThenElse(_, _, _, _) => ok := VisitIfThenElse(e);
      case Literal(id, value, kind) => ok := VisitLiteral(id, value, kind);
      case Name(id, _) => ok := VisitName(id);
      case Unary(_, _, _) => ok := VisitUnary(e);
      case While(_, _, _) => ok := VisitWhile(e);
      case Where(_, _, _) => ok := VisitWhere(e);
    }

    /** The elements of a block or the arguments of a call, in order. */
    method VisitExprs(es: seq<Expr>) returns (ok: bool)
      modifies this
      ensures var r := LowerExprs(Inputs(), old(State()), es); ok == r.Ok? && (ok ==> State() == r.value)
      decreases es, 0
    {
      ghost var s0 := State();
      ok := true;
      for i := 0 to |es|
        invariant LowerExprs(Inputs(), s0, es) == LowerExprs(Inputs(), State(), es[i..])
      {
        assert es[i..][0] == es[i] && es[i..][1..] == es[i + 1..];
        ok := VisitExpr(es[i]);
        if !ok {
          return;
        }
      }
    }

    /** The argument loop of `visit(Call)`: the IR of every argument, which
        must be an expression, after `first`. */
    method ArgumentCode(first: IRExpr, args: seq<Expr>) returns (ok: bool, xs: seq<IRExpr>)
      ensures var r := FetchExprs(State(), args); ok == r.Ok? && (ok ==> xs == [first] + r.value)
    {
      xs := [first];
      for i := 0 to |args|
        invariant |xs| == i + 1 && xs[0] == first
        invariant forall j :: 0 <= j < i ==> FetchExpr(State(), args[j].id) == Ok(xs[j + 1])
      {
        if args[i].id !in imcCode || !imcCode[args[i].id].E? {
          return false, xs;
        }
        xs := xs + [imcCode[args[i].id].expr];
      }
      ok := true;
      assert xs[1..] == FetchExprs(State(), args).value;
    }

    /** `visit(Call)`. */
    method VisitCall(id: NodeId, args: seq<Expr>, name: string) returns (ok: bool)
      modifies this
      ensures var r := LowerCall(Inputs(), old(State()), id, args, name); ok == r.Ok? && (ok ==> State() == r.value)
      decreases args, 1
    {
      ok := VisitExprs(args);
      if !ok {
        return;
      }
      if currentFrame.None? {
        return false;
      }
      var xs;
      if name in StdLib {
        ok, xs := ArgumentCode(FP, args);
        if ok {
          imcCode := imcCode[id := E(CallE(Named(name), xs))];
        }
        return;
      }
      if id !in definitions || !(definitions[id].DefDecl? && definitions[id].def.FunDef?) {
        return false;
      }
      var def := definitions[id].def;
      if def.id !in frames {
        return false;
      }
      var f := frames[def.id];
      var cur := currentFrame.value;
      ok, xs := ArgumentCode(StaticLink(cur, name), args);
      if ok {
        var c := CallE(f.lbl, xs);
        var m := Move(Mem(Binop(SP, Const(layout.oldFPOffset(cur)), Operator.SUB)), FP);
        imcCode := imcCode[id := E(Eseq(m, c))];
      }
    }

    /** `visit(Binary)`. */
    method VisitBinary(e: Expr) returns (ok: bool)
      requires e.Binary?
      modifies this
      ensures var r := LowerBinaryExpr(Inputs(), old(State()), e); ok == r.Ok? && (ok ==> State() == r.value)
      decreases e, 0
    {
      ok := VisitExpr(e.left);
      if !ok {
        return;
      }
      ok := VisitExpr(e.right);
      if !ok {
        return;
      }
      if e.left.id !in imcCode || !imcCode[e.left.id].E? {
        return false;
      }
      var lhs := imcCode[e.left.id].expr;
      if e.op == ASSIGN {
        if e.right.id !in imcCode {
          return e.right.Literal?;
        }
        if !imcCode[e.right.id].E? {
          return false;
        }
        var rhs := imcCode[e.right.id].expr;
        if lhs.Mem? {
          imcCode := imcCode[e.id := S(Move(lhs, rhs))];
        } else {
          ok := false;
        }
      } else if e.op == ARR {
        if e.right.id !in imcCode || !imcCode[e.right.id].E? {
          return false;
        }
        var rhs := imcCode[e.right.id].expr;
        if !lhs.Mem? || e.id !in types {
          return false;
        }
        var elementSize := layout.sizeInBytes(types[e.id]);
        var address := Binop(lhs.expr, Binop(rhs, Const(elementSize), Operator.MUL), Operator.ADD);
        imcCode := imcCode[e.id := E(Mem(address))];
      } else {
        if e.right.id !in imcCode || !imcCode[e.right.id].E? {
          return false;
        }
        var rhs := imcCode[e.right.id].expr;
        var op := BinaryOperator(e.op);
        if op.None? {
          return false;
        }
        imcCode := imcCode[e.id := E(Binop(lhs, rhs, op.value))];
      }
    }

    /** `visit(Block)`. */
    method VisitBlock(e: Expr) returns (ok: bool)
      requires e.Block?
      modifies this
      ensures var r := LowerBlock(Inputs(), old(State()), e); ok == r.Ok? && (ok ==> State() == r.value)
      decreases e, 0
    {
      ok := VisitExprs(e.exprs);
      if !ok {
        return;
      }
      var n := |e.exprs|;
      if n == 0 {
        return false;
      }
      var stmts: seq<IRStmt> := [];
      for i := 0 to n - 1
        invariant |stmts| == i
        invariant forall j :: 0 <= j < i ==> e.exprs[j].id in imcCode && stmts[j] == ToStmt(imcCode[e.exprs[j].id])
      {
        if e.exprs[i].id !in imcCode {
          return false;
        }
        var node := imcCode[e.exprs[i].id];
        if node.S? {
          stmts := stmts + [node.stmt];
        } else {
          stmts := stmts + [ExpS(node.expr)];
        }
      }
      if e.exprs[n - 1].id !in imcCode {
        return false;
      }
      var node := imcCode[e.exprs[n - 1].id];
      ghost var nodes := FetchAll(State(), e.exprs).value;
      assert stmts == Stmts(nodes[..n - 1]);
      if node.E? {
        imcCode := imcCode[e.id := E(Eseq(Seq(stmts), node.expr))];
      } else {
        stmts := stmts + [node.stmt];
        imcCode := imcCode[e.id := S(Seq(stmts))];
      }
    }

    /** `visit(For)`. */
    method VisitFor(e: Expr) returns (ok: bool)
      requires e.For?
      modifies this
      ensures var r := LowerFor(Inputs(), old(State()), e); ok == r.Ok? && (ok ==> State() == r.value)
      decreases e, 0
    {
      ok := VisitExpr(e.counter);
      if !ok { return; }
      ok := VisitExpr(e.low);
      if !ok { return; }
      ok := VisitExpr(e.high);
      if !ok { return; }
      ok := VisitExpr(e.step);
      if !ok { return; }
      ok := VisitExpr(e.body);
      if !ok { return; }
      ok := BuildFor(e);
    }

    /** The loop of `visit(For)` once its parts are lowered. */
    method BuildFor(e: Expr) returns (ok: bool)
      requires e.For?
      modifies this
      ensures var r := ForNode(old(State()), e); ok == r.Ok? && (ok ==> State() == r.value)
    {
      if e.counter.id !in imcCode || e.low.id !in imcCode || e.high.id !in imcCode
         || e.step.id !in imcCode || e.body.id !in imcCode {
        return false;
      }
      var counter := imcCode[e.counter.id];
      var low := imcCode[e.low.id];
      var high := imcCode[e.high.id];
      var step := imcCode[e.step.id];
      if !counter.E? || !low.E? || !high.E? || !step.E? {
        return false;
      }
      var init := Move(counter.expr, low.expr);
      var condLabel := NextAnonymous();
      var lt := Binop(counter.expr, high.expr, Operator.LT);
      var thenLabel := NextAnonymous();
      var body := ToStmt(imcCode[e.body.id]);
      var stepMove := Move(counter.expr, step.expr);
      var jump := Jump(condLabel);
      var elseLabel := NextAnonymous();
      var c := CJump(lt, thenLabel, elseLabel);
      var stmts := [init, LabelS(condLabel), c, LabelS(thenLabel), body, stepMove, jump, LabelS(elseLabel)];
      imcCode := imcCode[e.id := S(Seq(stmts))];
      ok := true;
    }

    /** `visit(IfThenElse)`. */
    method VisitIfThenElse(e: Expr) returns (ok: bool)
      requires e.IfThenElse?
      modifies this
      ensures var r := LowerIf(Inputs(), old(State()), e); ok == r.Ok? && (ok ==> State() == r.value)
      decreases e, 0
    {
      ok := VisitExpr(e.cond);
      if !ok { return; }
      ok := VisitExpr(e.thenE);
      if !ok { return; }
      if e.elseE.Some? {
        ok := VisitExpr(e.elseE.value);
        if !ok { return; }
      }
      ok := BuildIf(e);
    }

    /** The conditional of `visit(IfThenElse)` once its parts are lowered. */
    method BuildIf(e: Expr) returns (ok: bool)
      requires e.IfThenElse?
      modifies this
      ensures var r := IfNode(old(State()), e); ok == r.Ok? && (ok ==> State() == r.value)
    {
      if e.cond.id !in imcCode || e.thenE.id !in imcCode || (e.elseE.Some? && e.elseE.value.id !in imcCode) {
        return false;
      }
      var cond := imcCode[e.cond.id];
      if !cond.E? {
        return false;
      }
      var thenLabel := NextAnonymous();
      var elseLabel := NextAnonymous();
      var endLabel := NextAnonymous();
      var jump := Jump(endLabel);
      var thenBody := ToStmt(imcCode[e.thenE.id]);
      var stmts;
      if e.elseE.Some? {
        var elseBody := ToStmt(imcCode[e.elseE.value.id]);
        var c := CJump(cond.expr, thenLabel, elseLabel);
        stmts := [c, LabelS(thenLabel), thenBody, jump, LabelS(elseLabel), elseBody, LabelS(endLabel)];
      } else {
        var c := CJump(cond.expr, thenLabel, endLabel);
        stmts := [c, LabelS(thenLabel), thenBody, LabelS(endLabel)];
      }
      imcCode := imcCode[e.id := S(Seq(stmts))];
      ok := true;
    }

    /** `visit(Literal)`. */
    method VisitLiteral(id: NodeId, value: string, kind: Ast.AtomKind) returns (ok: bool)
      modifies this
      ensures var r := LowerLiteral(old(State()), id, value, kind); ok == r.Ok? && (ok ==> State() == r.value)
    {
      if kind == STR {
        var l := NextAnonymous();
        chunks := chunks + [DataChunk(Global(WordSize, l), value)];
        imcCode := imcCode[id := E(NameE(l))];
        return true;
      }
      var c := LiteralConstant(value, kind);
      if c.Err? {
        return false;
      }
      imcCode := imcCode[id := E(c.value)];
      ok := true;
    }

    /** `visit(Name)`. */
    method VisitName(id: NodeId) returns (ok: bool)
      modifies this
      ensures var r := LowerName(Inputs(), old(State()), id); ok == r.Ok? && (ok ==> State() == r.value)
    {
      if id !in definitions {
        return false;
      }
      var v := definitions[id];
      if v.Id() !in accesses {
        return false;
      }
      var a := accesses[v.Id()];
      ok := true;
      match a
      case Global(_, l) =>
        imcCode := imcCode[id := E(Mem(NameE(l)))];
      case Local(_, offset, level) =>
        if currentFrame.None? {
          return false;
        }
        var fp := FrameBase(currentFrame.value.staticLevel, level);
        imcCode := imcCode[id := E(Mem(Binop(fp, Const(offset), Operator.ADD)))];
      case Parameter(_, offset, level) =>
        if currentFrame.None? {
          return false;
        }
        var fp := FrameBase(currentFrame.value.staticLevel, level);
        imcCode := imcCode[id := E(Mem(Binop(fp, Const(offset), Operator.ADD)))];
    }

    /** The frame-address loop of `visit(Name)`. */
    static method FrameBase(current: int, declared: int) returns (fp: IRExpr)
      ensures fp == FrameAddress(current, declared)
    {
      fp := FP;
      if declared != current {
        var i := 0;
        while i <= current - declared
          invariant 0 <= i <= (if current - declared + 1 > 0 then current - declared + 1 else 0)
          invariant fp == Layers(i)
          decreases current - declared + 1 - i
        {
          fp := Mem(fp);
          i := i + 1;
        }
      }
    }

    /** `visit(Unary)`. */
    method VisitUnary(e: Expr) returns (ok: bool)
      requires e.Unary?
      modifies this
      ensures var r := LowerUnary(Inputs(), old(State()), e); ok == r.Ok? && (ok ==> State() == r.value)
      decreases e, 0
    {
      ok := VisitExpr(e.operand);
      if !ok {
        return;
      }
      if e.operand.id !in imcCode || !imcCode[e.operand.id].E? {
        return false;
      }
      var x := imcCode[e.operand.id].expr;
      var code;
      if e.uop == Not {
        code := Binop(Const(1), x, Operator.SUB);
      } else {
        code := Binop(Const(0), x, if e.uop == Plus then Operator.ADD else Operator.SUB);
      }
      imcCode := imcCode[e.id := E(code)];
    }

    /** `visit(While)`. */
    method VisitWhile(e: Expr) returns (ok: bool)
      requires e.While?
      modifies this
      ensures var r := LowerWhile(Inputs(), old(State()), e); ok == r.Ok? && (ok ==> State() == r.value)
      decreases e, 0
    {
      ok := VisitExpr(e.cond);
      if !ok { return; }
      ok := VisitExpr(e.body);
      if !ok { return; }
      ok := BuildWhile(e);
    }

    /** The loop of `visit(While)` once its parts are lowered. */
    method BuildWhile(e: Expr) returns (ok: bool)
      requires e.While?
      modifies this
      ensures var r := WhileNode(old(State()), e); ok == r.Ok? && (ok ==> State() == r.value)
    {
      if e.cond.id !in imcCode || e.body.id !in imcCode {
        return false;
      }
      var condLabel := NextAnonymous();
      var cond := imcCode[e.cond.id];
      if !cond.E? {
        return false;
      }
      var thenLabel := NextAnonymous();
      var body := ToStmt(imcCode[e.body.id]);
      var back := Jump(condLabel);
      var elseLabel := NextAnonymous();
      var c := CJump(cond.expr, thenLabel, elseLabel);
      imcCode := imcCode[e.id := S(Seq([LabelS(condLabel), c, LabelS(thenLabel), body, back, LabelS(elseLabel)]))];
      ok := true;
    }

    /** `visit(Where)`. */
    method VisitWhere(e: Expr) returns (ok: bool)
      requires e.Where?
      modifies this
      ensures var r := LowerWhere(Inputs(), old(State()), e); ok == r.Ok? && (ok ==> State() == r.value)
      decreases e, 0
    {
      ok := VisitExpr(e.expr);
      if !ok { return; }
      ok := VisitDefs(e.defs);
      if !ok { return; }
      if e.expr.id !in imcCode {
        return false;
      }
      imcCode := imcCode[e.id := imcCode[e.expr.id]];
    }

    /** `visit(Defs)`. */
    method VisitDefs(ds: seq<Def>) returns (ok: bool)
      modifies this
      ensures var r := LowerDefs(Inputs(), old(State()), ds); ok == r.Ok? && (ok ==> State() == r.value)
      decreases ds, 0
    {
      ghost var s0 := State();
      ok := true;
      for i := 0 to |ds|
        invariant LowerDefs(Inputs(), s0, ds) == LowerDefs(Inputs(), State(), ds[i..])
      {
        assert ds[i..][0] == ds[i] && ds[i..][1..] == ds[i + 1..];
        ok := VisitDef(ds[i]);
        if !ok {
          return;
        }
      }
    }

    /** `visit(FunDef)`, `visit(TypeDef)` and `visit(VarDef)`. */
    method VisitDef(d: Def) returns (ok: bool)
      modifies this
      ensures var r := LowerDef(Inputs(), old(State()), d); ok == r.Ok? && (ok ==> State() == r.value)
      decreases d, 1
    {
      match d
      case TypeDef(_, _, _) =>
        ok := true;
      case VarDef(id, _, _) =>
        if id !in accesses || id !in types {
          return false;
        }
        var a := accesses[id];
        if a.Global? {
          chunks := chunks + [GlobalChunk(a)];
        }
        ok := true;
      case FunDef(id, _, _, _, body) =>
        if id !in frames {
          return false;
        }
        var frame := frames[id];
        currentFrame := Some(frame);
        ok := VisitExpr(body);
        if !ok {
          return;
        }
        if body.id !in imcCode {
          return false;
        }
        var node := imcCode[body.id];
        var chunk;
        if node.E? {
          chunk := CodeChunk(frame, Move(Mem(FP), node.expr));
        } else {
          chunk := CodeChunk(frame, node.stmt);
        }
        chunks := chunks + [chunk];
    }
  }
}

=== FILE: ir_generation.dfy ===
/** What `IRCodeGenerator` computes, as functions over an explicit state.

    The generator walks the attributed AST once and lowers every node to
    tree IR, which it records in the side table `imcCode`; function bodies,
    string constants and global variables become chunks. The state threaded
    through the walk is `GState`: the side table, the list of chunks, the
    global anonymous-label counter and the frame of the function being
    lowered. The tables produced by the earlier phases are the read-only
    `Tables`. `Report.error`, a missing table entry (`Optional.get` on an
    empty value), a failed cast and a `null` current frame all abort the
    compilation and are `Err` here.

    The node shapes (`ArrayElement`, `UnaryCode`, `IfCode`, `WhileCode`,
    `ForCode`, `BlockCode`, the calls) are separate functions of the
    children's IR; `LowerExpr` threads the state around them. */
module IRGeneration {
  import opened Wrappers
  import opened Ast
  import opened SemTypes
  import opened Frames
  import opened Constants
  import opened IR
  import Int32
  import Text

  /** The side tables of the earlier phases: frames and accesses from the
      frame evaluator, the name bindings of the name checker (keyed by the
      `Name` or `Call` node) and the types of the type checker. */
  datatype Tables = Tables(
    frames: map<NodeId, Frame>,
    accesses: map<NodeId, Access>,
    definitions: map<NodeId, Decl>,
    types: map<NodeId, Type>,
    layout: Layout)

  /** `imcCode`, `chunks`, the label counter and `currentFrame`. */
  datatype GState = GState(
    imc: map<NodeId, IRNode>,
    chunks: seq<Chunk>,
    nextLabel: nat,
    currentFrame: Option<Frame>)

  /** The state before the first definition is lowered. */
  function Initial(nextLabel: nat): GState {
    GState(map[], [], nextLabel, None)
  }

  /** What every step of the walk keeps: chunks are only appended and the
      label counter never goes back. */
  predicate Nested(s: GState, t: GState) {
    s.nextLabel <= t.nextLabel && s.chunks <= t.chunks
  }

  function Store(s: GState, id: NodeId, n: IRNode): GState {
    s.(imc := s.imc[id := n])
  }

  /** `imcCode.valueFor(node).get()`. */
  function Fetch(s: GState, id: NodeId): Result<IRNode> {
    if id in s.imc then Ok(s.imc[id]) else Err("no IR for node")
  }

  /** `(IRExpr) node`. */
  function AsExpr(n: IRNode): Result<IRExpr> {
    match n
    case E(x) => Ok(x)
    case S(_) => Err("statement where an expression is expected")
  }

  function FetchExpr(s: GState, id: NodeId): Result<IRExpr> {
    var n :- Fetch(s, id);
    AsExpr(n)
  }

  /** A node used as a statement: statements as they are, expressions
      wrapped in `ExpStmt`. */
  function ToStmt(n: IRNode): IRStmt {
    match n
    case E(x) => ExpS(x)
    case S(st) => st
  }

  /** The expressions of `es`, in order, all of which must have been
      lowered to expressions. */
  function FetchExprs(s: GState, es: seq<Expr>): (r: Result<seq<IRExpr>>)
    ensures r.Ok? ==> |r.value| == |es|
    ensures r.Ok? ==> forall i :: 0 <= i < |es| ==> FetchExpr(s, es[i].id) == Ok(r.value[i])
    ensures r.Err? <==> exists i :: 0 <= i < |es| && FetchExpr(s, es[i].id).Err?
  {
    if es == [] then Ok([])
    else
      var x :- FetchExpr(s, es[0].id);
      var xs :- FetchExprs(s, es[1..]);
      assert forall i :: 1 <= i < |es| ==> es[i] == es[1..][i - 1];
      Ok([x] + xs)
  }

  /** The nodes of `es`, in order, all of which must have been lowered. */
  function FetchAll(s: GState, es: seq<Expr>): (r: Result<seq<IRNode>>)
    ensures r.Ok? ==> |r.value| == |es|
    ensures r.Ok? ==> forall i :: 0 <= i < |es| ==> es[i].id in s.imc && r.value[i] == s.imc[es[i].id]
    ensures r.Err? <==> exists i :: 0 <= i < |es| && es[i].id !in s.imc
  {
    if es == [] then Ok([])
    else
      var x :- Fetch(s, es[0].id);
      var xs :- FetchAll(s, es[1..]);
      assert forall i :: 1 <= i < |es| ==> es[i] == es[1..][i - 1];
      Ok([x] + xs)
  }

  // ---------------------------------------------------------------------
  // Node shapes

  /** The IR operator of an arithmetic, logical or comparison operator;
      assignment and indexing have none. */
  function BinaryOperator(op: BinOp): (r: Option<Operator>)
    ensures r.None? <==> op == ASSIGN || op == ARR
  {
    match op
    case ADD => Some(Operator.ADD)
    case SUB => Some(Operator.SUB)
    case MUL => Some(Operator.MUL)
    case DIV => Some(Operator.DIV)
    case MOD => Some(Operator.MOD)
    case AND => Some(Operator.AND)
    case OR => Some(Operator.OR)
    case EQ => Some(Operator.EQ)
    case NEQ => Some(Operator.NEQ)
    case LT => Some(Operator.LT)
    case GT => Some(Operator.GT)
    case LEQ => Some(Operator.LEQ)
    case GEQ => Some(Operator.GEQ)
    case ASSIGN => None
    case ARR => None
  }

  /** `a[i]` where `a` lowered to `Mem(base)`: the element at `base` plus
      `i` times the element size. */
  function ArrayElement(base: IRExpr, index: IRExpr, elemSize: int): IRExpr {
    Mem(Binop(base, Binop(index, Const(elemSize), Operator.MUL), Operator.ADD))
  }

  /** `!e` is `1 - e`, `+e` is `0 + e` and `-e` is `0 - e`. */
  function UnaryCode(op: UnOp, x: IRExpr): IRExpr {
    match op
    case Not => Binop(Const(1), x, Operator.SUB)
    case Plus => Binop(Const(0), x, Operator.ADD)
    case Minus => Binop(Const(0), x, Operator.SUB)
  }

  /** The constant of a logical or integer literal: `1` for `true` in any
      case and `0` for anything else; `Integer.parseInt` of the text. */
  function LiteralConstant(value: string, kind: Ast.AtomKind): (r: Result<IRExpr>)
    requires kind != STR
    ensures r.Ok? <==> kind == LOG || Int32.ParseInt(value).Some?
    ensures kind == LOG ==> r == Ok(Const(1)) || r == Ok(Const(0))
    ensures kind == LOG ==> (r == Ok(Const(1)) <==> Text.EqualsIgnoreCase(value, "true"))
    ensures kind == INT && r.Ok? ==>
              r.value.Const? && Int32.InRange(r.value.constant) && Int32.ParseInt(value) == Some(r.value.constant)
  {
    if kind == LOG then Ok(Const(if Text.EqualsIgnoreCase(value, "true") then 1 else 0))
    else match Int32.ParseInt(value)
      case Some(v) => Ok(Const(v))
      case None => Err("NumberFormatException")
  }

  /** The frame address of a variable declared at level `declared`, seen
      from a function at level `current`: the frame pointer itself at the
      same level, otherwise the frame pointer under one `MemExpr` layer per
      iteration of `for (i = 0; i <= current - declared; i++)`. */
  function FrameAddress(current: int, declared: int): (r: IRExpr)
    ensures FPDepth(r) == Some(if declared < current then current - declared + 1 else 0)
  {
    if declared == current then FP
    else if current - declared + 1 <= 0 then FP
    else LayersDepth(current - declared + 1); Layers(current - declared + 1)
  }

  /** The value of a variable or parameter with access `a`. */
  function AccessCode(a: Access, current: int): IRExpr {
    match a
    case Global(_, l) => Mem(NameE(l))
    case Local(_, offset, level) => Mem(Binop(FrameAddress(current, level), Const(offset), Operator.ADD))
    case Parameter(_, offset, level) => Mem(Binop(FrameAddress(current, level), Const(offset), Operator.ADD))
  }

  /** The three anonymous labels a control-flow construct draws, in order. */
  function L(n: nat): Label {
    Anonymous(n)
  }

  /** `{if c then a else b}` with labels `then`, `else`, `end` drawn from
      `n`; without an `else` the `else` label is drawn but unused. */
  function IfCode(cond: IRExpr, thenS: IRStmt, elseS: Option<IRStmt>, n: nat): IRStmt {
    match elseS
    case Some(e) =>
      Seq([CJump(cond, L(n), L(n + 1)), LabelS(L(n)), thenS, Jump(L(n + 2)), LabelS(L(n + 1)), e, LabelS(L(n + 2))])
    case None =>
      Seq([CJump(cond, L(n), L(n + 2)), LabelS(L(n)), thenS, LabelS(L(n + 2))])
  }

  /** `{while c : b}` with labels `cond`, `then`, `else` drawn from `n`. */
  function WhileCode(cond: IRExpr, body: IRStmt, n: nat): IRStmt {
    Seq([LabelS(L(n)), CJump(cond, L(n + 1), L(n + 2)), LabelS(L(n + 1)), body, Jump(L(n)), LabelS(L(n + 2))])
  }

  /** `{for i = lo, hi, st : b}` with labels `cond`, `then`, `else` drawn
      from `n`. The step is assigned to the counter, not added to it. */
  function ForCode(counter: IRExpr, low: IRExpr, high: IRExpr, step: IRExpr, body: IRStmt, n: nat): IRStmt {
    Seq([Move(counter, low), LabelS(L(n)), CJump(Binop(counter, high, Operator.LT), L(n + 1), L(n + 2)),
         LabelS(L(n + 1)), body, Move(counter, step), Jump(L(n)), LabelS(L(n + 2))])
  }

  /** `(e1, …, en)`: every element but the last as a statement, then the
      last one as the value (an `EseqExpr`) or as one more statement. */
  function BlockCode(nodes: seq<IRNode>): IRNode
    requires |nodes| > 0
  {
    var stmts := Stmts(nodes[..|nodes| - 1]);
    match nodes[|nodes| - 1]
    case E(x) => E(Eseq(Seq(stmts), x))
    case S(st) => S(Seq(stmts + [st]))
  }

  function Stmts(nodes: seq<IRNode>): (r: seq<IRStmt>)
    ensures |r| == |nodes|
    ensures forall i :: 0 <= i < |nodes| ==> r[i] == ToStmt(nodes[i])
  {
    if nodes == [] then [] else [ToStmt(nodes[0])] + Stmts(nodes[1..])
  }

  /** A call of a standard-library function: the frame pointer, then the
      arguments, to the label named after the function. */
  function StdCallCode(name: string, args: seq<IRExpr>): (r: IRExpr)
    // the first word of the call is the frame pointer, the arguments follow in order
    ensures r.CallE? && r.lbl == Named(name) && |r.args| == |args| + 1 && r.args[0] == FP && r.args[1..] == args
  {
    CallE(Named(name), [FP] + args)
  }

  /** The static link passed to a callee named `name` from `current`: the
      caller's own link (`Mem(FP)`) when the name is the current function's
      label, the frame pointer otherwise. */
  function StaticLink(current: Frame, name: string): IRExpr {
    if name == current.lbl.Text() then Mem(FP) else FP
  }

  /** A call of a user function: save the frame pointer below the stack
      pointer, then call the callee's label with the static link first. */
  function UserCallCode(layout: Layout, current: Frame, callee: Frame, name: string, args: seq<IRExpr>): (r: IRExpr)
    ensures r.Eseq? && r.stmt.Move? && r.stmt.src == FP
    ensures r.expr.CallE? && r.expr.lbl == callee.lbl && |r.expr.args| == |args| + 1 && r.expr.args[1..] == args
    // a recursive call passes on the caller's own static link
    ensures r.expr.args[0] == Mem(FP) <==> name == current.lbl.Text()
    ensures r.expr.args[0] == FP <==> name != current.lbl.Text()
  {
    var saveFP := Move(Mem(Binop(SP, Const(layout.oldFPOffset(current)), Operator.SUB)), FP);
    Eseq(saveFP, CallE(callee.lbl, [StaticLink(current, name)] + args))
  }

  /** The code of a function chunk: an expression body is moved to the
      return slot at the frame pointer. */
  function FunctionCode(body: IRNode): (r: IRStmt)
    // an expression body's value goes to the return slot at the frame pointer
    ensures body.E? ==> r.Move? && r.dst == Mem(FP) && r.src == body.expr
    ensures body.S? ==> r == body.stmt
  {
    match body
    case E(x) => Move(Mem(FP), x)
    case S(st) => st
  }

  // ---------------------------------------------------------------------
  // The walk

  function LowerExpr(tb: Tables, s: GState, e: Expr): (r: Result<GState>)
    ensures r.Ok? ==> Nested(s, r.value)
    decreases e, 1
  {
    match e
    case Call(id, args, name) => LowerCall(tb, s, id, args, name)
    case Binary(_, _, _, _) => LowerBinaryExpr(tb, s, e)
    case Block(_, _) => LowerBlock(tb, s, e)
    case For(_, _, _, _, _, _) => LowerFor(tb, s, e)
    case IfThenElse(_, _, _, _) => LowerIf(tb, s, e)
    case Literal(id, value, kind) => LowerLiteral(s, id, value, kind)
    case Name(id, _) => LowerName(tb, s, id)
    case Unary(_, _, _) => LowerUnary(tb, s, e)
    case While(_, _, _) => LowerWhile(tb, s, e)
    case Where(_, _, _) => LowerWhere(tb, s, e)
  }

  /** `visit(Binary)`: both operands, then the node. */
  function LowerBinaryExpr(tb: Tables, s: GState, e: Expr): (r: Result<GState>)
    requires e.Binary?
    ensures r.Ok? ==> Nested(s, r.value)
    decreases e, 0
  {
    var s1 :- LowerExpr(tb, s, e.left);
    var s2 :- LowerExpr(tb, s1, e.right);
    LowerBinary(tb, s2, e.id, e.left, e.op, e.right)
  }

  /** `visit(Block)`: the elements, then the block; an empty block fails
      on `get(size() - 1)`. */
  function LowerBlock(tb: Tables, s: GState, e: Expr): (r: Result<GState>)
    requires e.Block?
    ensures r.Ok? ==> Nested(s, r.value)
    decreases e, 0
  {
    var s1 :- LowerExprs(tb, s, e.exprs);
    if |e.exprs| == 0 then Err("empty block")
    else
      var nodes :- FetchAll(s1, e.exprs);
      Ok(Store(s1, e.id, BlockCode(nodes)))
  }

  /** `visit(For)`: counter, bounds, step and body, then the loop with
      three fresh labels. */
  function LowerFor(tb: Tables, s: GState, e: Expr): (r: Result<GState>)
    requires e.For?
    ensures r.Ok? ==> Nested(s, r.value)
    decreases e, 0
  {
    var s1 :- LowerExpr(tb, s, e.counter);
    var s2 :- LowerExpr(tb, s1, e.low);
    var s3 :- LowerExpr(tb, s2, e.high);
    var s4 :- LowerExpr(tb, s3, e.step);
    var s5 :- LowerExpr(tb, s4, e.body);
    ForNode(s5, e)
  }

  /** The loop of `visit(For)` once its parts are lowered. */
  function ForNode(s: GState, e: Expr): (r: Result<GState>)
    requires e.For?
    ensures r.Ok? ==> Nested(s, r.value)
  {
    var c :- FetchExpr(s, e.counter.id);
    var lo :- FetchExpr(s, e.low.id);
    var hi :- FetchExpr(s, e.high.id);
    var st :- FetchExpr(s, e.step.id);
    var b :- Fetch(s, e.body.id);
    var n := s.nextLabel;
    Ok(GState(s.imc[e.id := S(ForCode(c, lo, hi, st, ToStmt(b), n))], s.chunks, n + 3, s.currentFrame))
  }

  /** `visit(IfThenElse)`: condition and branches, then the statement with
      three fresh labels. */
  function LowerIf(tb: Tables, s: GState, e: Expr): (r: Result<GState>)
    requires e.IfThenElse?
    ensures r.Ok? ==> Nested(s, r.value)
    decreases e, 0
  {
    var s1 :- LowerExpr(tb, s, e.cond);
    var s2 :- LowerExpr(tb, s1, e.thenE);
    var s3 :- (match e.elseE case Some(x) => LowerExpr(tb, s2, x) case None => Ok(s2));
    IfNode(s3, e)
  }

  /** The conditional of `visit(IfThenElse)` once its parts are lowered. */
  function IfNode(s: GState, e: Expr): (r: Result<GState>)
    requires e.IfThenElse?
    ensures r.Ok? ==> Nested(s, r.value)
  {
    var c :- FetchExpr(s, e.cond.id);
    var t :- Fetch(s, e.thenE.id);
    var el :- (match e.elseE
               case Some(x) => (var n :- Fetch(s, x.id); Ok(Some(ToStmt(n))))
               case None => Ok(None));
    var n := s.nextLabel;
    Ok(GState(s.imc[e.id := S(IfCode(c, ToStmt(t), el, n))], s.chunks, n + 3, s.currentFrame))
  }

  /** `visit(Literal)`: a constant, or a fresh label naming a new data
      chunk that holds the string. */
  function LowerLiteral(s: GState, id: NodeId, value: string, kind: Ast.AtomKind): (r: Result<GState>)
    ensures r.Ok? ==> Nested(s, r.value)
  {
    if kind == STR then
      var l := L(s.nextLabel);
      Ok(GState(s.imc[id := E(NameE(l))], s.chunks + [DataChunk(Global(WordSize, l), value)], s.nextLabel + 1, s.currentFrame))
    else
      var c :- LiteralConstant(value, kind);
      Ok(Store(s, id, E(c)))
  }

  /** `visit(Unary)`. */
  function LowerUnary(tb: Tables, s: GState, e: Expr): (r: Result<GState>)
    requires e.Unary?
    ensures r.Ok? ==> Nested(s, r.value)
    decreases e, 0
  {
    var s1 :- LowerExpr(tb, s, e.operand);
    var x :- FetchExpr(s1, e.operand.id);
    Ok(Store(s1, e.id, E(UnaryCode(e.uop, x))))
  }

  /** `visit(While)`: condition and body, then the loop with three fresh
      labels. */
  function LowerWhile(tb: Tables, s: GState, e: Expr): (r: Result<GState>)
    requires e.While?
    ensures r.Ok? ==> Nested(s, r.value)
    decreases e, 0
  {
    var s1 :- LowerExpr(tb, s, e.cond);
    var s2 :- LowerExpr(tb, s1, e.body);
    WhileNode(s2, e)
  }

  /** The loop of `visit(While)` once its parts are lowered. */
  function WhileNode(s: GState, e: Expr): (r: Result<GState>)
    requires e.While?
    ensures r.Ok? ==> Nested(s, r.value)
  {
    var c :- FetchExpr(s, e.cond.id);
    var b :- Fetch(s, e.body.id);
    var n := s.nextLabel;
    Ok(GState(s.imc[e.id := S(WhileCode(c, ToStmt(b), n))], s.chunks, n + 3, s.currentFrame))
  }

  /** `visit(Where)`: the expression, then the definitions; the node
      stands for its expression's IR. */
  function LowerWhere(tb: Tables, s: GState, e: Expr): (r: Result<GState>)
    requires e.Where?
    ensures r.Ok? ==> Nested(s, r.value)
    decreases e, 0
  {
    var s1 :- LowerExpr(tb, s, e.expr);
    var s2 :- LowerDefs(tb, s1, e.defs);
    var n :- Fetch(s2, e.expr.id);
    Ok(Store(s2, e.id, n))
  }

  /** `visit(Binary)` after both operands were lowered. An assignment
      whose right operand has no IR is accepted without IR of its own when
      that operand is a literal. */
  function LowerBinary(tb: Tables, s: GState, id: NodeId, left: Expr, op: BinOp, right: Expr): (r: Result<GState>)
    // only the side table changes
    ensures r.Ok? ==> r.value.chunks == s.chunks && r.value.nextLabel == s.nextLabel && r.value.currentFrame == s.currentFrame
    // the node gets IR, except an assignment of a literal that has none
    ensures r.Ok? && op == ASSIGN && right.id !in s.imc ==> right.Literal? && r.value == s
    ensures r.Ok? && !(op == ASSIGN && right.id !in s.imc) ==> id in r.value.imc
  {
    if op == ASSIGN then
      var lhs :- FetchExpr(s, left.id);
      if right.id !in s.imc then
        if right.Literal? then Ok(s) else Err("ClassCastException")
      else
        var rhs :- AsExpr(s.imc[right.id]);
        if lhs.Mem? then Ok(Store(s, id, S(Move(lhs, rhs))))
        else Err("expected MemExpr on the left of an assignment")
    else if op == ARR then
      var lhs :- FetchExpr(s, left.id);
      var rhs :- FetchExpr(s, right.id);
      if !lhs.Mem? then Err("expected MemExpr on the left of an assignment")
      else if id !in tb.types then Err("no type for binary")
      else Ok(Store(s, id, E(ArrayElement(lhs.expr, rhs, tb.layout.sizeInBytes(tb.types[id])))))
    else
      var lhs :- FetchExpr(s, left.id);
      var rhs :- FetchExpr(s, right.id);
      match BinaryOperator(op)
      case Some(o) => Ok(Store(s, id, E(Binop(lhs, rhs, o))))
      case None => Err("unknown operator")
  }

  /** `visit(Name)`: the value at the access of the bound definition. */
  function LowerName(tb: Tables, s: GState, id: NodeId): (r: Result<GState>)
    // a name is always a memory access, which is what an assignment needs on its left
    ensures r.Ok? ==> r.value.chunks == s.chunks && r.value.nextLabel == s.nextLabel && r.value.currentFrame == s.currentFrame
    ensures r.Ok? ==> id in r.value.imc && r.value.imc[id].E? && r.value.imc[id].expr.Mem?
    ensures r.Ok? <==>
      id in tb.definitions && tb.definitions[id].Id() in tb.accesses &&
      (tb.accesses[tb.definitions[id].Id()].Global? || s.currentFrame.Some?)
  {
    if id !in tb.definitions then Err("no definition for name")
    else
      var v := tb.definitions[id];
      if v.Id() !in tb.accesses then Err("no access for name")
      else
        var a := tb.accesses[v.Id()];
        if a.Global? then Ok(Store(s, id, E(AccessCode(a, 0))))
        else if s.currentFrame.None? then Err("NullPointerException")
        else Ok(Store(s, id, E(AccessCode(a, s.currentFrame.value.staticLevel))))
  }

  /** `visit(Call)`: lower the arguments, then build a standard-library or
      a user call. */
  function LowerCall(tb: Tables, s: GState, id: NodeId, args: seq<Expr>, name: string): (r: Result<GState>)
    ensures r.Ok? ==> Nested(s, r.value)
    decreases args, 1
  {
    var s1 :- LowerExprs(tb, s, args);
    if s1.currentFrame.None? then Err("NullPointerException")
    else if name in StdLib then
      var xs :- FetchExprs(s1, args);
      Ok(Store(s1, id, E(StdCallCode(name, xs))))
    else if id !in tb.definitions then Err("no definition for call")
    else if !(tb.definitions[id].DefDecl? && tb.definitions[id].def.FunDef?) then Err("ClassCastException")
    else
      var def := tb.definitions[id].def;
      if def.id !in tb.frames then Err("no frame for definition")
      else
        var xs :- FetchExprs(s1, args);
        Ok(Store(s1, id, E(UserCallCode(tb.layout, s1.currentFrame.value, tb.frames[def.id], name, xs))))
  }

  /** The elements of a block or the arguments of a call, in order. */
  function LowerExprs(tb: Tables, s: GState, es: seq<Expr>): (r: Result<GState>)
    ensures r.Ok? ==> Nested(s, r.value)
    decreases es, 0
  {
    if es == [] then Ok(s)
    else
      var s1 :- LowerExpr(tb, s, es[0]);
      LowerExprs(tb, s1, es[1..])
  }

  /** `visit(Defs)`. */
  function LowerDefs(tb: Tables, s: GState, ds: seq<Def>): (r: Result<GState>)
    ensures r.Ok? ==> Nested(s, r.value)
    decreases ds, 0
  {
    if ds == [] then Ok(s)
    else
      var s1 :- LowerDef(tb, s, ds[0]);
      LowerDefs(tb, s1, ds[1..])
  }

  function LowerDef(tb: Tables, s: GState, d: Def): (r: Result<GState>)
    ensures r.Ok? ==> Nested(s, r.value)
    decreases d, 1
  {
    match d
    case TypeDef(_, _, _) => Ok(s)
    case VarDef(id, _, _) =>
      if id !in tb.accesses || id !in tb.types then Err("no access or type for variable")
      else if tb.accesses[id].Global? then Ok(s.(chunks := s.chunks + [GlobalChunk(tb.accesses[id])]))
      else Ok(s)
    case FunDef(id, _, _, _, body) =>
      if id !in tb.frames then Err("no frame for function")
      else
        var frame := tb.frames[id];
        var s1 :- LowerExpr(tb, s.(currentFrame := Some(frame)), body);
        var n :- Fetch(s1, body.id);
        Ok(s1.(chunks := s1.chunks + [CodeChunk(frame, FunctionCode(n))]))
  }

  /** Lowering a whole program: every function of the program has its code
      chunk and every global variable its global chunk. */
  function LowerProgram(tb: Tables, ds: seq<Def>, nextLabel: nat): (r: Result<seq<Chunk>>)
    ensures r.Ok? ==> forall i :: 0 <= i < |ds| ==> Emitted(tb, ds[i], r.value)
  {
    DefsEmitChunks(tb, Initial(nextLabel), ds);
    var t :- LowerDefs(tb, Initial(nextLabel), ds);
    Ok(t.chunks)
  }

  /** `chunks` holds a code chunk for frame `f`. */
  predicate HasCode(chunks: seq<Chunk>, f: Frame) {
    exists c :: c in chunks && c.CodeChunk? && c.frame == f
  }

  /** The chunk definition `d` adds is among `chunks`. */
  predicate Emitted(tb: Tables, d: Def, chunks: seq<Chunk>) {
    (d.FunDef? ==> d.id in tb.frames && HasCode(chunks, tb.frames[d.id])) &&
    (d.VarDef? && d.id in tb.accesses && tb.accesses[d.id].Global? ==> GlobalChunk(tb.accesses[d.id]) in chunks)
  }

  /** A chunk once added stays: later definitions only append. */
  lemma {:induction false} DefsEmitChunks(tb: Tables, s: GState, ds: seq<Def>)
    ensures var r := LowerDefs(tb, s, ds);
      r.Ok? ==> forall i :: 0 <= i < |ds| ==> Emitted(tb, ds[i], r.value.chunks)
    decreases ds
  {
    var r := LowerDefs(tb, s, ds);
    if ds != [] && r.Ok? {
      var s1 := LowerDef(tb, s, ds[0]).value;
      DefsEmitChunks(tb, s1, ds[1..]);
      DefEmits(tb, s, ds[0]);
      EmittedGrows(tb, ds[0], s1.chunks, r.value.chunks);
      forall i | 1 <= i < |ds|
        ensures Emitted(tb, ds[i], r.value.chunks)
      {
        assert ds[i] == ds[1..][i - 1];
      }
    }
  }

  lemma DefEmits(tb: Tables, s: GState, d: Def)
    ensures var r := LowerDef(tb, s, d); r.Ok? ==> Emitted(tb, d, r.value.chunks)
  {
    var r := LowerDef(tb, s, d);
    if r.Ok? && d.FunDef? {
      var c := r.value.chunks[|r.value.chunks| - 1];
      assert c in r.value.chunks;
    }
  }

  lemma EmittedGrows(tb: Tables, d: Def, c1: seq<Chunk>, c2: seq<Chunk>)
    requires c1 <= c2 && Emitted(tb, d, c1)
    ensures Emitted(tb, d, c2)
  {
    if d.FunDef? {
      var c :| c in c1 && c.CodeChunk? && c.frame == tb.frames[d.id];
      assert c in c2;
    }
  }
}

=== FILE: ir_generation_properties.dfy ===
/** Properties of the lowering in `IRGeneration`: the walk never records a
    bare label statement for a node, the control-flow shapes send every jump
    where it belongs and draw fresh labels, and the remaining node kinds
    lower as the calling convention and the storage layout demand. */
module IRGenerationProperties {
  import opened Wrappers
  import opened Ast
  import opened Frames
  import opened Constants
  import opened IR
  import opened IRGeneration
  import Int32

  predicate IsBareLabel(n: IRNode) {
    n.S? && n.stmt.LabelS?
  }

  /** No node of the side table is a lone `LabelStmt`, so a node used as a
      statement never defines a label of its own at the top of a shape. */
  predicate NoBareLabels(s: GState) {
    forall id :: id in s.imc ==> !IsBareLabel(s.imc[id])
  }

  lemma InitialNoBareLabels(n: nat)
    ensures NoBareLabels(Initial(n))
  {
  }

  lemma StoreKeeps(s: GState, id: NodeId, n: IRNode)
    requires NoBareLabels(s) && !IsBareLabel(n)
    ensures NoBareLabels(Store(s, id, n))
  {
  }

  // ---------------------------------------------------------------------
  // The walk keeps `NoBareLabels`

  lemma {:induction false} ExprKeeps(tb: Tables, s: GState, e: Expr)
    requires NoBareLabels(s)
    ensures LowerExpr(tb, s, e).Ok? ==> NoBareLabels(LowerExpr(tb, s, e).value)
    decreases e, 1
  {
    match e
    case Call(id, args, name) => CallKeeps(tb, s, id, args, name);
    case Binary(_, _, _, _) => BinaryKeeps(tb, s, e);
    case Block(_, _) => BlockKeeps(tb, s, e);
    case For(_, _, _, _, _, _) => ForKeeps(tb, s, e);
    case IfThenElse(_, _, _, _) => IfKeeps(tb, s, e);
    case Literal(_, _, _) =>
    case Name(_, _) =>
    case Unary(_, _, _) => UnaryKeeps(tb, s, e);
    case While(_, _, _) => WhileKeeps(tb, s, e);
    case Where(_, _, _) => WhereKeeps(tb, s, e);
  }

  lemma {:induction false} BinaryKeeps(tb: Tables, s: GState, e: Expr)
    requires e.Binary? && NoBareLabels(s)
    ensures LowerBinaryExpr(tb, s, e).Ok? ==> NoBareLabels(LowerBinaryExpr(tb, s, e).value)
    decreases e, 0
  {
    ExprKeeps(tb, s, e.left);
    var r1 := LowerExpr(tb, s, e.left);
    if r1.Ok? {
      ExprKeeps(tb, r1.value, e.right);
    }
  }

  lemma {:induction false} BlockKeeps(tb: Tables, s: GState, e: Expr)
    requires e.Block? && NoBareLabels(s)
    ensures LowerBlock(tb, s, e).Ok? ==> NoBareLabels(LowerBlock(tb, s, e).value)
    decreases e, 0
  {
    ExprsKeeps(tb, s, e.exprs);
  }

  lemma {:induction false} ForKeeps(tb: Tables, s: GState, e: Expr)
    requires e.For? && NoBareLabels(s)
    ensures LowerFor(tb, s, e).Ok? ==> NoBareLabels(LowerFor(tb, s, e).value)
    decreases e, 0
  {
    ExprKeeps(tb, s, e.counter);
    var r1 := LowerExpr(tb, s, e.counter);
    if r1.Ok? {
      ExprKeeps(tb, r1.value, e.low);
      var r2 := LowerExpr(tb, r1.value, e.low);
      if r2.Ok? {
        ExprKeeps(tb, r2.value, e.high);
        var r3 := LowerExpr(tb, r2.value, e.high);
        if r3.Ok? {
          ExprKeeps(tb, r3.value, e.step);
          var r4 := LowerExpr(tb, r3.value, e.step);
          if r4.Ok? {
            ExprKeeps(tb, r4.value, e.body);
          }
        }
      }
    }
  }

  lemma {:induction false} IfKeeps(tb: Tables, s: GState, e: Expr)
    requires e.IfThenElse? && NoBareLabels(s)
    ensures LowerIf(tb, s, e).Ok? ==> NoBareLabels(LowerIf(tb, s, e).value)
    decreases e, 0
  {
    ExprKeeps(tb, s, e.cond);
    var r1 := LowerExpr(tb, s, e.cond);
    if r1.Ok? {
      ExprKeeps(tb, r1.value, e.thenE);
      var r2 := LowerExpr(tb, r1.value, e.thenE);
      if r2.Ok? && e.elseE.Some? {
        ExprKeeps(tb, r2.value, e.elseE.value);
      }
    }
  }

  lemma {:induction false} UnaryKeeps(tb: Tables, s: GState, e: Expr)
    requires e.Unary? && NoBareLabels(s)
    ensures LowerUnary(tb, s, e).Ok? ==> NoBareLabels(LowerUnary(tb, s, e).value)
    decreases e, 0
  {
    ExprKeeps(tb, s, e.operand);
  }

  lemma {:induction false} WhileKeeps(tb: Tables, s: GState, e: Expr)
    requires e.While? && NoBareLabels(s)
    ensures LowerWhile(tb, s, e).Ok? ==> NoBareLabels(LowerWhile(tb, s, e).value)
    decreases e, 0
  {
    ExprKeeps(tb, s, e.cond);
    var r1 := LowerExpr(tb, s, e.cond);
    if r1.Ok? {
      ExprKeeps(tb, r1.value, e.body);
    }
  }

  lemma {:induction false} WhereKeeps(tb: Tables, s: GState, e: Expr)
    requires e.Where? && NoBareLabels(s)
    ensures LowerWhere(tb, s, e).Ok? ==> NoBareLabels(LowerWhere(tb, s, e).value)
    decreases e, 0
  {
    ExprKeeps(tb, s, e.expr);
    var r1 := LowerExpr(tb, s, e.expr);
    if r1.Ok? {
      DefsKeeps(tb, r1.value, e.defs);
    }
  }

  lemma {:induction false} CallKeeps(tb: Tables, s: GState, id: NodeId, args: seq<Expr>, name: string)
    requires NoBareLabels(s)
    ensures LowerCall(tb, s, id, args, name).Ok? ==> NoBareLabels(LowerCall(tb, s, id, args, name).value)
    decreases args, 1
  {
    ExprsKeeps(tb, s, args);
  }

  lemma {:induction false} ExprsKeeps(tb: Tables, s: GState, es: seq<Expr>)
    requires NoBareLabels(s)
    ensures LowerExprs(tb, s, es).Ok? ==> NoBareLabels(LowerExprs(tb, s, es).value)
    decreases es, 0
  {
    if es != [] {
      ExprKeeps(tb, s, es[0]);
      var r1 := LowerExpr(tb, s, es[0]);
      if r1.Ok? {
        ExprsKeeps(tb, r1.value, es[1..]);
      }
    }
  }

  lemma {:induction false} DefsKeeps(tb: Tables, s: GState, ds: seq<Def>)
    requires NoBareLabels(s)
    ensures LowerDefs(tb, s, ds).Ok? ==> NoBareLabels(LowerDefs(tb, s, ds).value)
    decreases ds, 0
  {
    if ds != [] {
      DefKeeps(tb, s, ds[0]);
      var r1 := LowerDef(tb, s, ds[0]);
      if r1.Ok? {
        DefsKeeps(tb, r1.value, ds[1..]);
      }
    }
  }

  lemma {:induction false} DefKeeps(tb: Tables, s: GState, d: Def)
    requires NoBareLabels(s)
    ensures LowerDef(tb, s, d).Ok? ==> NoBareLabels(LowerDef(tb, s, d).value)
    decreases d, 1
  {
    if d.FunDef? && d.id in tb.frames {
      ExprKeeps(tb, s.(currentFrame := Some(tb.frames[d.id])), d.body);
    }
  }

  // ---------------------------------------------------------------------
  // Control flow: where each jump lands, and fresh labels

  /** `l` is one of the labels drawn while going from `s` to `t`. */
  predicate DrawnBetween(l: Label, s: GState, t: GState) {
    l.Anonymous? && s.nextLabel <= l.index < t.nextLabel
  }

  // Where each jump of the loop and conditional shapes resumes, on the
  // shapes alone: only the shape's own labels are defined in it, since no
  // part placed inside it is a bare label.

  lemma WhileCodeJumps(cond: IRExpr, body: IRStmt, n: nat)
    requires !body.LabelS?
    ensures var code := WhileCode(cond, body, n).statements;
      |code| == 6 && code[0] == LabelS(L(n)) && code[1] == CJump(cond, L(n + 1), L(n + 2)) && code[4] == Jump(L(n))
      && ResumeAt(code, L(n + 1), 1) == 3 && ResumeAt(code, L(n + 2), 1) == 6 && ResumeAt(code, L(n), 4) == 1
  {
    var code := WhileCode(cond, body, n).statements;
    assert code[0] == LabelS(L(n)) && code[2] == LabelS(L(n + 1)) && code[5] == LabelS(L(n + 2));
    assert FindLabel(code, L(n + 2), 5) == Some(5);
  }

  lemma IfElseCodeJumps(cond: IRExpr, thenS: IRStmt, elseS: IRStmt, n: nat)
    requires !thenS.LabelS? && !elseS.LabelS?
    ensures var code := IfCode(cond, thenS, Some(elseS), n).statements;
      |code| == 7 && code[0] == CJump(cond, L(n), L(n + 1)) && code[3] == Jump(L(n + 2))
      && ResumeAt(code, L(n), 0) == 2 && ResumeAt(code, L(n + 1), 0) == 5 && ResumeAt(code, L(n + 2), 3) == 7
  {
    var code := IfCode(cond, thenS, Some(elseS), n).statements;
    assert code[1] == LabelS(L(n)) && code[4] == LabelS(L(n + 1)) && code[6] == LabelS(L(n + 2));
    assert FindLabel(code, L(n + 1), 4) == Some(4);
    assert FindLabel(code, L(n + 2), 6) == Some(6);
  }

  lemma IfCodeJumps(cond: IRExpr, thenS: IRStmt, n: nat)
    requires !thenS.LabelS?
    ensures var code := IfCode(cond, thenS, None, n).statements;
      |code| == 4 && code[0] == CJump(cond, L(n), L(n + 2))
      && ResumeAt(code, L(n), 0) == 2 && ResumeAt(code, L(n + 2), 0) == 4
  {
    var code := IfCode(cond, thenS, None, n).statements;
    assert code[1] == LabelS(L(n)) && code[3] == LabelS(L(n + 2));
    assert FindLabel(code, L(n + 2), 3) == Some(3);
  }

  lemma ForCodeJumps(counter: IRExpr, low: IRExpr, high: IRExpr, step: IRExpr, body: IRStmt, n: nat)
    requires !body.LabelS?
    ensures var code := ForCode(counter, low, high, step, body, n).statements;
      |code| == 8 && code[0] == Move(counter, low) && code[2] == CJump(Binop(counter, high, Operator.LT), L(n + 1), L(n + 2))
      && code[5] == Move(counter, step) && code[6] == Jump(L(n))
      && ResumeAt(code, L(n + 1), 2) == 4 && ResumeAt(code, L(n + 2), 2) == 8 && ResumeAt(code, L(n), 6) == 2
  {
    var code := ForCode(counter, low, high, step, body, n).statements;
    assert code[1] == LabelS(L(n)) && code[3] == LabelS(L(n + 1)) && code[7] == LabelS(L(n + 2));
    assert FindLabel(code, L(n + 2), 7) == Some(7);
  }

  /** `{while c : b}`: the conditional jump continues at the body when the
      test holds and past the loop when it fails, the jump after the body
      goes back to the test, and the three labels are distinct and fresh. */
  lemma WhileLowering(tb: Tables, s: GState, e: Expr, t: GState)
    requires e.While? && NoBareLabels(s) && LowerExpr(tb, s, e) == Ok(t)
    ensures e.id in t.imc && t.imc[e.id].S? && t.imc[e.id].stmt.Seq?
    ensures var code := t.imc[e.id].stmt.statements;
      |code| == 6 && code[0].LabelS? && code[1].CJump? && code[4].Jump?
      && ResumeAt(code, code[1].thenLabel, 1) == 3
      && ResumeAt(code, code[1].elseLabel, 1) == |code|
      && ResumeAt(code, code[4].target, 4) == 1
      && DrawnBetween(code[0].lbl, s, t) && DrawnBetween(code[1].thenLabel, s, t)
      && DrawnBetween(code[1].elseLabel, s, t)
      && code[0].lbl != code[1].thenLabel && code[0].lbl != code[1].elseLabel
      && code[1].thenLabel != code[1].elseLabel
  {
    assert LowerExpr(tb, s, e) == LowerWhile(tb, s, e);
    var r1 := LowerExpr(tb, s, e.cond);
    ExprKeeps(tb, s, e.cond);
    ExprKeeps(tb, r1.value, e.body);
    var u := LowerExpr(tb, r1.value, e.body).value;
    var b := u.imc[e.body.id];
    assert !IsBareLabel(b);
    var n := u.nextLabel;
    WhileCodeJumps(u.imc[e.cond.id].expr, ToStmt(b), n);
  }

  /** `{if c then a else b}`: the conditional jump continues at the `then`
      branch when the test holds and at the `else` branch when it fails,
      the jump after the `then` branch skips the `else` branch, and the
      labels are distinct and fresh. */
  lemma IfElseLowering(tb: Tables, s: GState, e: Expr, t: GState)
    requires e.IfThenElse? && e.elseE.Some? && NoBareLabels(s) && LowerExpr(tb, s, e) == Ok(t)
    ensures e.id in t.imc && t.imc[e.id].S? && t.imc[e.id].stmt.Seq?
    ensures var code := t.imc[e.id].stmt.statements;
      |code| == 7 && code[0].CJump? && code[3].Jump?
      && ResumeAt(code, code[0].thenLabel, 0) == 2
      && ResumeAt(code, code[0].elseLabel, 0) == 5
      && ResumeAt(code, code[3].target, 3) == |code|
      && DrawnBetween(code[0].thenLabel, s, t) && DrawnBetween(code[0].elseLabel, s, t)
      && DrawnBetween(code[3].target, s, t)
      && code[0].thenLabel != code[0].elseLabel && code[0].thenLabel != code[3].target
      && code[0].elseLabel != code[3].target
  {
    assert LowerExpr(tb, s, e) == LowerIf(tb, s, e);
    var r1 := LowerExpr(tb, s, e.cond);
    ExprKeeps(tb, s, e.cond);
    var r2 := LowerExpr(tb, r1.value, e.thenE);
    ExprKeeps(tb, r1.value, e.thenE);
    ExprKeeps(tb, r2.value, e.elseE.value);
    var u := LowerExpr(tb, r2.value, e.elseE.value).value;
    var a := u.imc[e.thenE.id];
    var b := u.imc[e.elseE.value.id];
    assert !IsBareLabel(a) && !IsBareLabel(b);
    var n := u.nextLabel;
    IfElseCodeJumps(u.imc[e.cond.id].expr, ToStmt(a), ToStmt(b), n);
  }

  /** `{if c then a}`: the conditional jump continues at the branch when
      the test holds and past the statement when it fails. */
  lemma IfLowering(tb: Tables, s: GState, e: Expr, t: GState)
    requires e.IfThenElse? && e.elseE.None? && NoBareLabels(s) && LowerExpr(tb, s, e) == Ok(t)
    ensures e.id in t.imc && t.imc[e.id].S? && t.imc[e.id].stmt.Seq?
    ensures var code := t.imc[e.id].stmt.statements;
      |code| == 4 && code[0].CJump?
      && ResumeAt(code, code[0].thenLabel, 0) == 2
      && ResumeAt(code, code[0].elseLabel, 0) == |code|
      && DrawnBetween(code[0].thenLabel, s, t) && DrawnBetween(code[0].elseLabel, s, t)
      && code[0].thenLabel != code[0].elseLabel
  {
    assert LowerExpr(tb, s, e) == LowerIf(tb, s, e);
    var r1 := LowerExpr(tb, s, e.cond);
    ExprKeeps(tb, s, e.cond);
    ExprKeeps(tb, r1.value, e.thenE);
    var u := LowerExpr(tb, r1.value, e.thenE).value;
    var a := u.imc[e.thenE.id];
    assert !IsBareLabel(a);
    var n := u.nextLabel;
    IfCodeJumps(u.imc[e.cond.id].expr, ToStmt(a), n);
  }

  /** `{for i = lo, hi, st : b}`: the counter is first set to `lo`; the test
      compares the counter with `hi`; a passing test continues at the body,
      a failing one past the loop; after the body the counter is set to the
      step expression and control goes back to the test. */
  lemma ForLowering(tb: Tables, s: GState, e: Expr, t: GState)
    requires e.For? && NoBareLabels(s) && LowerExpr(tb, s, e) == Ok(t)
    ensures e.id in t.imc && t.imc[e.id].S? && t.imc[e.id].stmt.Seq?
    ensures var code := t.imc[e.id].stmt.statements;
      |code| == 8 && code[0].Move? && code[2].CJump? && code[5].Move? && code[6].Jump?
      && code[2].condition.Binop? && code[2].condition.lhs == code[0].dst
      && code[2].condition.op == Operator.LT
      && code[5].dst == code[0].dst
      && ResumeAt(code, code[2].thenLabel, 2) == 4
      && ResumeAt(code, code[2].elseLabel, 2) == |code|
      && ResumeAt(code, code[6].target, 6) == 2
      && DrawnBetween(code[2].thenLabel, s, t) && DrawnBetween(code[2].elseLabel, s, t)
      && DrawnBetween(code[6].target, s, t)
      && code[2].thenLabel != code[2].elseLabel && code[6].target != code[2].thenLabel
      && code[6].target != code[2].elseLabel
  {
    assert LowerExpr(tb, s, e) == LowerFor(tb, s, e);
    var r1 := LowerExpr(tb, s, e.counter);
    ExprKeeps(tb, s, e.counter);
    var r2 := LowerExpr(tb, r1.value, e.low);
    ExprKeeps(tb, r1.value, e.low);
    var r3 := LowerExpr(tb, r2.value, e.high);
    ExprKeeps(tb, r2.value, e.high);
    var r4 := LowerExpr(tb, r3.value, e.step);
    ExprKeeps(tb, r3.value, e.step);
    ExprKeeps(tb, r4.value, e.body);
    var u := LowerExpr(tb, r4.value, e.body).value;
    var b := u.imc[e.body.id];
    assert !IsBareLabel(b);
    var n := u.nextLabel;
    var c := u.imc[e.counter.id].expr;
    ForCodeJumps(c, u.imc[e.low.id].expr, u.imc[e.high.id].expr, u.imc[e.step.id].expr, ToStmt(b), n);
  }

  // ---------------------------------------------------------------------
  // Literals, operators, names

  /** A string literal adds exactly one data chunk, a one-word global
      under a label no earlier node was given, and stands for that label. */
  lemma StringLiteralLowering(tb: Tables, s: GState, id: NodeId, value: string)
    ensures var r := LowerExpr(tb, s, Literal(id, value, STR));
      r.Ok? && r.value.chunks == s.chunks + [DataChunk(Global(WordSize, Anonymous(s.nextLabel)), value)]
      && r.value.imc == s.imc[id := E(NameE(Anonymous(s.nextLabel)))]
      && r.value.nextLabel == s.nextLabel + 1 && r.value.currentFrame == s.currentFrame
  {
  }

  /** An integer literal written as the decimal digits of a number in range
      lowers to that number. */
  lemma IntLiteralRoundTrip(n: nat)
    requires n <= Int32.Max
    ensures LiteralConstant(Int32.NatToString(n), INT) == Ok(Const(n))
  {
    Int32.ParseIntOfNatToString(n);
  }

  /** Distinct arithmetic, logical and comparison operators get distinct IR
      operators. */
  lemma BinaryOperatorInjective(a: BinOp, b: BinOp)
    requires BinaryOperator(a).Some? && BinaryOperator(a) == BinaryOperator(b)
    ensures a == b
  {
  }

  /** An assignment whose operands both have expression IR is a move into
      the left operand exactly when that operand is a memory access. */
  lemma AssignLowering(tb: Tables, s: GState, id: NodeId, left: Expr, right: Expr)
    requires FetchExpr(s, left.id).Ok? && FetchExpr(s, right.id).Ok?
    ensures var r := LowerBinary(tb, s, id, left, ASSIGN, right);
      var lhs := s.imc[left.id].expr;
      (r.Ok? <==> lhs.Mem?)
      && (r.Ok? ==> r.value == Store(s, id, S(Move(lhs, s.imc[right.id].expr))))
  {
  }

  /** `a[i]` where `a` is the memory access `Mem(base)`: an access at
      `base + i * size`, the size being that of the indexing node's type;
      anything else on the left is an error. */
  lemma ArrayLowering(tb: Tables, s: GState, id: NodeId, left: Expr, right: Expr)
    requires FetchExpr(s, left.id).Ok? && FetchExpr(s, right.id).Ok?
    ensures var r := LowerBinary(tb, s, id, left, ARR, right);
      var lhs := s.imc[left.id].expr;
      (r.Ok? <==> lhs.Mem? && id in tb.types)
      && (r.Ok? ==> r.value.imc[id] == E(Mem(Binop(lhs.expr,
                       Binop(s.imc[right.id].expr, Const(tb.layout.sizeInBytes(tb.types[id])), Operator.MUL),
                       Operator.ADD))))
  {
  }

  /** Any other operator becomes the IR operator of the same name over the
      two operands. */
  lemma OperatorLowering(tb: Tables, s: GState, id: NodeId, left: Expr, op: BinOp, right: Expr)
    requires op != ASSIGN && op != ARR
    requires FetchExpr(s, left.id).Ok? && FetchExpr(s, right.id).Ok?
    ensures var r := LowerBinary(tb, s, id, left, op, right);
      r.Ok? && r.value.imc[id] == E(Binop(s.imc[left.id].expr, s.imc[right.id].expr, BinaryOperator(op).value))
      && r.value.chunks == s.chunks && r.value.nextLabel == s.nextLabel
  {
  }

  /** A name reads its variable: a global through its label; a local or a
      parameter at its offset from the frame address, which is the frame
      pointer at the same level and otherwise the frame pointer under one
      more `MemExpr` layer than the difference in levels. */
  lemma NameLowering(tb: Tables, s: GState, id: NodeId, t: GState)
    requires LowerName(tb, s, id) == Ok(t)
    ensures id in tb.definitions && tb.definitions[id].Id() in tb.accesses
    ensures var a := tb.accesses[tb.definitions[id].Id()];
      t == Store(s, id, t.imc[id]) && t.imc[id].E? && t.imc[id].expr.Mem?
      && (a.Global? ==> t.imc[id].expr.expr == NameE(a.lbl))
      && (!a.Global? ==>
            s.currentFrame.Some?
            && var addr := t.imc[id].expr.expr;
            addr.Binop? && addr.op == Operator.ADD && addr.rhs == Const(a.offset)
            && FPDepth(addr.lhs) == Some(if a.staticLevel < s.currentFrame.value.staticLevel
                                         then s.currentFrame.value.staticLevel - a.staticLevel + 1 else 0))
  {
  }

  // ---------------------------------------------------------------------
  // Calls, blocks, definitions

  /** A call of a standard-library function passes the frame pointer and
      then the arguments' IR to the label named after the function. */
  lemma StdCallLowering(tb: Tables, s: GState, id: NodeId, args: seq<Expr>, name: string, u: GState)
    requires name in StdLib && LowerExprs(tb, s, args) == Ok(u) && u.currentFrame.Some?
    requires FetchExprs(u, args).Ok?
    ensures var r := LowerCall(tb, s, id, args, name);
      r.Ok? && r.value.imc[id].E?
      && var c := r.value.imc[id].expr;
      c.CallE? && c.lbl == Named(name) && |c.args| == |args| + 1 && c.args[0] == FP
      && forall i :: 0 <= i < |args| ==> FetchExpr(u, args[i].id) == Ok(c.args[i + 1])
  {
    var xs := FetchExprs(u, args).value;
    assert LowerCall(tb, s, id, args, name) == Ok(Store(u, id, E(StdCallCode(name, xs))));
    var c := StdCallCode(name, xs);
    assert forall i :: 0 <= i < |args| ==> c.args[i + 1] == xs[i];
  }

  /** A call of a user function first stores the frame pointer at
      `SP - oldFPOffset` of the caller's frame, then calls the callee's
      label with the static link and the arguments' IR; the static link is
      the caller's own link when the callee has the caller's name, and the
      frame pointer otherwise. */
  lemma UserCallLowering(tb: Tables, s: GState, id: NodeId, args: seq<Expr>, name: string, u: GState, t: GState)
    requires name !in StdLib && LowerExprs(tb, s, args) == Ok(u) && LowerCall(tb, s, id, args, name) == Ok(t)
    ensures u.currentFrame.Some? && id in tb.definitions && tb.definitions[id].DefDecl?
    ensures var def := tb.definitions[id].def;
      var cur := u.currentFrame.value;
      def.FunDef? && def.id in tb.frames && t.imc[id].E?
      && var x := t.imc[id].expr;
      x.Eseq? && x.stmt == Move(Mem(Binop(SP, Const(tb.layout.oldFPOffset(cur)), Operator.SUB)), FP)
      && x.expr.CallE? && x.expr.lbl == tb.frames[def.id].lbl
      && |x.expr.args| == |args| + 1
      && (x.expr.args[0] == Mem(FP) <==> name == cur.lbl.Text())
      && (x.expr.args[0] == FP <==> name != cur.lbl.Text())
      && forall i :: 0 <= i < |args| ==> FetchExpr(u, args[i].id) == Ok(x.expr.args[i + 1])
  {
  }

  /** A block lowers its elements in order; all but the last become
      statements, and the block is an expression exactly when its last
      element is. */
  lemma BlockLowering(tb: Tables, s: GState, e: Expr, u: GState, t: GState)
    requires e.Block? && LowerExprs(tb, s, e.exprs) == Ok(u) && LowerExpr(tb, s, e) == Ok(t)
    ensures |e.exprs| > 0
    ensures forall i :: 0 <= i < |e.exprs| ==> e.exprs[i].id in u.imc
    ensures var last := u.imc[e.exprs[|e.exprs| - 1].id];
      e.id in t.imc && (t.imc[e.id].E? <==> last.E?)
    ensures var n := |e.exprs|;
      var last := u.imc[e.exprs[n - 1].id];
      last.E? ==>
        var x := t.imc[e.id].expr;
        x.Eseq? && x.stmt.Seq? && x.expr == last.expr && |x.stmt.statements| == n - 1
        && forall i :: 0 <= i < n - 1 ==> x.stmt.statements[i] == ToStmt(u.imc[e.exprs[i].id])
    ensures var n := |e.exprs|;
      var last := u.imc[e.exprs[n - 1].id];
      last.S? ==>
        var st := t.imc[e.id].stmt;
        st.Seq? && |st.statements| == n && st.statements[n - 1] == last.stmt
        && forall i :: 0 <= i < n - 1 ==> st.statements[i] == ToStmt(u.imc[e.exprs[i].id])
  {
    assert LowerExpr(tb, s, e) == LowerBlock(tb, s, e);
  }

  /** `e { where defs }` stands for the IR of `e`, read after the
      definitions were lowered. */
  lemma WhereLowering(tb: Tables, s: GState, e: Expr, t: GState)
    requires e.Where? && LowerExpr(tb, s, e) == Ok(t)
    ensures e.id in t.imc && e.expr.id in t.imc && t.imc[e.id] == t.imc[e.expr.id]
  {
    assert LowerExpr(tb, s, e) == LowerWhere(tb, s, e);
  }

  /** A function definition makes its frame current, lowers its body, and
      appends one code chunk for its frame; an expression body is moved to
      the return slot at the frame pointer. The current frame is not
      restored afterwards. */
  lemma FunDefLowering(tb: Tables, s: GState, d: Def, u: GState, t: GState)
    requires d.FunDef? && d.id in tb.frames
    requires LowerExpr(tb, s.(currentFrame := Some(tb.frames[d.id])), d.body) == Ok(u)
    requires LowerDef(tb, s, d) == Ok(t)
    ensures d.body.id in u.imc
    ensures t.chunks == u.chunks + [CodeChunk(tb.frames[d.id], t.chunks[|t.chunks| - 1].code)]
    ensures u.imc[d.body.id].E? ==> t.chunks[|t.chunks| - 1].code == Move(Mem(FP), u.imc[d.body.id].expr)
    ensures u.imc[d.body.id].S? ==> t.chunks[|t.chunks| - 1].code == u.imc[d.body.id].stmt
    ensures t.currentFrame == u.currentFrame
  {
  }

  /** Only a global variable adds a chunk, a global one for its access;
      locals add nothing. */
  lemma VarDefLowering(tb: Tables, s: GState, d: Def)
    requires d.VarDef?
    ensures var r := LowerDef(tb, s, d);
      (r.Ok? <==> d.id in tb.accesses && d.id in tb.types)
      && (r.Ok? && tb.accesses[d.id].Global? ==> r.value == s.(chunks := s.chunks + [GlobalChunk(tb.accesses[d.id])]))
      && (r.Ok? && !tb.accesses[d.id].Global? ==> r.value == s)
  {
  }
}

=== FILE: lexer.dfy ===
/** `Lexer`: the state machine as an object whose fields change with every
    character. Each method is proved to do what the corresponding function
    of `Lexing` describes; the list of symbols that `scan` passes to
    `handleStanje` and `preveriIme` is passed in and returned. */
module LexerClass {
  import opened Wrappers
  import opened Tokens
  import opened Text
  import opened Lexing

  class Lexer {
    const source: string
    var state: LexState
    var start: Location
    var pending: string
    var quotes: int
    var line: int
    var column: int
    var closed: bool

    /** The fields together with the symbols emitted so far. */
    function State(symbols: seq<Symbol>): LState
      reads this
    {
      LState(state, start, pending, quotes, line, column, closed, symbols)
    }

    /** In the operator state one operator character is pending. */
    predicate Valid()
      reads this
    {
      Lexing.Valid(State([]))
    }

    constructor (source: string)
      ensures this.source == source && State([]) == Initial && Valid()
    {
      this.source := source;
      state := INITIAL;
      start := Location(1, 1);
      pending := "";
      quotes := 0;
      line := 1;
      column := 0;
      closed := true;
    }

    /** `dolociZacetnoStanje`: a quote also marks the string constant it
        opens as not yet closed. */
    method SelectState(c: char) returns (k: LexState)
      modifies this
      ensures k == StartState(c)
      ensures State([]) == old(State([])).(closed := if k == KONST_STR then false else old(closed))
    {
      if c == '_' || IsLetter(c) {
        k := IME;
      } else if IsDigit(c) {
        k := KONST_INT;
      } else if c == '\'' {
        closed := false;
        k := KONST_STR;
      } else if c == '#' {
        k := KOMENTAR;
      } else if c in OperatorChars {
        k := OPERATOR;
      } else {
        k := INITIAL;
      }
    }

    /** `preveriIme`. */
    method CheckName(symbols: seq<Symbol>) returns (out: seq<Symbol>)
      ensures State(out) == Lexing.CheckName(State(symbols))
    {
      var low := Lower(pending);
      var pos := Position(start.line, start.column, line, column - 1);
      if low in KeywordMapping {
        out := symbols + [Symbol(pos, KeywordMapping[low], pending)];
      } else if low in Logical {
        out := symbols + [Symbol(pos, C_LOGICAL, low)];
      } else {
        out := symbols + [Symbol(pos, IDENTIFIER, pending)];
      }
    }

    /** `handleStanje`: one character; a lexeme ended by a character that
        does not belong to it is emitted and the character handled again. */
    method HandleState(c: char, symbols: seq<Symbol>) returns (out: seq<Symbol>)
      requires Valid()
      modifies this
      ensures Valid() && State(out) == Feed(old(State(symbols)), c)
      decreases if state == INITIAL then 0 else 2
    {
      ghost var s0 := State(symbols);
      if c == '\n' {
        line := line + 1;
        column := 0;
      } else if c == '\t' {
        column := column + 3;
      } else if c == '#' && state != KONST_STR {
        state := KOMENTAR;
        return symbols;
      }
      assert State(symbols) == Advance(s0, c);
      match state
      case KOMENTAR =>
        if c == '\n' {
          state := INITIAL;
        }
        out := symbols;
      case IME =>
        out := HandleName(c, symbols);
      case KONST_INT =>
        out := HandleInteger(c, symbols);
      case KONST_STR =>
        out := HandleString(c, symbols);
      case OPERATOR =>
        out := HandleOperator(c, symbols);
      case INITIAL =>
        out := HandleInitial(c, symbols);
    }

    /** The name state of `handleStanje`. */
    method HandleName(c: char, symbols: seq<Symbol>) returns (out: seq<Symbol>)
      requires state == IME
      modifies this
      ensures Valid() && State(out) == NameChar(old(State(symbols)), c)
    {
      if c == '\'' || c in Whitespace {
        out := CheckName(symbols);
        state := INITIAL;
      } else if c in OperatorChars {
        out := CheckName(symbols);
        pending := [c];
        start := Location(line, column);
        state := OPERATOR;
      } else {
        pending := pending + [c];
        out := symbols;
      }
    }

    /** The integer state of `handleStanje`. */
    method HandleInteger(c: char, symbols: seq<Symbol>) returns (out: seq<Symbol>)
      requires state == KONST_INT
      modifies this
      ensures Valid() && State(out) == IntegerChar(old(State(symbols)), c)
      decreases 1
    {
      if IsDigit(c) {
        pending := pending + [c];
        out := symbols;
      } else {
        out := symbols + [Symbol(Position(start.line, start.column, line, column - 1), C_INTEGER, pending)];
        state := INITIAL;
        out := HandleState(c, out);
      }
    }

    /** The string state of `handleStanje`. */
    method HandleString(c: char, symbols: seq<Symbol>) returns (out: seq<Symbol>)
      requires state == KONST_STR
      modifies this
      ensures Valid() && State(out) == StringChar(old(State(symbols)), c)
      decreases 1
    {
      ghost var s := State(symbols);
      if quotes % 2 == 1 && |pending| > 1 {
        if c == '\'' {
          pending := pending + [c];
          quotes := quotes + 1;
          out := symbols;
        } else {
          var lexeme := StripQuotes(CollapseQuotes(pending));
          out := symbols + [Symbol(Position(start.line, start.column, line, column - 1), C_STRING, lexeme)];
          closed := true;
          state := INITIAL;
          assert State(out) == Emit(s, C_STRING, lexeme, s.column - 1).(closed := true, state := INITIAL);
          out := HandleState(c, out);
        }
      } else {
        pending := pending + [c];
        quotes := if c == '\'' then quotes + 1 else 0;
        out := symbols;
      }
    }

    /** The operator state of `handleStanje`. */
    method HandleOperator(c: char, symbols: seq<Symbol>) returns (out: seq<Symbol>)
      requires Valid() && state == OPERATOR
      modifies this
      ensures Valid() && State(out) == OperatorChar(old(State(symbols)), c)
      decreases 1
    {
      var candidate := pending + [c];
      ghost var s := State(symbols);
      if candidate in OperatorMapping {
        out := symbols + [Symbol(Position(start.line, start.column, line, column), OperatorMapping[candidate], candidate)];
        state := INITIAL;
        assert State(out) == Emit(s, OperatorMapping[candidate], candidate, s.column).(state := INITIAL);
      } else {
        assert pending == [pending[0]];
        out := symbols + [Symbol(Position(start.line, start.column, line, column - 1), OperatorMapping[pending], pending)];
        state := INITIAL;
        assert State(out) == Emit(s, OperatorMapping[s.pending], s.pending, s.column - 1).(state := INITIAL);
        out := HandleState(c, out);
      }
    }

    /** The initial state of `handleStanje`: a new lexeme starts here. */
    method HandleInitial(c: char, symbols: seq<Symbol>) returns (out: seq<Symbol>)
      modifies this
      ensures Valid() && State(out) == InitialChar(old(State(symbols)), c)
    {
      start := Location(line, column);
      pending := [];
      state := SelectState(c);
      if state in {IME, KONST_INT, KONST_STR, OPERATOR} {
        pending := [c];
      }
      out := symbols;
    }

    /** `scan`: every character of the source after moving one column on,
        then one blank, then the end-of-file symbol unless a string
        constant was left open. */
    method Scan() returns (r: Result<seq<Symbol>>)
      requires Valid()
      modifies this
      ensures r == ScanFrom(old(State([])), source)
    {
      ghost var st := State([]);
      var symbols: seq<Symbol> := [];
      for i := 0 to |source|
        invariant Valid()
        invariant State(symbols) == FeedAll(st, source[..i])
      {
        column := column + 1;
        symbols := HandleState(source[i], symbols);
        assert source[..i + 1][..i] == source[..i];
      }
      assert source[..|source|] == source;
      r := Close(st, symbols);
    }

    /** The end of `scan`: the blank after a non-empty source, then the
        end-of-file symbol unless a string constant was left open. */
    method Close(ghost st: LState, symbols: seq<Symbol>) returns (r: Result<seq<Symbol>>)
      requires Valid() && Lexing.Valid(st) && State(symbols) == FeedAll(st, source)
      modifies this
      ensures r == ScanFrom(st, source)
    {
      var out := symbols;
      if |source| > 0 {
        column := column + 1;
        out := HandleState(' ', symbols);
      }
      if !closed {
        return Err("unterminated string constant");
      }
      r := Ok(out + [Symbol(Position(line, column + 1, line, column), EOF, "$")]);
    }
  }
}

=== FILE: lexing.dfy ===
/** What `Lexer` computes: a character-driven state machine, one step per
    character, as functions over an explicit lexer state.

    Character classes are ASCII: `Character.isLetter` is `A`-`Z`, `a`-`z`
    and `Character.isDigit` is `0`-`9`. */
module Lexing {
  import opened Wrappers
  import opened Tokens
  import opened Text

  /** `lexStanja`. */
  datatype LexState = KONST_INT | KONST_STR | IME | OPERATOR | KOMENTAR | INITIAL

  /** `Position.Location`. */
  datatype Location = Location(line: int, column: int)

  /** The fields of `Lexer` plus the list of symbols produced so far:
      `stanje`, the start of the current lexeme (`pozicija`), the pending
      text (`trenutniNiz`), the count of consecutive quotes
      (`stNarekovajev`), the line and column (`vrstica`, `stolpec`), and
      whether every string was closed (`zakljucenNiz`). */
  datatype LState = LState(state: LexState, start: Location, pending: string, quotes: int,
                           line: int, column: int, closed: bool, symbols: seq<Symbol>)

  /** A fresh lexer. */
  const Initial: LState := LState(INITIAL, Location(1, 1), "", 0, 1, 0, true, [])

  // ---------------------------------------------------------------------
  // Tables
  // ---------------------------------------------------------------------

  /** The key under which the static initialiser of `keywordMapping`
      enters a token of `TokenType.values()`: the lowercased rest of a
      `KW_` or `AT_` name. */
  function KeywordKey(t: TokenType): Option<string> {
    var n := Name(t);
    if StartsWith(n, "KW_") || StartsWith(n, "AT_") then Some(Lower(n[3..])) else None
  }

  /** `String.startsWith`. */
  predicate StartsWith(s: string, prefix: string) {
    |prefix| <= |s| && forall i :: 0 <= i < |prefix| ==> s[i] == prefix[i]
  }

  /** `keywordMapping`: the thirteen keywords and atomic type names. */
  const KeywordMapping: map<string, TokenType> := map[
    "arr" := KW_ARR, "else" := KW_ELSE, "for" := KW_FOR, "fun" := KW_FUN, "if" := KW_IF,
    "then" := KW_THEN, "typ" := KW_TYP, "var" := KW_VAR, "where" := KW_WHERE, "while" := KW_WHILE,
    "logical" := AT_LOGICAL, "integer" := AT_INTEGER, "string" := AT_STRING]

  /** `BELO_BESEDILO`. */
  const Whitespace: set<char> := {' ', '\t', '\n', '\r'}

  /** `OPERATORJI`. */
  const OperatorChars: set<char> :=
    {'+', '-', '*', '/', '%', '&', '|', '!', '<', '>', '(', ')', '[', ']', '{', '}', ':', ';', '.', ',', '='}

  /** `LOGICNI`. */
  const Logical: set<string> := {"true", "false"}

  /** `operatorMapping`. */
  const OperatorMapping: map<string, TokenType> := map[
    "+" := OP_ADD, "-" := OP_SUB, "*" := OP_MUL, "/" := OP_DIV, "%" := OP_MOD,
    "&" := OP_AND, "|" := OP_OR, "!" := OP_NOT,
    "==" := OP_EQ, "!=" := OP_NEQ, "<" := OP_LT, ">" := OP_GT, "<=" := OP_LEQ, ">=" := OP_GEQ,
    "(" := OP_LPARENT, ")" := OP_RPARENT, "[" := OP_LBRACKET, "]" := OP_RBRACKET,
    "{" := OP_LBRACE, "}" := OP_RBRACE, ":" := OP_COLON, ";" := OP_SEMICOLON,
    "." := OP_DOT, "," := OP_COMMA, "=" := OP_ASSIGN]

  // ---------------------------------------------------------------------
  // The state machine
  // ---------------------------------------------------------------------

  /** `dolociZacetnoStanje`: the state the first character of a lexeme
      selects. */
  function StartState(c: char): LexState {
    if c == '_' || IsLetter(c) then IME
    else if IsDigit(c) then KONST_INT
    else if c == '\'' then KONST_STR
    else if c == '#' then KOMENTAR
    else if c in OperatorChars then OPERATOR
    else INITIAL
  }

  /** In the operator state the pending text is one operator character. */
  predicate Valid(st: LState) {
    st.state == OPERATOR ==> |st.pending| == 1 && st.pending[0] in OperatorChars
  }

  /** Appends a symbol that starts where the current lexeme started. */
  function Emit(st: LState, t: TokenType, lexeme: string, endColumn: int): LState {
    st.(symbols := st.symbols + [Symbol(Position(st.start.line, st.start.column, st.line, endColumn), t, lexeme)])
  }

  /** `preveriIme`: a keyword (matched case-insensitively, original text
      kept), a logical constant (lowercased), or an identifier. */
  function CheckName(st: LState): LState {
    var low := Lower(st.pending);
    if low in KeywordMapping then Emit(st, KeywordMapping[low], st.pending, st.column - 1)
    else if low in Logical then Emit(st, C_LOGICAL, low, st.column - 1)
    else Emit(st, IDENTIFIER, st.pending, st.column - 1)
  }

  /** `replaceAll("'{2}", "'")`: every pair of quotes, left to right,
      becomes one. */
  function CollapseQuotes(s: string): (r: string)
    ensures |r| <= |s|
  {
    if |s| >= 2 && s[0] == '\'' && s[1] == '\'' then "'" + CollapseQuotes(s[2..])
    else if s == [] then []
    else [s[0]] + CollapseQuotes(s[1..])
  }

  /** The text between the first and the last character, when there are
      more than one. */
  function StripQuotes(s: string): string {
    if |s| > 1 then s[1..|s| - 1] else s
  }

  /** The position update at the top of `handleStanje`: a newline moves to
      the start of the next line, a tab three columns on. */
  function Advance(st: LState, c: char): (r: LState)
    ensures r.state == st.state && r.symbols == st.symbols && r.pending == st.pending
    ensures r.line == (if c == '\n' then st.line + 1 else st.line)
  {
    if c == '\n' then st.(line := st.line + 1, column := 0)
    else if c == '\t' then st.(column := st.column + 3)
    else st
  }

  /** `handleStanje`: one character. A newline moves to the next line and a
      tab three columns on; `#` outside a string starts a comment; then the
      current state decides. A lexeme that ends at a character which does
      not belong to it is emitted and the character is fed again from the
      initial state. */
  function Feed(st: LState, c: char): (r: LState)
    requires Valid(st)
    ensures Valid(r)
    decreases if st.state == INITIAL then 0 else 2
  {
    var s := Advance(st, c);
    if c == '#' && st.state != KONST_STR then s.(state := KOMENTAR)
    else
      match s.state
      case KOMENTAR => if c == '\n' then s.(state := INITIAL) else s
      case IME => NameChar(s, c)
      case KONST_INT => IntegerChar(s, c)
      case KONST_STR => StringChar(s, c)
      case OPERATOR => OperatorChar(s, c)
      case INITIAL => InitialChar(s, c)
  }

  /** A character after a name: a quote or whitespace ends it, an operator
      character ends it and starts an operator, anything else extends it. */
  function NameChar(s: LState, c: char): (r: LState)
    requires s.state == IME
    ensures Valid(r)
  {
    if c == '\'' || c in Whitespace then CheckName(s).(state := INITIAL)
    else if c in OperatorChars then
      CheckName(s).(pending := [c], start := Location(s.line, s.column), state := OPERATOR)
    else s.(pending := s.pending + [c])
  }

  /** A character after digits: a digit extends the constant, anything else
      emits it and is fed again. */
  function IntegerChar(s: LState, c: char): (r: LState)
    requires s.state == KONST_INT
    ensures Valid(r)
    decreases 1
  {
    if IsDigit(c) then s.(pending := s.pending + [c])
    else Feed(Emit(s, C_INTEGER, s.pending, s.column - 1).(state := INITIAL), c)
  }

  /** A character inside a string constant: after an odd run of quotes
      (and not right after the opening one) a further quote continues the
      run and anything else ends the constant and is fed again; otherwise
      the character is appended and the run of quotes counted. */
  function StringChar(s: LState, c: char): (r: LState)
    requires s.state == KONST_STR
    ensures Valid(r)
    decreases 1
  {
    if s.quotes % 2 == 1 && |s.pending| > 1 then
      if c == '\'' then s.(pending := s.pending + [c], quotes := s.quotes + 1)
      else
        var lexeme := StripQuotes(CollapseQuotes(s.pending));
        Feed(Emit(s, C_STRING, lexeme, s.column - 1).(closed := true, state := INITIAL), c)
    else s.(pending := s.pending + [c], quotes := if c == '\'' then s.quotes + 1 else 0)
  }

  /** A character after an operator character: a two-character operator is
      emitted whole; otherwise the pending operator is emitted and the
      character is fed again. */
  function OperatorChar(s: LState, c: char): (r: LState)
    requires Valid(s) && s.state == OPERATOR
    ensures Valid(r)
    decreases 1
  {
    var candidate := s.pending + [c];
    if candidate in OperatorMapping then
      Emit(s, OperatorMapping[candidate], candidate, s.column).(state := INITIAL)
    else
      assert s.pending == [s.pending[0]];
      Feed(Emit(s, OperatorMapping[s.pending], s.pending, s.column - 1).(state := INITIAL), c)
  }

  /** The first character of a lexeme: the lexeme starts here, in the
      state the character selects. */
  function InitialChar(s: LState, c: char): (r: LState)
    ensures Valid(r)
  {
    var k := StartState(c);
    s.(start := Location(s.line, s.column),
       pending := if k in {IME, KONST_INT, KONST_STR, OPERATOR} then [c] else [],
       state := k,
       closed := if k == KONST_STR then false else s.closed)
  }

  /** One iteration of the loop in `scan`: the column moves on, then the
      character is handled. */
  function Step(st: LState, c: char): (r: LState)
    requires Valid(st)
    ensures Valid(r)
  {
    Feed(st.(column := st.column + 1), c)
  }

  /** The loop in `scan` over the characters of `s`. */
  function FeedAll(st: LState, s: string): (r: LState)
    requires Valid(st)
    ensures Valid(r)
  {
    if s == [] then st else Step(FeedAll(st, s[..|s| - 1]), s[|s| - 1])
  }

  /** The state after the whole source and, for a non-empty source, one
      extra blank that ends the last lexeme. */
  function Finish(st: LState, source: string): (r: LState)
    requires Valid(st)
    ensures Valid(r)
  {
    var m := FeedAll(st, source);
    if |source| > 0 then Step(m, ' ') else m
  }

  /** `scan` on a lexer in state `st`: an unterminated string constant is
      an error; otherwise the symbols followed by the end-of-file symbol
      `$`. */
  function ScanFrom(st: LState, source: string): (r: Result<seq<Symbol>>)
    requires Valid(st)
    ensures r.Ok? <==> Finish(st, source).closed
    // the symbols of the whole source, then `$` one column past the end
    ensures r.Ok? ==> var m := Finish(st, source);
      |r.value| == |m.symbols| + 1 && r.value[..|m.symbols|] == m.symbols &&
      r.value[|m.symbols|].token == EOF && r.value[|m.symbols|].lexeme == "$" &&
      r.value[|m.symbols|].pos.startColumn == m.column + 1
  {
    var m := Finish(st, source);
    if !m.closed then Err("unterminated string constant")
    else Ok(m.symbols + [Symbol(Position(m.line, m.column + 1, m.line, m.column), EOF, "$")])
  }

  /** The final state of a fresh lexer. */
  function Final(source: string): (r: LState)
    ensures Valid(r)
  {
    Finish(Initial, source)
  }

  /** `scan` on a fresh lexer. */
  function Scan(source: string): Result<seq<Symbol>> {
    ScanFrom(Initial, source)
  }
}

=== FILE: lexing_properties.dfy ===
/** Properties of the lexer: the keyword table, the end-of-file symbol,
    unterminated strings, and how each kind of lexeme is delimited. */
module LexingProperties {
  import opened Wrappers
  import opened Tokens
  import opened Text
  import opened Lexing

  // ---------------------------------------------------------------------
  // The keyword table is the lowercased rest of every KW_ and AT_ name
  // ---------------------------------------------------------------------

  /** A name that starts with neither `K` nor `A` has no key. */
  lemma NoKeyOutsideKWAndAT(t: TokenType)
    requires |Name(t)| > 0 && Name(t)[0] != 'K' && Name(t)[0] != 'A'
    ensures KeywordKey(t).None?
  {
    assert !StartsWith(Name(t), "KW_") by { assert Name(t)[0] != "KW_"[0]; }
    assert !StartsWith(Name(t), "AT_") by { assert Name(t)[0] != "AT_"[0]; }
  }

  /** The key of each `KW_` and `AT_` token, and its entry in the table:
      helpers of the two lemmas below, one entry per lemma so that each
      proof stays small. */
  lemma KeyOfArr()
    ensures KeywordKey(KW_ARR) == Some("arr") && "arr" in KeywordMapping && KeywordMapping["arr"] == KW_ARR
  {
    assert Lower("ARR") == "arr" && Name(KW_ARR)[3..] == "ARR" && StartsWith(Name(KW_ARR), "KW_");
  }

  lemma KeyOfElse()
    ensures KeywordKey(KW_ELSE) == Some("else") && "else" in KeywordMapping && KeywordMapping["else"] == KW_ELSE
  {
    assert Lower("ELSE") == "else" && Name(KW_ELSE)[3..] == "ELSE" && StartsWith(Name(KW_ELSE), "KW_");
  }

  lemma KeyOfFor()
    ensures KeywordKey(KW_FOR) == Some("for") && "for" in KeywordMapping && KeywordMapping["for"] == KW_FOR
  {
    assert Lower("FOR") == "for" && Name(KW_FOR)[3..] == "FOR" && StartsWith(Name(KW_FOR), "KW_");
  }

  lemma KeyOfFun()
    ensures KeywordKey(KW_FUN) == Some("fun") && "fun" in KeywordMapping && KeywordMapping["fun"] == KW_FUN
  {
    assert Lower("FUN") == "fun" && Name(KW_FUN)[3..] == "FUN" && StartsWith(Name(KW_FUN), "KW_");
  }

  lemma KeyOfIf()
    ensures KeywordKey(KW_IF) == Some("if") && "if" in KeywordMapping && KeywordMapping["if"] == KW_IF
  {
    assert Lower("IF") == "if" && Name(KW_IF)[3..] == "IF" && StartsWith(Name(KW_IF), "KW_");
  }

  lemma KeyOfThen()
    ensures KeywordKey(KW_THEN) == Some("then") && "then" in KeywordMapping && KeywordMapping["then"] == KW_THEN
  {
    assert Lower("THEN") == "then" && Name(KW_THEN)[3..] == "THEN" && StartsWith(Name(KW_THEN), "KW_");
  }

  lemma KeyOfTyp()
    ensures KeywordKey(KW_TYP) == Some("typ") && "typ" in KeywordMapping && KeywordMapping["typ"] == KW_TYP
  {
    assert Lower("TYP") == "typ" && Name(KW_TYP)[3..] == "TYP" && StartsWith(Name(KW_TYP), "KW_");
  }

  lemma KeyOfVar()
    ensures KeywordKey(KW_VAR) == Some("var") && "var" in KeywordMapping && KeywordMapping["var"] == KW_VAR
  {
    assert Lower("VAR") == "var" && Name(KW_VAR)[3..] == "VAR" && StartsWith(Name(KW_VAR), "KW_");
  }

  lemma KeyOfWhere()
    ensures KeywordKey(KW_WHERE) == Some("where") && "where" in KeywordMapping && KeywordMapping["where"] == KW_WHERE
  {
    assert Lower("WHERE") == "where" && Name(KW_WHERE)[3..] == "WHERE" && StartsWith(Name(KW_WHERE), "KW_");
  }

  lemma KeyOfWhile()
    ensures KeywordKey(KW_WHILE) == Some("while") && "while" in KeywordMapping && KeywordMapping["while"] == KW_WHILE
  {
    assert Lower("WHILE") == "while" && Name(KW_WHILE)[3..] == "WHILE" && StartsWith(Name(KW_WHILE), "KW_");
  }

  lemma KeyOfLogical()
    ensures KeywordKey(AT_LOGICAL) == Some("logical") && "logical" in KeywordMapping && KeywordMapping["logical"] == AT_LOGICAL
  {
    assert Lower("LOGICAL") == "logical" && Name(AT_LOGICAL)[3..] == "LOGICAL" && StartsWith(Name(AT_LOGICAL), "AT_");
  }

  lemma KeyOfInteger()
    ensures KeywordKey(AT_INTEGER) == Some("integer") && "integer" in KeywordMapping && KeywordMapping["integer"] == AT_INTEGER
  {
    assert Lower("INTEGER") == "integer" && Name(AT_INTEGER)[3..] == "INTEGER" && StartsWith(Name(AT_INTEGER), "AT_");
  }

  lemma KeyOfString()
    ensures KeywordKey(AT_STRING) == Some("string") && "string" in KeywordMapping && KeywordMapping["string"] == AT_STRING
  {
    assert Lower("STRING") == "string" && Name(AT_STRING)[3..] == "STRING" && StartsWith(Name(AT_STRING), "AT_");
  }

  /** Every entry of the table is entered under the key of its token. */
  lemma EnteredKeywordsAreNamed(k: string)
    requires k in KeywordMapping
    ensures KeywordKey(KeywordMapping[k]) == Some(k)
  {
    if k == "arr" {
      KeyOfArr();
    } else if k == "else" {
      KeyOfElse();
    } else if k == "for" {
      KeyOfFor();
    } else if k == "fun" {
      KeyOfFun();
    } else if k == "if" {
      KeyOfIf();
    } else if k == "then" {
      KeyOfThen();
    } else if k == "typ" {
      KeyOfTyp();
    } else if k == "var" {
      KeyOfVar();
    } else if k == "where" {
      KeyOfWhere();
    } else if k == "while" {
      KeyOfWhile();
    } else if k == "logical" {
      KeyOfLogical();
    } else if k == "integer" {
      KeyOfInteger();
    } else {
      assert k == "string";
      KeyOfString();
    }
  }

  /** The `KW_` and `AT_` tokens. */
  predicate IsKeyword(t: TokenType) {
    t == KW_ARR || t == KW_ELSE || t == KW_FOR || t == KW_FUN || t == KW_IF || t == KW_THEN || t == KW_TYP
    || t == KW_VAR || t == KW_WHERE || t == KW_WHILE || t == AT_LOGICAL || t == AT_INTEGER || t == AT_STRING
  }

  /** Every `KW_` and `AT_` token is in the table, under its key. */
  lemma KeywordTokensAreEntered(t: TokenType)
    requires IsKeyword(t)
    ensures KeywordKey(t).Some? && KeywordKey(t).value in KeywordMapping && KeywordMapping[KeywordKey(t).value] == t
  {
    if t == KW_ARR {
      KeyOfArr();
    } else if t == KW_ELSE {
      KeyOfElse();
    } else if t == KW_FOR {
      KeyOfFor();
    } else if t == KW_FUN {
      KeyOfFun();
    } else if t == KW_IF {
      KeyOfIf();
    } else if t == KW_THEN {
      KeyOfThen();
    } else if t == KW_TYP {
      KeyOfTyp();
    } else if t == KW_VAR {
      KeyOfVar();
    } else if t == KW_WHERE {
      KeyOfWhere();
    } else if t == KW_WHILE {
      KeyOfWhile();
    } else if t == AT_LOGICAL {
      KeyOfLogical();
    } else if t == AT_INTEGER {
      KeyOfInteger();
    } else if t == AT_STRING {
      KeyOfString();
    }
  }

  /** No other token has a key, so the table holds nothing else. */
  lemma OtherTokensHaveNoKey(t: TokenType)
    requires !IsKeyword(t)
    ensures KeywordKey(t).None?
  {
    NoKeyOutsideKWAndAT(t);
  }

  // ---------------------------------------------------------------------
  // Names
  // ---------------------------------------------------------------------

  /** Neither logical constant is a keyword. */
  lemma LogicalConstantsAreNotKeywords()
    ensures forall k :: k in Logical ==> k !in KeywordMapping
    ensures forall k :: k in KeywordMapping ==> KeywordMapping[k] !in {C_LOGICAL, IDENTIFIER, EOF}
  {
  }

  /** `preveriIme` appends exactly one symbol spanning the name. A keyword,
      matched case-insensitively, keeps its original spelling; `true` and
      `false` in any case become a lowercased logical constant; everything
      else is an identifier. */
  lemma NameClassification(st: LState)
    ensures var r := CheckName(st); var low := Lower(st.pending);
      |r.symbols| == |st.symbols| + 1 && r.symbols[..|st.symbols|] == st.symbols &&
      var sym := r.symbols[|st.symbols|];
      sym.pos == Position(st.start.line, st.start.column, st.line, st.column - 1) &&
      (low in KeywordMapping ==> sym.token == KeywordMapping[low]) &&
      (sym.token == C_LOGICAL <==> low in Logical) &&
      (sym.token == IDENTIFIER <==> low !in KeywordMapping && low !in Logical) &&
      (sym.lexeme == if sym.token == C_LOGICAL then low else st.pending)
  {
    LogicalConstantsAreNotKeywords();
  }

  /** Two spellings of a name that agree once lowercased get the same token. */
  lemma NameTokenIgnoresCase(st: LState, other: string)
    requires Lower(other) == Lower(st.pending)
    ensures CheckName(st).symbols[|st.symbols|].token == CheckName(st.(pending := other)).symbols[|st.symbols|].token
  {
    NameClassification(st);
    NameClassification(st.(pending := other));
  }

  // ---------------------------------------------------------------------
  // Symbols are only appended; end of file comes last
  // ---------------------------------------------------------------------

  /** No symbol in the list is the end-of-file symbol. */
  predicate NoEOF(syms: seq<Symbol>) {
    forall i :: 0 <= i < |syms| ==> syms[i].token != EOF
  }

  /** `r` is `prefix` followed by symbols none of which is end of file. */
  predicate ExtendsWithoutEOF(prefix: seq<Symbol>, r: seq<Symbol>) {
    prefix <= r && forall i :: |prefix| <= i < |r| ==> r[i].token != EOF
  }

  lemma OperatorTableHasNoEOF()
    ensures forall k :: k in OperatorMapping ==> OperatorMapping[k] != EOF
  {
  }

  /** Emitting appends one symbol, spanning from the start of the lexeme to
      the given column of the current line, and changes nothing else. */
  lemma EmitAddsOneSymbol(st: LState, t: TokenType, lexeme: string, endColumn: int)
    ensures var r := Emit(st, t, lexeme, endColumn);
      |r.symbols| == |st.symbols| + 1 && st.symbols <= r.symbols && r.(symbols := st.symbols) == st &&
      r.symbols[|st.symbols|] == Symbol(Position(st.start.line, st.start.column, st.line, endColumn), t, lexeme) &&
      (t != EOF ==> ExtendsWithoutEOF(st.symbols, r.symbols))
  {
  }

  /** A name appends one symbol, which is not the end-of-file symbol. */
  lemma EmitAppends(st: LState, r: LState)
    requires r == CheckName(st)
    ensures ExtendsWithoutEOF(st.symbols, r.symbols)
  {
    NameClassification(st);
    LogicalConstantsAreNotKeywords();
  }

  lemma ExtendsTransitive(a: seq<Symbol>, b: seq<Symbol>, c: seq<Symbol>)
    requires ExtendsWithoutEOF(a, b) && ExtendsWithoutEOF(b, c)
    ensures ExtendsWithoutEOF(a, c)
  {
    forall i | |a| <= i < |c|
      ensures c[i].token != EOF
    {
      if i < |b| {
        assert c[i] == b[i];
      }
    }
  }

  /** One character only appends symbols, and never the end-of-file symbol. */
  lemma FeedAppends(st: LState, c: char)
    requires Valid(st)
    ensures ExtendsWithoutEOF(st.symbols, Feed(st, c).symbols)
    decreases if st.state == INITIAL then 0 else 1, 2
  {
    if c == '#' && st.state != KONST_STR {
    } else {
      match st.state
      case KOMENTAR =>
      case IME =>
        var s := Advance(st, c);
        EmitAppends(s, CheckName(s));
      case KONST_INT =>
        IntegerCharAppends(st, c);
      case KONST_STR =>
        StringCharAppends(st, c);
      case OPERATOR =>
        OperatorCharAppends(st, c);
      case INITIAL =>
    }
  }

  lemma IntegerCharAppends(st: LState, c: char)
    requires Valid(st) && st.state == KONST_INT && c != '#'
    ensures ExtendsWithoutEOF(st.symbols, Feed(st, c).symbols)
    decreases 1, 0
  {
    var s := Advance(st, c);
    assert Feed(st, c) == IntegerChar(s, c);
    if !IsDigit(c) {
      var s1 := Emit(s, C_INTEGER, s.pending, s.column - 1).(state := INITIAL);
      assert ExtendsWithoutEOF(st.symbols, s1.symbols);
      FeedAppends(s1, c);
      ExtendsTransitive(st.symbols, s1.symbols, Feed(s1, c).symbols);
    }
  }

  lemma StringCharAppends(st: LState, c: char)
    requires Valid(st) && st.state == KONST_STR
    ensures ExtendsWithoutEOF(st.symbols, Feed(st, c).symbols)
    decreases 1, 0
  {
    var s := Advance(st, c);
    assert Feed(st, c) == StringChar(s, c);
    if s.quotes % 2 == 1 && |s.pending| > 1 && c != '\'' {
      var lexeme := StripQuotes(CollapseQuotes(s.pending));
      var s1 := Emit(s, C_STRING, lexeme, s.column - 1).(closed := true, state := INITIAL);
      assert ExtendsWithoutEOF(st.symbols, s1.symbols);
      FeedAppends(s1, c);
      ExtendsTransitive(st.symbols, s1.symbols, Feed(s1, c).symbols);
      assert Feed(st, c) == Feed(s1, c);
    } else {
      assert Feed(st, c).symbols == st.symbols;
    }
  }

  lemma OperatorCharAppends(st: LState, c: char)
    requires Valid(st) && st.state == OPERATOR && c != '#'
    ensures ExtendsWithoutEOF(st.symbols, Feed(st, c).symbols)
    decreases 1, 1
  {
    var s := Advance(st, c);
    assert Feed(st, c) == OperatorChar(s, c);
    if s.pending + [c] in OperatorMapping {
      OperatorTableHasNoEOF();
    } else {
      OperatorThenFeedAppends(s, c);
    }
  }

  /** A pending operator character is an operator of its own. */
  lemma PendingOperatorIsMapped(s: LState)
    requires Valid(s) && s.state == OPERATOR
    ensures s.pending in OperatorMapping && OperatorMapping[s.pending] != EOF
  {
    OperatorTableHasNoEOF();
    assert s.pending == [s.pending[0]];
  }

  /** One more symbol, other than the end of the input. */
  lemma SymbolExtends(a: seq<Symbol>, b: seq<Symbol>)
    requires |b| == |a| + 1 && b[..|a|] == a && b[|a|].token != EOF
    ensures ExtendsWithoutEOF(a, b)
  {
  }

  /** An operator character that does not complete a pair: the pending
      operator is emitted and `c` is read afresh. */
  lemma OperatorThenFeedAppends(s: LState, c: char)
    requires Valid(s) && s.state == OPERATOR && s.pending + [c] !in OperatorMapping
    ensures ExtendsWithoutEOF(s.symbols, OperatorChar(s, c).symbols)
    decreases 1, 0
  {
    PendingOperatorIsMapped(s);
    var s1 := Emit(s, OperatorMapping[s.pending], s.pending, s.column - 1).(state := INITIAL);
    OperatorFallsThrough(s, c, s1);
    SymbolExtends(s.symbols, s1.symbols);
    FeedAppends(s1, c);
    ExtendsTransitive(s.symbols, s1.symbols, Feed(s1, c).symbols);
  }

  /** The pending operator is emitted and `c` is fed again from the initial
      state. */
  lemma OperatorFallsThrough(s: LState, c: char, s1: LState)
    requires Valid(s) && s.state == OPERATOR && s.pending + [c] !in OperatorMapping
    requires s.pending in OperatorMapping
    requires s1 == Emit(s, OperatorMapping[s.pending], s.pending, s.column - 1).(state := INITIAL)
    ensures OperatorChar(s, c) == Feed(s1, c)
  {
  }

  /** Feeding a sequence is feeding its two halves one after the other. */
  lemma {:induction false} FeedAllSplits(st: LState, a: string, b: string)
    requires Valid(st)
    ensures FeedAll(st, a + b) == FeedAll(FeedAll(st, a), b)
    decreases |b|
  {
    if b == [] {
      assert a + b == a;
    } else {
      assert (a + b)[..|a + b| - 1] == a + b[..|b| - 1];
      FeedAllSplits(st, a, b[..|b| - 1]);
    }
  }

  lemma {:induction false} FeedAllAppends(st: LState, s: string)
    requires Valid(st)
    ensures ExtendsWithoutEOF(st.symbols, FeedAll(st, s).symbols)
    decreases |s|
  {
    if s != [] {
      var m := FeedAll(st, s[..|s| - 1]);
      FeedAllAppends(st, s[..|s| - 1]);
      FeedAppends(m.(column := m.column + 1), s[|s| - 1]);
    }
  }

  /** A successful scan ends with the one end-of-file symbol `$`. */
  lemma ScanEndsWithEOF(source: string)
    ensures Scan(source).Ok? ==> var syms := Scan(source).value;
      |syms| > 0 && syms[|syms| - 1].token == EOF && syms[|syms| - 1].lexeme == "$" &&
      NoEOF(syms[..|syms| - 1])
  {
    var st := FeedAll(Initial, source);
    FeedAllAppends(Initial, source);
    if |source| > 0 {
      FeedAppends(st.(column := st.column + 1), ' ');
    }
    if Scan(source).Ok? {
      var syms := Scan(source).value;
      assert syms[..|syms| - 1] == Final(source).symbols;
    }
  }

  // ---------------------------------------------------------------------
  // Unterminated strings
  // ---------------------------------------------------------------------

  /** `zakljucenNiz` is false exactly while a string constant is open. */
  predicate ClosedOutsideStrings(st: LState) {
    st.closed <==> st.state != KONST_STR
  }

  lemma FeedKeepsClosed(st: LState, c: char)
    requires Valid(st) && ClosedOutsideStrings(st)
    ensures ClosedOutsideStrings(Feed(st, c))
    decreases if st.state == INITIAL then 0 else 1
  {
    var s := Advance(st, c);
    if c == '#' && st.state != KONST_STR {
    } else {
      match s.state
      case KOMENTAR =>
      case IME =>
      case KONST_INT =>
        if !IsDigit(c) {
          FeedKeepsClosed(Emit(s, C_INTEGER, s.pending, s.column - 1).(state := INITIAL), c);
        }
      case KONST_STR =>
        if s.quotes % 2 == 1 && |s.pending| > 1 && c != '\'' {
          var lexeme := StripQuotes(CollapseQuotes(s.pending));
          FeedKeepsClosed(Emit(s, C_STRING, lexeme, s.column - 1).(closed := true, state := INITIAL), c);
        }
      case OPERATOR =>
        if s.pending + [c] !in OperatorMapping {
          assert s.pending == [s.pending[0]];
          FeedKeepsClosed(Emit(s, OperatorMapping[s.pending], s.pending, s.column - 1).(state := INITIAL), c);
        }
      case INITIAL =>
    }
  }

  lemma {:induction false} FeedAllKeepsClosed(st: LState, s: string)
    requires Valid(st) && ClosedOutsideStrings(st)
    ensures ClosedOutsideStrings(FeedAll(st, s))
    decreases |s|
  {
    if s != [] {
      var m := FeedAll(st, s[..|s| - 1]);
      FeedAllKeepsClosed(st, s[..|s| - 1]);
      FeedKeepsClosed(m.(column := m.column + 1), s[|s| - 1]);
    }
  }

  /** Scanning fails exactly when the source ends inside a string constant. */
  lemma ScanFailsInsideString(source: string)
    ensures Scan(source).Err? <==> Final(source).state == KONST_STR
  {
    var st := FeedAll(Initial, source);
    FeedAllKeepsClosed(Initial, source);
    if |source| > 0 {
      FeedKeepsClosed(st.(column := st.column + 1), ' ');
    }
  }

  // ---------------------------------------------------------------------
  // The first character of a lexeme
  // ---------------------------------------------------------------------

  /** From the initial state the first character picks the lexeme kind: a
      letter or `_` a name, a digit an integer, a quote a string, `#` a
      comment, an operator character an operator; whitespace is skipped.
      Nothing is emitted. */
  lemma FirstCharacterSelectsState(st: LState, c: char)
    requires Valid(st) && st.state == INITIAL
    ensures var r := Feed(st, c);
      r.symbols == st.symbols &&
      ((c == '_' || IsLetter(c)) ==> r.state == IME && r.pending == [c]) &&
      (IsDigit(c) ==> r.state == KONST_INT && r.pending == [c]) &&
      (c == '\'' ==> r.state == KONST_STR && r.pending == [c] && !r.closed) &&
      (c == '#' ==> r.state == KOMENTAR) &&
      (c in OperatorChars ==> r.state == OPERATOR && r.pending == [c]) &&
      (c in Whitespace ==> r.state == INITIAL && r.pending == [])
  {
  }

  // ---------------------------------------------------------------------
  // Integer constants
  // ---------------------------------------------------------------------

  predicate AllDigits(s: string) {
    forall i :: 0 <= i < |s| ==> IsDigit(s[i])
  }

  /** A run of digits read from the initial state is pending as one
      integer constant that starts at the first digit. */
  lemma {:induction false} DigitsAccumulate(st: LState, ds: string)
    requires Valid(st) && st.state == INITIAL && |ds| > 0 && AllDigits(ds)
    ensures FeedAll(st, ds) == st.(state := KONST_INT, start := Location(st.line, st.column + 1),
                                   pending := ds, column := st.column + |ds|)
    decreases |ds|
  {
    var d := ds[|ds| - 1];
    if |ds| == 1 {
      assert ds[..0] == [];
      assert Step(st, d) == InitialChar(st.(column := st.column + 1), d);
    } else {
      DigitsAccumulate(st, ds[..|ds| - 1]);
      var m := FeedAll(st, ds[..|ds| - 1]);
      assert Step(m, d) == IntegerChar(m.(column := m.column + 1), d);
      assert ds[..|ds| - 1] + [d] == ds;
    }
  }

  /** A character that is not a digit ends a pending integer constant and
      emits it, after everything emitted before. */
  lemma IntegerEnds(m: LState, c: char)
    requires Valid(m) && m.state == KONST_INT && !IsDigit(c) && c !in {'#', '\n', '\t'}
    ensures var r := Step(m, c);
      |r.symbols| > |m.symbols| && r.symbols[..|m.symbols|] == m.symbols &&
      r.symbols[|m.symbols|] == Symbol(Position(m.start.line, m.start.column, m.line, m.column), C_INTEGER, m.pending)
  {
    var s := m.(column := m.column + 1);
    var e := Emit(s, C_INTEGER, m.pending, s.column - 1).(state := INITIAL);
    assert Step(m, c) == IntegerChar(s, c) == Feed(e, c);
    FeedAppends(e, c);
  }

  /** Digits followed by a character that is not one become one
      `C_INTEGER` symbol spanning the digits. */
  lemma IntegerConstant(st: LState, ds: string, c: char)
    requires Valid(st) && st.state == INITIAL && |ds| > 0 && AllDigits(ds)
    requires !IsDigit(c) && c !in {'#', '\n', '\t'}
    ensures var r := FeedAll(st, ds + [c]);
      |r.symbols| > |st.symbols| && r.symbols[..|st.symbols|] == st.symbols &&
      r.symbols[|st.symbols|] == Symbol(Position(st.line, st.column + 1, st.line, st.column + |ds|), C_INTEGER, ds)
  {
    FeedAllSplits(st, ds, [c]);
    DigitsAccumulate(st, ds);
    var m := FeedAll(st, ds);
    assert FeedAll(m, [c]) == Step(m, c) by { assert [c][..0] == []; }
    IntegerEnds(m, c);
  }

  /** `#` ends a pending name, integer or operator without emitting it. */
  lemma HashDropsPendingLexeme(st: LState)
    requires Valid(st) && st.state in {IME, KONST_INT, OPERATOR}
    ensures Feed(st, '#') == st.(state := KOMENTAR)
  {
  }

  // ---------------------------------------------------------------------
  // Operators
  // ---------------------------------------------------------------------

  /** The two-character operators. */
  const Pairs: set<string> := {"==", "!=", "<=", ">="}

  lemma PairsAreTheTwoCharacterOperators(two: string)
    requires |two| == 2
    ensures two in OperatorMapping <==> two in Pairs
  {
  }

  /** With one operator character pending, the next character completes a
      two-character operator when it can; otherwise the pending character
      is emitted on its own and the next one is read afresh. */
  lemma OperatorLookahead(st: LState, c: char)
    requires Valid(st) && st.state == OPERATOR && c != '#'
    ensures st.pending in OperatorMapping
    ensures var r := Feed(st, c); var two := st.pending + [c];
      |r.symbols| > |st.symbols| && r.symbols[..|st.symbols|] == st.symbols &&
      (two in Pairs ==>
        r.symbols == st.symbols + [r.symbols[|st.symbols|]] && r.state == INITIAL &&
        r.symbols[|st.symbols|].lexeme == two && r.symbols[|st.symbols|].token == OperatorMapping[two]) &&
      (two !in Pairs ==>
        r.symbols[|st.symbols|].lexeme == st.pending && r.symbols[|st.symbols|].token == OperatorMapping[st.pending])
  {
    assert st.pending == [st.pending[0]];
    if st.pending + [c] in Pairs {
      OperatorPair(st, c);
    } else {
      OperatorSingle(st, c);
    }
  }

  lemma OperatorPair(st: LState, c: char)
    requires Valid(st) && st.state == OPERATOR && st.pending + [c] in Pairs
    ensures var r := Feed(st, c); var two := st.pending + [c];
      two in OperatorMapping && r.state == INITIAL &&
      r.symbols == st.symbols + [Symbol(Position(st.start.line, st.start.column, st.line, st.column), OperatorMapping[two], two)]
  {
    var two := st.pending + [c];
    assert two[1] == c;
    PairEndsWithEquals(two);
    assert Advance(st, c) == st;
    assert Feed(st, c) == OperatorChar(st, c);
  }

  /** Every two-character operator ends with `=`. */
  lemma PairEndsWithEquals(two: string)
    requires two in Pairs
    ensures |two| == 2 && two[1] == '=' && two in OperatorMapping
  {
  }

  lemma OperatorSingle(st: LState, c: char)
    requires Valid(st) && st.state == OPERATOR && c != '#' && st.pending + [c] !in Pairs
    ensures st.pending in OperatorMapping
    ensures var r := Feed(st, c);
      |r.symbols| > |st.symbols| && r.symbols[..|st.symbols|] == st.symbols &&
      r.symbols[|st.symbols|].lexeme == st.pending && r.symbols[|st.symbols|].token == OperatorMapping[st.pending]
  {
    assert st.pending == [st.pending[0]];
    var two := st.pending + [c];
    PairsAreTheTwoCharacterOperators(two);
    var s := Advance(st, c);
    assert Feed(st, c) == OperatorChar(s, c);
    assert s.pending == [s.pending[0]];
    var e := Emit(s, OperatorMapping[s.pending], s.pending, s.column - 1).(state := INITIAL);
    assert OperatorChar(s, c) == Feed(e, c);
    FeedAppends(e, c);
  }

  // ---------------------------------------------------------------------
  // String constants
  // ---------------------------------------------------------------------

  predicate NoQuote(w: string) {
    forall i :: 0 <= i < |w| ==> w[i] != '\''
  }

  /** Without two quotes in a row there is nothing to collapse. */
  lemma {:induction false} CollapseWithoutPairs(s: string)
    requires forall i :: 0 <= i < |s| - 1 ==> !(s[i] == '\'' && s[i + 1] == '\'')
    ensures CollapseQuotes(s) == s
    decreases |s|
  {
    if s != [] {
      CollapseWithoutPairs(s[1..]);
    }
  }

  /** The body of a string constant is pending behind its opening quote. */
  lemma {:induction false} StringBodyPending(st: LState, w: string)
    requires Valid(st) && st.state == INITIAL && |w| > 0 && NoQuote(w)
    ensures var r := FeedAll(st, "'" + w);
      r.state == KONST_STR && r.pending == "'" + w && r.quotes == 0 && r.symbols == st.symbols
    decreases |w|
  {
    var v := w[..|w| - 1];
    assert ("'" + w)[..|"'" + w| - 1] == "'" + v;
    if |w| == 1 {
      assert FeedAll(st, "'") == Step(st, '\'') by { assert "'"[..0] == []; }
      StringOpens(st);
      StringGrows(Step(st, '\''), w[0]);
    } else {
      StringBodyPending(st, v);
      StringGrows(FeedAll(st, "'" + v), w[|w| - 1]);
      assert "'" + v + [w[|w| - 1]] == "'" + w;
    }
  }

  /** After an odd run of quotes, a character that is not a quote ends the
      string constant: its text, with quote pairs collapsed and the outer
      quotes stripped, is emitted. */
  lemma StringEnds(m: LState, c: char)
    requires Valid(m) && m.state == KONST_STR && m.quotes % 2 == 1 && |m.pending| > 1 && c != '\''
    ensures var r := Step(m, c);
      |r.symbols| > |m.symbols| && r.symbols[..|m.symbols|] == m.symbols &&
      r.symbols[|m.symbols|].token == C_STRING &&
      r.symbols[|m.symbols|].lexeme == StripQuotes(CollapseQuotes(m.pending)) && r.closed
  {
    var s := Advance(m.(column := m.column + 1), c);
    var e := Emit(s, C_STRING, StripQuotes(CollapseQuotes(m.pending)), s.column - 1).(closed := true, state := INITIAL);
    assert Step(m, c) == StringChar(s, c) == Feed(e, c);
    FeedAppends(e, c);
    FeedKeepsClosed(e, c);
    var r := Feed(e, c);
    assert e.symbols[..|m.symbols|] == m.symbols && |e.symbols| == |m.symbols| + 1;
    assert r.symbols[..|e.symbols|] == e.symbols;
    assert r.symbols[|m.symbols|] == e.symbols[|m.symbols|];
    assert r.symbols[..|m.symbols|] == e.symbols[..|m.symbols|];
  }

  lemma FeedAllTwo(st: LState, x: char, y: char)
    requires Valid(st)
    ensures FeedAll(st, [x, y]) == Step(Step(st, x), y)
  {
    assert [x, y][..1] == [x];
    assert [x][..0] == [];
    assert FeedAll(st, [x]) == Step(FeedAll(st, []), x);
    assert FeedAll(st, [x, y]) == Step(FeedAll(st, [x]), y);
  }

  /** A quote read from the initial state opens a string constant; the
      quote count is left as the previous string constant left it. */
  lemma StringOpens(st: LState)
    requires Valid(st) && st.state == INITIAL
    ensures Step(st, '\'') == st.(state := KONST_STR, start := Location(st.line, st.column + 1),
                                  pending := "'", closed := false, column := st.column + 1)
  {
  }

  /** Inside a string constant every character is appended, and the run of
      consecutive quotes is counted, unless an odd run of quotes is ended. */
  lemma StringGrows(m: LState, c: char)
    requires Valid(m) && m.state == KONST_STR
    requires !(m.quotes % 2 == 1 && |m.pending| > 1) || c == '\''
    ensures Step(m, c) == Advance(m.(column := m.column + 1), c).(pending := m.pending + [c],
                             quotes := if c == '\'' then m.quotes + 1 else 0)
  {
    assert Step(m, c) == StringChar(Advance(m.(column := m.column + 1), c), c);
  }

  /** Quoting a body without quotes and then collapsing and stripping
      gives the body back. */
  lemma QuotedBody(w: string)
    requires |w| > 0 && NoQuote(w)
    ensures StripQuotes(CollapseQuotes("'" + w + "'")) == w
  {
    var q := "'" + w + "'";
    assert forall i :: 0 <= i < |q| - 1 ==> !(q[i] == '\'' && q[i + 1] == '\'') by {
      forall i | 0 <= i < |q| - 1
        ensures !(q[i] == '\'' && q[i + 1] == '\'')
      {
        if i == 0 {
          assert q[1] == w[0];
        } else {
          assert q[i] == w[i - 1];
        }
      }
    }
    CollapseWithoutPairs(q);
    assert q[1..|q| - 1] == w;
  }

  /** A non-empty string constant without quotes inside lexes to its body:
      the character after the closing quote emits it. */
  lemma StringConstant(st: LState, w: string, c: char)
    requires Valid(st) && st.state == INITIAL && |w| > 0 && NoQuote(w) && c != '\''
    ensures var r := FeedAll(st, "'" + w + "'" + [c]);
      |r.symbols| > |st.symbols| && r.symbols[..|st.symbols|] == st.symbols &&
      r.symbols[|st.symbols|].token == C_STRING && r.symbols[|st.symbols|].lexeme == w
  {
    StringBodyPending(st, w);
    var m := FeedAll(st, "'" + w);
    assert "'" + w + "'" + [c] == ("'" + w) + ['\'', c];
    FeedAllSplits(st, "'" + w, ['\'', c]);
    FeedAllTwo(m, '\'', c);
    StringGrows(m, '\'');
    var m1 := Step(m, '\'');
    assert m1.pending == "'" + w + "'" && m1.quotes == 1 && m1.state == KONST_STR;
    assert m1.quotes % 2 == 1;
    assert |m1.pending| > 1;
    QuotedBody(w);
    StringEnds(m1, c);
  }

  // ---------------------------------------------------------------------
  // Comments and lines
  // ---------------------------------------------------------------------

  /** Inside a comment nothing is emitted, and only a newline ends it. */
  lemma CommentRunsToNewline(st: LState, c: char)
    requires Valid(st) && st.state == KOMENTAR
    ensures var r := Feed(st, c);
      r.symbols == st.symbols && (r.state == INITIAL <==> c == '\n') && (c != '\n' ==> r.state == KOMENTAR)
  {
  }

  /** Outside a lexeme a newline moves to column 0 of the next line. */
  lemma NewlineStartsLine(st: LState)
    requires Valid(st) && st.state in {INITIAL, KOMENTAR}
    ensures var r := Feed(st, '\n');
      r.line == st.line + 1 && r.column == 0 && r.symbols == st.symbols && r.state == INITIAL
  {
  }

  /** A newline that ends an integer constant is handled twice, once before
      and once after the constant is emitted, so the line count moves on by
      two. */
  lemma NewlineAfterIntegerCountsTwice(st: LState)
    requires Valid(st) && st.state == KONST_INT
    ensures Feed(st, '\n').line == st.line + 2
  {
    var s := Advance(st, '\n');
    assert !IsDigit('\n') && StartState('\n') == INITIAL;
    var e := Emit(s, C_INTEGER, s.pending, s.column - 1).(state := INITIAL);
    assert Feed(st, '\n') == IntegerChar(s, '\n');
    assert IntegerChar(s, '\n') == Feed(e, '\n');
    var s2 := Advance(e, '\n');
    assert s2.line == st.line + 2;
    assert Feed(e, '\n') == InitialChar(s2, '\n');
  }

  // ---------------------------------------------------------------------
  // Whole sources
  // ---------------------------------------------------------------------

  lemma FeedAllSnoc(st: LState, s: string, c: char)
    requires Valid(st)
    ensures FeedAll(st, s + [c]) == Step(FeedAll(st, s), c)
  {
    assert (s + [c])[..|s|] == s;
  }

  /** The empty string constant `''` is read as a string holding one quote:
      after collapsing, one quote is left, and a lexeme of one character is
      not stripped. */
  lemma EmptyStringIsOneQuote(src: string)
    requires src == "''"
    ensures Scan(src).Ok? && Scan(src).value[0].token == C_STRING && Scan(src).value[0].lexeme == "'"
  {
    var m0 := FeedAll(Initial, []);
    StringOpens(m0);
    var m1 := Step(m0, '\'');
    StringGrows(m1, '\'');
    var m2 := Step(m1, '\'');
    assert src[..1] == "'" && "'"[..0] == [];
    assert FeedAll(Initial, src) == m2;
    assert CollapseQuotes(m2.pending) == "'";
    assert m2.quotes == 1 && |m2.pending| == 2;
    StringEnds(m2, ' ');
    assert Final(src) == Step(m2, ' ');
  }
}

=== FILE: lexing_strings.dfy ===
/** String constants with quotes inside: a quote is written doubled, and
    the lexer reads every doubled quote of a body back as one quote. */
module LexingStrings {
  import opened Wrappers
  import opened Tokens
  import opened Lexing
  import opened LexingProperties


  /** How a character of a string is written inside a string constant: a
      quote is doubled. */
  function Escape(c: char): string {
    if c == '\'' then "''" else [c]
  }

  /** How a string is written inside a string constant. */
  function Escaped(w: string): string {
    if w == [] then [] else Escape(w[0]) + Escaped(w[1..])
  }

  lemma {:induction false} EscapedSnoc(v: string, c: char)
    ensures Escaped(v + [c]) == Escaped(v) + Escape(c)
    decreases |v|
  {
    if v == [] {
      assert [c][1..] == [];
    } else {
      assert (v + [c])[1..] == v[1..] + [c];
      EscapedSnoc(v[1..], c);
    }
  }

  /** Collapsing quote pairs, left to right, undoes the doubling. */
  lemma {:induction false} CollapseEscaped(w: string, t: string)
    ensures CollapseQuotes(Escaped(w) + t) == w + CollapseQuotes(t)
    decreases |w|
  {
    if w == [] {
      assert Escaped(w) + t == t;
    } else {
      var rest := Escaped(w[1..]) + t;
      assert Escaped(w) + t == Escape(w[0]) + rest by {
        assert Escaped(w) == Escape(w[0]) + Escaped(w[1..]);
        Regroup(Escape(w[0]), Escaped(w[1..]), t);
      }
      CollapseEscaped(w[1..], t);
      CollapseEscape(w[0], rest);
      assert w == [w[0]] + w[1..];
      Regroup([w[0]], w[1..], CollapseQuotes(t));
    }
  }

  /** One doubled quote, or one other character, collapses to itself. */
  lemma CollapseEscape(c: char, rest: string)
    ensures CollapseQuotes(Escape(c) + rest) == [c] + CollapseQuotes(rest)
  {
    var s := Escape(c) + rest;
    if c == '\'' {
      assert s[2..] == rest;
    } else {
      assert s[1..] == rest;
    }
  }

  /** A string that does not start with a quote, written with its quotes
      doubled and between quotes, collapses and strips back to itself. */
  lemma EscapedBody(w: string)
    requires |w| > 0 && w[0] != '\''
    ensures StripQuotes(CollapseQuotes("'" + Escaped(w) + "'")) == w
  {
    EscapedCollapse(w);
    StripSurrounded(w);
  }

  /** Collapsing keeps the surrounding quotes and undoes the doubling
      between them. */
  lemma EscapedCollapse(w: string)
    requires |w| > 0 && w[0] != '\''
    ensures CollapseQuotes("'" + Escaped(w) + "'") == "'" + w + "'"
  {
    EscapedStarts(w);
    EscapedThenQuote(w);
    CollapseOpening(Escaped(w) + "'", w + "'");
    Regroup("'", Escaped(w), "'");
    Regroup("'", w, "'");
  }

  /** A body that does not start with a quote is written starting with
      the same character. */
  lemma EscapedStarts(w: string)
    requires |w| > 0 && w[0] != '\''
    ensures |Escaped(w)| > 0 && (Escaped(w) + "'")[0] == w[0]
  {
    assert Escaped(w) == Escape(w[0]) + Escaped(w[1..]) && Escape(w[0]) == [w[0]];
  }

  /** Concatenation regrouped, for the steps that need it spelled out. */
  lemma Regroup(a: string, b: string, c: string)
    ensures a + b + c == a + (b + c)
  {
  }

  /** The body with its quotes doubled, then the closing quote. */
  lemma EscapedThenQuote(w: string)
    ensures CollapseQuotes(Escaped(w) + "'") == w + "'"
  {
    CollapseEscaped(w, "'");
    assert CollapseQuotes("'") == "'" by {
      assert "'"[1..] == [];
    }
  }

  /** An opening quote followed by something other than a quote is kept as
      it is. */
  lemma CollapseOpening(x: string, y: string)
    requires |x| > 0 && x[0] != '\'' && CollapseQuotes(x) == y
    ensures CollapseQuotes("'" + x) == "'" + y
  {
    assert ("'" + x)[1..] == x;
  }

  /** Stripping removes exactly the surrounding quotes. */
  lemma StripSurrounded(w: string)
    ensures StripQuotes("'" + w + "'") == w
  {
    assert ("'" + w + "'")[1..|w| + 1] == w;
  }

  /** While the body is read the constant stays open: a doubled quote is
      read as a run of two, so the run of quotes is even after every
      character of the body. */
  lemma {:induction false} EscapedBodyPending(st: LState, w: string)
    requires Valid(st) && st.state == INITIAL && |w| > 0 && w[0] != '\''
    ensures var r := FeedAll(st, "'" + Escaped(w));
      r.state == KONST_STR && r.pending == "'" + Escaped(w) && r.quotes % 2 == 0 && r.symbols == st.symbols
    decreases |w|
  {
    if |w| == 1 {
      assert w == [w[0]];
      EscapedBodyStarts(st, w[0]);
    } else {
      var v := w[..|w| - 1];
      var c := w[|w| - 1];
      assert w == v + [c] && v[0] == w[0];
      EscapedBodyPending(st, v);
      var m := FeedAll(st, "'" + Escaped(v));
      assert |m.pending| > 1 by {
        assert Escaped(v) == Escape(v[0]) + Escaped(v[1..]);
      }
      EscapeKeepsOpen(m, c);
      FeedAllSplits(st, "'" + Escaped(v), Escape(c));
      OpenedSnoc(v, c);
    }
  }

  /** The opening quote and the body so far, then the next character as it
      is written. */
  lemma OpenedSnoc(v: string, c: char)
    ensures "'" + Escaped(v + [c]) == ("'" + Escaped(v)) + Escape(c)
  {
    EscapedSnoc(v, c);
  }

  /** The opening quote and a first character other than a quote. */
  lemma EscapedBodyStarts(st: LState, c: char)
    requires Valid(st) && st.state == INITIAL && c != '\''
    ensures var r := FeedAll(st, "'" + Escaped([c]));
      r.state == KONST_STR && r.pending == "'" + Escaped([c]) && r.quotes % 2 == 0 && r.symbols == st.symbols
  {
    assert Escaped([c]) == [c] by {
      assert [c][1..] == [];
    }
    assert "'" + [c] == ['\'', c];
    FeedAllTwo(st, '\'', c);
    StringOpens(st);
    StringGrows(Step(st, '\''), c);
  }

  /** After an even run of quotes, reading one more character as it is
      written keeps the constant open and the run even. */
  lemma EscapeKeepsOpen(m: LState, c: char)
    requires Valid(m) && m.state == KONST_STR && m.quotes % 2 == 0 && |m.pending| > 1
    ensures var r := FeedAll(m, Escape(c));
      r.state == KONST_STR && r.pending == m.pending + Escape(c) && r.quotes % 2 == 0 && r.symbols == m.symbols
  {
    if c == '\'' {
      assert Escape(c) == "''";
      DoubledQuoteKeepsOpen(m);
    } else {
      assert Escape(c) == [c];
      OtherCharKeepsOpen(m, c);
    }
  }

  /** A character other than a quote is appended and ends the run of quotes. */
  lemma OtherCharKeepsOpen(m: LState, c: char)
    requires Valid(m) && m.state == KONST_STR && m.quotes % 2 == 0 && c != '\''
    ensures var r := FeedAll(m, [c]);
      r.state == KONST_STR && r.pending == m.pending + [c] && r.quotes == 0 && r.symbols == m.symbols
  {
    assert FeedAll(m, [c]) == Step(m, c) by {
      assert [c][..0] == [];
    }
    StringGrows(m, c);
  }

  /** A doubled quote after an even run of quotes is read as a run of two. */
  lemma DoubledQuoteKeepsOpen(m: LState)
    requires Valid(m) && m.state == KONST_STR && m.quotes % 2 == 0 && |m.pending| > 1
    ensures var r := FeedAll(m, "''");
      r.state == KONST_STR && r.pending == m.pending + "''" && r.quotes == m.quotes + 2 && r.symbols == m.symbols
  {
    FeedAllTwo(m, '\'', '\'');
    StringGrows(m, '\'');
    var m1 := Step(m, '\'');
    assert m1.state == KONST_STR && m1.pending == m.pending + "'" && m1.quotes == m.quotes + 1;
    StringGrows(m1, '\'');
    assert m.pending + "'" + "'" == m.pending + "''";
  }

  /** A non-empty string constant whose body does not start with a quote,
      written with every quote of the body doubled, is read back as one
      string constant holding the body, whatever lexer state it starts from
      between symbols and whatever character other than a quote follows it. */
  lemma EscapedStringConstant(st: LState, w: string, c: char)
    requires Valid(st) && st.state == INITIAL && |w| > 0 && w[0] != '\'' && c != '\''
    ensures var r := FeedAll(st, "'" + Escaped(w) + "'" + [c]);
      |r.symbols| > |st.symbols| && r.symbols[..|st.symbols|] == st.symbols &&
      r.symbols[|st.symbols|].token == C_STRING && r.symbols[|st.symbols|].lexeme == w && r.closed
  {
    var body := "'" + Escaped(w);
    EscapedBodyPending(st, w);
    ClosingQuote(FeedAll(st, body), c);
    EscapedBody(w);
    FeedAllSplits(st, body, ['\'', c]);
    QuoteThen(body, c);
  }

  /** The closing quote and the character after it, as one piece. */
  lemma QuoteThen(s: string, c: char)
    ensures s + ['\'', c] == s + "'" + [c]
  {
  }

  /** The closing quote after an even run of quotes, then any character
      other than a quote, emits the constant and closes it. */
  lemma ClosingQuote(m: LState, c: char)
    requires Valid(m) && m.state == KONST_STR && m.quotes % 2 == 0 && |m.pending| > 1 && c != '\''
    ensures var r := FeedAll(m, ['\'', c]);
      |r.symbols| > |m.symbols| && r.symbols[..|m.symbols|] == m.symbols &&
      r.symbols[|m.symbols|].token == C_STRING &&
      r.symbols[|m.symbols|].lexeme == StripQuotes(CollapseQuotes(m.pending + "'")) && r.closed
  {
    FeedAllTwo(m, '\'', c);
    ClosingQuoteSteps(m, c);
  }

  /** The same, one character at a time. */
  lemma ClosingQuoteSteps(m: LState, c: char)
    requires Valid(m) && m.state == KONST_STR && m.quotes % 2 == 0 && |m.pending| > 1 && c != '\''
    ensures var r := Step(Step(m, '\''), c);
      |r.symbols| > |m.symbols| && r.symbols[..|m.symbols|] == m.symbols &&
      r.symbols[|m.symbols|].token == C_STRING &&
      r.symbols[|m.symbols|].lexeme == StripQuotes(CollapseQuotes(m.pending + "'")) && r.closed
  {
    QuoteAppends(m);
    StringEnds(Step(m, '\''), c);
  }

  /** A quote inside an open constant is appended and lengthens the run. */
  lemma QuoteAppends(m: LState)
    requires Valid(m) && m.state == KONST_STR
    ensures var r := Step(m, '\'');
      r.state == KONST_STR && r.pending == m.pending + "'" && r.quotes == m.quotes + 1 && r.symbols == m.symbols
  {
    StringGrows(m, '\'');
  }

  /** The whole source: a string constant written this way scans to its
      body. */
  lemma DoubledQuote(w: string)
    requires |w| > 0 && w[0] != '\''
    ensures var r := Scan("'" + Escaped(w) + "'");
      r.Ok? && r.value[0].token == C_STRING && r.value[0].lexeme == w
  {
    EscapedConstantAlone(w);
    ScanOfConstant("'" + Escaped(w) + "'", w);
  }

  /** The same constant alone in the source, followed by the blank `scan`
      adds. */
  lemma EscapedConstantAlone(w: string)
    requires |w| > 0 && w[0] != '\''
    ensures var f := FeedAll(Initial, "'" + Escaped(w) + "'" + [' ']);
      f.closed && |f.symbols| > 0 && f.symbols[0].token == C_STRING && f.symbols[0].lexeme == w
  {
    EscapedStringConstant(Initial, w, ' ');
  }

  /** When the source followed by the blank `scan` adds leaves the lexer
      closed with a string constant first, the scan starts with it. */
  lemma ScanOfConstant(src: string, w: string)
    requires |src| > 0
    requires var f := FeedAll(Initial, src + [' ']);
      f.closed && |f.symbols| > 0 && f.symbols[0].token == C_STRING && f.symbols[0].lexeme == w
    ensures Scan(src).Ok? && Scan(src).value[0].token == C_STRING && Scan(src).value[0].lexeme == w
  {
    ScanFirstSymbol(src);
  }

  /** When the source followed by the blank `scan` adds leaves the lexer
      closed with a symbol, that symbol is the first of the scan. */
  lemma ScanFirstSymbol(src: string)
    requires |src| > 0
    requires var f := FeedAll(Initial, src + [' ']); f.closed && |f.symbols| > 0
    ensures Scan(src).Ok? && Scan(src).value[0] == FeedAll(Initial, src + [' ']).symbols[0]
  {
    FeedAllSnoc(Initial, src, ' ');
    var f := Final(src);
    var r := ScanFrom(Initial, src);
    assert r.value[..|f.symbols|][0] == r.value[0];
  }

  /** Four quotes leave the constant open with a run of three quotes: the
      quote after the opening one is counted in the same run. */
  lemma FourQuotesPending(st: LState, src: string)
    requires Valid(st) && st.state == INITIAL && src == "''''"
    ensures var m := FeedAll(st, src);
      m.state == KONST_STR && m.pending == src && m.quotes == st.quotes + 3 && m.symbols == st.symbols
  {
    var q: string := "'";
    OpeningQuoteFed(st);
    QuoteFed(st, q);
    QuoteFed(st, q + q);
    QuoteFed(st, q + q + q);
    assert src == q + q + q + q;
  }

  /** The opening quote opens the constant; the run of quotes is not
      restarted. */
  lemma OpeningQuoteFed(st: LState)
    requires Valid(st) && st.state == INITIAL
    ensures var m := FeedAll(st, "'");
      m.state == KONST_STR && m.pending == "'" && m.quotes == st.quotes && m.symbols == st.symbols
  {
    assert FeedAll(st, "'") == Step(st, '\'') by {
      assert "'"[..0] == [];
    }
    StringOpens(st);
  }

  /** One more quote inside an open constant, as the last character fed. */
  lemma QuoteFed(st: LState, s: string)
    requires Valid(st) && FeedAll(st, s).state == KONST_STR
    ensures var m := FeedAll(st, s); var r := FeedAll(st, s + "'");
      r.state == KONST_STR && r.pending == m.pending + "'" && r.quotes == m.quotes + 1 && r.symbols == m.symbols
  {
    FeedAllSnoc(st, s, '\'');
    QuoteAppends(FeedAll(st, s));
  }

  /** A quote right after the opening quote is not checked for doubling:
      four quotes, meant as a constant holding one quote, scan to the empty
      string. */
  lemma QuoteAfterOpeningIsNoEscape(src: string)
    requires src == "''''"
    ensures Scan(src).Ok? && Scan(src).value[0].token == C_STRING && Scan(src).value[0].lexeme == ""
  {
    FourQuotesClosed(src);
    ScanOfConstant(src, "");
  }

  /** The four quotes and the blank `scan` adds emit the empty string. */
  lemma FourQuotesClosed(src: string)
    requires src == "''''"
    ensures var f := FeedAll(Initial, src + [' ']);
      f.closed && |f.symbols| > 0 && f.symbols[0].token == C_STRING && f.symbols[0].lexeme == ""
  {
    FourQuotesPending(Initial, src);
    var m := FeedAll(Initial, src);
    assert StripQuotes(CollapseQuotes(src)) == "" by {
      assert src[2..] == "''" && src[2..][2..] == [];
    }
    StringEnds(m, ' ');
    FeedAllSnoc(Initial, src, ' ');
  }
}

=== FILE: name_checker.dfy ===
/** `NameChecker`: the visitor as an object that changes its symbol table
    and its `definitions` table as it walks the tree. Each `Visit` method is
    proved to do what the corresponding function of `NameResolution`
    describes: it succeeds exactly when that function does, and then leaves
    the state that function computes. */
module NameCheckerClass {
  import opened Wrappers
  import opened Ast
  import opened Constants
  import opened NameResolution
  import opened NameResolutionProperties

  class NameChecker {
    var scopes: seq<map<string, Decl>>
    var definitions: map<NodeId, Decl>

    function State(): NState
      reads this
    {
      NState(scopes, definitions)
    }

    /** The visit succeeded exactly when `r` did, and left its state. */
    predicate Follows(r: Result<NState>, ok: bool)
      reads this
    {
      ok == r.Ok? && (ok ==> State() == r.value)
    }

    constructor ()
      ensures State() == Start
    {
      scopes := [map[]];
      definitions := map[];
    }

    // -------------------------------------------------------------------
    // The symbol table and the definitions table
    // -------------------------------------------------------------------

    method PushScope()
      modifies this
      ensures State() == Push(old(State()))
    {
      scopes := scopes + [map[]];
    }

    method PopScope()
      requires Valid(State())
      modifies this
      ensures State() == Pop(old(State()))
    {
      scopes := scopes[..|scopes| - 1];
    }

    method InsertDecl(d: Decl) returns (ok: bool)
      requires Valid(State())
      modifies this
      ensures Follows(Insert(old(State()), d), ok)
    {
      var top := scopes[|scopes| - 1];
      if d.Name() in top {
        return false;
      }
      scopes := scopes[..|scopes| - 1] + [top[d.Name() := d]];
      ok := true;
    }

    method StoreDefinition(id: NodeId, d: Decl)
      modifies this
      ensures State() == Store(old(State()), id, d)
    {
      definitions := definitions[id := d];
    }

    // -------------------------------------------------------------------
    // Expressions
    // -------------------------------------------------------------------

    method VisitExpr(e: Expr) returns (ok: bool)
      requires Valid(State())
      modifies this
      ensures Follows(CheckExpr(old(State()), e), ok)
      decreases e, 2
    {
      match e
      case Call(id, args, name) =>
        ok := VisitCall(id, args, name);
      case Binary(_, left, _, right) =>
        ok := VisitExpr(left);
        if !ok { return; }
        ok := VisitExpr(right);
        if !ok { return; }
        if left.Name? {
          var d := Lookup(scopes, left.name);
          if d.Some? && IsFunDef(d.value) {
            ok := false;
          }
        }
      case Block(_, es) =>
        ok := VisitExprs(es);
      case For(_, counter, low, high, step, body) =>
        ok := VisitExpr(counter);
        if !ok { return; }
        ok := VisitExpr(low);
        if !ok { return; }
        ok := VisitExpr(high);
        if !ok { return; }
        ok := VisitExpr(step);
        if !ok { return; }
        ok := VisitExpr(body);
      case IfThenElse(_, cond, thenE, elseE) =>
        ok := VisitExpr(cond);
        if !ok { return; }
        ok := VisitExpr(thenE);
        if !ok { return; }
        if elseE.Some? {
          ok := VisitExpr(elseE.value);
        }
      case Literal(_, _, _) =>
        ok := true;
      case Name(id, name) =>
        ok := VisitName(id, name);
      case Unary(_, operand, _) =>
        ok := VisitExpr(operand);
      case While(_, cond, body) =>
        ok := VisitExpr(cond);
        if !ok { return; }
        ok := VisitExpr(body);
      case Where(_, _, _) =>
        ok := VisitWhere(e);
    }

    method VisitCall(id: NodeId, args: seq<Expr>, name: string) returns (ok: bool)
      requires Valid(State())
      modifies this
      ensures Follows(CheckCall(old(State()), id, args, name), ok)
      decreases args, 1
    {
      if name in StdLib {
        StoreDefinition(id, DefDecl(Builtin(name)));
        ok := VisitExprs(args);
        return;
      }
      var d := Lookup(scopes, name);
      if d.None? || !IsFunDef(d.value) {
        return false;
      }
      StoreDefinition(id, d.value);
      ok := VisitExprs(args);
    }

    method VisitName(id: NodeId, name: string) returns (ok: bool)
      requires Valid(State())
      modifies this
      ensures Follows(CheckName(old(State()), id, name), ok)
    {
      var d := Lookup(scopes, name);
      if d.None? || IsFunDef(d.value) || IsTypeDef(d.value) {
        return false;
      }
      StoreDefinition(id, d.value);
      ok := true;
    }

    /** The loop over a block's expressions or a call's arguments. */
    method VisitExprs(es: seq<Expr>) returns (ok: bool)
      requires Valid(State())
      modifies this
      ensures Follows(CheckExprs(old(State()), es), ok)
      decreases es, 0
    {
      ghost var s0 := State();
      for i := 0 to |es|
        invariant Valid(State()) && CheckExprs(s0, es[..i]) == Ok(State())
      {
        ok := VisitExpr(es[i]);
        assert es[..i + 1][..i] == es[..i];
        if !ok {
          ExprsPrefixFails(s0, es, i + 1);
          return;
        }
      }
      assert es[..|es|] == es;
      ok := true;
    }

    method VisitWhere(e: Expr) returns (ok: bool)
      requires Valid(State()) && e.Where?
      modifies this
      ensures Follows(CheckWhere(old(State()), e), ok)
      decreases e, 1
    {
      PushScope();
      ok := VisitDefs(e.defs);
      if !ok { return; }
      ok := VisitExpr(e.expr);
      if !ok { return; }
      PopScope();
    }

    // -------------------------------------------------------------------
    // Definitions and types
    // -------------------------------------------------------------------

    /** `visit(Defs)`: the insertion loop, then the visiting loop. */
    method VisitDefs(defs: seq<Def>) returns (ok: bool)
      requires Valid(State())
      modifies this
      ensures Follows(CheckDefs(old(State()), defs), ok)
      decreases defs, 3
    {
      ok := InsertDecls(DefDecls(defs));
      if !ok { return; }
      ok := VisitEachDef(defs);
    }

    /** Inserts each of `ds` into the innermost scope, in order: the first
        loop of `visit(Defs)` and the parameter loop of `visit(FunDef)`. */
    method InsertDecls(ds: seq<Decl>) returns (ok: bool)
      requires Valid(State())
      modifies this
      ensures Follows(InsertAll(old(State()), ds), ok)
    {
      ghost var s0 := State();
      for i := 0 to |ds|
        invariant Valid(State()) && InsertAll(s0, ds[..i]) == Ok(State())
      {
        ok := InsertDecl(ds[i]);
        assert ds[..i + 1][..i] == ds[..i];
        if !ok {
          InsertAllPrefixFails(s0, ds, i + 1);
          return;
        }
      }
      assert ds[..|ds|] == ds;
      ok := true;
    }

    /** The second loop of `visit(Defs)`. */
    method VisitEachDef(defs: seq<Def>) returns (ok: bool)
      requires Valid(State())
      modifies this
      ensures Follows(NameResolution.VisitDefs(old(State()), defs), ok)
      decreases defs, 2
    {
      ghost var s0 := State();
      for i := 0 to |defs|
        invariant Valid(State()) && NameResolution.VisitDefs(s0, defs[..i]) == Ok(State())
      {
        ok := VisitDef(defs[i]);
        assert defs[..i + 1][..i] == defs[..i];
        if !ok {
          VisitDefsPrefixFails(s0, defs, i + 1);
          return;
        }
      }
      assert defs[..|defs|] == defs;
      ok := true;
    }

    method VisitDef(d: Def) returns (ok: bool)
      requires Valid(State())
      modifies this
      ensures Follows(CheckDef(old(State()), d), ok)
      decreases d, 1
    {
      match d
      case TypeDef(_, _, ty) =>
        ok := VisitType(ty);
      case VarDef(_, _, ty) =>
        ok := VisitType(ty);
      case FunDef(_, _, _, _, _) =>
        ok := VisitFunDef(d);
    }

    /** `visit(FunDef)`: the types, then the parameters and the body in a
        scope of their own. */
    method VisitFunDef(d: Def) returns (ok: bool)
      requires Valid(State()) && d.FunDef?
      modifies this
      ensures Follows(CheckFunDef(old(State()), d), ok)
      decreases d, 0
    {
      ok := VisitType(d.ty);
      if !ok { return; }
      ok := VisitParamTypes(d.params);
      if !ok { return; }
      PushScope();
      ok := InsertDecls(ParamDecls(d.params));
      if !ok { return; }
      ok := VisitExpr(d.body);
      if !ok { return; }
      PopScope();
    }

    /** The first loop of `visit(FunDef)`: the parameter types. */
    method VisitParamTypes(params: seq<Param>) returns (ok: bool)
      requires Valid(State())
      modifies this
      ensures Follows(CheckParamTypes(old(State()), params), ok)
    {
      ghost var s0 := State();
      for i := 0 to |params|
        invariant Valid(State()) && CheckParamTypes(s0, params[..i]) == Ok(State())
      {
        ok := VisitType(params[i].ty);
        assert params[..i + 1][..i] == params[..i];
        if !ok {
          ParamTypesPrefixFails(s0, params, i + 1);
          return;
        }
      }
      assert params[..|params|] == params;
      ok := true;
    }

    method VisitType(t: TypeAst) returns (ok: bool)
      requires Valid(State())
      modifies this
      ensures Follows(CheckType(old(State()), t), ok)
    {
      match t
      case AtomType(_, _) =>
        ok := true;
      case ArrayType(_, _, elem) =>
        ok := VisitType(elem);
      case TypeName(id, name) =>
        var d := Lookup(scopes, name);
        if d.None? || !IsTypeDef(d.value) {
          return false;
        }
        StoreDefinition(id, d.value);
        ok := true;
    }
  }
}

=== FILE: name_resolution.dfy ===
/** What `NameChecker` computes, as functions over an explicit state: the
    symbol table and the `definitions` side table, which binds every name,
    call and type name to the definition it refers to.

    `SymbolTable` (`FastSymbolTable`) is not part of this model; it is
    modelled as a stack of scopes, innermost last, that starts with one
    global scope: `insert` fails when the name is already defined in the
    innermost scope, and `definitionFor` finds the innermost definition of a
    name. The lists `NameChecker` walks with `for` loops are specified here
    by recursion on their last element, in the order the loops visit them.
    `Report.error` aborts, so a visit either fails or returns the new
    state. */
module NameResolution {
  import opened Wrappers
  import opened Ast
  import opened Constants

  /** The symbol table (scopes, innermost last) and `definitions`. */
  datatype NState = NState(scopes: seq<map<string, Decl>>, definitions: map<NodeId, Decl>)

  /** The state `Main` hands to the name checker. */
  const Start: NState := NState([map[]], map[])

  /** The symbol table always has a scope to insert into. */
  predicate Valid(s: NState) {
    |s.scopes| > 0
  }

  /** The innermost scope. */
  function Current(s: NState): map<string, Decl>
    requires Valid(s)
  {
    s.scopes[|s.scopes| - 1]
  }

  // ---------------------------------------------------------------------
  // The symbol table
  // ---------------------------------------------------------------------

  /** `definitionFor`: the innermost scope that defines `name` decides. */
  function Lookup(scopes: seq<map<string, Decl>>, name: string): (r: Option<Decl>)
    ensures r.Some? <==> exists i :: 0 <= i < |scopes| && name in scopes[i]
  {
    if scopes == [] then None
    else if name in scopes[|scopes| - 1] then Some(scopes[|scopes| - 1][name])
    else Lookup(scopes[..|scopes| - 1], name)
  }

  /** `insert`: a second definition of a name in the same scope is an
      error. */
  function Insert(s: NState, d: Decl): (r: Result<NState>)
    requires Valid(s)
    ensures r.Ok? <==> d.Name() !in Current(s)
    ensures r.Ok? ==> Valid(r.value) && r.value.definitions == s.definitions
  {
    if d.Name() in Current(s) then Err("definition " + d.Name() + " already exists")
    else Ok(s.(scopes := s.scopes[..|s.scopes| - 1] + [Current(s)[d.Name() := d]]))
  }

  /** `pushScope`. */
  function Push(s: NState): (r: NState)
    ensures Valid(r) && r.definitions == s.definitions
  {
    s.(scopes := s.scopes + [map[]])
  }

  /** `popScope`. */
  function Pop(s: NState): (r: NState)
    requires Valid(s)
    // the bindings recorded inside the scope outlive it
    ensures r.definitions == s.definitions && |r.scopes| == |s.scopes| - 1
  {
    s.(scopes := s.scopes[..|s.scopes| - 1])
  }

  /** `definitions.store(def, node)`. */
  function Store(s: NState, id: NodeId, d: Decl): NState {
    s.(definitions := s.definitions[id := d])
  }

  // ---------------------------------------------------------------------
  // The standard library
  // ---------------------------------------------------------------------

  /** A one-line built-in function: parameters `_` (and `__`) of the given
      atomic types, the given result type and a constant body. Its nodes
      carry the id `id`, which no parsed node has. */
  function BuiltinDef(id: NodeId, name: string, params: seq<AtomKind>, ret: AtomKind, body: string): Def {
    FunDef(id, name,
           seq(|params|, i requires 0 <= i < |params| => Param(id, if i == 0 then "_" else "__", AtomType(id, params[i]))),
           AtomType(id, ret), Literal(id, body, ret))
  }

  /** `PRINT_INT_DEF`, `PRINT_STR_DEF`, `PRINT_LOG_DEF`, `RAND_INT_DEF` and
      `SEED_DEF`. */
  function Builtin(name: string): (d: Def)
    requires name in StdLib
    ensures d.FunDef? && d.name == name
  {
    if name == PrintIntLabel then BuiltinDef(-1, name, [INT], INT, "0")
    else if name == PrintStrLabel then BuiltinDef(-2, name, [STR], STR, "")
    else if name == PrintLogLabel then BuiltinDef(-3, name, [LOG], LOG, "false")
    else if name == RandIntLabel then BuiltinDef(-4, name, [INT, INT], INT, "0")
    else BuiltinDef(-5, name, [INT], INT, "0")
  }

  // ---------------------------------------------------------------------
  // The visitor
  // ---------------------------------------------------------------------

  predicate IsFunDef(d: Decl) {
    d.DefDecl? && d.def.FunDef?
  }

  predicate IsTypeDef(d: Decl) {
    d.DefDecl? && d.def.TypeDef?
  }

  /** `visit` on an expression. Every expression visit leaves the symbol
      table as it found it. */
  function CheckExpr(s: NState, e: Expr): (r: Result<NState>)
    requires Valid(s)
    ensures r.Ok? ==> r.value.scopes == s.scopes
    decreases e, 2
  {
    match e
    case Call(id, args, name) =>
      CheckCall(s, id, args, name)
    case Binary(_, left, _, right) =>
      var s1 :- CheckExpr(s, left);
      var s2 :- CheckExpr(s1, right);
      if left.Name? && Lookup(s2.scopes, left.name).Some? && IsFunDef(Lookup(s2.scopes, left.name).value) then
        Err("function " + left.name + " used as an array")
      else Ok(s2)
    case Block(_, es) =>
      CheckExprs(s, es)
    case For(_, counter, low, high, step, body) =>
      var s1 :- CheckExpr(s, counter);
      var s2 :- CheckExpr(s1, low);
      var s3 :- CheckExpr(s2, high);
      var s4 :- CheckExpr(s3, step);
      CheckExpr(s4, body)
    case IfThenElse(_, cond, thenE, elseE) =>
      var s1 :- CheckExpr(s, cond);
      var s2 :- CheckExpr(s1, thenE);
      if elseE.Some? then CheckExpr(s2, elseE.value) else Ok(s2)
    case Literal(_, _, _) =>
      Ok(s)
    case Name(id, name) =>
      CheckName(s, id, name)
    case Unary(_, operand, _) =>
      CheckExpr(s, operand)
    case While(_, cond, body) =>
      var s1 :- CheckExpr(s, cond);
      CheckExpr(s1, body)
    case Where(_, _, _) =>
      CheckWhere(s, e)
  }

  /** `visit(Call)`: a standard-library name is bound to its built-in
      definition whatever the symbol table says; any other name must be
      defined, as a function. The arguments are visited afterwards. */
  function CheckCall(s: NState, id: NodeId, args: seq<Expr>, name: string): (r: Result<NState>)
    requires Valid(s)
    ensures r.Ok? ==> r.value.scopes == s.scopes
    decreases args, 1
  {
    if name in StdLib then CheckExprs(Store(s, id, DefDecl(Builtin(name))), args)
    else
      match Lookup(s.scopes, name)
      case None => Err("function " + name + " is not defined")
      case Some(d) =>
        if !IsFunDef(d) then Err(name + " is not a function")
        else CheckExprs(Store(s, id, d), args)
  }

  /** `visit(Name)`: the name must be defined, and be neither a function
      nor a type; only then is the binding recorded. */
  function CheckName(s: NState, id: NodeId, name: string): (r: Result<NState>)
    requires Valid(s)
  {
    match Lookup(s.scopes, name)
    case None => Err("identifier " + name + " is not defined")
    case Some(d) =>
      if IsFunDef(d) then Err("function " + name + " used as a variable")
      else if IsTypeDef(d) then Err("type " + name + " used as a variable")
      else Ok(Store(s, id, d))
  }

  /** The loops over the elements of a block and the arguments of a call. */
  function CheckExprs(s: NState, es: seq<Expr>): (r: Result<NState>)
    requires Valid(s)
    ensures r.Ok? ==> r.value.scopes == s.scopes
    decreases es, 0
  {
    if es == [] then Ok(s)
    else
      var s1 :- CheckExprs(s, es[..|es| - 1]);
      CheckExpr(s1, es[|es| - 1])
  }

  /** `visit(Where)`: the definitions and then the expression, in a scope
      of their own. */
  function CheckWhere(s: NState, e: Expr): (r: Result<NState>)
    requires Valid(s) && e.Where?
    ensures r.Ok? ==> r.value.scopes == s.scopes
    decreases e, 1
  {
    var s1 :- CheckDefs(Push(s), e.defs);
    var s2 :- CheckExpr(s1, e.expr);
    Ok(Pop(s2))
  }

  /** `visit(Defs)`: every definition is inserted first, then each is
      visited, so the definitions of one list may refer to each other in
      any order. Only the innermost scope changes. */
  function CheckDefs(s: NState, defs: seq<Def>): (r: Result<NState>)
    requires Valid(s)
    ensures r.Ok? ==> SameOuter(s, r.value)
    decreases defs, 3
  {
    var s1 :- InsertAll(s, DefDecls(defs));
    VisitDefs(s1, defs)
  }

  /** Same number of scopes, and all but the innermost unchanged. */
  predicate SameOuter(s: NState, t: NState)
    requires Valid(s)
  {
    |t.scopes| == |s.scopes| && t.scopes[..|s.scopes| - 1] == s.scopes[..|s.scopes| - 1]
  }

  /** The definitions of a list as symbol-table entries. */
  function DefDecls(defs: seq<Def>): (r: seq<Decl>)
    ensures |r| == |defs| && forall i :: 0 <= i < |defs| ==> r[i] == DefDecl(defs[i])
  {
    seq(|defs|, i requires 0 <= i < |defs| => DefDecl(defs[i]))
  }

  /** The parameters of a function as symbol-table entries. */
  function ParamDecls(params: seq<Param>): (r: seq<Decl>)
    ensures |r| == |params| && forall i :: 0 <= i < |params| ==> r[i] == ParamDecl(params[i])
  {
    seq(|params|, i requires 0 <= i < |params| => ParamDecl(params[i]))
  }

  /** The insertion loops: the first loop of `visit(Defs)`, and the second
      loop of `visit(FunDef)`, whose `visit(Parameter)` inserts each
      parameter. */
  function InsertAll(s: NState, ds: seq<Decl>): (r: Result<NState>)
    requires Valid(s)
    ensures r.Ok? ==> SameOuter(s, r.value) && r.value.definitions == s.definitions
  {
    if ds == [] then Ok(s)
    else
      var s1 :- InsertAll(s, ds[..|ds| - 1]);
      Insert(s1, ds[|ds| - 1])
  }

  /** The second loop of `visit(Defs)`. */
  function VisitDefs(s: NState, defs: seq<Def>): (r: Result<NState>)
    requires Valid(s)
    ensures r.Ok? ==> r.value.scopes == s.scopes
    decreases defs, 0
  {
    if defs == [] then Ok(s)
    else
      var s1 :- VisitDefs(s, defs[..|defs| - 1]);
      CheckDef(s1, defs[|defs| - 1])
  }

  /** `visit` on a definition: its types, and a function's body. */
  function CheckDef(s: NState, d: Def): (r: Result<NState>)
    requires Valid(s)
    ensures r.Ok? ==> r.value.scopes == s.scopes
    decreases d, 1
  {
    match d
    case TypeDef(_, _, ty) => CheckType(s, ty)
    case VarDef(_, _, ty) => CheckType(s, ty)
    case FunDef(_, _, _, _, _) => CheckFunDef(s, d)
  }

  /** `visit(FunDef)`: the result and parameter types in the enclosing
      scope; then, in a new scope, the parameters are inserted and the body
      visited. */
  function CheckFunDef(s: NState, d: Def): (r: Result<NState>)
    requires Valid(s) && d.FunDef?
    ensures r.Ok? ==> r.value.scopes == s.scopes
    decreases d, 0
  {
    var s1 :- CheckType(s, d.ty);
    var s2 :- CheckParamTypes(s1, d.params);
    var s3 :- InsertAll(Push(s2), ParamDecls(d.params));
    var s4 :- CheckExpr(s3, d.body);
    Ok(Pop(s4))
  }

  /** The first loop of `visit(FunDef)`: the parameter types. */
  function CheckParamTypes(s: NState, params: seq<Param>): (r: Result<NState>)
    requires Valid(s)
    ensures r.Ok? ==> r.value.scopes == s.scopes
  {
    if params == [] then Ok(s)
    else
      var s1 :- CheckParamTypes(s, params[..|params| - 1]);
      CheckType(s1, params[|params| - 1].ty)
  }

  /** `visit` on a type: a type name must be defined, as a type. */
  function CheckType(s: NState, t: TypeAst): (r: Result<NState>)
    requires Valid(s)
    ensures r.Ok? ==> r.value.scopes == s.scopes
  {
    match t
    case AtomType(_, _) => Ok(s)
    case ArrayType(_, _, elem) => CheckType(s, elem)
    case TypeName(id, name) =>
      match Lookup(s.scopes, name)
      case None => Err("type " + name + " is not defined")
      case Some(d) =>
        if !IsTypeDef(d) then Err("identifier " + name + " is not a type")
        else Ok(Store(s, id, d))
  }

  /** Name checking of a whole program. */
  function Check(program: seq<Def>): (r: Result<NState>)
    ensures r.Ok? ==> |r.value.scopes| == 1
  {
    CheckDefs(Start, program)
  }
}

=== FILE: name_resolution_properties.dfy ===
/** What the name checker guarantees: which names resolve and to what, that
    a list of definitions is visible to itself in any order, that duplicates
    in one scope are rejected while inner scopes may shadow outer ones, and
    that an error anywhere in a list fails the whole list. */
module NameResolutionProperties {
  import opened Wrappers
  import opened Ast
  import opened Constants
  import opened NameResolution

  // ---------------------------------------------------------------------
  // An error aborts: a failing prefix fails the whole list
  // ---------------------------------------------------------------------

  lemma {:induction false} ExprsPrefixFails(s: NState, es: seq<Expr>, k: nat)
    requires Valid(s) && k <= |es| && CheckExprs(s, es[..k]).Err?
    ensures CheckExprs(s, es).Err?
    decreases |es| - k
  {
    if k == |es| {
      assert es[..k] == es;
    } else {
      assert es[..k + 1][..k] == es[..k];
      ExprsPrefixFails(s, es, k + 1);
    }
  }

  lemma {:induction false} InsertAllPrefixFails(s: NState, ds: seq<Decl>, k: nat)
    requires Valid(s) && k <= |ds| && InsertAll(s, ds[..k]).Err?
    ensures InsertAll(s, ds).Err?
    decreases |ds| - k
  {
    if k == |ds| {
      assert ds[..k] == ds;
    } else {
      assert ds[..k + 1][..k] == ds[..k];
      InsertAllPrefixFails(s, ds, k + 1);
    }
  }

  lemma {:induction false} VisitDefsPrefixFails(s: NState, defs: seq<Def>, k: nat)
    requires Valid(s) && k <= |defs| && VisitDefs(s, defs[..k]).Err?
    ensures VisitDefs(s, defs).Err?
    decreases |defs| - k
  {
    if k == |defs| {
      assert defs[..k] == defs;
    } else {
      assert defs[..k + 1][..k] == defs[..k];
      VisitDefsPrefixFails(s, defs, k + 1);
    }
  }

  lemma {:induction false} ParamTypesPrefixFails(s: NState, params: seq<Param>, k: nat)
    requires Valid(s) && k <= |params| && CheckParamTypes(s, params[..k]).Err?
    ensures CheckParamTypes(s, params).Err?
    decreases |params| - k
  {
    if k == |params| {
      assert params[..k] == params;
    } else {
      assert params[..k + 1][..k] == params[..k];
      ParamTypesPrefixFails(s, params, k + 1);
    }
  }

  // ---------------------------------------------------------------------
  // The symbol table
  // ---------------------------------------------------------------------

  /** A name resolves to its definition in the innermost scope that
      defines it: inner definitions shadow outer ones. */
  lemma {:induction false} LookupInnermost(scopes: seq<map<string, Decl>>, name: string, i: nat)
    requires i < |scopes| && name in scopes[i]
    requires forall j :: i < j < |scopes| ==> name !in scopes[j]
    ensures Lookup(scopes, name) == Some(scopes[i][name])
  {
    if i < |scopes| - 1 {
      LookupInnermost(scopes[..|scopes| - 1], name, i);
    }
  }

  /** No two declarations of a list share a name. */
  predicate DistinctNames(ds: seq<Decl>) {
    forall i, j :: 0 <= i < j < |ds| ==> ds[i].Name() != ds[j].Name()
  }

  /** The names a list declares. */
  function NameSet(ds: seq<Decl>): set<string> {
    set i | 0 <= i < |ds| :: ds[i].Name()
  }

  /** Inserting a list succeeds exactly when its names are distinct and
      none is already in the innermost scope. */
  lemma {:induction false} InsertAllSucceeds(s: NState, ds: seq<Decl>)
    requires Valid(s)
    ensures InsertAll(s, ds).Ok? <==>
      DistinctNames(ds) && forall i :: 0 <= i < |ds| ==> ds[i].Name() !in Current(s)
  {
    if ds != [] {
      var front, d := ds[..|ds| - 1], ds[|ds| - 1];
      InsertAllSucceeds(s, front);
      assert forall i :: 0 <= i < |front| ==> ds[i] == front[i];
      assert DistinctNames(ds) <==> DistinctNames(front) && d.Name() !in NameSet(front);
      var r1 := InsertAll(s, front);
      if r1.Ok? {
        InsertAllContents(s, front);
        assert InsertAll(s, ds) == Insert(r1.value, d);
      }
    }
  }

  /** After a successful insertion the innermost scope holds what it held
      before and every declaration of the list under its own name. */
  lemma {:induction false} InsertAllContents(s: NState, ds: seq<Decl>)
    requires Valid(s) && InsertAll(s, ds).Ok?
    ensures var m := Current(InsertAll(s, ds).value);
      m.Keys == Current(s).Keys + NameSet(ds) &&
      (forall n :: n in Current(s) ==> m[n] == Current(s)[n]) &&
      (forall i :: 0 <= i < |ds| ==> m[ds[i].Name()] == ds[i])
  {
    if ds != [] {
      var front, d := ds[..|ds| - 1], ds[|ds| - 1];
      var r1 := InsertAll(s, front);
      InsertAllContents(s, front);
      assert forall i :: 0 <= i < |front| ==> ds[i] == front[i];
      assert NameSet(ds) == NameSet(front) + {d.Name()};
      var r := Insert(r1.value, d);
      assert InsertAll(s, ds) == r;
      var m1, m := Current(r1.value), Current(r.value);
      assert m == m1[d.Name() := d];
      forall i | 0 <= i < |ds|
        ensures m[ds[i].Name()] == ds[i]
      {
        if i < |front| {
          assert front[i].Name() in m1;
          assert m1[front[i].Name()] == front[i];
        }
      }
    }
  }

  /** `visit(Defs)` inserts the whole list before visiting any of it: every
      definition is visible while each of them is checked, whatever its
      position, which is what allows forward and mutual references. */
  lemma DefinitionsSeeEachOther(s: NState, defs: seq<Def>)
    requires Valid(s) && InsertAll(s, DefDecls(defs)).Ok?
    ensures forall i :: 0 <= i < |defs| ==>
      Lookup(InsertAll(s, DefDecls(defs)).value.scopes, defs[i].name) == Some(DefDecl(defs[i]))
  {
    InsertAllContents(s, DefDecls(defs));
  }

  /** The definitions of a program end up in the global scope, the only
      scope left once name checking succeeds. */
  lemma ProgramDefinitionsAreGlobal(program: seq<Def>)
    requires Check(program).Ok?
    ensures forall i :: 0 <= i < |program| ==>
      Lookup(Check(program).value.scopes, program[i].name) == Some(DefDecl(program[i]))
  {
    DefinitionsSeeEachOther(Start, program);
  }

  /** `popScope` undoes `pushScope`. */
  lemma PopUndoesPush(s: NState)
    ensures Pop(Push(s)) == s
  {
    assert (s.scopes + [map[]])[..|s.scopes|] == s.scopes;
  }

  /** Two definitions of one name in the same list are an error. */
  lemma DuplicateDefinitionRejected(s: NState, defs: seq<Def>, i: nat, j: nat)
    requires Valid(s) && i < j < |defs| && defs[i].name == defs[j].name
    ensures CheckDefs(s, defs).Err?
  {
    InsertAllSucceeds(s, DefDecls(defs));
  }

  /** A definition may not reuse a name already defined in the same
      scope. */
  lemma RedefinitionRejected(s: NState, defs: seq<Def>, i: nat)
    requires Valid(s) && i < |defs| && defs[i].name in Current(s)
    ensures CheckDefs(s, defs).Err?
  {
    InsertAllSucceeds(s, DefDecls(defs));
  }

  /** Two parameters of one function with the same name are an error. */
  lemma DuplicateParameterRejected(s: NState, d: Def, i: nat, j: nat)
    requires Valid(s) && d.FunDef? && i < j < |d.params| && d.params[i].name == d.params[j].name
    ensures CheckDef(s, d).Err?
  {
    var r := CheckType(s, d.ty);
    if r.Ok? {
      var r2 := CheckParamTypes(r.value, d.params);
      if r2.Ok? {
        InsertAllSucceeds(Push(r2.value), ParamDecls(d.params));
      }
    }
  }

  /** Parameters live in a scope of their own: with distinct names they are
      always inserted, even when they shadow enclosing definitions. */
  lemma ParametersMayShadow(s: NState, params: seq<Param>)
    requires Valid(s) && forall i, j :: 0 <= i < j < |params| ==> params[i].name != params[j].name
    ensures InsertAll(Push(s), ParamDecls(params)).Ok?
  {
    InsertAllSucceeds(Push(s), ParamDecls(params));
  }

  // ---------------------------------------------------------------------
  // Resolution of names, calls and type names
  // ---------------------------------------------------------------------

  /** A variable reference resolves exactly when the name is defined as a
      variable or a parameter, and is then bound to that definition. */
  lemma VariableResolution(s: NState, id: NodeId, name: string)
    requires Valid(s)
    ensures var r := CheckExpr(s, Name(id, name));
      var d := Lookup(s.scopes, name);
      (r.Ok? <==> d.Some? && ((d.value.DefDecl? && d.value.def.VarDef?) || d.value.ParamDecl?)) &&
      (r.Ok? ==> r.value.scopes == s.scopes && r.value.definitions == s.definitions[id := d.value])
  {
  }

  /** A type name resolves exactly when it is defined as a type. */
  lemma TypeNameResolution(s: NState, id: NodeId, name: string)
    requires Valid(s)
    ensures var r := CheckType(s, TypeName(id, name));
      var d := Lookup(s.scopes, name);
      (r.Ok? <==> d.Some? && d.value.DefDecl? && d.value.def.TypeDef?) &&
      (r.Ok? ==> r.value.definitions == s.definitions[id := d.value])
  {
  }

  /** A call of a user function needs the name to be defined as a
      function; the call is bound to it before its arguments are visited,
      and the visit of the arguments leaves that binding alone. */
  lemma CallResolution(s: NState, id: NodeId, args: seq<Expr>, name: string)
    requires Valid(s) && name !in StdLib
    ensures var r := CheckExpr(s, Call(id, args, name));
      var d := Lookup(s.scopes, name);
      (r.Ok? <==> d.Some? && IsFunDef(d.value) && CheckExprs(Store(s, id, d.value), args).Ok?) &&
      (args == [] ==> (r.Ok? <==> d.Some? && IsFunDef(d.value))) &&
      (args == [] && r.Ok? ==> r.value.definitions == s.definitions[id := d.value]) &&
      (r.Ok? && id !in ExprsIds(args) ==> id in r.value.definitions && r.value.definitions[id] == d.value)
  {
    assert CheckExpr(s, Call(id, args, name)) == CheckCall(s, id, args, name);
    forall t: NState | Valid(t)
      ensures CheckExprs(t, []) == Ok(t)
    {
    }
    var d := Lookup(s.scopes, name);
    if d.Some? && IsFunDef(d.value) && id !in ExprsIds(args) {
      ExprsKeepBinding(Store(s, id, d.value), args, id);
    }
  }

  /** A standard-library call is bound to its built-in definition whatever
      the symbol table holds, even when the program defines that name; the
      visit of its arguments leaves that binding alone. */
  lemma StandardLibraryWins(s: NState, id: NodeId, args: seq<Expr>, name: string)
    requires Valid(s) && name in StdLib
    ensures var r := CheckExpr(s, Call(id, args, name));
      (r.Ok? <==> CheckExprs(Store(s, id, DefDecl(Builtin(name))), args).Ok?) &&
      (args == [] ==> r.Ok?) &&
      (r.Ok? && id !in ExprsIds(args) ==>
         id in r.value.definitions && r.value.definitions[id] == DefDecl(Builtin(name))
         && IsFunDef(r.value.definitions[id]) && r.value.definitions[id].def.name == name)
  {
    assert CheckExpr(s, Call(id, args, name)) == CheckCall(s, id, args, name);
    if id !in ExprsIds(args) {
      ExprsKeepBinding(Store(s, id, DefDecl(Builtin(name))), args, id);
    }
  }

  /** The signatures of the built-in functions: each takes integers, except
      that `print_str` and `print_log` take and return a string and a
      logical value; `rand_int` takes two integers. */
  lemma BuiltinSignatures()
    ensures forall n :: n in StdLib ==> Builtin(n).ty.AtomType? && |Builtin(n).params| >= 1
    ensures Builtin(PrintIntLabel).ty.kind == INT && Builtin(PrintIntLabel).params[0].ty.kind == INT
    ensures Builtin(PrintStrLabel).ty.kind == STR && Builtin(PrintStrLabel).params[0].ty.kind == STR
    ensures Builtin(PrintLogLabel).ty.kind == LOG && Builtin(PrintLogLabel).params[0].ty.kind == LOG
    ensures |Builtin(RandIntLabel).params| == 2 && Builtin(RandIntLabel).ty.kind == INT
    ensures Builtin(SeedLabel).ty.kind == INT && |Builtin(SeedLabel).params| == 1
  {
  }

  /** Indexing a function, `f[i]`, is an error: the name `f` is already
      rejected as the left operand, before the check on `Binary` itself. */
  lemma FunctionUsedAsArray(s: NState, id: NodeId, nid: NodeId, f: string, op: BinOp, right: Expr)
    requires Valid(s) && Lookup(s.scopes, f).Some? && IsFunDef(Lookup(s.scopes, f).value)
    ensures CheckExpr(s, Binary(id, Name(nid, f), op, right)).Err?
  {
  }

  // ---------------------------------------------------------------------
  // Types of a function are resolved outside its parameter scope
  // ---------------------------------------------------------------------

  /** Whether a type resolves depends only on the symbol table. */
  lemma {:induction false} TypeDependsOnScopes(s: NState, t: NState, ty: TypeAst)
    requires Valid(s) && t.scopes == s.scopes
    ensures CheckType(s, ty).Ok? == CheckType(t, ty).Ok?
  {
    match ty
    case AtomType(_, _) =>
    case TypeName(_, _) =>
    case ArrayType(_, _, elem) => TypeDependsOnScopes(s, t, elem);
  }

  lemma {:induction false} ParamTypesResolve(s: NState, params: seq<Param>)
    requires Valid(s) && CheckParamTypes(s, params).Ok?
    ensures forall i :: 0 <= i < |params| ==> CheckType(s, params[i].ty).Ok?
  {
    if params != [] {
      var front := params[..|params| - 1];
      ParamTypesResolve(s, front);
      TypeDependsOnScopes(CheckParamTypes(s, front).value, s, params[|params| - 1].ty);
    }
  }

  /** A function's result and parameter types resolve in the enclosing
      scope, where the parameters themselves are not visible. */
  lemma FunctionTypesInEnclosingScope(s: NState, d: Def)
    requires Valid(s) && d.FunDef? && CheckDef(s, d).Ok?
    ensures CheckType(s, d.ty).Ok?
    ensures forall i :: 0 <= i < |d.params| ==> CheckType(s, d.params[i].ty).Ok?
  {
    var s1 := CheckType(s, d.ty).value;
    ParamTypesResolve(s1, d.params);
    forall i | 0 <= i < |d.params|
      ensures CheckType(s, d.params[i].ty).Ok?
    {
      TypeDependsOnScopes(s1, s, d.params[i].ty);
    }
  }

  // ---------------------------------------------------------------------
  // A visit binds only the nodes it visits
  // ---------------------------------------------------------------------

  /** `x` is bound in `t` exactly as in `s`. */
  predicate SameBinding(s: NState, t: NState, x: NodeId) {
    (x in t.definitions <==> x in s.definitions) && (x in s.definitions ==> t.definitions[x] == s.definitions[x])
  }

  /** Visiting a type records a binding only for its own type names. */
  lemma {:induction false} TypeKeepsBinding(s: NState, t: TypeAst, x: NodeId)
    requires Valid(s) && x !in TypeIds(t)
    ensures var r := CheckType(s, t); r.Ok? ==> SameBinding(s, r.value, x)
  {
    match t
    case AtomType(_, _) =>
    case TypeName(_, _) =>
    case ArrayType(_, _, elem) => TypeKeepsBinding(s, elem, x);
  }

  lemma {:induction false} ParamTypesKeepBinding(s: NState, params: seq<Param>, x: NodeId)
    requires Valid(s) && x !in ParamsIds(params)
    ensures var r := CheckParamTypes(s, params); r.Ok? ==> SameBinding(s, r.value, x)
  {
    if params != [] {
      var prefix := params[..|params| - 1];
      ParamTypesKeepBinding(s, prefix, x);
      var r1 := CheckParamTypes(s, prefix);
      if r1.Ok? {
        TypeKeepsBinding(r1.value, params[|params| - 1].ty, x);
      }
    }
  }

  /** Visiting an expression records bindings only for its own nodes:
      names, calls and type names inside it. */
  lemma {:induction false} ExprKeepsBinding(s: NState, e: Expr, x: NodeId)
    requires Valid(s) && x !in ExprIds(e)
    ensures var r := CheckExpr(s, e); r.Ok? ==> SameBinding(s, r.value, x)
    decreases e, 2
  {
    match e
    case Call(id, args, name) =>
      CallKeepsBinding(s, id, args, name, x);
    case Binary(_, left, _, right) =>
      ExprKeepsBinding(s, left, x);
      var r1 := CheckExpr(s, left);
      if r1.Ok? {
        ExprKeepsBinding(r1.value, right, x);
      }
    case Block(_, es) =>
      ExprsKeepBinding(s, es, x);
    case For(_, counter, low, high, step, body) =>
      ExprKeepsBinding(s, counter, x);
      var r1 := CheckExpr(s, counter);
      if r1.Ok? {
        ExprKeepsBinding(r1.value, low, x);
        var r2 := CheckExpr(r1.value, low);
        if r2.Ok? {
          ExprKeepsBinding(r2.value, high, x);
          var r3 := CheckExpr(r2.value, high);
          if r3.Ok? {
            ExprKeepsBinding(r3.value, step, x);
            var r4 := CheckExpr(r3.value, step);
            if r4.Ok? {
              ExprKeepsBinding(r4.value, body, x);
            }
          }
        }
      }
    case IfThenElse(_, cond, thenE, elseE) =>
      ExprKeepsBinding(s, cond, x);
      var r1 := CheckExpr(s, cond);
      if r1.Ok? {
        ExprKeepsBinding(r1.value, thenE, x);
        var r2 := CheckExpr(r1.value, thenE);
        if r2.Ok? && elseE.Some? {
          ExprKeepsBinding(r2.value, elseE.value, x);
        }
      }
    case Literal(_, _, _) =>
    case Name(_, _) =>
    case Unary(_, operand, _) =>
      ExprKeepsBinding(s, operand, x);
    case While(_, cond, body) =>
      ExprKeepsBinding(s, cond, x);
      var r1 := CheckExpr(s, cond);
      if r1.Ok? {
        ExprKeepsBinding(r1.value, body, x);
      }
    case Where(_, _, _) =>
      WhereKeepsBinding(s, e, x);
  }

  lemma {:induction false} CallKeepsBinding(s: NState, id: NodeId, args: seq<Expr>, name: string, x: NodeId)
    requires Valid(s) && x != id && x !in ExprsIds(args)
    ensures var r := CheckCall(s, id, args, name); r.Ok? ==> SameBinding(s, r.value, x)
    decreases args, 1
  {
    if name in StdLib {
      ExprsKeepBinding(Store(s, id, DefDecl(Builtin(name))), args, x);
    } else if Lookup(s.scopes, name).Some? {
      ExprsKeepBinding(Store(s, id, Lookup(s.scopes, name).value), args, x);
    }
  }

  lemma {:induction false} ExprsKeepBinding(s: NState, es: seq<Expr>, x: NodeId)
    requires Valid(s) && x !in ExprsIds(es)
    ensures var r := CheckExprs(s, es); r.Ok? ==> SameBinding(s, r.value, x)
    decreases es, 0
  {
    if es != [] {
      var prefix := es[..|es| - 1];
      ExprsKeepBinding(s, prefix, x);
      var r1 := CheckExprs(s, prefix);
      if r1.Ok? {
        ExprKeepsBinding(r1.value, es[|es| - 1], x);
      }
    }
  }

  lemma {:induction false} WhereKeepsBinding(s: NState, e: Expr, x: NodeId)
    requires Valid(s) && e.Where? && x !in ExprIds(e)
    ensures var r := CheckWhere(s, e); r.Ok? ==> SameBinding(s, r.value, x)
    decreases e, 1
  {
    DefsKeepBinding(Push(s), e.defs, x);
    var r1 := CheckDefs(Push(s), e.defs);
    if r1.Ok? {
      ExprKeepsBinding(r1.value, e.expr, x);
    }
  }

  lemma {:induction false} DefsKeepBinding(s: NState, defs: seq<Def>, x: NodeId)
    requires Valid(s) && x !in DefsIds(defs)
    ensures var r := CheckDefs(s, defs); r.Ok? ==> SameBinding(s, r.value, x)
    decreases defs, 3
  {
    var r1 := InsertAll(s, DefDecls(defs));
    if r1.Ok? {
      VisitDefsKeepBinding(r1.value, defs, x);
    }
  }

  lemma {:induction false} VisitDefsKeepBinding(s: NState, defs: seq<Def>, x: NodeId)
    requires Valid(s) && x !in DefsIds(defs)
    ensures var r := VisitDefs(s, defs); r.Ok? ==> SameBinding(s, r.value, x)
    decreases defs, 0
  {
    if defs != [] {
      var prefix := defs[..|defs| - 1];
      VisitDefsKeepBinding(s, prefix, x);
      var r1 := VisitDefs(s, prefix);
      if r1.Ok? {
        DefKeepsBinding(r1.value, defs[|defs| - 1], x);
      }
    }
  }

  lemma {:induction false} DefKeepsBinding(s: NState, d: Def, x: NodeId)
    requires Valid(s) && x !in DefIds(d)
    ensures var r := CheckDef(s, d); r.Ok? ==> SameBinding(s, r.value, x)
    decreases d, 1
  {
    match d
    case TypeDef(_, _, ty) => TypeKeepsBinding(s, ty, x);
    case VarDef(_, _, ty) => TypeKeepsBinding(s, ty, x);
    case FunDef(_, _, _, _, _) => FunDefKeepsBinding(s, d, x);
  }

  lemma {:induction false} FunDefKeepsBinding(s: NState, d: Def, x: NodeId)
    requires Valid(s) && d.FunDef? && x !in DefIds(d)
    ensures var r := CheckFunDef(s, d); r.Ok? ==> SameBinding(s, r.value, x)
    decreases d, 0
  {
    TypeKeepsBinding(s, d.ty, x);
    var r1 := CheckType(s, d.ty);
    if r1.Ok? {
      ParamTypesKeepBinding(r1.value, d.params, x);
      var r2 := CheckParamTypes(r1.value, d.params);
      if r2.Ok? {
        var r3 := InsertAll(Push(r2.value), ParamDecls(d.params));
        if r3.Ok? {
          ExprKeepsBinding(r3.value, d.body, x);
        }
      }
    }
  }
}

=== FILE: parsing.dfy ===
/** What `Parser` computes: a recursive-descent LL(1) parser over the symbols
    produced by the lexer. Each production is a function from the symbol
    list and a cursor (`pozicijaSimbola`) to the tree it builds and the
    cursor after it, or to the error `Report.error` raises.

    Every node takes as its `id` the index of the symbol that anchors it:
    the operator for `Binary` and `Unary`, `[` for indexing, `{` for braced
    forms and `where`, `(` for blocks, the identifier for names, calls and
    parameters, the keyword for definitions, the constant for literals. */
module Parsing {
  import opened Wrappers
  import opened Tokens
  import opened Ast
  import Int32

  /** A production's result: the tree and the cursor after it. */
  type Parsed<T> = Result<(T, nat)>

  /** The lexer's output always ends with the end-of-file symbol. */
  predicate WellFormed(toks: seq<Symbol>) {
    |toks| > 0 && toks[|toks| - 1].token == EOF
  }

  predicate Ready(toks: seq<Symbol>, p: nat) {
    WellFormed(toks) && p < |toks|
  }

  /** The cursor never moves back and stays on a symbol. */
  predicate Within<T>(toks: seq<Symbol>, p: nat, r: Parsed<T>) {
    r.Ok? ==> p <= r.value.1 < |toks|
  }

  /** `check`. */
  function Check(toks: seq<Symbol>, p: nat): TokenType
    requires p < |toks|
  {
    toks[p].token
  }

  /** `skip`: the cursor moves to the next symbol unless it is on the last. */
  function Skip(toks: seq<Symbol>, p: nat): (r: nat)
    requires p < |toks|
    ensures r < |toks| && p <= r
    ensures r == p <==> p == |toks| - 1
  {
    if p < |toks| - 1 then p + 1 else p
  }

  /** The check-then-skip idiom: symbol `t` is required here. */
  function Expect(toks: seq<Symbol>, p: nat, t: TokenType, msg: string): (r: Result<nat>)
    requires Ready(toks, p) && t != EOF
    ensures r.Ok? <==> Check(toks, p) == t
    ensures r.Ok? ==> r.value == p + 1 && r.value < |toks|
  {
    if Check(toks, p) == t then Ok(Skip(toks, p)) else Err(msg)
  }

  // ---------------------------------------------------------------------
  // Follow sets: the symbols on which an optional tail is empty, each
  // level adding the operators of the levels above it
  // ---------------------------------------------------------------------

  /** `expr2 -> .` */
  predicate ExprFollow(t: TokenType) {
    t == OP_SEMICOLON || t == OP_COLON || t == OP_RBRACKET || t == OP_RPARENT || t == OP_ASSIGN ||
    t == OP_COMMA || t == OP_RBRACE || t == KW_THEN || t == KW_ELSE || t == EOF
  }
  /** `logical_ior_expr2 -> .` */
  predicate IorFollow(t: TokenType) { ExprFollow(t) || t == OP_LBRACE }
  /** `logical_and_expr2 -> .` */
  predicate AndFollow(t: TokenType) { IorFollow(t) || t == OP_OR }
  /** `compare_expr2 -> .` */
  predicate CompareFollow(t: TokenType) { AndFollow(t) || t == OP_AND }
  /** The comparison operators. */
  predicate Comparisons(t: TokenType) {
    t == OP_EQ || t == OP_NEQ || t == OP_LEQ || t == OP_GEQ || t == OP_LT || t == OP_GT
  }
  /** `add_expr2 -> .` */
  predicate AddFollow(t: TokenType) { CompareFollow(t) || Comparisons(t) }
  /** `mul_expr2 -> .` */
  predicate MulFollow(t: TokenType) { AddFollow(t) || (t == OP_ADD || t == OP_SUB) }
  /** `post_expr2 -> .` */
  predicate PostFollow(t: TokenType) { MulFollow(t) || (t == OP_MUL || t == OP_DIV || t == OP_MOD) }
  /** `atom_expr2 -> .` */
  predicate NameFollow(t: TokenType) { PostFollow(t) || t == OP_LBRACKET }
  /** The symbols that start a postfix expression. */
  predicate PostStart(t: TokenType) {
    t == IDENTIFIER || t == OP_LPARENT || t == OP_LBRACE || t == C_LOGICAL || t == C_INTEGER || t == C_STRING
  }
  /** The symbols that start an expression. */
  predicate ExprStart(t: TokenType) { PostStart(t) || (t == OP_ADD || t == OP_SUB || t == OP_NOT) }

  function ComparisonOp(t: TokenType): BinOp
    requires Comparisons(t)
  {
    match t
    case OP_EQ => EQ
    case OP_NEQ => NEQ
    case OP_LEQ => LEQ
    case OP_GEQ => GEQ
    case OP_LT => LT
    case OP_GT => GT
  }

  // ---------------------------------------------------------------------
  // Definitions
  // ---------------------------------------------------------------------

  /** `parse` / `parseSource`: the whole program is a list of definitions. */
  function Parse(toks: seq<Symbol>): (r: Parsed<seq<Def>>)
    requires WellFormed(toks)
    ensures Within(toks, 0, r)
    // a program has at least one definition
    ensures r.Ok? ==> |r.value.0| > 0
  {
    ParseDefs(toks, 0)
  }

  /** `defs -> def defs2`. */
  function ParseDefs(toks: seq<Symbol>, p: nat): (r: Parsed<seq<Def>>)
    requires Ready(toks, p)
    ensures Within(toks, p, r)
    decreases |toks| - p, 22
  {
    var d :- ParseDef(toks, p);
    var ds :- ParseDefs2(toks, d.1);
    Ok(([d.0] + ds.0, ds.1))
  }

  /** `def -> type_def | fun_def | var_def`. */
  function ParseDef(toks: seq<Symbol>, p: nat): (r: Parsed<Def>)
    requires Ready(toks, p)
    ensures Within(toks, p, r)
    decreases |toks| - p, 21
  {
    var k := Check(toks, p);
    if k == KW_TYP then ParseTypeDef(toks, p)
    else if k == KW_FUN then ParseFunDef(toks, p)
    else if k == KW_VAR then ParseVarDef(toks, p)
    else Err("invalid definition")
  }

  /** `defs2 -> ';' def defs2 | .` on EOF or `}`. */
  function ParseDefs2(toks: seq<Symbol>, p: nat): (r: Parsed<seq<Def>>)
    requires Ready(toks, p)
    ensures Within(toks, p, r)
    decreases |toks| - p, 0
  {
    var k := Check(toks, p);
    if k == OP_SEMICOLON then
      var d :- ParseDef(toks, p + 1);
      var ds :- ParseDefs2(toks, d.1);
      Ok(([d.0] + ds.0, ds.1))
    else if k == EOF then Ok(([], Skip(toks, p)))
    else if k == OP_RBRACE then Ok(([], p))
    else Err("missing ';' between definitions or '}' after them")
  }

  /** The identifier a definition names. */
  function ExpectName(toks: seq<Symbol>, p: nat, msg: string): Result<string>
    requires p < |toks|
  {
    if Check(toks, p) == IDENTIFIER then Ok(toks[p].lexeme) else Err(msg)
  }

  /** `type_def -> typ id ':' type`. */
  function ParseTypeDef(toks: seq<Symbol>, p: nat): (r: Parsed<Def>)
    requires Ready(toks, p) && Check(toks, p) == KW_TYP
    ensures Within(toks, p, r)
    decreases |toks| - p, 20
  {
    var name :- ExpectName(toks, p + 1, "missing identifier in type definition");
    var p1 :- Expect(toks, p + 2, OP_COLON, "missing ':' in type definition");
    var ty :- ParseType(toks, p1);
    Ok((TypeDef(p, name, ty.0), ty.1))
  }

  /** `var_def -> var id ':' type`. */
  function ParseVarDef(toks: seq<Symbol>, p: nat): (r: Parsed<Def>)
    requires Ready(toks, p) && Check(toks, p) == KW_VAR
    ensures Within(toks, p, r)
    decreases |toks| - p, 20
  {
    var name :- ExpectName(toks, p + 1, "missing identifier in variable definition");
    var p1 :- Expect(toks, p + 2, OP_COLON, "missing ':' in variable definition");
    var ty :- ParseType(toks, p1);
    Ok((VarDef(p, name, ty.0), ty.1))
  }

  /** `fun_def -> fun id '(' params ')' ':' type '=' expr`. */
  function ParseFunDef(toks: seq<Symbol>, p: nat): (r: Parsed<Def>)
    requires Ready(toks, p) && Check(toks, p) == KW_FUN
    ensures Within(toks, p, r)
    decreases |toks| - p, 20
  {
    var name :- ExpectName(toks, p + 1, "missing identifier in function definition");
    var p1 :- Expect(toks, p + 2, OP_LPARENT, "missing '(' before the parameters");
    var ps :- ParseParams(toks, p1);
    var p2 :- Expect(toks, ps.1, OP_COLON, "missing ':' before the result type");
    var ty :- ParseType(toks, p2);
    var p3 :- Expect(toks, ty.1, OP_ASSIGN, "missing '=' in function definition");
    var body :- ParseExpr(toks, p3);
    Ok((FunDef(p, name, ps.0, ty.0, body.0), body.1))
  }

  /** `params -> param params2`. */
  function ParseParams(toks: seq<Symbol>, p: nat): (r: Parsed<seq<Param>>)
    requires Ready(toks, p)
    ensures Within(toks, p, r)
    decreases |toks| - p, 3
  {
    var q :- ParseParam(toks, p);
    var qs :- ParseParams2(toks, q.1);
    Ok(([q.0] + qs.0, qs.1))
  }

  /** `param -> id ':' type`. */
  function ParseParam(toks: seq<Symbol>, p: nat): (r: Parsed<Param>)
    requires Ready(toks, p)
    ensures Within(toks, p, r)
    decreases |toks| - p, 2
  {
    var name :- ExpectName(toks, p, "missing identifier in parameter");
    var p1 :- Expect(toks, p + 1, OP_COLON, "missing ':' in parameter");
    var ty :- ParseType(toks, p1);
    Ok((Param(p, name, ty.0), ty.1))
  }

  /** `params2 -> ',' param params2 | ')'`: the closing parenthesis is
      consumed here. */
  function ParseParams2(toks: seq<Symbol>, p: nat): (r: Parsed<seq<Param>>)
    requires Ready(toks, p)
    ensures Within(toks, p, r)
    decreases |toks| - p, 0
  {
    var k := Check(toks, p);
    if k == OP_COMMA then
      var q :- ParseParam(toks, p + 1);
      var qs :- ParseParams2(toks, q.1);
      Ok(([q.0] + qs.0, qs.1))
    else if k == OP_RPARENT then Ok(([], p + 1))
    else Err("invalid parameter list")
  }

  /** `type -> id | logical | integer | string | arr '[' int_const ']' type`. */
  function ParseType(toks: seq<Symbol>, p: nat): (r: Parsed<TypeAst>)
    requires Ready(toks, p)
    ensures Within(toks, p, r)
    decreases |toks| - p, 1
  {
    var k := Check(toks, p);
    if k == IDENTIFIER then Ok((TypeName(p, toks[p].lexeme), p + 1))
    else if k == AT_LOGICAL then Ok((AtomType(p, LOG), p + 1))
    else if k == AT_INTEGER then Ok((AtomType(p, INT), p + 1))
    else if k == AT_STRING then Ok((AtomType(p, STR), p + 1))
    else if k == KW_ARR then ParseArrayType(toks, p)
    else Err("invalid type")
  }

  /** `type -> arr '[' int_const ']' type`: the size is read with
      `Integer.parseInt`, which rejects constants beyond 32 bits. */
  function ParseArrayType(toks: seq<Symbol>, p: nat): (r: Parsed<TypeAst>)
    requires Ready(toks, p) && Check(toks, p) == KW_ARR
    ensures Within(toks, p, r)
    decreases |toks| - p, 0
  {
    var p1 :- Expect(toks, p + 1, OP_LBRACKET, "missing '[' in array type");
    if Check(toks, p1) != C_INTEGER then Err("missing integer constant in array type")
    else
      var size := Int32.ParseInt(toks[p1].lexeme);
      if size.None? then Err("NumberFormatException")
      else
        var p2 :- Expect(toks, p1 + 1, OP_RBRACKET, "missing ']' in array type");
        var elem :- ParseType(toks, p2);
        Ok((ArrayType(p, size.value, elem.0), elem.1))
  }

  // ---------------------------------------------------------------------
  // Expressions, lowest precedence first
  // ---------------------------------------------------------------------

  /** `expr -> logical_ior_expr expr2`. */
  function ParseExpr(toks: seq<Symbol>, p: nat): (r: Parsed<Expr>)
    requires Ready(toks, p)
    ensures Within(toks, p, r)
    decreases |toks| - p, 13
  {
    var ior :- ParseIor(toks, p);
    ParseWhere(toks, ior.1, ior.0)
  }

  /** `expr2 -> '{' where defs '}' | .` */
  function ParseWhere(toks: seq<Symbol>, p: nat, ior: Expr): (r: Parsed<Expr>)
    requires Ready(toks, p)
    ensures Within(toks, p, r)
    decreases |toks| - p, 0
  {
    if Check(toks, p) == OP_LBRACE then
      var p1 :- Expect(toks, p + 1, KW_WHERE, "missing 'where'");
      var ds :- ParseDefs(toks, p1);
      var p2 :- Expect(toks, ds.1, OP_RBRACE, "missing '}' after where");
      Ok((Where(p, ior, ds.0), p2))
    else if ExprFollow(Check(toks, p)) then Ok((ior, p))
    else Err("unexpected symbol in expression")
  }

  /** `logical_ior_expr -> logical_and_expr logical_ior_expr2`. */
  function ParseIor(toks: seq<Symbol>, p: nat): (r: Parsed<Expr>)
    requires Ready(toks, p)
    ensures Within(toks, p, r)
    decreases |toks| - p, 12
  {
    var left :- ParseAnd(toks, p);
    ParseIor2(toks, left.1, left.0)
  }

  /** `logical_ior_expr2 -> '|' logical_and_expr logical_ior_expr2 | .`:
      the tree so far becomes the left operand. */
  function ParseIor2(toks: seq<Symbol>, p: nat, left: Expr): (r: Parsed<Expr>)
    requires Ready(toks, p)
    ensures Within(toks, p, r)
    decreases |toks| - p, 0
  {
    if Check(toks, p) == OP_OR then
      var right :- ParseAnd(toks, p + 1);
      ParseIor2(toks, right.1, Binary(p, left, OR, right.0))
    else if IorFollow(Check(toks, p)) then Ok((left, p))
    else Err("unexpected symbol in logical or expression")
  }

  /** `logical_and_expr -> compare_expr logical_and_expr2`. */
  function ParseAnd(toks: seq<Symbol>, p: nat): (r: Parsed<Expr>)
    requires Ready(toks, p)
    ensures Within(toks, p, r)
    decreases |toks| - p, 11
  {
    var left :- ParseCompare(toks, p);
    ParseAnd2(toks, left.1, left.0)
  }

  /** `logical_and_expr2 -> '&' compare_expr logical_and_expr2 | .` */
  function ParseAnd2(toks: seq<Symbol>, p: nat, left: Expr): (r: Parsed<Expr>)
    requires Ready(toks, p)
    ensures Within(toks, p, r)
    decreases |toks| - p, 0
  {
    if Check(toks, p) == OP_AND then
      var right :- ParseCompare(toks, p + 1);
      ParseAnd2(toks, right.1, Binary(p, left, AND, right.0))
    else if AndFollow(Check(toks, p)) then Ok((left, p))
    else Err("unexpected symbol in logical and expression")
  }

  /** `compare_expr -> add_expr compare_expr2`. */
  function ParseCompare(toks: seq<Symbol>, p: nat): (r: Parsed<Expr>)
    requires Ready(toks, p)
    ensures Within(toks, p, r)
    decreases |toks| - p, 10
  {
    var left :- ParseAdd(toks, p);
    ParseCompare2(toks, left.1, left.0)
  }

  /** `compare_expr2 -> cmp add_expr | .`: at most one comparison. */
  function ParseCompare2(toks: seq<Symbol>, p: nat, left: Expr): (r: Parsed<Expr>)
    requires Ready(toks, p)
    ensures Within(toks, p, r)
    decreases |toks| - p, 0
  {
    if Comparisons(Check(toks, p)) then
      var right :- ParseAdd(toks, p + 1);
      Ok((Binary(p, left, ComparisonOp(Check(toks, p)), right.0), right.1))
    else if CompareFollow(Check(toks, p)) then Ok((left, p))
    else Err("unexpected symbol in comparison")
  }

  /** `add_expr -> mul_expr add_expr2`. */
  function ParseAdd(toks: seq<Symbol>, p: nat): (r: Parsed<Expr>)
    requires Ready(toks, p)
    ensures Within(toks, p, r)
    decreases |toks| - p, 9
  {
    var left :- ParseMul(toks, p);
    ParseAdd2(toks, left.1, left.0)
  }

  /** `add_expr2 -> ('+' | '-') mul_expr add_expr2 | .` */
  function ParseAdd2(toks: seq<Symbol>, p: nat, left: Expr): (r: Parsed<Expr>)
    requires Ready(toks, p)
    ensures Within(toks, p, r)
    decreases |toks| - p, 0
  {
    if (Check(toks, p) == OP_ADD || Check(toks, p) == OP_SUB) then
      var right :- ParseMul(toks, p + 1);
      ParseAdd2(toks, right.1, Binary(p, left, if Check(toks, p) == OP_ADD then ADD else SUB, right.0))
    else if AddFollow(Check(toks, p)) then Ok((left, p))
    else Err("unexpected symbol in additive expression")
  }

  /** `mul_expr -> pre_expr mul_expr2`. */
  function ParseMul(toks: seq<Symbol>, p: nat): (r: Parsed<Expr>)
    requires Ready(toks, p)
    ensures Within(toks, p, r)
    decreases |toks| - p, 8
  {
    var left :- ParsePre(toks, p);
    ParseMul2(toks, left.1, left.0)
  }

  /** `mul_expr2 -> ('*' | '/' | '%') pre_expr mul_expr2 | .` */
  function ParseMul2(toks: seq<Symbol>, p: nat, left: Expr): (r: Parsed<Expr>)
    requires Ready(toks, p)
    ensures Within(toks, p, r)
    decreases |toks| - p, 0
  {
    if (Check(toks, p) == OP_MUL || Check(toks, p) == OP_DIV || Check(toks, p) == OP_MOD) then
      var right :- ParsePre(toks, p + 1);
      var op := if Check(toks, p) == OP_MUL then MUL else if Check(toks, p) == OP_DIV then DIV else MOD;
      ParseMul2(toks, right.1, Binary(p, left, op, right.0))
    else if MulFollow(Check(toks, p)) then Ok((left, p))
    else Err("unexpected symbol in multiplicative expression")
  }

  /** `pre_expr -> ('+' | '-' | '!') pre_expr | post_expr`. */
  function ParsePre(toks: seq<Symbol>, p: nat): (r: Parsed<Expr>)
    requires Ready(toks, p)
    ensures Within(toks, p, r)
    decreases |toks| - p, 7
  {
    if (Check(toks, p) == OP_ADD || Check(toks, p) == OP_SUB || Check(toks, p) == OP_NOT) then
      var operand :- ParsePre(toks, p + 1);
      var op := if Check(toks, p) == OP_ADD then Plus else if Check(toks, p) == OP_SUB then Minus else Not;
      Ok((Unary(p, operand.0, op), operand.1))
    else if PostStart(Check(toks, p)) then ParsePost(toks, p)
    else Err("unexpected symbol in prefix expression")
  }

  /** `post_expr -> atom_expr post_expr2`. */
  function ParsePost(toks: seq<Symbol>, p: nat): (r: Parsed<Expr>)
    requires Ready(toks, p)
    ensures Within(toks, p, r)
    decreases |toks| - p, 6
  {
    var atom :- ParseAtom(toks, p);
    ParsePost2(toks, atom.1, atom.0)
  }

  /** `post_expr2 -> '[' expr ']' post_expr2 | .`: indexing, repeatable. */
  function ParsePost2(toks: seq<Symbol>, p: nat, left: Expr): (r: Parsed<Expr>)
    requires Ready(toks, p)
    ensures Within(toks, p, r)
    decreases |toks| - p, 0
  {
    if Check(toks, p) == OP_LBRACKET then
      var index :- ParseExpr(toks, p + 1);
      var p1 :- Expect(toks, index.1, OP_RBRACKET, "missing ']'");
      ParsePost2(toks, p1, Binary(p, left, ARR, index.0))
    else if PostFollow(Check(toks, p)) then Ok((left, p))
    else Err("unexpected symbol in postfix expression")
  }

  /** `atom_expr`: a constant, a name or call, a parenthesised block, or a
      braced form. */
  function ParseAtom(toks: seq<Symbol>, p: nat): (r: Parsed<Expr>)
    requires Ready(toks, p)
    ensures Within(toks, p, r)
    decreases |toks| - p, 5
  {
    var k := Check(toks, p);
    if k == C_LOGICAL then Ok((Literal(p, toks[p].lexeme, LOG), p + 1))
    else if k == C_INTEGER then Ok((Literal(p, toks[p].lexeme, INT), p + 1))
    else if k == C_STRING then Ok((Literal(p, toks[p].lexeme, STR), p + 1))
    else if k == IDENTIFIER then ParseNameOrCall(toks, p + 1, p)
    else if k == OP_LPARENT then
      var es :- ParseExprs(toks, p + 1);
      var p1 :- Expect(toks, es.1, OP_RPARENT, "missing ')'");
      Ok((Block(p, es.0), p1))
    else if k == OP_LBRACE then ParseBraced(toks, p)
    else Err("invalid atom expression")
  }

  /** `atom_expr2 -> '(' exprs ')' | .` after the identifier at `at`. */
  function ParseNameOrCall(toks: seq<Symbol>, p: nat, at: nat): (r: Parsed<Expr>)
    requires Ready(toks, p) && at < p
    ensures Within(toks, p, r)
    decreases |toks| - p, 0
  {
    if Check(toks, p) == OP_LPARENT then
      var es :- ParseExprs(toks, p + 1);
      var p1 :- Expect(toks, es.1, OP_RPARENT, "missing ')' after the arguments");
      Ok((Call(at, es.0, toks[at].lexeme), p1))
    else if NameFollow(Check(toks, p)) then Ok((Name(at, toks[at].lexeme), p))
    else Err("invalid atom expression")
  }

  /** `atom_expr3`, after `{`: a conditional, a loop or an assignment. */
  function ParseBraced(toks: seq<Symbol>, p: nat): (r: Parsed<Expr>)
    requires Ready(toks, p) && Check(toks, p) == OP_LBRACE
    ensures Within(toks, p, r)
    decreases |toks| - p, 4
  {
    var k := Check(toks, p + 1);
    if k == KW_IF then ParseIf(toks, p)
    else if k == KW_WHILE then ParseWhile(toks, p)
    else if k == KW_FOR then ParseFor(toks, p)
    else if ExprStart(k) then ParseAssign(toks, p)
    else Err("invalid atom expression")
  }

  /** `{ if expr then expr atom_expr4`. */
  function ParseIf(toks: seq<Symbol>, p: nat): (r: Parsed<Expr>)
    requires Ready(toks, p) && Check(toks, p) == OP_LBRACE && p + 1 < |toks| && Check(toks, p + 1) == KW_IF
    ensures Within(toks, p, r)
    decreases |toks| - p, 3
  {
    var cond :- ParseExpr(toks, p + 2);
    var p1 :- Expect(toks, cond.1, KW_THEN, "missing 'then'");
    var thenE :- ParseExpr(toks, p1);
    ParseIfEnd(toks, thenE.1, p, cond.0, thenE.0)
  }

  /** `atom_expr4 -> '}' | else expr '}'`. */
  function ParseIfEnd(toks: seq<Symbol>, p: nat, at: nat, cond: Expr, thenE: Expr): (r: Parsed<Expr>)
    requires Ready(toks, p)
    ensures Within(toks, p, r)
    decreases |toks| - p, 0
  {
    var k := Check(toks, p);
    if k == OP_RBRACE then Ok((IfThenElse(at, cond, thenE, None), p + 1))
    else if k == KW_ELSE then
      var elseE :- ParseExpr(toks, p + 1);
      var p1 :- Expect(toks, elseE.1, OP_RBRACE, "missing '}' after else");
      Ok((IfThenElse(at, cond, thenE, Some(elseE.0)), p1))
    else Err("badly terminated if")
  }

  /** `{ while expr ':' expr '}'`. */
  function ParseWhile(toks: seq<Symbol>, p: nat): (r: Parsed<Expr>)
    requires Ready(toks, p) && Check(toks, p) == OP_LBRACE && p + 1 < |toks| && Check(toks, p + 1) == KW_WHILE
    ensures Within(toks, p, r)
    decreases |toks| - p, 3
  {
    var cond :- ParseExpr(toks, p + 2);
    var p1 :- Expect(toks, cond.1, OP_COLON, "missing ':' in while");
    var body :- ParseExpr(toks, p1);
    var p2 :- Expect(toks, body.1, OP_RBRACE, "missing '}' after while");
    Ok((While(p, cond.0, body.0), p2))
  }

  /** `{ for id '=' expr ',' expr ',' expr ':' expr '}'`. */
  function ParseFor(toks: seq<Symbol>, p: nat): (r: Parsed<Expr>)
    requires Ready(toks, p) && Check(toks, p) == OP_LBRACE && p + 1 < |toks| && Check(toks, p + 1) == KW_FOR
    ensures Within(toks, p, r)
    decreases |toks| - p, 3
  {
    var name :- ExpectName(toks, p + 2, "missing identifier in for");
    var p1 :- Expect(toks, p + 3, OP_ASSIGN, "missing '=' in for");
    var low :- ParseExpr(toks, p1);
    var p2 :- Expect(toks, low.1, OP_COMMA, "missing ',' in for");
    var high :- ParseExpr(toks, p2);
    var p3 :- Expect(toks, high.1, OP_COMMA, "missing ',' in for");
    var step :- ParseExpr(toks, p3);
    var p4 :- Expect(toks, step.1, OP_COLON, "missing ':' in for");
    var body :- ParseExpr(toks, p4);
    var p5 :- Expect(toks, body.1, OP_RBRACE, "missing '}' after for");
    Ok((For(p, Name(p + 2, name), low.0, high.0, step.0, body.0), p5))
  }

  /** `{ expr '=' expr '}'`. */
  function ParseAssign(toks: seq<Symbol>, p: nat): (r: Parsed<Expr>)
    requires Ready(toks, p) && Check(toks, p) == OP_LBRACE && p + 1 < |toks|
    ensures Within(toks, p, r)
    decreases |toks| - p, 3
  {
    var dst :- ParseExpr(toks, p + 1);
    var p1 :- Expect(toks, dst.1, OP_ASSIGN, "missing '=' in assignment");
    var src :- ParseExpr(toks, p1);
    var p2 :- Expect(toks, src.1, OP_RBRACE, "missing '}' after assignment");
    Ok((Binary(p, dst.0, ASSIGN, src.0), p2))
  }

  /** `exprs -> expr exprs2`. */
  function ParseExprs(toks: seq<Symbol>, p: nat): (r: Parsed<seq<Expr>>)
    requires Ready(toks, p)
    ensures Within(toks, p, r)
    decreases |toks| - p, 14
  {
    var e :- ParseExpr(toks, p);
    var es :- ParseExprs2(toks, e.1);
    Ok(([e.0] + es.0, es.1))
  }

  /** `exprs2 -> ',' expr exprs2 | .` on `)`, which is left in place. */
  function ParseExprs2(toks: seq<Symbol>, p: nat): (r: Parsed<seq<Expr>>)
    requires Ready(toks, p)
    ensures Within(toks, p, r)
    decreases |toks| - p, 0
  {
    var k := Check(toks, p);
    if k == OP_COMMA then
      var e :- ParseExpr(toks, p + 1);
      var es :- ParseExprs2(toks, e.1);
      Ok(([e.0] + es.0, es.1))
    else if k == OP_RPARENT then Ok(([], p))
    else Err("invalid expression list")
  }
}

=== FILE: parsing_properties.dfy ===
/** Properties of the parser: precedence and associativity of the
    expression levels, the symbols each level stops on, the shape of
    atoms, and where a list of definitions ends. */
module ParsingProperties {
  import opened Wrappers
  import opened Tokens
  import opened Ast
  import opened Parsing

  // ---------------------------------------------------------------------
  // Precedence
  // ---------------------------------------------------------------------

  /** The precedence level whose production builds the root of `e`:
      `where` 0, `|` 1, `&` 2, comparison 3, `+ -` 4, `* / %` 5, prefix 6,
      indexing 7, atoms (constants, names, calls, blocks and braced forms,
      the assignment among them) 8. */
  function Precedence(e: Expr): nat {
    match e
    case Where(_, _, _) => 0
    case Unary(_, _, _) => 6
    case Binary(_, _, op, _) =>
      (match op
       case OR => 1
       case AND => 2
       case EQ => 3
       case NEQ => 3
       case LT => 3
       case GT => 3
       case LEQ => 3
       case GEQ => 3
       case ADD => 4
       case SUB => 4
       case MUL => 5
       case DIV => 5
       case MOD => 5
       case ARR => 7
       case ASSIGN => 8)
    case _ => 8
  }

  /** `e` is a left-associative chain of level-`level` operators over
      operands of higher levels: each right operand binds tighter, and the
      chain continues down the left. */
  predicate LeftAssociative(e: Expr, level: nat) {
    Precedence(e) > level ||
    (Precedence(e) == level && e.Binary? && Precedence(e.right) > level && LeftAssociative(e.left, level))
  }

  /** `e` is at most one level-`level` operator over operands of higher
      levels. */
  predicate NonAssociative(e: Expr, level: nat) {
    Precedence(e) > level ||
    (Precedence(e) == level && e.Binary? && Precedence(e.left) > level && Precedence(e.right) > level)
  }

  // ---------------------------------------------------------------------
  // Atoms
  // ---------------------------------------------------------------------

  /** An identifier is a name, or a call when `(` follows it. */
  lemma NameOrCallShape(toks: seq<Symbol>, p: nat, at: nat)
    requires Ready(toks, p) && at < p
    ensures var r := ParseNameOrCall(toks, p, at);
      r.Ok? ==>
        (r.value.0 == Name(at, toks[at].lexeme) && r.value.1 == p && NameFollow(Check(toks, p))) ||
        (r.value.0.Call? && r.value.0.id == at && r.value.0.name == toks[at].lexeme &&
         |r.value.0.args| >= 1 && Check(toks, p) == OP_LPARENT && p < r.value.1 && Check(toks, r.value.1 - 1) == OP_RPARENT)
  {
    if Check(toks, p) == OP_LPARENT {
      var es := ParseExprs(toks, p + 1);
      if es.Ok? {
        var p1 := Expect(toks, es.value.1, OP_RPARENT, "missing ')' after the arguments");
        if p1.Ok? {
          assert ParseNameOrCall(toks, p, at) == Ok((Call(at, es.value.0, toks[at].lexeme), p1.value));
        }
      }
    }
  }

  /** The form that starts at `p` ended with the `}` just before `q`. */
  predicate ClosedAfter(toks: seq<Symbol>, p: nat, q: nat) {
    p < q <= |toks| && toks[q - 1].token == OP_RBRACE
  }

  /** After `{`, the symbol that follows chooses the form: `if`, `while`,
      `for`, or else an assignment. */
  lemma BracedForm(toks: seq<Symbol>, p: nat)
    requires Ready(toks, p) && Check(toks, p) == OP_LBRACE
    ensures var r := ParseBraced(toks, p);
      r.Ok? ==> r.value.0.IfThenElse? || r.value.0.While? || r.value.0.For? || (r.value.0.Binary? && r.value.0.op == ASSIGN)
  {
    var k := Check(toks, p + 1);
    if k == KW_IF {
      IfShape(toks, p);
      assert ParseBraced(toks, p) == ParseIf(toks, p);
    } else if k == KW_WHILE {
      WhileShape(toks, p);
      assert ParseBraced(toks, p) == ParseWhile(toks, p);
    } else if k == KW_FOR {
      ForShape(toks, p);
      assert ParseBraced(toks, p) == ParseFor(toks, p);
    } else if ExprStart(k) {
      AssignShape(toks, p);
      assert ParseBraced(toks, p) == ParseAssign(toks, p);
    }
  }

  /** `{ while c : e }` is a `While` ending with `}`. */
  lemma WhileShape(toks: seq<Symbol>, p: nat)
    requires Ready(toks, p) && Check(toks, p) == OP_LBRACE && p + 1 < |toks| && Check(toks, p + 1) == KW_WHILE
    ensures var r := ParseWhile(toks, p);
      r.Ok? ==> r.value.0.While? && r.value.0.id == p && ClosedAfter(toks, p, r.value.1)
  {
  }

  /** `{ for i = lo, hi, st : e }` is a `For` ending with `}`, whose
      counter is the name `i`. */
  lemma ForShape(toks: seq<Symbol>, p: nat)
    requires Ready(toks, p) && Check(toks, p) == OP_LBRACE && p + 1 < |toks| && Check(toks, p + 1) == KW_FOR
    ensures var r := ParseFor(toks, p);
      r.Ok? ==>
        r.value.0.For? && r.value.0.id == p && r.value.0.counter == Name(p + 2, toks[p + 2].lexeme) &&
        ClosedAfter(toks, p, r.value.1)
  {
    var r := ParseFor(toks, p);
    if r.Ok? {
      assert Check(toks, p + 2) == IDENTIFIER;
      assert Expect(toks, p + 3, OP_ASSIGN, "missing '=' in for") == Ok(p + 4);
      ForTailShape(toks, p, r);
    }
  }

  /** `ForShape` once `i =` has been read. */
  lemma ForTailShape(toks: seq<Symbol>, p: nat, r: Parsed<Expr>)
    requires Ready(toks, p) && Check(toks, p) == OP_LBRACE && p + 1 < |toks| && Check(toks, p + 1) == KW_FOR
    requires Check(toks, p + 2) == IDENTIFIER && Expect(toks, p + 3, OP_ASSIGN, "missing '=' in for") == Ok(p + 4)
    requires r == ParseFor(toks, p)
    ensures r.Ok? ==>
        r.value.0.For? && r.value.0.id == p && r.value.0.counter == Name(p + 2, toks[p + 2].lexeme) &&
        ClosedAfter(toks, p, r.value.1)
  {
    ForTailForm(toks, p, r);
    ForTailCloses(toks, p, r);
  }

  /** A `for` that parses is a `For` anchored at `{` whose counter is the
      name after `for`. */
  lemma ForTailForm(toks: seq<Symbol>, p: nat, r: Parsed<Expr>)
    requires Ready(toks, p) && Check(toks, p) == OP_LBRACE && p + 1 < |toks| && Check(toks, p + 1) == KW_FOR
    requires Check(toks, p + 2) == IDENTIFIER && Expect(toks, p + 3, OP_ASSIGN, "missing '=' in for") == Ok(p + 4)
    requires r == ParseFor(toks, p)
    ensures r.Ok? ==> r.value.0.For? && r.value.0.id == p && r.value.0.counter == Name(p + 2, toks[p + 2].lexeme)
  {
  }

  /** A `for` that parses ends with `}`. */
  lemma ForTailCloses(toks: seq<Symbol>, p: nat, r: Parsed<Expr>)
    requires Ready(toks, p) && Check(toks, p) == OP_LBRACE && p + 1 < |toks| && Check(toks, p + 1) == KW_FOR
    requires Check(toks, p + 2) == IDENTIFIER && Expect(toks, p + 3, OP_ASSIGN, "missing '=' in for") == Ok(p + 4)
    requires r == ParseFor(toks, p)
    ensures r.Ok? ==> ClosedAfter(toks, p, r.value.1)
  {
  }

  /** `{ e1 = e2 }` is an `ASSIGN` ending with `}`. */
  lemma AssignShape(toks: seq<Symbol>, p: nat)
    requires Ready(toks, p) && Check(toks, p) == OP_LBRACE && p + 1 < |toks|
    ensures var r := ParseAssign(toks, p);
      r.Ok? ==>
        r.value.0.Binary? && r.value.0.op == ASSIGN && r.value.0.id == p &&
        ClosedAfter(toks, p, r.value.1)
  {
  }

  /** `{ if c then e }` and `{ if c then e else e' }` are an `IfThenElse`
      ending with `}`. */
  lemma IfShape(toks: seq<Symbol>, p: nat)
    requires Ready(toks, p) && Check(toks, p) == OP_LBRACE && p + 1 < |toks| && Check(toks, p + 1) == KW_IF
    ensures var r := ParseIf(toks, p);
      r.Ok? ==> r.value.0.IfThenElse? && r.value.0.id == p && ClosedAfter(toks, p, r.value.1)
  {
    if ParseIf(toks, p).Ok? {
      IfParts(toks, p);
      var cond := ParseExpr(toks, p + 2).value;
      var p1 := Expect(toks, cond.1, KW_THEN, "missing 'then'").value;
      var thenE := ParseExpr(toks, p1).value;
      IfEndShape(toks, thenE.1, p, cond.0, thenE.0);
    }
  }

  /** A conditional that parses has a condition, `then` and a then-branch,
      and ends as `ParseIfEnd` says. */
  lemma IfParts(toks: seq<Symbol>, p: nat)
    requires Ready(toks, p) && Check(toks, p) == OP_LBRACE && p + 1 < |toks| && Check(toks, p + 1) == KW_IF
    requires ParseIf(toks, p).Ok?
    ensures ParseExpr(toks, p + 2).Ok?
    ensures var cond := ParseExpr(toks, p + 2).value;
      Expect(toks, cond.1, KW_THEN, "missing 'then'").Ok? &&
      var p1 := Expect(toks, cond.1, KW_THEN, "missing 'then'").value;
      ParseExpr(toks, p1).Ok? &&
      var thenE := ParseExpr(toks, p1).value;
      p < thenE.1 && ParseIf(toks, p) == ParseIfEnd(toks, thenE.1, p, cond.0, thenE.0)
  {
  }

  lemma IfEndShape(toks: seq<Symbol>, p: nat, at: nat, cond: Expr, thenE: Expr)
    requires Ready(toks, p)
    ensures var r := ParseIfEnd(toks, p, at, cond, thenE);
      r.Ok? ==>
        r.value.0.IfThenElse? && r.value.0.id == at && r.value.0.cond == cond && r.value.0.thenE == thenE &&
        ClosedAfter(toks, p, r.value.1) &&
        (r.value.0.elseE.Some? <==> Check(toks, p) == KW_ELSE)
  {
    if Check(toks, p) == KW_ELSE {
      ElseShape(toks, p, at, cond, thenE);
    }
  }

  /** `else e }` ends the conditional with an else branch. */
  lemma ElseShape(toks: seq<Symbol>, p: nat, at: nat, cond: Expr, thenE: Expr)
    requires Ready(toks, p) && Check(toks, p) == KW_ELSE
    ensures var r := ParseIfEnd(toks, p, at, cond, thenE);
      r.Ok? ==>
        r.value.0.IfThenElse? && r.value.0.id == at && r.value.0.cond == cond && r.value.0.thenE == thenE &&
        r.value.0.elseE.Some? && ClosedAfter(toks, p, r.value.1)
  {
    var elseE := ParseExpr(toks, p + 1);
    if elseE.Ok? {
      var p1 := Expect(toks, elseE.value.1, OP_RBRACE, "missing '}' after else");
      if p1.Ok? {
        assert ParseIfEnd(toks, p, at, cond, thenE) == Ok((IfThenElse(at, cond, thenE, Some(elseE.value.0)), p1.value));
      }
    }
  }

  /** `atom_expr` starts with a name, a constant, `(` or `{`, and an atom
      is never taken apart by an operator above it. */
  lemma AtomPrecedence(toks: seq<Symbol>, p: nat)
    requires Ready(toks, p)
    ensures var r := ParseAtom(toks, p);
      r.Ok? ==> PostStart(Check(toks, p)) && Precedence(r.value.0) == 8
  {
    var k := Check(toks, p);
    if k == IDENTIFIER {
      NameAtom(toks, p);
    } else if k == OP_LPARENT {
      BlockAtom(toks, p);
    } else if k == OP_LBRACE {
      BracedForm(toks, p);
      assert ParseAtom(toks, p) == ParseBraced(toks, p);
    } else {
      LiteralAtoms(toks, p);
    }
  }

  /** Constants always succeed and become literals of their kind. */
  lemma LiteralAtoms(toks: seq<Symbol>, p: nat)
    requires Ready(toks, p)
    ensures var r := ParseAtom(toks, p);
      (Check(toks, p) == C_LOGICAL ==> r == Ok((Literal(p, toks[p].lexeme, LOG), p + 1))) &&
      (Check(toks, p) == C_INTEGER ==> r == Ok((Literal(p, toks[p].lexeme, INT), p + 1))) &&
      (Check(toks, p) == C_STRING ==> r == Ok((Literal(p, toks[p].lexeme, STR), p + 1)))
  {
  }

  /** An identifier is a name or a call of that name. */
  lemma NameAtom(toks: seq<Symbol>, p: nat)
    requires Ready(toks, p) && Check(toks, p) == IDENTIFIER
    ensures var r := ParseAtom(toks, p);
      r.Ok? ==> r.value.0 == Name(p, toks[p].lexeme) || (r.value.0.Call? && r.value.0.name == toks[p].lexeme)
  {
    NameOrCallShape(toks, p + 1, p);
  }

  /** `( e1, ..., en )` is a `Block` of at least one expression. */
  lemma BlockAtom(toks: seq<Symbol>, p: nat)
    requires Ready(toks, p) && Check(toks, p) == OP_LPARENT
    ensures var r := ParseAtom(toks, p);
      r.Ok? ==> r.value.0.Block? && r.value.0.id == p && |r.value.0.exprs| >= 1
  {
    var es := ParseExprs(toks, p + 1);
    if es.Ok? {
      assert |es.value.0| >= 1;
    }
  }

  // ---------------------------------------------------------------------
  // The levels
  // ---------------------------------------------------------------------

  /** `post_expr`: indexing chains over an atom. */
  lemma {:induction false} PostLevel(toks: seq<Symbol>, p: nat)
    requires Ready(toks, p)
    ensures var r := ParsePost(toks, p); r.Ok? ==> Precedence(r.value.0) >= 7 && PostFollow(Check(toks, r.value.1))
  {
    var atom := ParseAtom(toks, p);
    if atom.Ok? {
      AtomPrecedence(toks, p);
      Post2Level(toks, atom.value.1, atom.value.0);
    }
  }

  lemma {:induction false} Post2Level(toks: seq<Symbol>, p: nat, left: Expr)
    requires Ready(toks, p) && Precedence(left) >= 7
    ensures var r := ParsePost2(toks, p, left); r.Ok? ==> Precedence(r.value.0) >= 7 && PostFollow(Check(toks, r.value.1))
    decreases |toks| - p
  {
    if Check(toks, p) == OP_LBRACKET {
      var index := ParseExpr(toks, p + 1);
      if index.Ok? {
        var p1 := Expect(toks, index.value.1, OP_RBRACKET, "missing ']'");
        if p1.Ok? {
          Post2Level(toks, p1.value, Binary(p, left, ARR, index.value.0));
        }
      }
    }
  }

  /** `pre_expr`: prefix operators nest, and bind tighter than every
      binary operator except indexing. */
  lemma PreLevel(toks: seq<Symbol>, p: nat)
    requires Ready(toks, p)
    ensures var r := ParsePre(toks, p); r.Ok? ==> Precedence(r.value.0) >= 6 && PostFollow(Check(toks, r.value.1))
    decreases |toks| - p
  {
    if Check(toks, p) in {OP_ADD, OP_SUB, OP_NOT} {
      PreLevel(toks, p + 1);
    } else if PostStart(Check(toks, p)) {
      PostLevel(toks, p);
    }
  }

  /** `mul_expr`: `* / %` chain to the left over prefix expressions. */
  lemma MulLevel(toks: seq<Symbol>, p: nat)
    requires Ready(toks, p)
    ensures var r := ParseMul(toks, p); r.Ok? ==> LeftAssociative(r.value.0, 5) && MulFollow(Check(toks, r.value.1))
  {
    var left := ParsePre(toks, p);
    if left.Ok? {
      PreLevel(toks, p);
      Mul2Level(toks, left.value.1, left.value.0);
    }
  }

  lemma {:induction false} Mul2Level(toks: seq<Symbol>, p: nat, left: Expr)
    requires Ready(toks, p) && LeftAssociative(left, 5)
    ensures var r := ParseMul2(toks, p, left); r.Ok? ==> LeftAssociative(r.value.0, 5) && MulFollow(Check(toks, r.value.1))
    decreases |toks| - p
  {
    var k := Check(toks, p);
    var r := ParseMul2(toks, p, left);
    if k == OP_MUL || k == OP_DIV || k == OP_MOD {
      var right := ParsePre(toks, p + 1);
      if right.Ok? {
        PreLevel(toks, p + 1);
        var op := if k == OP_MUL then MUL else if k == OP_DIV then DIV else MOD;
        var e := Binary(p, left, op, right.value.0);
        Mul2Step(toks, p, left, right.value, e);
        Mul2Level(toks, right.value.1, e);
      } else {
        assert r.Err?;
      }
    } else {
      assert r == (if MulFollow(k) then Ok((left, p)) else Err("unexpected symbol in multiplicative expression"));
    }
  }

  /** One `* / %` step of `mul_expr2`. */
  lemma Mul2Step(toks: seq<Symbol>, p: nat, left: Expr, right: (Expr, nat), e: Expr)
    requires Ready(toks, p) && LeftAssociative(left, 5)
    requires Check(toks, p) == OP_MUL || Check(toks, p) == OP_DIV || Check(toks, p) == OP_MOD
    requires ParsePre(toks, p + 1) == Ok(right) && Precedence(right.0) >= 6
    requires e == Binary(p, left, if Check(toks, p) == OP_MUL then MUL else if Check(toks, p) == OP_DIV then DIV else MOD, right.0)
    ensures Ready(toks, right.1) && LeftAssociative(e, 5)
    ensures ParseMul2(toks, p, left) == ParseMul2(toks, right.1, e)
  {
  }

  /** `add_expr`: `+ -` chain to the left over multiplicative
      expressions. */
  lemma AddLevel(toks: seq<Symbol>, p: nat)
    requires Ready(toks, p)
    ensures var r := ParseAdd(toks, p); r.Ok? ==> LeftAssociative(r.value.0, 4) && AddFollow(Check(toks, r.value.1))
  {
    var left := ParseMul(toks, p);
    if left.Ok? {
      MulLevel(toks, p);
      Add2Level(toks, left.value.1, left.value.0);
    }
  }

  lemma {:induction false} Add2Level(toks: seq<Symbol>, p: nat, left: Expr)
    requires Ready(toks, p) && LeftAssociative(left, 4)
    ensures var r := ParseAdd2(toks, p, left); r.Ok? ==> LeftAssociative(r.value.0, 4) && AddFollow(Check(toks, r.value.1))
    decreases |toks| - p
  {
    var k := Check(toks, p);
    var r := ParseAdd2(toks, p, left);
    if k == OP_ADD || k == OP_SUB {
      var right := ParseMul(toks, p + 1);
      if right.Ok? {
        MulLevel(toks, p + 1);
        var e := Binary(p, left, if k == OP_ADD then ADD else SUB, right.value.0);
        Add2Step(toks, p, left, right.value, e);
        Add2Level(toks, right.value.1, e);
      } else {
        assert r.Err?;
      }
    } else {
      assert r == (if AddFollow(k) then Ok((left, p)) else Err("unexpected symbol in additive expression"));
    }
  }

  /** One `+ -` step of `add_expr2`. */
  lemma Add2Step(toks: seq<Symbol>, p: nat, left: Expr, right: (Expr, nat), e: Expr)
    requires Ready(toks, p) && LeftAssociative(left, 4)
    requires Check(toks, p) == OP_ADD || Check(toks, p) == OP_SUB
    requires ParseMul(toks, p + 1) == Ok(right) && LeftAssociative(right.0, 5)
    requires e == Binary(p, left, if Check(toks, p) == OP_ADD then ADD else SUB, right.0)
    ensures Ready(toks, right.1) && LeftAssociative(e, 4)
    ensures ParseAdd2(toks, p, left) == ParseAdd2(toks, right.1, e)
  {
  }

  /** `compare_expr`: at most one comparison, between two additive
      expressions. */
  lemma CompareLevel(toks: seq<Symbol>, p: nat)
    requires Ready(toks, p)
    ensures var r := ParseCompare(toks, p); r.Ok? ==> NonAssociative(r.value.0, 3) && AddFollow(Check(toks, r.value.1))
  {
    var left := ParseAdd(toks, p);
    if left.Ok? {
      AddLevel(toks, p);
      Compare2Level(toks, left.value.1, left.value.0);
    }
  }

  lemma Compare2Level(toks: seq<Symbol>, p: nat, left: Expr)
    requires Ready(toks, p) && LeftAssociative(left, 4) && AddFollow(Check(toks, p))
    ensures var r := ParseCompare2(toks, p, left); r.Ok? ==> NonAssociative(r.value.0, 3) && AddFollow(Check(toks, r.value.1))
  {
    var k := Check(toks, p);
    if Comparisons(k) {
      ComparisonStep(toks, p, left);
    } else {
      assert ParseCompare2(toks, p, left) == (if CompareFollow(k) then Ok((left, p)) else Err("unexpected symbol in comparison"));
    }
  }

  /** `Compare2Level` on a comparison operator. */
  lemma ComparisonStep(toks: seq<Symbol>, p: nat, left: Expr)
    requires Ready(toks, p) && LeftAssociative(left, 4) && Comparisons(Check(toks, p))
    ensures var r := ParseCompare2(toks, p, left); r.Ok? ==> NonAssociative(r.value.0, 3) && AddFollow(Check(toks, r.value.1))
  {
    var k := Check(toks, p);
    var r := ParseCompare2(toks, p, left);
    var right := ParseAdd(toks, p + 1);
    if right.Ok? {
      AddLevel(toks, p + 1);
      ComparisonNode(p, left, k, right.value.0);
      assert r == Ok((Binary(p, left, ComparisonOp(k), right.value.0), right.value.1));
    } else {
      assert r.Err?;
    }
  }

  /** A comparison between two additive expressions is non-associative. */
  lemma ComparisonNode(p: nat, left: Expr, k: TokenType, right: Expr)
    requires Comparisons(k) && LeftAssociative(left, 4) && LeftAssociative(right, 4)
    ensures NonAssociative(Binary(p, left, ComparisonOp(k), right), 3)
  {
  }

  /** A second comparison operator is not consumed by the comparison
      level, and the `&` level rejects it: `a == b == c` is an error. */
  lemma ComparisonIsNonAssociative(toks: seq<Symbol>, p: nat)
    requires Ready(toks, p)
    requires ParseCompare(toks, p).Ok? && Comparisons(Check(toks, ParseCompare(toks, p).value.1))
    ensures ParseAnd(toks, p).Err?
  {
  }

  /** `logical_and_expr`: `&` chains to the left over comparisons. */
  lemma AndLevel(toks: seq<Symbol>, p: nat)
    requires Ready(toks, p)
    ensures var r := ParseAnd(toks, p); r.Ok? ==> LeftAssociative(r.value.0, 2) && AndFollow(Check(toks, r.value.1))
  {
    var left := ParseCompare(toks, p);
    if left.Ok? {
      CompareLevel(toks, p);
      And2Level(toks, left.value.1, left.value.0);
    }
  }

  lemma {:induction false} And2Level(toks: seq<Symbol>, p: nat, left: Expr)
    requires Ready(toks, p) && LeftAssociative(left, 2)
    ensures var r := ParseAnd2(toks, p, left); r.Ok? ==> LeftAssociative(r.value.0, 2) && AndFollow(Check(toks, r.value.1))
    decreases |toks| - p
  {
    var r := ParseAnd2(toks, p, left);
    if Check(toks, p) == OP_AND {
      var right := ParseCompare(toks, p + 1);
      if right.Ok? {
        CompareLevel(toks, p + 1);
        var e := Binary(p, left, AND, right.value.0);
        And2Step(toks, p, left, right.value, e);
        And2Level(toks, right.value.1, e);
      } else {
        assert r.Err?;
      }
    } else {
      assert r == (if AndFollow(Check(toks, p)) then Ok((left, p)) else Err("unexpected symbol in logical and expression"));
    }
  }

  /** One `&` step of `logical_and_expr2`. */
  lemma And2Step(toks: seq<Symbol>, p: nat, left: Expr, right: (Expr, nat), e: Expr)
    requires Ready(toks, p) && LeftAssociative(left, 2) && Check(toks, p) == OP_AND
    requires ParseCompare(toks, p + 1) == Ok(right) && NonAssociative(right.0, 3)
    requires e == Binary(p, left, AND, right.0)
    ensures Ready(toks, right.1) && LeftAssociative(e, 2)
    ensures ParseAnd2(toks, p, left) == ParseAnd2(toks, right.1, e)
  {
  }

  /** `logical_ior_expr`: `|` chains to the left over conjunctions. */
  lemma IorLevel(toks: seq<Symbol>, p: nat)
    requires Ready(toks, p)
    ensures var r := ParseIor(toks, p); r.Ok? ==> LeftAssociative(r.value.0, 1) && IorFollow(Check(toks, r.value.1))
  {
    var left := ParseAnd(toks, p);
    if left.Ok? {
      AndLevel(toks, p);
      Ior2Level(toks, left.value.1, left.value.0);
    }
  }

  lemma {:induction false} Ior2Level(toks: seq<Symbol>, p: nat, left: Expr)
    requires Ready(toks, p) && LeftAssociative(left, 1)
    ensures var r := ParseIor2(toks, p, left); r.Ok? ==> LeftAssociative(r.value.0, 1) && IorFollow(Check(toks, r.value.1))
    decreases |toks| - p
  {
    var r := ParseIor2(toks, p, left);
    if Check(toks, p) == OP_OR {
      var right := ParseAnd(toks, p + 1);
      if right.Ok? {
        AndLevel(toks, p + 1);
        var e := Binary(p, left, OR, right.value.0);
        Ior2Step(toks, p, left, right.value, e);
        Ior2Level(toks, right.value.1, e);
      } else {
        assert r.Err?;
      }
    } else {
      assert r == (if IorFollow(Check(toks, p)) then Ok((left, p)) else Err("unexpected symbol in logical or expression"));
    }
  }

  /** One `|` step of `logical_ior_expr2`. */
  lemma Ior2Step(toks: seq<Symbol>, p: nat, left: Expr, right: (Expr, nat), e: Expr)
    requires Ready(toks, p) && LeftAssociative(left, 1) && Check(toks, p) == OP_OR
    requires ParseAnd(toks, p + 1) == Ok(right) && LeftAssociative(right.0, 2)
    requires e == Binary(p, left, OR, right.0)
    ensures Ready(toks, right.1) && LeftAssociative(e, 1)
    ensures ParseIor2(toks, p, left) == ParseIor2(toks, right.1, e)
  {
  }

  /** `expr`: a disjunction, optionally followed by one `{ where defs }`
      that wraps it. */
  lemma ExprLevel(toks: seq<Symbol>, p: nat)
    requires Ready(toks, p)
    ensures var r := ParseExpr(toks, p);
      r.Ok? ==> LeftAssociative(r.value.0, 1) || (r.value.0.Where? && LeftAssociative(r.value.0.expr, 1))
  {
    var ior := ParseIor(toks, p);
    if ior.Ok? {
      IorLevel(toks, p);
    }
  }

  // ---------------------------------------------------------------------
  // Definitions
  // ---------------------------------------------------------------------

  /** The lexer's output: the end-of-file symbol is the last and only
      one. */
  predicate SingleEOF(toks: seq<Symbol>) {
    WellFormed(toks) && forall i :: 0 <= i < |toks| - 1 ==> toks[i].token != EOF
  }

  /** `defs2`: a list of definitions ends at the end of the input or
      before a `}`. */
  lemma {:induction false} Defs2End(toks: seq<Symbol>, p: nat)
    requires Ready(toks, p) && SingleEOF(toks)
    ensures var r := ParseDefs2(toks, p); r.Ok? ==> r.value.1 == |toks| - 1 || Check(toks, r.value.1) == OP_RBRACE
    decreases |toks| - p
  {
    if Check(toks, p) == OP_SEMICOLON {
      var d := ParseDef(toks, p + 1);
      if d.Ok? {
        Defs2End(toks, d.value.1);
      }
    }
  }

  /** `defs`: at least one definition, ending at the end of the input or
      before a `}`. */
  lemma DefsEnd(toks: seq<Symbol>, p: nat)
    requires Ready(toks, p) && SingleEOF(toks)
    ensures var r := ParseDefs(toks, p);
      r.Ok? ==> |r.value.0| >= 1 && (r.value.1 == |toks| - 1 || Check(toks, r.value.1) == OP_RBRACE)
  {
    var d := ParseDef(toks, p);
    if d.Ok? {
      var ds := ParseDefs2(toks, d.value.1);
      Defs2End(toks, d.value.1);
      if ds.Ok? {
        assert ParseDefs(toks, p) == Ok(([d.value.0] + ds.value.0, ds.value.1));
      }
    }
  }

  /** `parse` does not check that the whole input was read: a `}` after
      a definition ends the list, and whatever follows it is ignored. At
      the top level this ends the program. */
  lemma ClosingBraceEndsDefinitions(toks: seq<Symbol>, p: nat)
    requires Ready(toks, p)
    requires ParseDef(toks, p).Ok? && Check(toks, ParseDef(toks, p).value.1) == OP_RBRACE
    ensures ParseDefs(toks, p) == Ok(([ParseDef(toks, p).value.0], ParseDef(toks, p).value.1))
  {
    var d := ParseDef(toks, p).value;
    DefsAfterBrace(toks, d.1);
    assert [d.0] + [] == [d.0];
  }

  /** `defs2` before a `}` reads nothing. */
  lemma DefsAfterBrace(toks: seq<Symbol>, q: nat)
    requires Ready(toks, q) && Check(toks, q) == OP_RBRACE
    ensures ParseDefs2(toks, q) == Ok(([], q))
  {
  }

  // ---------------------------------------------------------------------
  // Examples
  // ---------------------------------------------------------------------

  /** A symbol whose position does not matter here. */
  function Sym(t: TokenType, lexeme: string): Symbol {
    Symbol(Position(1, 1, 1, 1), t, lexeme)
  }

  /** A lone name before a symbol that ends postfix expressions is a
      complete atom ... */
  lemma NameIsAtom(toks: seq<Symbol>, q: nat)
    requires Ready(toks, q) && Check(toks, q) == IDENTIFIER && PostFollow(Check(toks, q + 1))
    ensures ParseAtom(toks, q) == Ok((Name(q, toks[q].lexeme), q + 1))
  {
    FollowIsNotCall(Check(toks, q + 1));
    assert ParseAtom(toks, q) == ParseNameOrCall(toks, q + 1, q);
    assert ParseNameOrCall(toks, q + 1, q) == Ok((Name(q, toks[q].lexeme), q + 1));
  }

  /** A symbol that ends a postfix expression does not open an argument
      list. */
  lemma FollowIsNotCall(t: TokenType)
    requires PostFollow(t)
    ensures t != OP_LPARENT && NameFollow(t)
  {
  }

  /** ... a complete postfix expression ... */
  lemma NameIsPostfixOperand(toks: seq<Symbol>, q: nat)
    requires Ready(toks, q) && Check(toks, q) == IDENTIFIER && PostFollow(Check(toks, q + 1))
    ensures ParsePost(toks, q) == Ok((Name(q, toks[q].lexeme), q + 1))
  {
    NameIsAtom(toks, q);
    assert ParsePost2(toks, q + 1, Name(q, toks[q].lexeme)) == Ok((Name(q, toks[q].lexeme), q + 1));
  }

  /** ... and a complete prefix operand ... */
  lemma NameIsPrefixOperand(toks: seq<Symbol>, q: nat)
    requires Ready(toks, q) && Check(toks, q) == IDENTIFIER && PostFollow(Check(toks, q + 1))
    ensures ParsePre(toks, q) == Ok((Name(q, toks[q].lexeme), q + 1))
  {
    NameIsPostfixOperand(toks, q);
  }

  /** ... and before a symbol that ends products, a complete operand of
      `+ -`. */
  lemma NameIsOperand(toks: seq<Symbol>, q: nat)
    requires Ready(toks, q) && Check(toks, q) == IDENTIFIER && MulFollow(Check(toks, q + 1))
    ensures ParseMul(toks, q) == Ok((Name(q, toks[q].lexeme), q + 1))
  {
    NameIsPrefixOperand(toks, q);
    var k := Check(toks, q + 1);
    assert !(k == OP_MUL || k == OP_DIV || k == OP_MOD);
    assert ParseMul2(toks, q + 1, Name(q, toks[q].lexeme)) == Ok((Name(q, toks[q].lexeme), q + 1));
    assert ParseMul(toks, q) == ParseMul2(toks, q + 1, Name(q, toks[q].lexeme));
  }

  /** At the end of the input every level above the products stops. */
  lemma EndOfExpression(toks: seq<Symbol>, q: nat, e: Expr)
    requires Ready(toks, q) && Check(toks, q) == EOF
    ensures ParseAdd2(toks, q, e) == Ok((e, q))
    ensures ParseCompare2(toks, q, e) == Ok((e, q))
    ensures ParseAnd2(toks, q, e) == Ok((e, q))
    ensures ParseIor2(toks, q, e) == Ok((e, q))
    ensures ParseWhere(toks, q, e) == Ok((e, q))
  {
  }

  /** A sum that reaches the end of the input is the whole expression:
      every level above it stops there. */
  lemma ExprOfSum(toks: seq<Symbol>, p: nat, e: Expr, q: nat)
    requires Ready(toks, p) && ParseAdd(toks, p) == Ok((e, q)) && Check(toks, q) == EOF
    ensures ParseExpr(toks, p) == Ok((e, q))
  {
    CompareOfSum(toks, p, e, q);
    AndOfComparison(toks, p, e, q);
    IorOfConjunction(toks, p, e, q);
    ExprOfDisjunction(toks, p, e, q);
  }

  lemma CompareOfSum(toks: seq<Symbol>, p: nat, e: Expr, q: nat)
    requires Ready(toks, p) && ParseAdd(toks, p) == Ok((e, q)) && Check(toks, q) == EOF
    ensures ParseCompare(toks, p) == Ok((e, q))
  {
    EndOfExpression(toks, q, e);
  }

  lemma AndOfComparison(toks: seq<Symbol>, p: nat, e: Expr, q: nat)
    requires Ready(toks, p) && ParseCompare(toks, p) == Ok((e, q)) && Check(toks, q) == EOF
    ensures ParseAnd(toks, p) == Ok((e, q))
  {
    EndOfExpression(toks, q, e);
  }

  lemma IorOfConjunction(toks: seq<Symbol>, p: nat, e: Expr, q: nat)
    requires Ready(toks, p) && ParseAnd(toks, p) == Ok((e, q)) && Check(toks, q) == EOF
    ensures ParseIor(toks, p) == Ok((e, q))
  {
    EndOfExpression(toks, q, e);
  }

  lemma ExprOfDisjunction(toks: seq<Symbol>, p: nat, e: Expr, q: nat)
    requires Ready(toks, p) && ParseIor(toks, p) == Ok((e, q)) && Check(toks, q) == EOF
    ensures ParseExpr(toks, p) == Ok((e, q))
  {
    EndOfExpression(toks, q, e);
  }

  /** `toks` reads `a o1 b o2 c` and then the end of the input. */
  predicate ThreeNames(toks: seq<Symbol>, o1: TokenType, o2: TokenType) {
    |toks| == 6 && toks[5].token == EOF &&
    toks[0].token == IDENTIFIER && toks[0].lexeme == "a" && toks[1].token == o1 &&
    toks[2].token == IDENTIFIER && toks[2].lexeme == "b" && toks[3].token == o2 &&
    toks[4].token == IDENTIFIER && toks[4].lexeme == "c"
  }

  lemma ThreeNamesSymbols(o1: TokenType, l1: string, o2: TokenType, l2: string)
    ensures ThreeNames([Sym(IDENTIFIER, "a"), Sym(o1, l1), Sym(IDENTIFIER, "b"), Sym(o2, l2), Sym(IDENTIFIER, "c"), Sym(EOF, "$")], o1, o2)
  {
  }

  /** `a - b - c` is `(a - b) - c`. */
  lemma SubtractionIsLeftAssociative()
    ensures var toks := [Sym(IDENTIFIER, "a"), Sym(OP_SUB, "-"), Sym(IDENTIFIER, "b"), Sym(OP_SUB, "-"), Sym(IDENTIFIER, "c"), Sym(EOF, "$")];
      ParseExpr(toks, 0) == Ok((Binary(3, Binary(1, Name(0, "a"), SUB, Name(2, "b")), SUB, Name(4, "c")), 5))
  {
    var toks := [Sym(IDENTIFIER, "a"), Sym(OP_SUB, "-"), Sym(IDENTIFIER, "b"), Sym(OP_SUB, "-"), Sym(IDENTIFIER, "c"), Sym(EOF, "$")];
    var abc := Binary(3, Binary(1, Name(0, "a"), SUB, Name(2, "b")), SUB, Name(4, "c"));
    ThreeNamesSymbols(OP_SUB, "-", OP_SUB, "-");
    DifferenceOfThree(toks);
    ExprOfSum(toks, 0, abc, 5);
  }

  /** The additive level of `a - b - c`. */
  lemma DifferenceOfThree(toks: seq<Symbol>)
    requires ThreeNames(toks, OP_SUB, OP_SUB)
    ensures ParseAdd(toks, 0) == Ok((Binary(3, Binary(1, Name(0, "a"), SUB, Name(2, "b")), SUB, Name(4, "c")), 5))
  {
    var a, b, c := Name(0, "a"), Name(2, "b"), Name(4, "c");
    var ab := Binary(1, a, SUB, b);
    var abc := Binary(3, ab, SUB, c);
    NameIsOperand(toks, 0);
    LastDifference(toks, ab);
    NameIsOperand(toks, 2);
    Add2Step(toks, 1, a, (b, 3), ab);
  }

  lemma LastDifference(toks: seq<Symbol>, ab: Expr)
    requires ThreeNames(toks, OP_SUB, OP_SUB)
    ensures ParseAdd2(toks, 3, ab) == Ok((Binary(3, ab, SUB, Name(4, "c")), 5))
  {
    NameIsOperand(toks, 4);
    EndOfExpression(toks, 5, Binary(3, ab, SUB, Name(4, "c")));
  }

  /** A lone name before a symbol that ends comparisons is a complete
      comparison operand. */
  lemma NameIsComparisonOperand(toks: seq<Symbol>, q: nat)
    requires Ready(toks, q) && Check(toks, q) == IDENTIFIER && CompareFollow(Check(toks, q + 1))
    ensures ParseCompare(toks, q) == Ok((Name(q, toks[q].lexeme), q + 1))
  {
    var n := Name(q, toks[q].lexeme);
    NameIsOperand(toks, q);
    assert ParseAdd2(toks, q + 1, n) == Ok((n, q + 1));
    assert ParseCompare2(toks, q + 1, n) == Ok((n, q + 1));
  }

  /** `a | b & c` is `a | (b & c)`. */
  lemma ConjunctionBindsTighter()
    ensures var toks := [Sym(IDENTIFIER, "a"), Sym(OP_OR, "|"), Sym(IDENTIFIER, "b"), Sym(OP_AND, "&"), Sym(IDENTIFIER, "c"), Sym(EOF, "$")];
      ParseExpr(toks, 0) == Ok((Binary(1, Name(0, "a"), OR, Binary(3, Name(2, "b"), AND, Name(4, "c"))), 5))
  {
    var toks := [Sym(IDENTIFIER, "a"), Sym(OP_OR, "|"), Sym(IDENTIFIER, "b"), Sym(OP_AND, "&"), Sym(IDENTIFIER, "c"), Sym(EOF, "$")];
    var a := Name(0, "a");
    var abc := Binary(1, a, OR, Binary(3, Name(2, "b"), AND, Name(4, "c")));
    NameIsComparisonOperand(toks, 0);
    ThreeNamesSymbols(OP_OR, "|", OP_AND, "&");
    ConjunctionAfterOr(toks);
    EndOfExpression(toks, 5, abc);
    assert ParseAnd(toks, 0) == Ok((a, 1));
    assert ParseIor2(toks, 1, a) == ParseIor2(toks, 5, abc);
    assert ParseIor(toks, 0) == Ok((abc, 5));
  }

  /** In `a | b & c`, the right operand of `|` is `b & c`. */
  lemma ConjunctionAfterOr(toks: seq<Symbol>)
    requires ThreeNames(toks, OP_OR, OP_AND)
    ensures ParseAnd(toks, 2) == Ok((Binary(3, Name(2, "b"), AND, Name(4, "c")), 5))
  {
    var b, c := Name(2, "b"), Name(4, "c");
    var bc := Binary(3, b, AND, c);
    NameIsComparisonOperand(toks, 2);
    NameIsComparisonOperand(toks, 4);
    EndOfExpression(toks, 5, bc);
    assert ParseAnd2(toks, 3, b) == ParseAnd2(toks, 5, bc);
  }

  /** `a == b == c` is rejected. */
  lemma ChainedComparisonIsAnError()
    ensures var toks := [Sym(IDENTIFIER, "a"), Sym(OP_EQ, "=="), Sym(IDENTIFIER, "b"), Sym(OP_EQ, "=="), Sym(IDENTIFIER, "c"), Sym(EOF, "$")];
      ParseExpr(toks, 0).Err?
  {
    var toks := [Sym(IDENTIFIER, "a"), Sym(OP_EQ, "=="), Sym(IDENTIFIER, "b"), Sym(OP_EQ, "=="), Sym(IDENTIFIER, "c"), Sym(EOF, "$")];
    ThreeNamesSymbols(OP_EQ, "==", OP_EQ, "==");
    ChainOfEqualities(toks);
    assert ParseIor(toks, 0).Err?;
  }

  /** In `a == b == c`, the `&` level stops at the second `==`. */
  lemma ChainOfEqualities(toks: seq<Symbol>)
    requires ThreeNames(toks, OP_EQ, OP_EQ)
    ensures ParseAnd(toks, 0).Err?
  {
    var a, b := Name(0, "a"), Name(2, "b");
    NameIsOperand(toks, 0);
    NameIsOperand(toks, 2);
    assert ParseAdd(toks, 0) == Ok((a, 1));
    assert ParseAdd(toks, 2) == Ok((b, 3));
    assert ParseCompare(toks, 0) == Ok((Binary(1, a, EQ, b), 3));
    ComparisonIsNonAssociative(toks, 0);
  }

  // ---------------------------------------------------------------------
  // The cursor
  // ---------------------------------------------------------------------

  /** Once the cursor reaches the last symbol it stays there, and `check`
      reports the end of input: no production can read past it. */
  lemma EndOfInputIsSticky(toks: seq<Symbol>)
    requires WellFormed(toks)
    ensures Check(toks, |toks| - 1) == EOF
    ensures Skip(toks, |toks| - 1) == |toks| - 1
  { }

  /** A definition is named by the identifier right after its keyword, and
      any other symbol there is an error. */
  lemma DefinitionName(toks: seq<Symbol>, p: nat)
    requires Ready(toks, p)
    ensures var r := ParseDef(toks, p);
      r.Ok? ==> p + 1 < |toks| && Check(toks, p + 1) == IDENTIFIER && r.value.0.name == toks[p + 1].lexeme
    ensures var k := Check(toks, p);
      (k == KW_TYP || k == KW_VAR || k == KW_FUN) ==> p + 1 < |toks| && (Check(toks, p + 1) != IDENTIFIER ==> ParseDef(toks, p).Err?)
  {
    var k := Check(toks, p);
    if k == KW_TYP {
      TypeDefName(toks, p);
    } else if k == KW_FUN {
      FunDefName(toks, p);
    } else if k == KW_VAR {
      VarDefName(toks, p);
    }
  }

  lemma TypeDefName(toks: seq<Symbol>, p: nat)
    requires Ready(toks, p) && Check(toks, p) == KW_TYP
    ensures var r := ParseTypeDef(toks, p);
      r.Ok? ==> Check(toks, p + 1) == IDENTIFIER && r.value.0.name == toks[p + 1].lexeme
    ensures Check(toks, p + 1) != IDENTIFIER ==> ParseTypeDef(toks, p).Err?
  {
    var r := ParseTypeDef(toks, p);
    if r.Ok? {
      var p1 := Expect(toks, p + 2, OP_COLON, "missing ':' in type definition").value;
      var ty := ParseType(toks, p1).value;
      assert r == Ok((TypeDef(p, toks[p + 1].lexeme, ty.0), ty.1));
    }
  }

  lemma VarDefName(toks: seq<Symbol>, p: nat)
    requires Ready(toks, p) && Check(toks, p) == KW_VAR
    ensures var r := ParseVarDef(toks, p);
      r.Ok? ==> Check(toks, p + 1) == IDENTIFIER && r.value.0.name == toks[p + 1].lexeme
    ensures Check(toks, p + 1) != IDENTIFIER ==> ParseVarDef(toks, p).Err?
  {
    var r := ParseVarDef(toks, p);
    if r.Ok? {
      var p1 := Expect(toks, p + 2, OP_COLON, "missing ':' in variable definition").value;
      var ty := ParseType(toks, p1).value;
      assert r == Ok((VarDef(p, toks[p + 1].lexeme, ty.0), ty.1));
    }
  }

  lemma FunDefName(toks: seq<Symbol>, p: nat)
    requires Ready(toks, p) && Check(toks, p) == KW_FUN
    ensures var r := ParseFunDef(toks, p);
      r.Ok? ==> Check(toks, p + 1) == IDENTIFIER && r.value.0.name == toks[p + 1].lexeme
    ensures Check(toks, p + 1) != IDENTIFIER ==> ParseFunDef(toks, p).Err?
  {
    var r := ParseFunDef(toks, p);
    if r.Ok? {
      var p1 := Expect(toks, p + 2, OP_LPARENT, "missing '(' before the parameters").value;
      var ps := ParseParams(toks, p1).value;
      var p2 := Expect(toks, ps.1, OP_COLON, "missing ':' before the result type").value;
      var ty := ParseType(toks, p2).value;
      var p3 := Expect(toks, ty.1, OP_ASSIGN, "missing '=' in function definition").value;
      var body := ParseExpr(toks, p3).value;
      assert r == Ok((FunDef(p, toks[p + 1].lexeme, ps.0, ty.0, body.0), body.1));
    }
  }
}

=== FILE: semtypes.dfy ===
/** Semantic types computed by the type checker (`compiler.seman.type.type`):
    atoms, arrays with a size and element type, and function types.
    Java compares them with `equals`, which is structural; here that is `==`. */
module SemTypes {

  datatype AtomKind = Int | Log | Str | Void

  datatype Type =
    | Atom(kind: AtomKind)
    | Array(size: int, elem: Type)
    | Function(params: seq<Type>, ret: Type)
  {
    predicate IsInt() {
      this == Atom(Int)
    }

    predicate IsLog() {
      this == Atom(Log)
    }

    predicate IsStr() {
      this == Atom(Str)
    }

    predicate IsVoid() {
      this == Atom(Void)
    }

    predicate IsArray() {
      Array?
    }
  }
}

=== FILE: tokens.dfy ===
/** Lexical symbols (`compiler.lexer.TokenType` and `Symbol`). */
module Tokens {

  /** `TokenType`, in declaration order. */
  datatype TokenType =
    | EOF
    | KW_ARR | KW_ELSE | KW_FOR | KW_FUN | KW_IF | KW_THEN | KW_TYP | KW_VAR | KW_WHERE | KW_WHILE
    | AT_LOGICAL | AT_INTEGER | AT_STRING
    | C_LOGICAL | C_INTEGER | C_STRING
    | IDENTIFIER
    | OP_ADD | OP_SUB | OP_MUL | OP_DIV | OP_MOD | OP_AND | OP_OR | OP_NOT
    | OP_EQ | OP_NEQ | OP_LT | OP_GT | OP_LEQ | OP_GEQ
    | OP_LPARENT | OP_RPARENT | OP_LBRACKET | OP_RBRACKET | OP_LBRACE | OP_RBRACE
    | OP_COLON | OP_SEMICOLON | OP_DOT | OP_COMMA | OP_ASSIGN

  /** `TokenType.toString()`: the name of the constant. */
  function Name(t: TokenType): string {
    match t
    case EOF => "EOF"
    case KW_ARR => "KW_ARR"
    case KW_ELSE => "KW_ELSE"
    case KW_FOR => "KW_FOR"
    case KW_FUN => "KW_FUN"
    case KW_IF => "KW_IF"
    case KW_THEN => "KW_THEN"
    case KW_TYP => "KW_TYP"
    case KW_VAR => "KW_VAR"
    case KW_WHERE => "KW_WHERE"
    case KW_WHILE => "KW_WHILE"
    case AT_LOGICAL => "AT_LOGICAL"
    case AT_INTEGER => "AT_INTEGER"
    case AT_STRING => "AT_STRING"
    case C_LOGICAL => "C_LOGICAL"
    case C_INTEGER => "C_INTEGER"
    case C_STRING => "C_STRING"
    case IDENTIFIER => "IDENTIFIER"
    case OP_ADD => "OP_ADD"
    case OP_SUB => "OP_SUB"
    case OP_MUL => "OP_MUL"
    case OP_DIV => "OP_DIV"
    case OP_MOD => "OP_MOD"
    case OP_AND => "OP_AND"
    case OP_OR => "OP_OR"
    case OP_NOT => "OP_NOT"
    case OP_EQ => "OP_EQ"
    case OP_NEQ => "OP_NEQ"
    case OP_LT => "OP_LT"
    case OP_GT => "OP_GT"
    case OP_LEQ => "OP_LEQ"
    case OP_GEQ => "OP_GEQ"
    case OP_LPARENT => "OP_LPARENT"
    case OP_RPARENT => "OP_RPARENT"
    case OP_LBRACKET => "OP_LBRACKET"
    case OP_RBRACKET => "OP_RBRACKET"
    case OP_LBRACE => "OP_LBRACE"
    case OP_RBRACE => "OP_RBRACE"
    case OP_COLON => "OP_COLON"
    case OP_SEMICOLON => "OP_SEMICOLON"
    case OP_DOT => "OP_DOT"
    case OP_COMMA => "OP_COMMA"
    case OP_ASSIGN => "OP_ASSIGN"
  }

  /** A source span: first line and column, last line and column. */
  datatype Position = Position(startLine: int, startColumn: int, endLine: int, endColumn: int)

  /** `Symbol`: a token, its text and where it was found. */
  datatype Symbol = Symbol(pos: Position, token: TokenType, lexeme: string)
}

=== FILE: type_checker.dfy ===
/** `TypeChecker`: the visitor as an object that fills its `types` side
    table and its `visited` set as it walks the tree, reading the name
    checker's `definitions` table. Each `Visit` method is proved to do what
    the corresponding function of `TypeChecking` describes: it succeeds
    exactly when that function does, and then leaves the state that function
    computes. */
module TypeCheckerClass {
  import opened Wrappers
  import opened Ast
  import opened SemTypes
  import opened Constants
  import opened TypeChecking
  import opened TypeCheckingProperties

  class TypeChecker {
    const definitions: map<NodeId, Decl>
    var types: map<NodeId, Type>
    var visited: set<Def>

    function State(): TState
      reads this
    {
      TState(types, visited)
    }

    /** The visit succeeded exactly when `r` did, and left its state. */
    predicate Follows(r: Result<TState>, ok: bool)
      reads this
    {
      ok == r.Ok? && (ok ==> State() == r.value)
    }

    constructor (definitions: map<NodeId, Decl>)
      ensures this.definitions == definitions && State() == Start
    {
      this.definitions := definitions;
      types := map[];
      visited := {};
    }

    /** `types.store`. */
    method Store(id: NodeId, t: Type)
      modifies this
      ensures State() == Record(old(State()), id, Some(t))
    {
      types := types[id := t];
    }

    // -------------------------------------------------------------------
    // Expressions
    // -------------------------------------------------------------------

    method VisitExpr(e: Expr) returns (ok: bool)
      modifies this
      ensures Follows(CheckExpr(definitions, old(State()), e), ok)
      decreases e, 2
    {
      if e.Call? {
        ok := VisitCall(e);
        return;
      }
      ok := VisitOperands(e);
      if !ok { return; }
      var t := ExprType(definitions, types, e);
      if t.Err? {
        return false;
      }
      if t.value.Some? {
        Store(e.id, t.value.value);
      }
    }

    /** The children of a node other than a call. */
    method VisitOperands(e: Expr) returns (ok: bool)
      requires !e.Call?
      modifies this
      ensures Follows(VisitChildren(definitions, old(State()), e), ok)
      decreases e, 1
    {
      match e
      case Binary(_, left, _, right) =>
        ok := VisitExpr(left);
        if !ok { return; }
        ok := VisitExpr(right);
      case Block(_, es) =>
        ok := VisitExprs(es);
      case For(_, counter, low, high, step, body) =>
        ok := VisitExpr(counter);
        if !ok { return; }
        ok := VisitExpr(low);
        if !ok { return; }
        ok := VisitExpr(high);
        if !ok { return; }
        ok := VisitExpr(step);
        if !ok { return; }
        ok := VisitExpr(body);
      case IfThenElse(_, cond, thenE, elseE) =>
        ok := VisitExpr(cond);
        if !ok { return; }
        ok := VisitExpr(thenE);
        if !ok { return; }
        if elseE.Some? {
          ok := VisitExpr(elseE.value);
        }
      case Literal(_, _, _) =>
        ok := true;
      case Name(_, _) =>
        ok := true;
      case Unary(_, operand, _) =>
        ok := VisitExpr(operand);
      case While(_, cond, body) =>
        ok := VisitExpr(cond);
        if !ok { return; }
        ok := VisitExpr(body);
      case Where(_, expr, defs) =>
        ok := VisitDefs(defs);
        if !ok { return; }
        ok := VisitExpr(expr);
    }

    /** `visit(Call)`: the standard-library checks, then the part every
        call goes through. */
    method VisitCall(e: Expr) returns (ok: bool)
      requires e.Call?
      modifies this
      ensures Follows(CheckCall(definitions, old(State()), e), ok)
      decreases e, 1
    {
      if e.name in StdLib {
        ok := VisitExprs(e.args);
        if !ok { return; }
        if e.id !in definitions {
          return true;
        }
        if e.args == [] {
          return false;
        }
        if e.args[0].id !in types {
          return true;
        }
        if !IsFunDef(definitions[e.id]) {
          return false;
        }
        var t := StdlibRule(types, e.args, e.name);
        if t.Err? {
          return false;
        }
        Store(e.id, t.value);
      }
      ok := VisitUserCall(e);
    }

    /** The arguments, then the comparison of their types with the
        parameters' types, then the return type. */
    method VisitUserCall(e: Expr) returns (ok: bool)
      requires e.Call?
      modifies this
      ensures Follows(UserCall(definitions, old(State()), e), ok)
      decreases e, 0
    {
      ok := VisitExprs(e.args);
      if !ok { return; }
      if e.id !in definitions {
        return true;
      }
      if !IsFunDef(definitions[e.id]) {
        return false;
      }
      var f := definitions[e.id].def;
      if f.id !in types && e.name != f.name {
        return true;
      }
      if |e.args| != |f.params| {
        return false;
      }
      for i := 0 to |e.args|
        invariant ArgsRule(types, e.args, f.params, 0) == ArgsRule(types, e.args, f.params, i)
      {
        if e.args[i].id !in types || f.params[i].id !in types {
          return true;
        }
        if types[e.args[i].id] != types[f.params[i].id] {
          return false;
        }
      }
      if f.ty.id in types {
        Store(e.id, types[f.ty.id]);
      }
      ok := true;
    }

    /** The loop over a block's expressions or a call's arguments. */
    method VisitExprs(es: seq<Expr>) returns (ok: bool)
      modifies this
      ensures Follows(CheckExprs(definitions, old(State()), es), ok)
      decreases es, 0
    {
      ghost var s0 := State();
      for i := 0 to |es|
        invariant CheckExprs(definitions, s0, es[..i]) == Ok(State())
      {
        ok := VisitExpr(es[i]);
        assert es[..i + 1][..i] == es[..i];
        if !ok {
          ExprsPrefixFails(definitions, s0, es, i + 1);
          return;
        }
      }
      assert es[..|es|] == es;
      ok := true;
    }

    // -------------------------------------------------------------------
    // Definitions
    // -------------------------------------------------------------------

    /** `visit(Defs)`: two passes over the definitions. */
    method VisitDefs(defs: seq<Def>) returns (ok: bool)
      modifies this
      ensures Follows(CheckDefs(definitions, old(State()), defs), ok)
      decreases defs, 1
    {
      ok := Pass(defs);
      if !ok { return; }
      ok := Pass(defs);
    }

    /** One pass over a list of definitions. */
    method Pass(defs: seq<Def>) returns (ok: bool)
      modifies this
      ensures Follows(TypeChecking.VisitDefs(definitions, old(State()), defs), ok)
      decreases defs, 0
    {
      ghost var s0 := State();
      for i := 0 to |defs|
        invariant TypeChecking.VisitDefs(definitions, s0, defs[..i]) == Ok(State())
      {
        ok := VisitDef(defs[i]);
        assert defs[..i + 1][..i] == defs[..i];
        if !ok {
          PassPrefixFails(definitions, s0, defs, i + 1);
          return;
        }
      }
      assert defs[..|defs|] == defs;
      ok := true;
    }

    method VisitDef(d: Def) returns (ok: bool)
      modifies this
      ensures Follows(CheckDef(definitions, old(State()), d), ok)
      decreases d, 1
    {
      match d
      case TypeDef(_, _, _) =>
        ok := VisitTypeDef(d);
      case VarDef(id, _, ty) =>
        ok := VisitType(ty);
        if !ok { return; }
        if ty.id !in types {
          return false;
        }
        Store(id, types[ty.id]);
      case FunDef(_, _, _, _, _) =>
        ok := VisitFunDef(d);
    }

    /** `visit(FunDef)`: the result type, the parameter types and the
        parameters; then the body and the function's type. */
    method VisitFunDef(d: Def) returns (ok: bool)
      requires d.FunDef?
      modifies this
      ensures Follows(CheckFunDef(definitions, old(State()), d), ok)
      decreases d, 0
    {
      ok := VisitType(d.ty);
      if !ok { return; }
      ok := VisitParamTypes(d.params);
      if !ok { return; }
      ok := VisitParameters(d.params);
      if !ok { return; }
      if d.ty.id !in types {
        return true;
      }
      ok := VisitExpr(d.body);
      if !ok { return; }
      if d.body.id !in types {
        return true;
      }
      var ret := types[d.ty.id];
      if types[d.body.id] != ret {
        return false;
      }
      var ps := ParameterTypes(d.params);
      if ps.None? {
        return false;
      }
      Store(d.id, Function(ps.value, ret));
    }

    /** The first loop of `visit(FunDef)`: the parameter types. */
    method VisitParamTypes(params: seq<Param>) returns (ok: bool)
      modifies this
      ensures Follows(CheckParamTypes(definitions, old(State()), params), ok)
    {
      ghost var s0 := State();
      for i := 0 to |params|
        invariant CheckParamTypes(definitions, s0, params[..i]) == Ok(State())
      {
        ok := VisitType(params[i].ty);
        assert params[..i + 1][..i] == params[..i];
        if !ok {
          ParamTypesPrefixFails(definitions, s0, params, i + 1);
          return;
        }
      }
      assert params[..|params|] == params;
      ok := true;
    }

    /** The second loop of `visit(FunDef)`: the parameters. */
    method VisitParameters(params: seq<Param>) returns (ok: bool)
      modifies this
      ensures Follows(VisitParams(definitions, old(State()), params), ok)
    {
      ghost var s0 := State();
      for i := 0 to |params|
        invariant VisitParams(definitions, s0, params[..i]) == Ok(State())
      {
        ok := VisitParameter(params[i]);
        assert params[..i + 1][..i] == params[..i];
        if !ok {
          ParamsPrefixFails(definitions, s0, params, i + 1);
          return;
        }
      }
      assert params[..|params|] == params;
      ok := true;
    }

    /** The loop that collects the parameter types of a function. */
    method ParameterTypes(params: seq<Param>) returns (ps: Option<seq<Type>>)
      ensures ps.Some? <==> ParamTypeList(types, params).Ok?
      ensures ps.Some? ==> ps.value == ParamTypeList(types, params).value
    {
      ParamTypeListSpec(types, params);
      var acc: seq<Type> := [];
      for i := 0 to |params|
        invariant |acc| == i
        invariant forall j :: 0 <= j < i ==> params[j].ty.id in types && acc[j] == types[params[j].ty.id]
      {
        if params[i].ty.id !in types {
          return None;
        }
        acc := acc + [types[params[i].ty.id]];
      }
      assert acc == ParamTypeList(types, params).value;
      ps := Some(acc);
    }

    /** `visit(Parameter)`. */
    method VisitParameter(p: Param) returns (ok: bool)
      modifies this
      ensures Follows(VisitParam(definitions, old(State()), p), ok)
    {
      ok := VisitType(p.ty);
      if !ok { return; }
      if p.ty.id !in types {
        return false;
      }
      Store(p.id, types[p.ty.id]);
    }

    // -------------------------------------------------------------------
    // Types
    // -------------------------------------------------------------------

    method VisitType(t: TypeAst) returns (ok: bool)
      modifies this
      ensures Follows(CheckType(definitions, old(State()), t), ok)
      decreases |Unvisited(definitions, State())|, t
    {
      match t
      case AtomType(id, kind) =>
        Store(id, KindOf(kind));
        ok := true;
      case ArrayType(id, size, elem) =>
        ok := VisitType(elem);
        if !ok { return; }
        if elem.id !in types {
          return false;
        }
        Store(id, Array(size, types[elem.id]));
      case TypeName(id, name) =>
        if id !in definitions {
          return false;
        }
        if !(definitions[id].DefDecl? && definitions[id].def.TypeDef?) {
          return false;
        }
        var d := definitions[id].def;
        if d.ty.id !in types {
          if d in visited {
            return false;
          }
          UnvisitedShrinks(definitions, State(), id);
          visited := visited + {d};
          ok := VisitTypeDef(d);
          if !ok { return; }
        }
        if d.ty.id !in types {
          return false;
        }
        Store(id, types[d.ty.id]);
        ok := true;
    }

    /** `visit(TypeDef)`: the definition keeps the first type it gets. */
    method VisitTypeDef(d: Def) returns (ok: bool)
      requires d.TypeDef?
      modifies this
      ensures Follows(CheckTypeDef(definitions, old(State()), d), ok)
      decreases |Unvisited(definitions, State())|, d
    {
      ok := VisitType(d.ty);
      if !ok { return; }
      if d.ty.id !in types {
        return false;
      }
      if d.id !in types {
        Store(d.id, types[d.ty.id]);
      }
    }
  }
}

=== FILE: type_checking.dfy ===
/** What `TypeChecker` computes, as functions over an explicit state: the
    `types` side table, which gives a semantic type to expression, type and
    definition nodes, and the `visited` set of type definitions entered
    through a type name. The name checker's `definitions` table is read-only
    input.

    Every expression visit first visits the children and then applies a
    typing rule to the children's types (`ExprType`, `BinaryRule`, ...): the
    rule fails, gives the node a type, or gives none when a type it needs is
    missing, in which case the Java visitor returns without recording one.
    `Report.error` and the exceptions of `Optional.get` and `List.get` abort
    the compiler, so they are errors here. */
module TypeChecking {
  import opened Wrappers
  import opened Ast
  import opened SemTypes
  import opened Constants

  /** `types` and `visited`. A definition is identified by its value. */
  datatype TState = TState(types: map<NodeId, Type>, visited: set<Def>)

  /** The state a `TypeChecker` starts with. */
  const Start: TState := TState(map[], {})

  /** The semantic type of an atomic type or literal kind. */
  function KindOf(k: Ast.AtomKind): Type {
    match k
    case INT => Atom(Int)
    case LOG => Atom(Log)
    case STR => Atom(Str)
  }

  function Get(types: map<NodeId, Type>, id: NodeId): (r: Option<Type>)
    ensures r.Some? <==> id in types
  {
    if id in types then Some(types[id]) else None
  }

  /** `types.store`, when there is a type to store. */
  function Record(s: TState, id: NodeId, t: Option<Type>): TState {
    if t.Some? then s.(types := s.types[id := t.value]) else s
  }

  /** Types and visited definitions are only ever added. */
  predicate Grows(s: TState, t: TState) {
    s.types.Keys <= t.types.Keys && s.visited <= t.visited
  }

  predicate IsFunDef(d: Decl) {
    d.DefDecl? && d.def.FunDef?
  }

  // ---------------------------------------------------------------------
  // The typing rules of expressions
  // ---------------------------------------------------------------------

  predicate Arithmetic(op: BinOp) {
    op == ADD || op == SUB || op == MUL || op == DIV || op == MOD
  }

  predicate Comparison(op: BinOp) {
    op == EQ || op == NEQ || op == LT || op == GT || op == LEQ || op == GEQ
  }

  /** `visit(Binary)` once both operands have a type. */
  function BinaryRule(op: BinOp, t1: Type, t2: Type): (r: Result<Type>)
    // which operand types each operator group accepts
    ensures r.Ok? <==>
      if op == ASSIGN then t1 == t2
      else if op == AND || op == OR then t1 == Atom(Log) && t2 == Atom(Log)
      else if Arithmetic(op) then t1 == Atom(Int) && t2 == Atom(Int)
      else if Comparison(op) then t1 == t2 && (t1 == Atom(Int) || t1 == Atom(Log))
      else t1.Array? && t2 == Atom(Int)
    // and the type of an accepted node
    ensures r.Ok? ==>
      r.value == if op == ASSIGN then t1
        else if op == AND || op == OR || Comparison(op) then Atom(Log)
        else if Arithmetic(op) then Atom(Int)
        else t1.elem
  {
    if op == ASSIGN then
      if t1 != t2 then Err("both sides of an assignment must have the same type") else Ok(t1)
    else if op == AND || op == OR then
      if !(t1.IsLog() && t2.IsLog()) then Err("logical operands expected") else Ok(Atom(Log))
    else if Arithmetic(op) then
      if !t1.IsInt() || !t2.IsInt() then Err("integer operands expected") else Ok(Atom(Int))
    else if Comparison(op) then
      if t1 != t2 then Err("both sides of a comparison must have the same type")
      else if !(t1.IsInt() || t1.IsLog()) || !(t2.IsInt() || t2.IsLog()) then
        Err("integer or logical operands expected")
      else Ok(Atom(Log))
    else
      if !t1.IsArray() then Err("an array expected")
      else if !t2.IsInt() then Err("an integer index expected")
      else Ok(t1.elem)
  }

  /** `visit(Unary)` once the operand has a type. */
  function UnaryRule(op: UnOp, t: Type): (r: Result<Type>)
    ensures r.Ok? <==> t == (if op == Not then Atom(Log) else Atom(Int))
    ensures r.Ok? ==> r.value == t
  {
    if op == Not then
      if !t.IsLog() then Err("a logical operand expected") else Ok(Atom(Log))
    else
      if !t.IsInt() then Err("an integer operand expected") else Ok(Atom(Int))
  }

  /** The condition of `if` and `while`. */
  function ConditionRule(types: map<NodeId, Type>, cond: Expr): (r: Result<Option<Type>>)
    ensures r == Ok(Some(Atom(Void))) <==> cond.id in types && types[cond.id] == Atom(Log)
    ensures r.Err? <==> cond.id in types && types[cond.id] != Atom(Log)
    ensures r == Ok(None) <==> cond.id !in types
  {
    if cond.id !in types then Ok(None)
    else if !types[cond.id].IsLog() then Err("a logical condition expected")
    else Ok(Some(Atom(Void)))
  }

  /** The loop of `visit(For)` over the counter, the bounds and the step:
      the first one without a type ends the visit. */
  function ForRule(types: map<NodeId, Type>, nodes: seq<Expr>): (r: Result<Option<Type>>)
    ensures r.Ok? && r.value.Some? ==> r.value.value == Atom(Void)
    ensures r.Ok? && r.value.Some? ==> forall i :: 0 <= i < |nodes| ==> nodes[i].id in types
  {
    if nodes == [] then Ok(Some(Atom(Void)))
    else if nodes[0].id !in types then Ok(None)
    else if !types[nodes[0].id].IsInt() then Err("an integer expected in a for loop")
    else ForRule(types, nodes[1..])
  }

  /** The type a node other than a call gets once its children have been
      visited, or `None` when the visitor returns without storing one. */
  function ExprType(definitions: map<NodeId, Decl>, types: map<NodeId, Type>, e: Expr): (r: Result<Option<Type>>)
    requires !e.Call?
    // an operator node gets no type exactly when an operand has none, and
    // otherwise the type its rule gives
    ensures e.Binary? ==> (r == Ok(None) <==> e.left.id !in types || e.right.id !in types)
    ensures e.Binary? && r.Ok? && r.value.Some? ==>
      BinaryRule(e.op, types[e.left.id], types[e.right.id]) == Ok(r.value.value)
    ensures e.Unary? ==> (r == Ok(None) <==> e.operand.id !in types)
    ensures e.Unary? && r.Ok? && r.value.Some? ==> UnaryRule(e.uop, types[e.operand.id]) == Ok(r.value.value)
    // a block has the type of its last expression, if that has one
    ensures e.Block? ==> (r.Err? <==> e.exprs == [])
    ensures e.Block? && e.exprs != [] ==>
      (r.value.Some? <==> e.exprs[|e.exprs| - 1].id in types) &&
      (r.value.Some? ==> r.value.value == types[e.exprs[|e.exprs| - 1].id])
    // a name must be defined; a variable or parameter has its type node's type
    ensures e.Name? ==> (r.Err? <==> e.id !in definitions)
    ensures e.Name? && r.Ok? && r.value.Some? ==>
      var decl := definitions[e.id];
      (decl.DefDecl? && decl.def.VarDef? && decl.def.ty.id in types && r.value.value == types[decl.def.ty.id]) ||
      (decl.ParamDecl? && decl.param.ty.id in types && r.value.value == types[decl.param.ty.id])
    // `where` has the type of its expression
    ensures e.Where? ==>
      r.Ok? && (r.value.Some? <==> e.expr.id in types) && (r.value.Some? ==> r.value.value == types[e.expr.id])
  {
    match e
    case Binary(_, left, op, right) =>
      if left.id !in types || right.id !in types then Ok(None)
      else
        var t :- BinaryRule(op, types[left.id], types[right.id]);
        Ok(Some(t))
    case Block(_, es) =>
      if es == [] then Err("no last expression") else Ok(Get(types, es[|es| - 1].id))
    case For(_, counter, low, high, step, _) =>
      ForRule(types, [counter, low, high, step])
    case IfThenElse(_, cond, _, _) =>
      ConditionRule(types, cond)
    case Literal(_, _, kind) =>
      Ok(Some(KindOf(kind)))
    case Name(id, name) =>
      if id !in definitions then Err("name " + name + " is not defined")
      else
        match definitions[id] {
          case DefDecl(VarDef(_, _, ty)) => Ok(Get(types, ty.id))
          case ParamDecl(p) => Ok(Get(types, p.ty.id))
          case _ => Ok(None)
        }
    case Unary(_, operand, op) =>
      if operand.id !in types then Ok(None)
      else
        var t :- UnaryRule(op, types[operand.id]);
        Ok(Some(t))
    case While(_, cond, _) =>
      ConditionRule(types, cond)
    case Where(_, expr, _) =>
      Ok(Get(types, expr.id))
  }

  /** The checks of `visit(Call)` on a standard-library call whose first
      argument has a type; that type becomes the call's. */
  function StdlibRule(types: map<NodeId, Type>, args: seq<Expr>, name: string): (r: Result<Type>)
    requires |args| > 0 && args[0].id in types
    ensures name in StdLib ==> (r.Ok? <==>
      |args| == |StdlibSignature(name)| &&
      forall i :: 0 <= i < |args| ==> args[i].id in types && types[args[i].id] == StdlibSignature(name)[i])
    ensures r.Ok? ==> r.value == types[args[0].id]
  {
    var t := types[args[0].id];
    if name == PrintIntLabel then
      if |args| != 1 then Err("print_int takes one argument")
      else if !t.IsInt() then Err("print_int takes an integer") else Ok(t)
    else if name == PrintStrLabel then
      if |args| != 1 then Err("print_str takes one argument")
      else if !t.IsStr() then Err("print_str takes a string") else Ok(t)
    else if name == PrintLogLabel then
      if |args| != 1 then Err("print_log takes one argument")
      else if !t.IsLog() then Err("print_log takes a logical value") else Ok(t)
    else if name == RandIntLabel then
      if |args| != 2 then Err("rand_int takes two arguments")
      else if args[1].id !in types then Err("no type for the second argument")
      else if !t.IsInt() || !types[args[1].id].IsInt() then Err("rand_int takes integers")
      else Ok(t)
    else if name == SeedLabel then
      if |args| != 1 then Err("seed takes one argument")
      else if !t.IsInt() then Err("seed takes an integer") else Ok(t)
    else Ok(t)
  }

  /** The parameter types the checker demands of each standard-library
      function. */
  function StdlibSignature(name: string): (sig: seq<Type>)
    requires name in StdLib
    ensures |sig| > 0
  {
    if name == PrintIntLabel then [Atom(Int)]
    else if name == PrintStrLabel then [Atom(Str)]
    else if name == PrintLogLabel then [Atom(Log)]
    else if name == RandIntLabel then [Atom(Int), Atom(Int)]
    else [Atom(Int)]
  }

  /** The loop of `visit(Call)` over the arguments from index `i`: `true`
      when every pair was typed and matched, `false` when a missing type
      ended the visit. */
  function ArgsRule(types: map<NodeId, Type>, args: seq<Expr>, params: seq<Param>, i: nat): (r: Result<bool>)
    requires |args| == |params| && i <= |args|
    ensures r == Ok(true) ==> forall j :: i <= j < |args| ==>
      args[j].id in types && params[j].id in types && types[args[j].id] == types[params[j].id]
    decreases |args| - i
  {
    if i == |args| then Ok(true)
    else if args[i].id !in types || params[i].id !in types then Ok(false)
    else if types[args[i].id] != types[params[i].id] then Err("argument type does not match the parameter type")
    else ArgsRule(types, args, params, i + 1)
  }

  /** The call of a function `f` once the arguments have been visited. */
  function CallRule(types: map<NodeId, Type>, args: seq<Expr>, f: Def): (r: Result<Option<Type>>)
    requires f.FunDef?
    ensures |args| != |f.params| ==> r.Err?
    ensures r.Ok? && r.value.Some? ==> f.ty.id in types && r.value.value == types[f.ty.id]
    ensures r.Ok? && |args| > 0 && f.params[0].id !in types ==> r == Ok(None)
  {
    if |args| != |f.params| then Err("wrong number of arguments")
    else
      var complete :- ArgsRule(types, args, f.params, 0);
      if !complete then Ok(None) else Ok(Get(types, f.ty.id))
  }

  /** The type of a function once its body has been visited. */
  function FunDefType(types: map<NodeId, Type>, d: Def): (r: Result<Option<Type>>)
    requires d.FunDef?
    ensures r == Ok(None) <==> d.body.id !in types
    ensures d.body.id in types && d.ty.id in types && types[d.body.id] != types[d.ty.id] ==> r.Err?
    ensures r.Ok? && r.value.Some? ==>
      d.ty.id in types && types[d.body.id] == types[d.ty.id] &&
      r.value.value.Function? && r.value.value.ret == types[d.ty.id] && |r.value.value.params| == |d.params|
  {
    if d.body.id !in types then Ok(None)
    else if d.ty.id !in types then Err("no return type")
    else if types[d.body.id] != types[d.ty.id] then Err("the body's type does not match the return type")
    else
      var ps :- ParamTypeList(types, d.params);
      Ok(Some(Function(ps, types[d.ty.id])))
  }

  /** The types of the parameters, in order. */
  function ParamTypeList(types: map<NodeId, Type>, params: seq<Param>): (r: Result<seq<Type>>)
    ensures r.Ok? ==> |r.value| == |params|
    ensures r.Ok? && params != [] ==> params[0].ty.id in types && r.value[0] == types[params[0].ty.id]
  {
    if params == [] then Ok([])
    else if params[0].ty.id !in types then Err("no type for a parameter")
    else
      var rest :- ParamTypeList(types, params[1..]);
      Ok([types[params[0].ty.id]] + rest)
  }

  // ---------------------------------------------------------------------
  // The visitor over expressions and definitions
  // ---------------------------------------------------------------------

  function CheckExpr(definitions: map<NodeId, Decl>, s: TState, e: Expr): (r: Result<TState>)
    ensures r.Ok? ==> Grows(s, r.value)
    decreases e, 2
  {
    if e.Call? then CheckCall(definitions, s, e)
    else
      var s1 :- VisitChildren(definitions, s, e);
      var t :- ExprType(definitions, s1.types, e);
      Ok(Record(s1, e.id, t))
  }

  /** The children of a node other than a call, in the order the visitor
      takes them. */
  function VisitChildren(definitions: map<NodeId, Decl>, s: TState, e: Expr): (r: Result<TState>)
    ensures r.Ok? ==> Grows(s, r.value)
    requires !e.Call?
    decreases e, 1
  {
    match e
    case Binary(_, left, _, right) =>
      var s1 :- CheckExpr(definitions, s, left);
      CheckExpr(definitions, s1, right)
    case Block(_, es) =>
      CheckExprs(definitions, s, es)
    case For(_, counter, low, high, step, body) =>
      var s1 :- CheckExpr(definitions, s, counter);
      var s2 :- CheckExpr(definitions, s1, low);
      var s3 :- CheckExpr(definitions, s2, high);
      var s4 :- CheckExpr(definitions, s3, step);
      CheckExpr(definitions, s4, body)
    case IfThenElse(_, cond, thenE, elseE) =>
      var s1 :- CheckExpr(definitions, s, cond);
      var s2 :- CheckExpr(definitions, s1, thenE);
      if elseE.Some? then CheckExpr(definitions, s2, elseE.value) else Ok(s2)
    case Literal(_, _, _) =>
      Ok(s)
    case Name(_, _) =>
      Ok(s)
    case Unary(_, operand, _) =>
      CheckExpr(definitions, s, operand)
    case While(_, cond, body) =>
      var s1 :- CheckExpr(definitions, s, cond);
      CheckExpr(definitions, s1, body)
    case Where(_, expr, defs) =>
      var s1 :- CheckDefs(definitions, s, defs);
      CheckExpr(definitions, s1, expr)
  }

  /** `visit(Call)`. A standard-library call is checked against its
      signature and given its first argument's type; the visit then goes on
      as for any call, visiting the arguments again. A call returns early
      when it has no definition or a type it needs is missing. */
  function CheckCall(definitions: map<NodeId, Decl>, s: TState, e: Expr): (r: Result<TState>)
    ensures r.Ok? ==> Grows(s, r.value)
    requires e.Call?
    decreases e, 1
  {
    if e.name in StdLib then
      var s1 :- CheckExprs(definitions, s, e.args);
      if e.id !in definitions then Ok(s1)
      else if e.args == [] then Err("no first argument")
      else if e.args[0].id !in s1.types then Ok(s1)
      else if !IsFunDef(definitions[e.id]) then Err(e.name + " is not a function")
      else
        var t :- StdlibRule(s1.types, e.args, e.name);
        UserCall(definitions, Record(s1, e.id, Some(t)), e)
    else UserCall(definitions, s, e)
  }

  /** The part of `visit(Call)` that every call goes through. The early
      return for a function without a type also asks that the call's name
      differ from the function's. A bound call always carries the name of
      the definition it is bound to, so that return never happens, in the
      Java code as here. */
  function UserCall(definitions: map<NodeId, Decl>, s: TState, e: Expr): (r: Result<TState>)
    ensures r.Ok? ==> Grows(s, r.value)
    requires e.Call?
    decreases e, 0
  {
    var s1 :- CheckExprs(definitions, s, e.args);
    if e.id !in definitions then Ok(s1)
    else if !IsFunDef(definitions[e.id]) then Err(e.name + " is not a function")
    else
      var f := definitions[e.id].def;
      if f.id !in s1.types && e.name != f.name then Ok(s1)
      else
        var t :- CallRule(s1.types, e.args, f);
        Ok(Record(s1, e.id, t))
  }

  /** The loops over a block's expressions and a call's arguments. */
  function CheckExprs(definitions: map<NodeId, Decl>, s: TState, es: seq<Expr>): (r: Result<TState>)
    ensures r.Ok? ==> Grows(s, r.value)
    decreases es, 0
  {
    if es == [] then Ok(s)
    else
      var s1 :- CheckExprs(definitions, s, es[..|es| - 1]);
      CheckExpr(definitions, s1, es[|es| - 1])
  }

  /** `visit(Defs)`: every definition is visited twice, so that the second
      pass sees the types the first pass found for later definitions. */
  function CheckDefs(definitions: map<NodeId, Decl>, s: TState, defs: seq<Def>): (r: Result<TState>)
    ensures r.Ok? ==> Grows(s, r.value)
    decreases defs, 1
  {
    var s1 :- VisitDefs(definitions, s, defs);
    VisitDefs(definitions, s1, defs)
  }

  /** One pass over a list of definitions. */
  function VisitDefs(definitions: map<NodeId, Decl>, s: TState, defs: seq<Def>): (r: Result<TState>)
    ensures r.Ok? ==> Grows(s, r.value)
    decreases defs, 0
  {
    if defs == [] then Ok(s)
    else
      var s1 :- VisitDefs(definitions, s, defs[..|defs| - 1]);
      CheckDef(definitions, s1, defs[|defs| - 1])
  }

  function CheckDef(definitions: map<NodeId, Decl>, s: TState, d: Def): (r: Result<TState>)
    ensures r.Ok? ==> Grows(s, r.value)
    ensures r.Ok? && !d.FunDef? ==> d.id in r.value.types
    decreases d, 1
  {
    match d
    case TypeDef(_, _, _) => CheckTypeDef(definitions, s, d)
    case VarDef(id, _, ty) =>
      var s1 :- CheckType(definitions, s, ty);
      if ty.id !in s1.types then Err("the type of a variable does not exist")
      else Ok(Record(s1, id, Some(s1.types[ty.id])))
    case FunDef(_, _, _, _, _) => CheckFunDef(definitions, s, d)
  }

  /** `visit(FunDef)`: the result type, the parameter types, the
      parameters; without a result type the visit ends there. Then the body,
      and the function type once the body has a type. */
  function CheckFunDef(definitions: map<NodeId, Decl>, s: TState, d: Def): (r: Result<TState>)
    ensures r.Ok? ==> Grows(s, r.value)
    requires d.FunDef?
    decreases d, 0
  {
    var s1 :- CheckType(definitions, s, d.ty);
    var s2 :- CheckParamTypes(definitions, s1, d.params);
    var s3 :- VisitParams(definitions, s2, d.params);
    if d.ty.id !in s3.types then Ok(s3)
    else
      var s4 :- CheckExpr(definitions, s3, d.body);
      var t :- FunDefType(s4.types, d);
      Ok(Record(s4, d.id, t))
  }

  /** The first loop of `visit(FunDef)`: the parameter types. */
  function CheckParamTypes(definitions: map<NodeId, Decl>, s: TState, params: seq<Param>): (r: Result<TState>)
    ensures r.Ok? ==> Grows(s, r.value)
  {
    if params == [] then Ok(s)
    else
      var s1 :- CheckParamTypes(definitions, s, params[..|params| - 1]);
      CheckType(definitions, s1, params[|params| - 1].ty)
  }

  /** The second loop of `visit(FunDef)`: `visit(Parameter)` on each. */
  function VisitParams(definitions: map<NodeId, Decl>, s: TState, params: seq<Param>): (r: Result<TState>)
    ensures r.Ok? ==> Grows(s, r.value)
  {
    if params == [] then Ok(s)
    else
      var s1 :- VisitParams(definitions, s, params[..|params| - 1]);
      VisitParam(definitions, s1, params[|params| - 1])
  }

  /** `visit(Parameter)`: a parameter has the type of its type node. */
  function VisitParam(definitions: map<NodeId, Decl>, s: TState, p: Param): (r: Result<TState>)
    ensures r.Ok? ==> Grows(s, r.value)
    ensures r.Ok? ==> p.id in r.value.types
  {
    var s1 :- CheckType(definitions, s, p.ty);
    if p.ty.id !in s1.types then Err("the type of a parameter does not exist")
    else Ok(Record(s1, p.id, Some(s1.types[p.ty.id])))
  }

  // ---------------------------------------------------------------------
  // Types and type definitions
  // ---------------------------------------------------------------------

  /** The type definitions the name checker bound some node to. */
  function TypeDefsIn(definitions: map<NodeId, Decl>): set<Def> {
    set d | d in definitions.Values && d.DefDecl? && d.def.TypeDef? :: d.def
  }

  /** The type definitions not yet entered through a type name; their
      number bounds how deep type names can lead. */
  function Unvisited(definitions: map<NodeId, Decl>, s: TState): set<Def> {
    TypeDefsIn(definitions) - s.visited
  }

  lemma UnvisitedShrinks(definitions: map<NodeId, Decl>, s: TState, id: NodeId)
    requires id in definitions && definitions[id].DefDecl? && definitions[id].def.TypeDef?
    requires definitions[id].def !in s.visited
    ensures |Unvisited(definitions, s.(visited := s.visited + {definitions[id].def}))| < |Unvisited(definitions, s)|
  {
    var d := definitions[id].def;
    assert definitions[id] in definitions.Values;
    var after := Unvisited(definitions, s.(visited := s.visited + {d}));
    assert Unvisited(definitions, s) == after + {d};
  }

  /** `visit` on a type. A type name takes the type of its definition,
      visiting the definition first when it has no type yet; reaching the
      same definition again before it has one is a cycle. */
  function CheckType(definitions: map<NodeId, Decl>, s: TState, t: TypeAst): (r: Result<TState>)
    ensures r.Ok? ==> Grows(s, r.value)
    ensures r.Ok? ==> t.id in r.value.types
    decreases |Unvisited(definitions, s)|, t
  {
    match t
    case AtomType(id, kind) =>
      Ok(Record(s, id, Some(KindOf(kind))))
    case ArrayType(id, size, elem) =>
      var s1 :- CheckType(definitions, s, elem);
      if elem.id !in s1.types then Err("the element type does not exist")
      else Ok(Record(s1, id, Some(Array(size, s1.types[elem.id]))))
    case TypeName(id, name) =>
      if id !in definitions then Err("type name " + name + " does not exist")
      else if !(definitions[id].DefDecl? && definitions[id].def.TypeDef?) then Err(name + " is not a type")
      else
        var d := definitions[id].def;
        if d.ty.id in s.types then TakeType(s, id, d)
        else if d in s.visited then Err("cycle in the types")
        else
          UnvisitedShrinks(definitions, s, id);
          var s1 :- CheckTypeDef(definitions, s.(visited := s.visited + {d}), d);
          TakeType(s1, id, d)
  }

  /** A type name gets the type of its definition's type. */
  function TakeType(s: TState, id: NodeId, d: Def): (r: Result<TState>)
    ensures r.Ok? ==> Grows(s, r.value)
    ensures r.Ok? ==> id in r.value.types
    requires d.TypeDef?
  {
    if d.ty.id !in s.types then Err("type " + d.name + " has no type")
    else Ok(Record(s, id, Some(s.types[d.ty.id])))
  }

  /** `visit(TypeDef)`: the definition keeps the first type it gets. */
  function CheckTypeDef(definitions: map<NodeId, Decl>, s: TState, d: Def): (r: Result<TState>)
    ensures r.Ok? ==> Grows(s, r.value)
    ensures r.Ok? ==> d.ty.id in r.value.types && d.id in r.value.types
    requires d.TypeDef?
    decreases |Unvisited(definitions, s)|, d
  {
    var s1 :- CheckType(definitions, s, d.ty);
    if d.ty.id !in s1.types then Err("the type of a type definition does not exist")
    else if d.id in s1.types then Ok(s1)
    else Ok(Record(s1, d.id, Some(s1.types[d.ty.id])))
  }

  /** Type checking of a whole program. */
  function Check(definitions: map<NodeId, Decl>, program: seq<Def>): (r: Result<TState>)
    ensures r.Ok? ==> forall i :: 0 <= i < |program| && !program[i].FunDef? ==> program[i].id in r.value.types
  {
    DefsTyped(definitions, Start, program);
    CheckDefs(definitions, Start, program)
  }

  /** After both passes every type and variable definition of the list has
      a type. */
  lemma DefsTyped(definitions: map<NodeId, Decl>, s: TState, defs: seq<Def>)
    ensures var r := CheckDefs(definitions, s, defs);
      r.Ok? ==> forall i :: 0 <= i < |defs| && !defs[i].FunDef? ==> defs[i].id in r.value.types
  {
    var r1 := VisitDefs(definitions, s, defs);
    if r1.Ok? {
      PassTypesDefs(definitions, r1.value, defs);
    }
  }

  /** After a pass every type and variable definition of the list has a
      type. */
  lemma {:induction false} PassTypesDefs(definitions: map<NodeId, Decl>, s: TState, defs: seq<Def>)
    ensures var r := VisitDefs(definitions, s, defs);
      r.Ok? ==> forall i :: 0 <= i < |defs| && !defs[i].FunDef? ==> defs[i].id in r.value.types
    decreases |defs|
  {
    if defs != [] {
      var prefix := defs[..|defs| - 1];
      PassTypesDefs(definitions, s, prefix);
      assert forall i :: 0 <= i < |prefix| ==> prefix[i] == defs[i];
    }
  }
}

=== FILE: type_checking_properties.dfy ===
/** The typing rules of PINS as the type checker applies them, and what the
    checker guarantees about type names: a name takes its definition's
    type, and a definition that reaches itself through type names is
    rejected instead of being followed forever. */
module TypeCheckingProperties {
  import opened Wrappers
  import opened Ast
  import opened SemTypes
  import opened Constants
  import opened TypeChecking
  import NameResolution

  // ---------------------------------------------------------------------
  // An error aborts: a failing prefix fails the whole list
  // ---------------------------------------------------------------------

  lemma {:induction false} ExprsPrefixFails(definitions: map<NodeId, Decl>, s: TState, es: seq<Expr>, k: nat)
    requires k <= |es| && CheckExprs(definitions, s, es[..k]).Err?
    ensures CheckExprs(definitions, s, es).Err?
    decreases |es| - k
  {
    if k == |es| {
      assert es[..k] == es;
    } else {
      assert es[..k + 1][..k] == es[..k];
      ExprsPrefixFails(definitions, s, es, k + 1);
    }
  }

  lemma {:induction false} PassPrefixFails(definitions: map<NodeId, Decl>, s: TState, defs: seq<Def>, k: nat)
    requires k <= |defs| && VisitDefs(definitions, s, defs[..k]).Err?
    ensures VisitDefs(definitions, s, defs).Err?
    decreases |defs| - k
  {
    if k == |defs| {
      assert defs[..k] == defs;
    } else {
      assert defs[..k + 1][..k] == defs[..k];
      PassPrefixFails(definitions, s, defs, k + 1);
    }
  }

  lemma {:induction false} ParamTypesPrefixFails(definitions: map<NodeId, Decl>, s: TState, params: seq<Param>, k: nat)
    requires k <= |params| && CheckParamTypes(definitions, s, params[..k]).Err?
    ensures CheckParamTypes(definitions, s, params).Err?
    decreases |params| - k
  {
    if k == |params| {
      assert params[..k] == params;
    } else {
      assert params[..k + 1][..k] == params[..k];
      ParamTypesPrefixFails(definitions, s, params, k + 1);
    }
  }

  lemma {:induction false} ParamsPrefixFails(definitions: map<NodeId, Decl>, s: TState, params: seq<Param>, k: nat)
    requires k <= |params| && VisitParams(definitions, s, params[..k]).Err?
    ensures VisitParams(definitions, s, params).Err?
    decreases |params| - k
  {
    if k == |params| {
      assert params[..k] == params;
    } else {
      assert params[..k + 1][..k] == params[..k];
      ParamsPrefixFails(definitions, s, params, k + 1);
    }
  }

  // ---------------------------------------------------------------------
  // Atoms and arrays
  // ---------------------------------------------------------------------

  /** A literal has the atomic type its kind names, which is the type of
      the type keyword of that kind; no literal is `void`. */
  lemma LiteralsMatchAtomTypes(definitions: map<NodeId, Decl>, s: TState, id: NodeId, value: string, kind: Ast.AtomKind, tid: NodeId)
    ensures var r1 := CheckExpr(definitions, s, Literal(id, value, kind));
      var r2 := CheckType(definitions, s, AtomType(tid, kind));
      r1.Ok? && r2.Ok? && id in r1.value.types && tid in r2.value.types &&
      r1.value.types[id] == r2.value.types[tid] == KindOf(kind) &&
      KindOf(kind).Atom? && !KindOf(kind).IsVoid()
  {
    assert VisitChildren(definitions, s, Literal(id, value, kind)) == Ok(s);
  }

  /** `arr[n] t` has type `Array(n, t')`, `t'` being the type of `t`; it
      fails only when `t` does. */
  lemma ArrayTypeShape(definitions: map<NodeId, Decl>, s: TState, id: NodeId, size: int, elem: TypeAst)
    ensures var r := CheckType(definitions, s, ArrayType(id, size, elem));
      var e := CheckType(definitions, s, elem);
      (r.Ok? <==> e.Ok?) &&
      (r.Ok? ==> id in r.value.types && r.value.types[id] == Array(size, e.value.types[elem.id]))
  {
  }

  // ---------------------------------------------------------------------
  // Loops
  // ---------------------------------------------------------------------

  /** `for` needs its counter, bounds and step to be integers and is
      `void`; a failure names one of them that has another type. */
  lemma {:induction false} ForTyping(types: map<NodeId, Type>, nodes: seq<Expr>)
    ensures ForRule(types, nodes) == Ok(Some(Atom(Void))) <==>
      forall i :: 0 <= i < |nodes| ==> nodes[i].id in types && types[nodes[i].id] == Atom(Int)
    ensures ForRule(types, nodes).Err? ==>
      exists i :: 0 <= i < |nodes| && nodes[i].id in types && types[nodes[i].id] != Atom(Int)
  {
    if nodes != [] && nodes[0].id in types && types[nodes[0].id].IsInt() {
      ForTyping(types, nodes[1..]);
      if ForRule(types, nodes).Err? {
        var i :| 0 <= i < |nodes[1..]| && nodes[1..][i].id in types && types[nodes[1..][i].id] != Atom(Int);
        assert nodes[i + 1] == nodes[1..][i];
      }
      if ForRule(types, nodes[1..]) == Ok(Some(Atom(Void))) {
        forall i | 0 <= i < |nodes|
          ensures nodes[i].id in types && types[nodes[i].id] == Atom(Int)
        {
          if i > 0 {
            assert nodes[i] == nodes[1..][i - 1];
          }
        }
      } else {
        var i :| 0 <= i < |nodes[1..]| && !(nodes[1..][i].id in types && types[nodes[1..][i].id] == Atom(Int));
        assert nodes[i + 1] == nodes[1..][i];
      }
    }
  }

  // ---------------------------------------------------------------------
  // Functions and calls
  // ---------------------------------------------------------------------

  /** The parameter types are collected exactly when every parameter's
      type node has a type, in the order of the parameters. */
  lemma {:induction false} ParamTypeListSpec(types: map<NodeId, Type>, params: seq<Param>)
    ensures ParamTypeList(types, params).Ok? <==> forall i :: 0 <= i < |params| ==> params[i].ty.id in types
    ensures ParamTypeList(types, params).Ok? ==>
      var ps := ParamTypeList(types, params).value;
      |ps| == |params| && forall i :: 0 <= i < |params| ==> ps[i] == types[params[i].ty.id]
  {
    if params != [] {
      ParamTypeListSpec(types, params[1..]);
      assert forall i :: 0 < i < |params| ==> params[i] == params[1..][i - 1];
    }
  }

  /** A function's body must have its declared return type; the function
      then has type `Function(parameter types, return type)`. */
  lemma FunctionTyping(types: map<NodeId, Type>, d: Def)
    requires d.FunDef?
    ensures d.body.id in types && d.ty.id in types && types[d.body.id] != types[d.ty.id] ==>
      FunDefType(types, d).Err?
    ensures FunDefType(types, d).Ok? && FunDefType(types, d).value.Some? ==>
      var t := FunDefType(types, d).value.value;
      d.body.id in types && d.ty.id in types && types[d.body.id] == types[d.ty.id] &&
      t == Function(t.params, types[d.ty.id]) && |t.params| == |d.params| &&
      forall i :: 0 <= i < |d.params| ==> d.params[i].ty.id in types && t.params[i] == types[d.params[i].ty.id]
  {
    ParamTypeListSpec(types, d.params);
  }

  /** The argument loop completes exactly when every argument and its
      parameter have types and the types are equal. */
  lemma {:induction false} ArgsRuleSpec(types: map<NodeId, Type>, args: seq<Expr>, params: seq<Param>, i: nat)
    requires |args| == |params| && i <= |args|
    ensures ArgsRule(types, args, params, i) == Ok(true) <==>
      forall j :: i <= j < |args| ==> args[j].id in types && params[j].id in types && types[args[j].id] == types[params[j].id]
    decreases |args| - i
  {
    if i < |args| {
      ArgsRuleSpec(types, args, params, i + 1);
    }
  }

  /** A call must pass as many arguments as the function has parameters,
      each of the parameter's type; it then has the return type. */
  lemma CallTyping(types: map<NodeId, Type>, args: seq<Expr>, f: Def)
    requires f.FunDef?
    ensures |args| != |f.params| ==> CallRule(types, args, f).Err?
    ensures CallRule(types, args, f).Ok? && CallRule(types, args, f).value.Some? ==>
      |args| == |f.params| && f.ty.id in types && CallRule(types, args, f).value.value == types[f.ty.id] &&
      forall j :: 0 <= j < |args| ==> args[j].id in types && f.params[j].id in types && types[args[j].id] == types[f.params[j].id]
    ensures (|args| == |f.params| && f.ty.id in types &&
      forall j :: 0 <= j < |args| ==> args[j].id in types && f.params[j].id in types && types[args[j].id] == types[f.params[j].id]) ==>
      CallRule(types, args, f) == Ok(Some(types[f.ty.id]))
  {
    if |args| == |f.params| {
      ArgsRuleSpec(types, args, f.params, 0);
    }
  }

  /** The checks agree with the built-in definitions the name checker binds
      standard-library calls to. */
  lemma StdlibSignatureMatchesBuiltins(name: string)
    requires name in StdLib
    ensures var d := NameResolution.Builtin(name);
      |StdlibSignature(name)| == |d.params| &&
      forall i :: 0 <= i < |d.params| ==> d.params[i].ty.AtomType? && StdlibSignature(name)[i] == KindOf(d.params[i].ty.kind)
  {
  }

  // ---------------------------------------------------------------------
  // Which nodes a visit can type
  // ---------------------------------------------------------------------

  /** `x` is no node of a type definition; a type name can lead the visit
      into any of those. */
  predicate OutsideTypeDefs(definitions: map<NodeId, Decl>, x: NodeId) {
    forall d :: d in TypeDefsIn(definitions) ==> x !in DefIds(d)
  }

  /** Visiting a type records types only for its own nodes and those of
      type definitions: any other id keeps its type, or its lack of one. */
  lemma {:induction false} TypeKeeps(definitions: map<NodeId, Decl>, s: TState, t: TypeAst, x: NodeId)
    requires OutsideTypeDefs(definitions, x) && x !in TypeIds(t)
    ensures var r := CheckType(definitions, s, t);
      r.Ok? ==> Get(r.value.types, x) == Get(s.types, x)
    decreases |Unvisited(definitions, s)|, t
  {
    match t
    case AtomType(_, _) =>
    case ArrayType(_, _, elem) =>
      TypeKeeps(definitions, s, elem, x);
    case TypeName(id, _) =>
      if id in definitions && definitions[id].DefDecl? && definitions[id].def.TypeDef? {
        var d := definitions[id].def;
        if d.ty.id !in s.types && d !in s.visited {
          UnvisitedShrinks(definitions, s, id);
          assert definitions[id] in definitions.Values;
          assert d in TypeDefsIn(definitions);
          TypeDefKeeps(definitions, s.(visited := s.visited + {d}), d, x);
        }
      }
  }

  lemma {:induction false} TypeDefKeeps(definitions: map<NodeId, Decl>, s: TState, d: Def, x: NodeId)
    requires d.TypeDef? && OutsideTypeDefs(definitions, x) && x !in DefIds(d)
    ensures var r := CheckTypeDef(definitions, s, d);
      r.Ok? ==> Get(r.value.types, x) == Get(s.types, x)
    decreases |Unvisited(definitions, s)|, d
  {
    TypeKeeps(definitions, s, d.ty, x);
  }

  lemma {:induction false} ParamTypesKeeps(definitions: map<NodeId, Decl>, s: TState, params: seq<Param>, x: NodeId)
    requires OutsideTypeDefs(definitions, x) && x !in ParamsIds(params)
    ensures var r := CheckParamTypes(definitions, s, params);
      r.Ok? ==> Get(r.value.types, x) == Get(s.types, x)
  {
    if params != [] {
      var prefix := params[..|params| - 1];
      ParamTypesKeeps(definitions, s, prefix, x);
      var r1 := CheckParamTypes(definitions, s, prefix);
      if r1.Ok? {
        TypeKeeps(definitions, r1.value, params[|params| - 1].ty, x);
      }
    }
  }

  lemma {:induction false} ParamsKeeps(definitions: map<NodeId, Decl>, s: TState, params: seq<Param>, x: NodeId)
    requires OutsideTypeDefs(definitions, x) && x !in ParamsIds(params)
    ensures var r := VisitParams(definitions, s, params);
      r.Ok? ==> Get(r.value.types, x) == Get(s.types, x)
  {
    if params != [] {
      var prefix := params[..|params| - 1];
      ParamsKeeps(definitions, s, prefix, x);
      var r1 := VisitParams(definitions, s, prefix);
      if r1.Ok? {
        TypeKeeps(definitions, r1.value, params[|params| - 1].ty, x);
      }
    }
  }

  /** Visiting an expression records types only for its own nodes and
      those of type definitions. */
  lemma {:induction false} ExprKeeps(definitions: map<NodeId, Decl>, s: TState, e: Expr, x: NodeId)
    requires OutsideTypeDefs(definitions, x) && x !in ExprIds(e)
    ensures var r := CheckExpr(definitions, s, e);
      r.Ok? ==> Get(r.value.types, x) == Get(s.types, x)
    decreases e, 2
  {
    if e.Call? {
      CallKeeps(definitions, s, e, x);
    } else {
      ChildrenKeeps(definitions, s, e, x);
    }
  }

  lemma {:induction false} ChildrenKeeps(definitions: map<NodeId, Decl>, s: TState, e: Expr, x: NodeId)
    requires !e.Call? && OutsideTypeDefs(definitions, x) && x !in ExprIds(e)
    ensures var r := VisitChildren(definitions, s, e);
      r.Ok? ==> Get(r.value.types, x) == Get(s.types, x)
    decreases e, 1
  {
    match e
    case Binary(_, left, _, right) =>
      ExprKeeps(definitions, s, left, x);
      var r1 := CheckExpr(definitions, s, left);
      if r1.Ok? {
        ExprKeeps(definitions, r1.value, right, x);
      }
    case Block(_, es) =>
      ExprsKeeps(definitions, s, es, x);
    case For(_, _, _, _, _, _) =>
      ForChildrenKeeps(definitions, s, e, x);
    case IfThenElse(_, _, _, _) =>
      IfChildrenKeeps(definitions, s, e, x);
    case Literal(_, _, _) =>
    case Name(_, _) =>
    case Unary(_, operand, _) =>
      ExprKeeps(definitions, s, operand, x);
    case While(_, cond, body) =>
      ExprKeeps(definitions, s, cond, x);
      var r1 := CheckExpr(definitions, s, cond);
      if r1.Ok? {
        ExprKeeps(definitions, r1.value, body, x);
      }
    case Where(_, expr, defs) =>
      DefsKeeps(definitions, s, defs, x);
      var r1 := CheckDefs(definitions, s, defs);
      if r1.Ok? {
        ExprKeeps(definitions, r1.value, expr, x);
      }
  }

  lemma {:induction false} ForChildrenKeeps(definitions: map<NodeId, Decl>, s: TState, e: Expr, x: NodeId)
    requires e.For? && OutsideTypeDefs(definitions, x) && x !in ExprIds(e)
    ensures var r := VisitChildren(definitions, s, e);
      r.Ok? ==> Get(r.value.types, x) == Get(s.types, x)
    decreases e, 0
  {
    var counter, low, high, step, body := e.counter, e.low, e.high, e.step, e.body;
    ExprKeeps(definitions, s, counter, x);
    var r1 := CheckExpr(definitions, s, counter);
    if r1.Ok? {
      ExprKeeps(definitions, r1.value, low, x);
      var r2 := CheckExpr(definitions, r1.value, low);
      if r2.Ok? {
        ExprKeeps(definitions, r2.value, high, x);
        var r3 := CheckExpr(definitions, r2.value, high);
        if r3.Ok? {
          ExprKeeps(definitions, r3.value, step, x);
          var r4 := CheckExpr(definitions, r3.value, step);
          if r4.Ok? {
            ExprKeeps(definitions, r4.value, body, x);
          }
        }
      }
    }
  }

  lemma {:induction false} IfChildrenKeeps(definitions: map<NodeId, Decl>, s: TState, e: Expr, x: NodeId)
    requires e.IfThenElse? && OutsideTypeDefs(definitions, x) && x !in ExprIds(e)
    ensures var r := VisitChildren(definitions, s, e);
      r.Ok? ==> Get(r.value.types, x) == Get(s.types, x)
    decreases e, 0
  {
    var cond, thenE, elseE := e.cond, e.thenE, e.elseE;
    ExprKeeps(definitions, s, cond, x);
    var r1 := CheckExpr(definitions, s, cond);
    if r1.Ok? {
      ExprKeeps(definitions, r1.value, thenE, x);
      var r2 := CheckExpr(definitions, r1.value, thenE);
      if r2.Ok? && elseE.Some? {
        ExprKeeps(definitions, r2.value, elseE.value, x);
      }
    }
  }

  lemma {:induction false} CallKeeps(definitions: map<NodeId, Decl>, s: TState, e: Expr, x: NodeId)
    requires e.Call? && OutsideTypeDefs(definitions, x) && x !in ExprIds(e)
    ensures var r := CheckCall(definitions, s, e);
      r.Ok? ==> Get(r.value.types, x) == Get(s.types, x)
    decreases e, 1
  {
    if e.name in StdLib {
      ExprsKeeps(definitions, s, e.args, x);
      var r1 := CheckExprs(definitions, s, e.args);
      if r1.Ok? && e.id in definitions && e.args != [] && e.args[0].id in r1.value.types && IsFunDef(definitions[e.id]) {
        var t := StdlibRule(r1.value.types, e.args, e.name);
        if t.Ok? {
          UserCallKeeps(definitions, Record(r1.value, e.id, Some(t.value)), e, x);
        }
      }
    } else {
      UserCallKeeps(definitions, s, e, x);
    }
  }

  lemma {:induction false} UserCallKeeps(definitions: map<NodeId, Decl>, s: TState, e: Expr, x: NodeId)
    requires e.Call? && OutsideTypeDefs(definitions, x) && x !in ExprIds(e)
    ensures var r := UserCall(definitions, s, e);
      r.Ok? ==> Get(r.value.types, x) == Get(s.types, x)
    decreases e, 0
  {
    ExprsKeeps(definitions, s, e.args, x);
  }

  lemma {:induction false} ExprsKeeps(definitions: map<NodeId, Decl>, s: TState, es: seq<Expr>, x: NodeId)
    requires OutsideTypeDefs(definitions, x) && x !in ExprsIds(es)
    ensures var r := CheckExprs(definitions, s, es);
      r.Ok? ==> Get(r.value.types, x) == Get(s.types, x)
    decreases es, 0
  {
    if es != [] {
      var prefix := es[..|es| - 1];
      ExprsKeeps(definitions, s, prefix, x);
      var r1 := CheckExprs(definitions, s, prefix);
      if r1.Ok? {
        ExprKeeps(definitions, r1.value, es[|es| - 1], x);
      }
    }
  }

  lemma {:induction false} DefsKeeps(definitions: map<NodeId, Decl>, s: TState, defs: seq<Def>, x: NodeId)
    requires OutsideTypeDefs(definitions, x) && x !in DefsIds(defs)
    ensures var r := CheckDefs(definitions, s, defs);
      r.Ok? ==> Get(r.value.types, x) == Get(s.types, x)
    decreases defs, 1
  {
    PassKeeps(definitions, s, defs, x);
    var r1 := VisitDefs(definitions, s, defs);
    if r1.Ok? {
      PassKeeps(definitions, r1.value, defs, x);
    }
  }

  lemma {:induction false} PassKeeps(definitions: map<NodeId, Decl>, s: TState, defs: seq<Def>, x: NodeId)
    requires OutsideTypeDefs(definitions, x) && x !in DefsIds(defs)
    ensures var r := VisitDefs(definitions, s, defs);
      r.Ok? ==> Get(r.value.types, x) == Get(s.types, x)
    decreases defs, 0
  {
    if defs != [] {
      var prefix := defs[..|defs| - 1];
      PassKeeps(definitions, s, prefix, x);
      var r1 := VisitDefs(definitions, s, prefix);
      if r1.Ok? {
        DefKeeps(definitions, r1.value, defs[|defs| - 1], x);
      }
    }
  }

  lemma {:induction false} DefKeeps(definitions: map<NodeId, Decl>, s: TState, d: Def, x: NodeId)
    requires OutsideTypeDefs(definitions, x) && x !in DefIds(d)
    ensures var r := CheckDef(definitions, s, d);
      r.Ok? ==> Get(r.value.types, x) == Get(s.types, x)
    decreases d, 1
  {
    match d
    case TypeDef(_, _, _) =>
      TypeDefKeeps(definitions, s, d, x);
    case VarDef(_, _, ty) =>
      TypeKeeps(definitions, s, ty, x);
    case FunDef(_, _, _, _, _) =>
      FunDefKeeps(definitions, s, d, x);
  }

  lemma {:induction false} FunDefKeeps(definitions: map<NodeId, Decl>, s: TState, d: Def, x: NodeId)
    requires d.FunDef? && OutsideTypeDefs(definitions, x) && x !in DefIds(d)
    ensures var r := CheckFunDef(definitions, s, d);
      r.Ok? ==> Get(r.value.types, x) == Get(s.types, x)
    decreases d, 0
  {
    TypeKeeps(definitions, s, d.ty, x);
    var r1 := CheckType(definitions, s, d.ty);
    if r1.Ok? {
      ParamTypesKeeps(definitions, r1.value, d.params, x);
      var r2 := CheckParamTypes(definitions, r1.value, d.params);
      if r2.Ok? {
        ParamsKeeps(definitions, r2.value, d.params, x);
        var r3 := VisitParams(definitions, r2.value, d.params);
        if r3.Ok? {
          ExprKeeps(definitions, r3.value, d.body, x);
        }
      }
    }
  }

  /** A program whose nodes and type definitions all have non-negative ids
      never types a negative id: the built-in definitions of the standard
      library, whose nodes have negative ids, stay untyped. */
  lemma ProgramTypesNoNegativeId(definitions: map<NodeId, Decl>, program: seq<Def>)
    requires forall x :: x in DefsIds(program) ==> x >= 0
    requires forall d, x :: d in TypeDefsIn(definitions) && x in DefIds(d) ==> x >= 0
    ensures var r := Check(definitions, program);
      r.Ok? ==> forall x :: x in r.value.types ==> x >= 0
  {
    var r := Check(definitions, program);
    if r.Ok? {
      forall x | x in r.value.types
        ensures x >= 0
      {
        if x < 0 {
          DefsKeeps(definitions, Start, program, x);
        }
      }
    }
  }

  /** A standard-library call bound to its built-in definition that passes
      the checks has the type of its first argument: the visit that every
      call then goes through does not replace that type, because the
      built-in's parameters never get a type. */
  lemma StdlibCallTyping(definitions: map<NodeId, Decl>, s: TState, e: Expr)
    requires e.Call? && e.name in StdLib
    requires e.id in definitions && definitions[e.id] == DefDecl(NameResolution.Builtin(e.name))
    requires e.id >= 0 && forall x :: x in s.types ==> x >= 0
    requires forall x :: x in ExprsIds(e.args) ==> x >= 0 && x != e.id
    requires forall d, x :: d in TypeDefsIn(definitions) && x in DefIds(d) ==> x >= 0 && x != e.id
    ensures var r := CheckCall(definitions, s, e);
      var s1 := CheckExprs(definitions, s, e.args);
      r.Ok? && s1.Ok? && e.args != [] && e.args[0].id in s1.value.types ==>
        StdlibRule(s1.value.types, e.args, e.name) == Ok(s1.value.types[e.args[0].id]) &&
        e.id in r.value.types && r.value.types[e.id] == s1.value.types[e.args[0].id]
  {
    var r := CheckCall(definitions, s, e);
    var s1 := CheckExprs(definitions, s, e.args);
    if r.Ok? && s1.Ok? && e.args != [] && e.args[0].id in s1.value.types {
      var f := NameResolution.Builtin(e.name);
      assert f.id < 0 && f.params[0].id == f.id;
      var t := StdlibRule(s1.value.types, e.args, e.name);
      assert t.Ok?;
      StdlibSignatureMatchesBuiltins(e.name);
      var s2 := Record(s1.value, e.id, Some(t.value));
      assert r == UserCall(definitions, s2, e);
      var s3 := CheckExprs(definitions, s2, e.args);
      ExprsKeeps(definitions, s, e.args, f.id);
      ExprsKeeps(definitions, s2, e.args, f.id);
      ExprsKeeps(definitions, s2, e.args, e.id);
      assert f.params[0].id !in s3.value.types;
      assert r == Ok(s3.value);
    }
  }

  // ---------------------------------------------------------------------
  // Type names
  // ---------------------------------------------------------------------

  /** A type name that checks refers to a type definition, and has the type
      of that definition's type. */
  lemma TypeNameTakesDefinitionType(definitions: map<NodeId, Decl>, s: TState, id: NodeId, name: string)
    requires CheckType(definitions, s, TypeName(id, name)).Ok?
    ensures id in definitions && definitions[id].DefDecl? && definitions[id].def.TypeDef?
    ensures var r := CheckType(definitions, s, TypeName(id, name)).value;
      var d := definitions[id].def;
      d.ty.id in r.types && r.types[id] == r.types[d.ty.id]
  {
  }

  /** The definitions `ds` form a cycle of type names: each one's type is a
      name bound to the next, the last one's to the first. */
  predicate TypeCycle(definitions: map<NodeId, Decl>, ds: seq<Def>) {
    |ds| >= 1 &&
    forall m :: 0 <= m < |ds| ==>
      ds[m].TypeDef? && ds[m].ty.TypeName? && ds[m].ty.id in definitions &&
      definitions[ds[m].ty.id] == DefDecl(ds[if m + 1 < |ds| then m + 1 else 0])
  }

  /** Walking the cycle from `ds[i]` (from `ds[0]` again when `i` is the
      length) after entering `ds[1..i]` ends at a definition already
      entered, which is a cycle error. */
  lemma {:induction false} CycleWalk(definitions: map<NodeId, Decl>, s: TState, ds: seq<Def>, i: nat)
    requires TypeCycle(definitions, ds) && i <= |ds|
    requires forall m :: 0 <= m < |ds| ==> ds[m].ty.id !in s.types
    requires forall m :: 1 <= m < |ds| && m <= i ==> ds[m] in s.visited
    requires i == |ds| ==> ds[0] in s.visited
    ensures CheckType(definitions, s, ds[if i == |ds| then 0 else i].ty).Err?
    decreases |ds| - i
  {
    var c := if i == |ds| then 0 else i;
    var n := if c + 1 < |ds| then c + 1 else 0;
    var next := ds[n];
    assert definitions[ds[c].ty.id] == DefDecl(next);
    if next !in s.visited {
      var s1 := s.(visited := s.visited + {next});
      UnvisitedShrinks(definitions, s, ds[c].ty.id);
      CycleWalk(definitions, s1, ds, i + 1);
      assert CheckTypeDef(definitions, s1, next).Err?;
    }
  }

  /** A definition on a cycle of type names of any length is rejected:
      the walk along the names comes back to a definition it has entered
      before that definition has a type. */
  lemma TypeCycleRejected(definitions: map<NodeId, Decl>, s: TState, ds: seq<Def>)
    requires TypeCycle(definitions, ds)
    requires forall m :: 0 <= m < |ds| ==> ds[m].ty.id !in s.types
    ensures CheckDef(definitions, s, ds[0]).Err?
  {
    CycleWalk(definitions, s, ds, 0);
  }

  /** `typ t : t` is rejected. */
  lemma SelfReferenceRejected(definitions: map<NodeId, Decl>, s: TState, d: Def)
    requires d.TypeDef? && d.ty.TypeName? && d.ty.id in definitions && definitions[d.ty.id] == DefDecl(d)
    requires d.ty.id !in s.types
    ensures CheckDef(definitions, s, d).Err?
  {
    TypeCycleRejected(definitions, s, [d]);
  }

  /** `typ a : b; typ b : a` is rejected. */
  lemma MutualReferenceRejected(definitions: map<NodeId, Decl>, s: TState, a: Def, b: Def)
    requires a.TypeDef? && a.ty.TypeName? && a.ty.id in definitions && definitions[a.ty.id] == DefDecl(b)
    requires b.TypeDef? && b.ty.TypeName? && b.ty.id in definitions && definitions[b.ty.id] == DefDecl(a)
    requires a.ty.id !in s.types && b.ty.id !in s.types
    ensures CheckDef(definitions, s, a).Err?
  {
    TypeCycleRejected(definitions, s, [a, b]);
  }

  /** `typ a : k; typ b : a`: the name `a` in `b` resolves, through `a`'s
      definition, to the atomic type `k`, and so does `b`. */
  lemma AliasTakesAtomType(definitions: map<NodeId, Decl>, s: TState, a: Def, b: Def)
    requires a.TypeDef? && a.ty.AtomType?
    requires b.TypeDef? && b.ty.TypeName? && b.ty.id in definitions && definitions[b.ty.id] == DefDecl(a)
    requires a.ty.id !in s.types && a.id !in s.types && a !in s.visited && b.id !in s.types
    ensures var r := CheckDef(definitions, s, b);
      r.Ok? && b.ty.id in r.value.types && b.id in r.value.types &&
      r.value.types[b.ty.id] == KindOf(a.ty.kind) && r.value.types[b.id] == KindOf(a.ty.kind)
  {
    var k := KindOf(a.ty.kind);
    var s1 := s.(visited := s.visited + {a});
    var r1 := CheckType(definitions, s1, a.ty);
    assert r1.Ok? && r1.value.types == s.types[a.ty.id := k];
    var r2 := CheckTypeDef(definitions, s1, a);
    assert r2.Ok? && r2.value.types == s.types[a.ty.id := k][a.id := k];
    var r3 := CheckType(definitions, s, b.ty);
    assert r3 == TakeType(r2.value, b.ty.id, a);
    assert r3.Ok? && r3.value.types == s.types[a.ty.id := k][a.id := k][b.ty.id := k];
  }
}
